=== FILE: README.md ===
# autossh, modelled in Dafny

autossh is a small SSH client with a text menu. It keeps a list of servers
in a JSON configuration, shows them as a numbered menu, and connects to the
one picked. It can add, edit and remove entries, copy files to and from
servers over SFTP (`autossh cp`), and upgrade itself. This project models
the decision logic of that program as pure Dafny functions over immutable
data, and proves what the code promises about it.

The modelled core:

- **The copy engine** of `src/app/show_cp.go` (`CopyEngine`, `ByteCopy`). It
  parses `[server:]path` transfer objects and the `cp` command line. It
  recurses over a directory tree with a virtual sub-path that drops the top
  directory's own name, and chooses each destination file name. It copies
  one file in 64 KiB chunks, and follows the error policy of upload and
  download. Both ends are `Vfs` volumes. A volume is a map from a key (the
  list of names from the root) to a directory, a file or a locked entry,
  plus a current directory and the free space. It offers the
  `Stat`/`Open`/`Mkdir`/`MkdirAll`/`Create`/write operations of
  `src/app/io_client.go`. Paths are resolved with a model of Go's `path`
  package (`GoPath`: `Clean`, `Join`, `Base`, `Dir`).
- **Endpoints** of `src/app/server.go` and `core/server.go` (`Endpoint`,
  `LegacyServer`):
  - port and method defaults;
  - option merging;
  - the choice of authentication method and the default key path;
  - the session-log file name template;
  - the error mapping and `defer` teardown order of `Connect`, as an event
    trace;
  - one step of the keepalive and window-size watchers.
- **The server index and the menu** (`ServerIndexing`, `Scan`, `Menu`,
  `Listing`, `AppMenu`):
  - `createServerIndex` and `loadServerMap`, with their key, collision and
    alias rules;
  - the input classification of `checkInput` and the result triple of
    `scanInput`;
  - the operation registry and column widths of the menu;
  - the separator length and listing rules of the server list.
- **The edit, add and remove handlers** in their three generations
  (`Handlers`, `CudHandlers`, `AppMenu`), the form of `server_edit.go`
  (`ServerEdit`), the list surgery they share (`ConfigEdit`) and the order
  of `saveConfig` (`Saving`).
- **The older `core` package** (`LegacyApp`, `LegacyServer`, `CoreUtil`):
  server lookup, add, remove, `inputSh`, `getArg`, `Exec` dispatch and the
  memoised argument lookup of `params.Get`.
- **String utilities**:
  - path expansion (`FilePath`, `CoreUtil`, `ConfigFlag`);
  - display width of Han characters (`Width`);
  - the dotted-version comparison and update decision of `show_upgrade.go`
    (`Upgrade`);
  - the argument parsing of `src/app/cp.go` (`CpArgs`);
  - the small subset of Go's `strings` and `strconv` the code relies on
    (`GoStrings`).

The outside world is made into parameters. This covers console answers,
environment variables, the clock, the outcomes of SSH, SFTP and disk
calls, Go's map iteration order, and Unicode's Han script. Each operation
states in its contract what it computes in terms of them. Errors are
modelled as values: `Option`, `Result`, or an error field.

The snapshot of the repository holds several generations of the same code
that do not compile together. For example, `IOClient` is an interface in
`src/app/io_client.go` but a struct literal in `src/app/show_cp.go`. Each
file is modelled on its own terms. Where a file cannot be taken literally,
the model follows its evident intent: an upload reads the local volume and
writes the target's, and a download reads each source's server and writes
the local volume, at the target path.

## Model

| member | source | states |
|---|---|---|
| CopyEngine.NewTransferObject | src/app/show_cp.go:373-397 | An argument without `:` is a local object whose path is the whole argument. Two or more colons give the format error. With exactly one colon, the object is remote iff the text before it is a key of the index, and its path is the trimmed text after it. Otherwise the error names the unknown server. |
| CopyEngine.FirstFail | src/app/show_cp.go:107-119 | The first argument at which the source loop stops: every earlier argument parsed, was not local with a local target, and had the locality of the one before; the argument found fails one of these. |
| CopyEngine.ParseSources | src/app/show_cp.go:106-122 | Succeeds iff no argument fails (`FirstFail` finds none). On success, each source is the parse result of its argument, in order; no source is local when the target is; and each source has the locality of the one before. On failure, the error is that of the first failing argument: its parse error, the both-local message, or the mixed-sources message. |
| CopyEngine.Parse | src/app/show_cp.go:80-98 | No arguments, or only `-r`, is the incomplete-arguments error. Otherwise the operands after an optional `-r` are parsed by `ParseAll`, with a lone operand getting the temporary directory as its target. A parsed command is recursive iff its first argument is `-r`. |
| CopyEngine.ParseAll | src/app/show_cp.go:100-122 | Accepts iff the target parses and the source loop meets no failing argument. A target parse error is returned as is; otherwise the error is that of the first failing source. An accepted command has every operand but the last as a source (at least one), all of one locality, never local together with a local target. |
| CopyEngine.ParseAcceptsIff | src/app/show_cp.go:80-122 | A command line with an operand is accepted iff its operands are `Acceptable`: the target parses, every source parses, no source is local when the target is, and all sources have the locality of the first. |
| CopyEngine.AcceptableIffNoFailure | src/app/show_cp.go:100-122 | Once the target parses, the plain acceptance conditions hold iff the source loop meets no failing argument. |
| CopyEngine.RemoteToRemoteAccepted | src/app/show_cp.go:80-122 | A command line whose operands all name known servers is accepted, with a remote target and remote sources: nothing rejects a copy between servers. |
| CopyEngine.ParseOperands | src/app/show_cp.go:86-108 | A parsed command's target is the parse of the last operand, which is the temporary directory when only one operand follows the optional `-r`. Its sources are the parses of the other operands, in order. |
| CopyEngine.ParseDstFilename | src/app/show_cp.go:287-316 | An existing directory destination gives `Join(dst, Base(src))`, and an existing non-directory gives `dst`. A stat error other than not-exist is returned with `dst`. A missing destination under `-r` is created with a single `Mkdir` and then gives `Join(dst, Base(src))`; a `Mkdir` error is returned instead. A missing destination without `-r` needs its parent to stat, and then gives the cleaned `dst`. On every error the returned name is `dst`. |
| CopyEngine.ParseDstFilenameFixed | src/app/show_cp.go:294-299 | The same as `ParseDstFilename`, except that a missing destination under `-r` is made with `MkdirAll`. When that succeeds the destination is then a directory. |
| CopyEngine.MissingParentDirectory | src/app/show_cp.go:294-299 | Under `-r`, a destination whose parent is missing as well makes the as-written resolution fail with not-exist. On the same input, the fixed resolution succeeds and leaves the destination a directory. |
| CopyEngine.IoCopyMissingParent | src/app/show_cp.go:150-156 | In the copy as written, a file whose destination directory and its parent are both missing under `-r` fails with not-exist under the destination's name, and the volume is left as it was. |
| CopyEngine.IoCopy | src/app/show_cp.go:150-207 | The destination is resolved by `parseDstFilename` as written, or by the corrected resolver when the job asks for it. A resolution error or a `Create` error is returned with its name. Otherwise the created file ends up holding exactly the bytes the source delivers, and no other object changes. The run then returns nothing, or the source's name for a read error. When the bytes do not fit, it returns the target path with no-space. |
| CopyEngine.Fill | src/app/show_cp.go:183-206 | The byte loop into a freshly created file. When the data fit, the file ends up with exactly the data and the free space shrinks by their length. A faulty source is reported under the source's name. When the data do not fit, the failure names the target path. No other object changes. |
| CopyEngine.Transfer | src/app/show_cp.go:235-281 | The source is always the first path visited. A source that cannot be opened fails with its name and error. A directory without `-r` fails with "is a directory" and writes nothing. A recursive directory returns no error, or a permission error when it cannot be listed. A file makes exactly one `ioCopy` call, to `Join(dst, vPath)`, and returns its result. |
| CopyEngine.Children | src/app/show_cp.go:266-271 | The loop over a directory's children never returns an error: a failing child is printed and the loop goes on. |
| CopyEngine.ChildrenVisitAll | src/app/show_cp.go:266-271 | Every entry of the directory listing is transferred: each child path is among the visited paths. |
| CopyEngine.ChildrenMapped | src/app/show_cp.go:260-273 | Every file the loop over a directory copies lies strictly below that directory. It is written to the target joined with the directory's sub-path followed by the names of the directories between. |
| CopyEngine.TransferMapped | src/app/show_cp.go:250-278 | A file is copied to the target joined with the sub-path. A directory's files land below the target at a sub-path. For the top directory that sub-path starts at the root marker, so its own name is dropped; for a deeper directory it is the parent's sub-path extended with the directory's name. A source that cannot be opened copies nothing. |
| CopyEngine.CopyDestinations | src/app/show_cp.go:260-275 | For a source on the command line, a file source is copied to the target itself. A file at `d1/…/dk/f` below a directory source is copied to the target joined with `/d1/…/dk`. |
| CopyEngine.CopyFileIntoDirectory | src/app/show_cp.go:284-316 | Copying an intact file into an existing directory that has room for it succeeds when the file's name there is free or names a file. The directory then holds a file of that name with exactly the source's content. |
| CopyEngine.TransferEachReported | src/app/show_cp.go:140-144 | For every source, an open failure is printed, and so is "is a directory" for a directory without `-r`. The loop goes on after each failure. |
| CopyEngine.Upload | src/app/show_cp.go:128-147 | A failed connection to the target's server is returned and nothing is transferred. Otherwise every source's failure is printed and the upload returns no error. |
| CopyEngine.DownloadFrom | src/app/show_cp.go:210-230 | The download returns the error of the first source whose connection fails, and no error when none fails. The failures printed before the stop are kept. |
| CopyEngine.Download | src/app/show_cp.go:210-230 | The download fails iff some source's connection fails, and then with the error of the first one that fails. |
| CopyEngine.ShowCp | src/app/show_cp.go:59-77 | A parse error is returned as is. With local sources the run uploads, the target is remote, and the error is that of dialling the target. Otherwise it downloads, and fails iff dialling some source fails. |
| CopyEngine.Run | src/app/show_cp.go:65-71 | Local sources upload: the target is remote and its dial decides the error. Remote sources download and fail iff some source's dial fails. This holds with either destination resolver. |
| ByteCopy.CopyLoop | src/app/show_cp.go:183-203 | Let "delivered" be every chunk the reader hands out before it stops, including the chunk that comes with end-of-file. The loop ends by write error iff those bytes do not fit, and otherwise writes exactly them. It ends cleanly iff no write failed and the reader stopped at end-of-file, not at a read error. What it writes never exceeds the room and is a prefix of what was delivered. |
| ByteCopy.CopySpec | src/app/show_cp.go:183-203 | The same outcome for the functional copy loop. |
| ByteCopy.FileCopy | src/app/show_cp.go:183-203 | Copying a file read in 64 KiB chunks fails to write iff the file is larger than the room. When it fits, the sink receives exactly the file, and the loop ends with a read error iff the file is faulty. |
| ByteCopy.FileCopyFailsPartway | src/app/show_cp.go:183-189 | A read failure at any byte of a file, part-way through a buffer included: the bytes read before it are written when they fit, nothing after it is, and the loop ends with the read error; when the part read does not fit, with the write error. |
| ByteCopy.ChunksConcat | src/app/show_cp.go:183-185 | Reading a file in buffer-sized chunks hands out exactly its content. |
| Vfs.Lookup | src/app/io_client.go:31-33 | A key is found iff every proper prefix of it is a directory and it exists, and then the result is its node. |
| Vfs.Stat | src/app/io_client.go:31-33 | `Stat` succeeds iff the path resolves to a reachable object, and then reports whether it is a directory. The empty path does not exist. |
| Vfs.Open | src/app/io_client.go:43-45 | A directory opens to its listing and a file to its content. A locked file gives a permission error, and a failing stat gives the same error. |
| Vfs.Mkdir | src/app/io_client.go:35-37 | `Mkdir` succeeds iff the parent is an existing directory and the name is free. It then adds an empty directory that stats as a directory. An existing path gives "exists", and other stat failures give their own error. |
| Vfs.Create | src/app/io_client.go:39-41 | `Create` truncates an existing file, or adds an empty file to an existing parent directory. A directory gives is-a-directory, a locked file gives permission, and other stat failures give their own error. |
| Vfs.Append | src/app/show_cp.go:191-194 | A write appends the chunk to the file iff it fits in the free space, and otherwise fails with no-space. The free space shrinks by the chunk's length and no other object changes. |
| Vfs.MkdirAllSucceeds | src/app/show_cp.go:294-297 | On a well-formed volume, creating every missing directory along a key succeeds iff nothing but directories stands along it. |
| Vfs.MkdirKeepsWellFormed | src/app/io_client.go:35-37 | `Mkdir` keeps a volume a well-formed tree: a root directory, and every object listed exactly once by its parent directory. |
| Vfs.CreateKeepsWellFormed | src/app/io_client.go:39-41 | `Create` keeps a volume a well-formed tree. |
| Vfs.AppendKeepsWellFormed | src/app/show_cp.go:191-194 | Writing to a file keeps a volume a well-formed tree. |
| Vfs.ResolveJoin | src/app/show_cp.go:267 | The path of a child, `Join(src, name)`, names the parent's key extended by that name. |
| Vfs.BelowShrinks | src/app/show_cp.go:266-268 | A child's sub-tree is strictly smaller than its parent's, so the recursion of `transfer` ends. |
| GoPath.LocOfRender | src/app/show_cp.go:306 | Reading back the canonical spelling of a reduced location gives that location, so `path.Clean`'s output determines the location it denotes. |
| GoPath.LocOfClean | src/app/show_cp.go:306 | `path.Clean` does not change the location a path denotes. |
| GoPath.CleanIdempotent | src/app/show_cp.go:306 | `path.Clean` is idempotent. |
| GoPath.JoinLoc | src/app/show_cp.go:273 | `path.Join(a, b)` of two non-empty paths denotes `b` resolved lexically below `a`. |
| GoPath.JoinName | src/app/show_cp.go:267 | Joining a directory-entry name onto a path adds exactly that element to its location. |
| GoPath.JoinRootedNames | src/app/show_cp.go:273 | Joining a rooted sub-path `/d1/…/dk` onto a destination appends `d1 … dk` to the destination's location. |
| GoPath.JoinRooted | src/app/show_cp.go:263 | Extending the rooted sub-path by one directory name spells the sub-path one level deeper. |
| GoPath.BaseOfRender | src/app/show_cp.go:299 | `path.Base` of a cleaned non-root path is its last element. |
| GoPath.DirOfRender | src/app/show_cp.go:301 | `path.Dir` of a cleaned non-root path denotes the location one level up. |
| GoPath.JoinIsClean | src/app/show_cp.go:306 | The output of `path.Join` with a non-empty argument is already clean. |
| GoPath.JoinDirBase | src/app/show_cp.go:306 | Re-joining `path.Dir` and `path.Base` of a cleaned (or empty) path gives the cleaned path back. |
| GoPath.JoinNameRender | src/app/show_cp.go:267 | Joining a name onto a path is the cleaned path one element longer. |
| GoPath.BaseJoinName | src/app/show_cp.go:263-267 | The last element of a path joined with a name is that name. |
| GoStrings.Split | src/app/show_upgrade.go:257-258 | `strings.Split` on one separator gives at least one piece, and no piece contains the separator. |
| GoStrings.SplitThenJoin | src/app/show_cp.go:378 | Joining the pieces of a split with the same separator gives the string back. |
| GoStrings.JoinThenSplit | src/app/show_upgrade.go:257-258 | Splitting a join of separator-free pieces gives the pieces back. |
| GoStrings.SplitCount | src/app/show_cp.go:378-394 | A split has exactly one piece more than the string has separators, which is what the colon count of a transfer object decides. |
| GoStrings.IndexFrom | src/app/show_upgrade.go:221 | The search returns -1 exactly when the pattern does not occur, and otherwise the first position where it occurs. |
| GoStrings.ContainsMeansOccurs | src/utils/error_assert.go:6-8 | `strings.Contains` holds iff the pattern occurs at some position. |
| GoStrings.ReplaceAllAbsent | src/app/server.go:242 | Replacing a pattern that does not occur leaves the string unchanged. |
| GoStrings.ReplaceAllOnce | src/app/server.go:242 | A pattern whose first character occurs nowhere else is replaced at its one place. |
| GoStrings.ToLower | src/app/server.go:252 | Lower-casing keeps the length and maps each character on its own. |
| GoStrings.ToLowerIdempotent | src/app/app.go:247 | Lower-casing twice is lower-casing once. |
| GoStrings.TrimBy | src/app/show_cp.go:384 | Trimming drops only cut characters, on either side of a contiguous kept part that starts and ends with a kept character. |
| GoStrings.TrimByLeading | src/app/show_upgrade.go:255-256 | A leading character of the cut set makes no difference to the trimmed result. |
| GoStrings.TrimCharLeading | src/app/show_upgrade.go:255-256 | A leading `v` is ignored by `strings.Trim(s, "v")`. |
| GoStrings.Atoi | src/app/show_upgrade.go:282-283 | `strconv.Atoi` returns a 64-bit value, 0 with a syntax error, and a syntax error for the empty string. |
| GoStrings.ItoaAtoiRoundTrip | src/app/show_upgrade.go:282-283 | `Atoi(Itoa(n))` is `n` without error for every non-negative 64-bit `n`. |
| GoStrings.ItoaInjective | src/app/app.go:86 | Distinct positions give distinct decimal keys. |
| Endpoint.Format | src/app/server.go:18-26 | Port 0 becomes 22 and an empty method becomes "password"; every other field, and any other port or method, is kept. |
| Endpoint.FormatIdempotent | src/app/server.go:18-26 | A formatted server is a fixed point, so `Format` is idempotent. |
| Endpoint.MergeOptions | src/app/server.go:29-44 | The result map is never nil and holds the union of the keys; without overwrite the server's own values stay, with it the incoming values win; no other field changes. |
| Endpoint.MergeOptionsIdempotent | src/app/server.go:29-44 | Merging the same options twice is merging them once. |
| Endpoint.Passphrase | src/app/server.go:286-290 | The password is the key's passphrase iff it is non-empty. |
| Endpoint.PemKey | src/app/server.go:274-297 | A key method for the key path and passphrase on success; a read error is returned unchanged; success iff the file reads and parses. |
| Endpoint.DefaultKeyPath | src/app/server.go:275-278 | An empty Key reads `~/.ssh/id_rsa` under the home directory. |
| Endpoint.ParseAuthMethods | src/app/server.go:249-271 | On success exactly one method. It is key authentication iff the lower-cased method is "key", and then it succeeds iff `pemKey` does, with the key path and passphrase. Any other method gives password authentication and cannot fail. |
| Endpoint.ParseAuthMethodsIgnoresCase | src/app/server.go:252 | Two method spellings that lower-case alike authenticate alike. |
| Endpoint.PemKeyDefaultsKey | src/app/server.go:275-278 | An empty Key and the literal `~/.ssh/id_rsa` read the same file with the same outcome. |
| Endpoint.DialAddress | src/app/server.go:115-119 | Port 0 dials port 22, and any other port is dialled as it is: always the address of the formatted server. |
| Endpoint.FormatLogFilename | src/app/server.go:231-246 | A template without placeholders is returned unchanged, whatever order the map iteration picks. |
| Endpoint.DateTimePlaceholderBroken | src/app/server.go:232-245 | When `%d` is visited before `%dt`, the template `%dt` becomes the date followed by a stray `t`. |
| Endpoint.FormatLogFilenameFixed | src/app/server.go:231-246 | The fixed longest-first order also leaves templates without placeholders unchanged. |
| Endpoint.DateTimePlaceholderFixed | src/app/server.go:232-245 | With the fixed order `%dt` always expands to the date and time. |
| Endpoint.FormatLogFilenameFixedExpands | src/app/server.go:231-246 | With the fixed order, a template holding one placeholder and no other `%` gets that placeholder's value in its place; `%d` counts only when no `t` follows it. |
| Endpoint.SubstituteOne | src/app/server.go:241-243 | A single placeholder is replaced in place by any order in which no placeholder before it occurs in the template. |
| Endpoint.OtherTokenAbsent | src/app/server.go:232-239 | In a template whose only `%` starts one placeholder, another placeholder occurs only as `%d` inside `%dt` or as `%d` followed by `t`. |
| Endpoint.GetSshClient | src/app/server.go:100-127 | An authentication set-up error is returned before dialling. Otherwise the outcome is that of dialling `DialAddress`. |
| Endpoint.Connect | src/app/server.go:140-196 | Nil iff every step succeeds, whatever `session.Wait` reports. A client failure runs no clean-up and is reported through the dial error mapping. A session failure closes the client; a raw-mode failure closes the session, then the client; a pty failure also restores the terminal and stops the keepalive first; a shell failure, like success, runs all five in reverse registration order. |
| Endpoint.RawModeFailureTeardown | src/app/server.go:149-165 | A raw-mode failure closes only the session, then the client. |
| Endpoint.ConnectReleasesAcquired | src/app/server.go:149-183 | Whatever step fails, the clean-ups that run are exactly those whose resource was acquired, each once, the most recently acquired first. |
| Endpoint.ReleasedPrefix | src/app/server.go:149-183 | Running the first n registered defers last-in first-out runs exactly the clean-ups of rank below n, in decreasing rank. |
| Endpoint.AuthRejectionMessage | src/app/server.go:141-148 | A dial error containing "ssh: unable to authenticate" is reported with the credential message. |
| Endpoint.KeepAlive | src/app/server.go:300-324 | Without the option, or with JSON null, the loop returns without sending. A numeric interval sends one request per iteration until terminated, whatever each request's outcome, since the send error is ignored. A non-numeric interval panics after the first request. |
| Endpoint.KeepAliveEndsOnce | src/app/server.go:303-320 | A loop that returned (no option, or JSON null) or panicked (a non-numeric interval) stays ended: a longer session sends nothing more. |
| Endpoint.WatchStep | src/app/server.go:335-343 | A window-change request is sent iff the sample differs from the cached size, and carries the sample; the cache becomes the sample. |
| Endpoint.WatchSendsChangePoints | src/app/server.go:327-349 | Over a sequence of samples the requests are exactly the samples at change points. |
| FilePath.Getenv | src/utils/file_path.go:52 | A missing environment variable reads as the empty string. |
| FilePath.HomeUnix | src/utils/file_path.go:50-70 | A non-empty `HOME` wins; otherwise a failing shell lookup is returned as the error, and a home directory returned is never empty. |
| FilePath.HomeWindows | src/utils/file_path.go:72-84 | HOMEDRIVE+HOMEPATH when both are non-empty, else USERPROFILE; an error exactly when the chosen value is empty. |
| FilePath.Home | src/utils/file_path.go:34-48 | The current user's home directory when the lookup succeeds, else the Windows or Unix fallback by platform. |
| FilePath.ParsePath | src/utils/file_path.go:15-32 | `~` is replaced by the home directory (a lookup error propagates); a path starting with `/` is kept; any other path is put under the executable's directory. The empty path gives the model's `EmptyPath` error (see Left out). |
| FilePath.ParsePathIdempotent | src/utils/file_path.go:26-27 | When the home and executable directories are absolute, the result is absolute and expanding it again changes nothing. |
| FilePath.TildeIsLiteral | src/utils/file_path.go:19-25 | Everything after the `~` is appended to the home directory as it is, so `~bob/x` is not Bob's home. |
| FilePath.FileIsExists | src/utils/file_path.go:87-104 | True iff the path expands and its stat succeeds; otherwise false with the expansion or stat error. |
| CoreUtil.ParsePath | core/util.go:30-47 | The older expansion: `~` as before, a path starting with `.` is put under the executable's directory with its `.`, every other path is kept. |
| CoreUtil.GenerationsOnRelativePath | core/util.go:44-46 | The two generations disagree on a plain relative path: the older keeps it, the newer puts it under the executable's directory. |
| CoreUtil.HomeWindowsFallback | core/util.go:87-99 | USERPROFILE is used as soon as HOMEDRIVE or HOMEPATH is empty, and an empty USERPROFILE is an error. |
| ConfigFlag.Process | src/app/commands/config.go:11-24 | An empty flag becomes `./config.json`, a non-empty one its expansion or `""` when that fails; `Process` never asks the program to stop. |
| ConfigFlag.ProcessStable | src/app/commands/config.go:11-24 | An expanded flag is an absolute path that processing again leaves as it is. |
| Width.HanCount | src/utils/str.go:8-14 | The number of Han characters is at most the length. |
| Width.ZhLen | src/utils/str.go:6-17 | The width is the length plus one per Han character, so between the rune count and twice it. |
| Width.ZhLenAppend | src/utils/str.go:8-14 | The width of a concatenation is the sum of the widths. |
| Width.ZhLenIsLength | core/util.go:16-27 | The width equals the rune count iff no character is Han. |
| Width.Utf8Width | src/app/show_menu.go:69 | A character takes one to four bytes in UTF-8. |
| Width.ByteLen | src/app/show_menu.go:69 | Go's `len` of a string lies between its rune count and four times it. |
| Width.ByteLenAppend | src/app/show_menu.go:69-70 | The byte length of a concatenation is the sum of the byte lengths. |
| Width.SpacesMeasure | src/app/show_menu.go:70 | A run of n spaces is n bytes and n columns wide. |
| Menu.OperationFormatWidth | src/app/show_menu.go:64-66 | A formatted operation `[key] label` is three columns wider than its key and label together. |
| Menu.Register | src/app/show_menu.go:35-50 | The registry `showMenu` fills holds the keys it had and exactly the keys of the menu. |
| Menu.RegisterRowLast | src/app/show_menu.go:48 | Under a key used several times the operation registered last is the one kept. |
| Menu.RegisterRowKeeps | src/app/show_menu.go:48 | A key no operation of the row uses keeps the operation it had. |
| Menu.LayoutRegistry | src/app/show_menu.go:19-50 | After the menu is shown the registry holds exactly add, edit, remove and exit, each under its own key. |
| Menu.OnlyExitEnds | src/app/show_menu.go:20-29 | Of the registered operations only "exit" ends the loop, and only it lacks a handler. |
| Menu.ColumnWidthFrom | src/app/show_menu.go:35-47 | A column's width is at least the width of every formatted operation in it, and is the width of one of them (0 for an empty column). |
| Menu.StringPadding | src/app/show_menu.go:68-74 | `stringPadding` as written: the input followed only by spaces, until the byte length reaches n; a string already that long is unchanged. |
| Menu.PadToWidth | src/app/show_menu.go:35-56 | The corrected padding: the input followed only by spaces, until the display width reaches n. |
| Menu.CellsAsWritten | src/app/show_menu.go:52-57 | The cells as `showMenu` prints them: each is its formatted operation followed only by spaces, and its byte length (not its display width) reaches the column's width. |
| Menu.AsWrittenCellNarrower | src/app/show_menu.go:52-74 | As printed, the `[add] 添加` cell is narrower on screen than its column. |
| Menu.Cells | src/app/show_menu.go:52-57 | The cells as the corrected program prints them (padded by display width): each cell of a row is exactly as wide as its column. |
| Menu.BytePaddingMisaligns | src/app/show_menu.go:40-56 | With the shipped labels the first column is 11 columns wide, but the padded `[add] 添加` cell is only 10, since its 12 bytes already exceed 11. |
| Listing.SeparatorFrom | src/app/show_servers.go:68-78 | The running maximum never decreases. |
| Listing.SeparatorLengthBounds | src/app/show_servers.go:68-78 | The separator length is at least 60 (50 in the older menu), exactly that with no groups, at least the width of every group name, and either the start value or ten more than the width of some group name. |
| Listing.SeparatorMonotone | src/app/app.go:197-207 | Adding a group never shortens the separator. |
| Listing.SeparatorNext | src/app/show_servers.go:71-74 | One step never decreases the maximum and leaves it at least the name's width. |
| Listing.Repeat | src/app/app.go:229-232 | Repeating a string n times gives n times its length. |
| Listing.FillCount | src/app/app.go:228 | The fill on each side is half the room left, rounded down, and none when the title is as wide as the separator. |
| Listing.FormatSeparatorWidth | src/app/app.go:226-235 | With a one-column fill the separator line is the full width or one column short; a title too wide is printed alone. |
| Listing.RecordServerDetail | src/app/app.go:237-243 | With ShowDetail the line is the plain line followed by ` [user@ip]`. |
| Listing.TopEntries | src/app/show_servers.go:35-37 | The top-level servers are listed in order, keyed 1..n. |
| Listing.GroupLines | src/app/show_servers.go:39-57 | An empty group shows nothing; a collapsed one only its heading; an open one its heading and its members keyed by prefix and position. |
| Listing.Show | src/app/show_servers.go:32-65 | The list starts with the banner, shows the top-level servers right after it, and ends with the prompt. |
| Listing.ShownKeysAreIndexed | src/app/show_servers.go:32-57 | Every key the list shows is a key of the index built from the same configuration. |
| ServerIndexing.PreparedMerges | src/app/config.go:64-71 | An indexed server is the formatted server merged with the configuration's options without overwriting its own. |
| ServerIndexing.Place | src/app/config.go:62-80 | A key already present skips the server and leaves the index as it was; otherwise the prepared server is entered under its key (with its position) and under its non-empty alias, overwriting what the alias held, and no other key changes. |
| ServerIndexing.IndexTopSpec | src/app/config.go:62-81 | The top-level loop keys position i by `i+1`, formats every server, merges only the indexed ones, and keeps every entry pointing at its server. |
| ServerIndexing.IndexMembersSpec | src/app/config.go:85-105 | The member loop of a group keys position j by prefix followed by `j+1`, formats every member and gives it its group's name, and merges only the indexed ones. |
| ServerIndexing.IndexGroupsSpec | src/app/config.go:83-106 | The group loop keeps every group header and leaves every group indexed, and the earlier entries still point at their servers. |
| ServerIndexing.LoopsIndex | src/app/config.go:60-107 | The two loops together leave the configuration indexed. |
| ServerIndexing.CreateServerIndex | src/app/config.go:60-107 | Starting from an empty index, every position has its key, every entry points at its server in the updated configuration, that server is the formatted original merged with the options, and only the server lists change. |
| ServerIndexing.AliasShadowsPosition | src/app/config.go:67-80 | An alias equal to a later position's key takes that key first: the later server is skipped and stays unmerged. |
| ServerIndexing.TopSlots | src/app/app.go:83-98 | Top-level position i is loaded under key `i+1` with group index -1 and the formatted server. |
| ServerIndexing.GroupSlots | src/app/app.go:101-118 | Member j of group i is loaded under prefix followed by `j+1` at (i, j). |
| ServerIndexing.LoadSlots | src/app/app.go:82-122 | With the check, loading succeeds iff no key is already present, and a failure names a key; without it loading always succeeds; earlier keys are kept. |
| ServerIndexing.LoadServerMap | src/app/app.go:82-122 | With the check, success iff none of the configuration's keys is already in the index; a success keeps the earlier keys and holds every top-level key. |
| ServerIndexing.ReloadKeepsStaleKeys | src/app/app.go:344-358 | Reloading into the index of an earlier load fails as soon as both configurations have a top-level server. |
| ServerIndexing.ReloadFixed | src/app/app.go:352-358 | Reloading into a fresh index fails only on keys duplicated within the edited configuration. |
| Model.RemoveAtInverse | src/app/handle_remove.go:24-31 | Putting the removed element back at its position restores the list. |
| ConfigEdit.GroupTotalUpdate | src/app/handle_remove.go:27-31 | Replacing one group's list changes the server count by the difference of the two lengths. |
| ConfigEdit.WithList | src/app/handle_add.go:32-38 | Setting one list changes nothing else, and the server count changes by the difference of the lengths. |
| ConfigEdit.RemoveEntry | src/app/handle_remove.go:24-31 | One server fewer; only the entry's list changes, and putting the removed server back at its position restores it. |
| ConfigEdit.ReplaceEntry | src/app/handle_edit.go:22-28 | The entry's position holds the new server, the count is unchanged, and only that position of that list changes. |
| ConfigEdit.ReplaceSame | src/app/handle_edit.go:22-28 | Putting back the server that was there restores the configuration. |
| ConfigEdit.LastPrefix | src/app/handle_add.go:32-38 | The last group with the prefix, or none when no group has it. |
| ConfigEdit.Append | src/app/handle_add.go:32-38 | Exactly one list grows, by the new server at its end: the last group with the prefix, else the top level. |
| ConfigEdit.PickId | src/app/handle_remove.go:12-22 | The first answer that is a key of the index, every earlier answer being an unknown id; none when the end of input comes first. |
| Saving.FirstFailure | src/app/cud.go:103-123 | No error iff every step succeeds; an error returned is one of the steps'. |
| Saving.SaveConfig | src/app/config.go:110-130 | The backup runs iff asked for and marshalling and indenting succeeded; the write runs iff those and any backup succeeded; a backup always precedes the write; nil iff the write ran and succeeded. |
| Saving.SaveConfigFirstFailure | src/app/cud.go:103-123 | The error returned is the first failing step's, in the order marshal, indent, backup, write. |
| Saving.BackupGuardsWrite | src/app/app.go:369-387 | Without a backup nothing is copied; with one, a written file always had its old contents copied first. |
| Handlers.HandleRemove | src/app/handle_remove.go:9-34 | Saved iff an id of the index is read before the end of input; then exactly that position is deleted from its list (one server fewer) and the save's error is returned; otherwise nothing changes and nil is returned. |
| Handlers.HandleAdd | src/app/handle_add.go:9-41 | Saved iff the prefix and the whole form were read; then the formatted new server, edited, is appended to the last group with that prefix or to the top level, and the save's error is returned; otherwise nothing changes. |
| Handlers.HandleEdit | src/app/handle_edit.go:9-29 | After an id of the index, only that position changes, to the edited server, even when the form is cut short; saved iff the form was complete; the end of input at the id prompt changes nothing. |
| Handlers.EditBlanksKeepConfig | src/app/server_edit.go:38-46 | Editing with only blank answers saves the configuration unchanged. |
| Handlers.EditCutShortSticks | src/app/handle_edit.go:22-26 | A form cut short by the end of input still changes the server in memory, though nothing is saved. |
| Handlers.AddedDefaults | src/app/handle_add.go:23-24 | A server added with blank answers has port 22 and password authentication. |
| CudHandlers.PickOrExit | src/app/cud.go:18-32 | The first answer that is "exit" in any case or a key of the index, every earlier answer having asked again. |
| CudHandlers.CudEdit | src/app/cud.go:18-36 | "exit" leaves the configuration unsaved; a key saves the configuration with only that position changed to the edited server; no answer that leaves or names a server, no result. |
| CudHandlers.CudAdd | src/app/cud.go:39-63 | Always saves one server more: the edited new server at the end of the last group with the prefix, else of the top level. |
| CudHandlers.CudRemove | src/app/cud.go:66-92 | "exit" leaves the configuration unsaved; a key deletes exactly that position and saves. |
| CudHandlers.ExitAnyCase | src/app/cud.go:23 | An answer and its lower-cased form leave alike, so "exit" is recognised in any letter case. |
| CudHandlers.CutShortFormSaved | src/app/cud.go:34-35 | A form cut short is saved with what was typed before the end of input. |
| CudHandlers.AddAtEndOfInput | src/app/cud.go:49-59 | At the end of input a formatted empty server is still appended and saved. |
| AppMenu.CheckInput | src/app/app.go:176-195 | The first line that is an operation word or a key of the index, flagged as an operation iff it is a word; every earlier line was neither; none iff no line qualifies. |
| AppMenu.HandleGlobalCmd | src/app/app.go:246-263 | The loop ends iff the lower-cased command is "exit"; the command is invalid iff its lower-cased form is not an operation word. |
| AppMenu.GlobalInputDispatches | src/app/app.go:210-263 | Every line accepted as an operation word dispatches to its operation, and ends the loop iff it is "exit". |
| AppMenu.WordBeatsAlias | src/app/app.go:180-183 | For every index, a first line that is an operation word is taken as that operation, even when a server key is spelled the same. |
| AppMenu.AppRemove | src/app/app.go:315-342 | `handleRemove` as written: "exit" leaves, a key deletes that position and saves, any other answer goes on into the edit handler. |
| AppMenu.AppRemoveFixed | src/app/app.go:315-342 | Asking again after an unknown id: a result iff some answer leaves or names a server; it is saved iff that answer names a server, and then that server's entry is removed and there is one server fewer; an unsaved result is the configuration as it was. |
| AppMenu.RemoveFallsIntoEdit | src/app/app.go:325-330 | An unknown id followed by a key edits and saves that server without deleting anything; asking again deletes it. |
| Scan.FirstPrefix | src/app/scan.go:95-103 | The first group whose prefix equals the command, or none when no group has it. |
| Scan.Classify | src/app/scan.go:79-106 | The command is the text before the first space; an operation key wins (its arguments are the remaining words) unless the line is the preset, then a key of the index, then the first group with that prefix; nothing iff none of the three matches. |
| Scan.ReadFrom | src/app/scan.go:68-109 | The first line that selects something, every earlier line having been rejected; nothing when the input ends first. |
| Scan.EmptyLineEndsLoop | src/app/scan.go:68-100 | With the empty reads that follow the end of input appended, the loop returns a choice whenever "" is an operation, a key of the index or some group's prefix. |
| Scan.CheckInput | src/app/scan.go:67-112 | A preset server that matches is used without reading a line and never selects an operation; otherwise the first matching line is; whatever is returned matched something. |
| Scan.CommandBeforeSpace | src/app/scan.go:79-85 | A line splits into its first word, the command, and the words after it, the operation's arguments. |
| Scan.PresetSkipsOperations | src/app/scan.go:71-77 | A preset that is both an operation key and a server key selects the server; the same text typed in selects the operation. |
| Scan.ScanInput | src/app/scan.go:17-64 | The loop goes on iff a successful operation other than exit ran, a server was selected, or a group's flag was saved; a server selection reloads nothing and connects whatever the outcome; a group selection saves the configuration as it was read. |
| Scan.ToggleCollapse | src/app/scan.go:49-50 | Only the group's collapse flag flips; everything else stays. |
| Scan.ToggleTwice | src/app/scan.go:49-50 | Flipping twice restores the configuration. |
| Scan.ScanInputFixed | src/app/scan.go:47-58 | The same loop flags and connection, but the saved configuration has the group's flag flipped. |
| Scan.CollapseToggleLost | src/app/scan.go:47-58 | As written the saved flag is the old one, although the list is reloaded; with the fix it is flipped. |
| Scan.CheckedChoiceDispatches | src/app/scan.go:17-49 | Whatever `checkInput` returns `scanInput` can dispatch: a server key is in the index and a group position is in range. |
| Scan.OnlyExitStops | src/app/scan.go:22-34 | With the menu's own operations, a successful operation keeps the loop going iff it is not "exit". |
| ServerEdit.DeftVal | src/app/server_edit.go:23-29 | Empty for an empty value, otherwise `(default=` followed by the value and `)`. |
| ServerEdit.ScanVal | src/app/server_edit.go:31-61 | Stops iff the read hit the end of input; only the prompted field can change, and only on a token: a text field takes it, the port takes it when it is a number. |
| ServerEdit.FirstEof | src/app/server_edit.go:13-19 | The position of the first end of input among the eight prompts, or eight. |
| ServerEdit.EditFromEof | src/app/server_edit.go:12-21 | `Edit` reports the end of input iff it meets one before the last field. |
| ServerEdit.EditFromUntouched | src/app/server_edit.go:14-18 | A field not reached before the end of input keeps its value. |
| ServerEdit.EditFromScanned | src/app/server_edit.go:14-18 | A field reached before the end of input gets what its own prompt read. |
| ServerEdit.EditSpec | src/app/server_edit.go:12-21 | Name, Ip, Port, User, Password, Method, Key, Alias in order: `Edit` stops exactly at the first end of input, every field it reached gets what its prompt read, and nothing else changes. |
| ServerEdit.EditReadsThroughEof | src/app/server_edit.go:14-18 | Two consoles that agree through the first end of input edit alike. |
| ServerEdit.EditStopsAtEof | src/app/server_edit.go:15-17 | Nothing after the first end of input is read. |
| ServerEdit.BlankKeeps | src/app/server_edit.go:54-57 | Blank answers leave every field as it was. |
| Upgrade.Pieces | src/app/show_upgrade.go:255-258 | A version always splits into at least one component. |
| Upgrade.Pad | src/app/show_upgrade.go:260-279 | The shorter list is padded with "0" up to the longer one's length, keeping its own components first. |
| Upgrade.CompareVersion | src/app/show_upgrade.go:252-294 | The result is 1, 0 or -1. |
| Upgrade.ComparePiecesSpec | src/app/show_upgrade.go:281-293 | Equal iff every component (missing ones reading 0) has the same number; otherwise the first differing component decides. |
| Upgrade.CompareReflexive | src/app/show_upgrade.go:281-293 | A version compares equal to itself. |
| Upgrade.CompareAntisymmetric | src/app/show_upgrade.go:281-293 | Swapping the arguments negates the result. |
| Upgrade.LeadingVIgnored | src/app/show_upgrade.go:255-256 | A leading `v` on either side makes no difference. |
| Upgrade.TrailingZeroIgnored | src/app/show_upgrade.go:260-279 | A trailing ".0" makes no difference, so `1.2` equals `1.2.0`. |
| Upgrade.UnparsableIsZero | src/app/show_upgrade.go:282-283 | A component that is not a number compares as 0. |
| Upgrade.DownloadUrlFrom | src/app/show_upgrade.go:212-227 | The address of the first asset whose name contains the platform, or "" when none does. |
| Upgrade.Exec | src/app/show_upgrade.go:61-102 | Nothing happens iff the latest version is not strictly newer; an unsupported platform is reported iff it is newer and no asset matches; an installation implies both a newer version and a matching asset. |
| Upgrade.UpdateOnlyForward | src/app/show_upgrade.go:63-67 | The running version never updates to itself, and of two versions at most one would update to the other. |
| CpArgs.IsServer | src/app/cp.go:94-111 | The remote path is the text after the first `:` up to a second one; the server is found iff the text before the first `:` is a key; accepted iff found and the path is non-empty. |
| CpArgs.IsServerForm | src/app/cp.go:95-107 | For `key:path` the path is `path`, accepted iff the key is indexed and the path non-empty, and anything after a second `:` is ignored. |
| CpArgs.IsLocalPath | src/app/cp.go:82-90 | The argument itself, accepted iff it exists or its stat failed because it does not exist. |
| CpArgs.EmptyNotLocal | src/utils/file_path.go:15-17 | The empty argument is never a local path, given the model's `EmptyPath` outcome for `""`. Under the gc toolchain the source would stat the executable's directory instead (see Left out). |
| CpArgs.Kind | src/app/cp.go:52-75 | `-r` is the flag, the server test comes before the local-path test, and an argument passing neither is ignored. |
| CpArgs.ParseArgsSpec | src/app/cp.go:51-79 | Recursive iff some argument is `-r`; the direction is fixed by the first server or local argument (down for a server, up for a local path); the last server argument and the last local path win. |
| CpArgs.ParseFromDirection | src/app/cp.go:59-71 | A direction once chosen never changes. |
| CpArgs.HandleCp | src/app/cp.go:10-30 | Rejected iff the server path or the local path is empty; otherwise an upload for direction "up" and a download for any other. |
| CpArgs.HandleCpAccepts | src/app/cp.go:17 | A copy is accepted iff the arguments hold a server argument and a local path, whatever their order. Under the model's `EmptyPath` outcome for `""`, an empty argument is never that local path. |
| LegacyServer.Passphrase | core/server.go:147-151 | The password is the key's passphrase iff it is non-empty. |
| LegacyServer.PemKey | core/server.go:140-158 | Success iff the key file reads and parses, giving key authentication with that passphrase; a read or parse error is returned unchanged. |
| LegacyServer.Authenticate | core/server.go:104-129 | "password" gives password authentication with the given password; "pem" gives key authentication iff the key loads; exactly one method on success. |
| LegacyServer.ParseAuthMethods | core/server.go:101-137 | The server's method if it is exactly "password" or "pem", else the configuration's with the configuration's credentials, else an error naming the server's method; exactly one method on success. |
| LegacyServer.ParseAuthMethodsCredentials | core/server.go:101-137 | The credentials used are the server's own when its method is known and the configuration's otherwise; the lookup fails iff neither method is known or the chosen side's key cannot be read or parsed. |
| LegacyServer.MethodCaseMatters | core/server.go:104-132 | Method names match case-sensitively: "Password" falls back to the configuration, or is refused. |
| LegacyServer.Connection | core/server.go:25-98 | An authentication error stops before dialling; otherwise `Ip:Port` is dialled. A dial failure runs no clean-up; a session failure closes the client; a raw-mode or window-size failure closes the session, then the client; after that the terminal restore runs first. Only a window-size failure leaves the terminal raw. |
| LegacyServer.ConnectionRestoresTerminal | core/server.go:47-74 | The terminal stays raw iff it was made raw and no restore ran; the client is closed iff it was opened, and so is the session. |
| LegacyServer.PortZeroDialled | core/server.go:41 | Port 0 is dialled as it is, with no default. |
| LegacyApp.ServerExists | core/app.go:253-261 | Found iff some server has the name, with the first such position; otherwise -1. |
| LegacyApp.Remove | core/app.go:146-160 | An absent name changes nothing; otherwise exactly the first server of that name is deleted, keeping the order, and unique names stay unique without it. |
| LegacyApp.Add | core/app.go:163-206 | An empty or existing name is refused; otherwise the new server is appended at the end with that name, so unique names stay unique. |
| LegacyApp.Prompted | core/app.go:86-91 | A prompt keeps the previous value unless a non-empty answer was read. |
| LegacyApp.EditServer | core/app.go:76-135 | The name is kept and the password is always re-read (empty when nothing is read). The key is asked only for "pem", keeping its value on a blank answer. Each other text field keeps its value on a blank answer. A scanned non-zero port is taken; a 0 or a blank keeps the old port when it is in the 64-bit range; the "Port illegality" exit is taken only when the old port does not parse back. |
| LegacyApp.Edit | core/app.go:76-143 | An unknown name is refused; otherwise only the first server of that name changes, to its edited version, and unique names stay unique. |
| LegacyApp.Choice | core/app.go:268-279 | A line selects a server iff it is a number between 1 and the number of servers. |
| LegacyApp.FirstChosen | core/app.go:264-280 | The first line that selects a server, every earlier one having been refused. |
| LegacyApp.InputSh | core/app.go:264-280 | A server is returned iff some line selects one, and it is the one the first such line numbers. |
| LegacyApp.GetArg | core/app.go:283-290 | The argument at the index when there is one, else the default. |
| LegacyApp.Exec | core/app.go:33-59 | No argument starts the menu; "list", "add", "edit", "remove" go to their handlers with the name argument; "-v" and "--version" show the version; anything else shows the help. |
| LegacyApp.Scan | core/params.go:21-27 | Over byte strings: the first argument starting with the key gives the bytes after the key and one more byte. An argument shorter than the key, or equal to it, before a match is a slice failure at that position. |
| LegacyApp.Get | core/params.go:16-35 | A cached key is returned without scanning; a found value is cached; no match returns nothing and caches nothing; a slice failure is reported. |
| LegacyApp.GetRemembers | core/params.go:17-24 | A value once found is returned again even when the arguments change. |
| LegacyApp.ShortArgumentPanics | core/params.go:22 | An argument shorter than the key, such as the program name, makes the lookup fail. |
| LegacyApp.ScanFixed | core/params.go:21-27 | The corrected scan skips arguments too short to match: nothing iff no argument is the key followed by at least one character, else the text after the first such. |
| LegacyApp.GetFixed | core/params.go:16-35 | The corrected lookup: the cache first, else the corrected scan, caching only a found value. |
| LegacyApp.ScanFixedAgrees | core/params.go:21-27 | Wherever the scan as written does not fail, the corrected scan agrees with it. |
| LegacyApp.GetFixedAgrees | core/params.go:16-35 | Wherever the lookup as written does not fail, the corrected lookup agrees with it. |

## Left out

- SSH and SFTP transport: dialling, handshakes, host-key checking, PTY requests and the terminal's raw mode. Each of these is an outcome parameter of the member that uses it, because the model has no network or terminal.
- Goroutines, sleeps, channel closing and signal handling (the keep-alive loop, the window-size watcher, the progress printer of a copy). The keep-alive and the watcher are modelled over a given sequence of ticks or samples, because time and scheduling are not modelled.
- Progress and speed printing of a copy, and every other use of `float64`. `ZhLen` returns a float in the source and a `nat` here; its values are whole numbers anyway.
- The bodies of JSON decoding and encoding, HTTP requests, zip extraction and file reads and writes (configuration loading, the backup copy, the upgrade download, the external editor, the logger, the standard-input pump). Their outcomes are parameters.
- The web frontend (frontend/src), the printer, clean and scan utilities of src/utils, the help and version texts, and main.go. They are presentation or glue around the modelled core.
- src/app/show_cp.go:138 builds `IOClient` as a struct literal, while src/app/io_client.go:19-24 declares it as an interface, so the source as given does not compile. The model follows the evident intent: an upload reads the local volume and writes the remote one, and a download does the reverse.
- src/app/handle_add.go mixes a pointer and a value of the group type, and sets `groupName` after the server has been appended. The model appends the formatted server and ignores the group name, which is not saved.
- CudHandlers: at the end of input the handlers of src/app/cud.go prompt again without end. A run that has used up its answers is modelled as having no result (`None`).
- AppMenu: the call to `show()` after "exit" at the remove or edit prompt (src/app/app.go:271-273, 320-322) is not modelled. That call starts a new menu round: it clears the screen, lists the servers, reads a command through `checkInput()` and dispatches it to `handleGlobalCmd` or `server.Connect()`. `AppMenu.AppRemove` ends the handler at that point and returns the configuration unsaved.
- ConfigEdit: the result of `saveAndReload` is discarded by every caller, so the handlers only record that a save happened.
- Width, Menu, Listing: whether a character is Han (`unicode.Scripts["Han"]`) is a predicate parameter, because the model has no Unicode tables.
- Endpoint.FormatLogFilename: Go's map iteration order, which decides the order the placeholders are replaced in, is a parameter.
- Endpoint.FormatLogFilename: for an arbitrary map order its contract states only that a template without placeholders is unchanged. The expansion is stated for the fixed order, by `FormatLogFilenameFixedExpands`, and for `%dt` under both orders.
- Endpoint.FormatLogFilenameFixed: its own contract states only the template without placeholders; the expansion of a single placeholder is the lemma `FormatLogFilenameFixedExpands`. Templates with several placeholders are not stated.
- GoStrings.ToLower folds ASCII letters only. Go's `strings.ToLower` also lower-cases other Unicode letters; every word compared here is ASCII.
- GoPath, Vfs: paths are lexical; symbolic links, permissions and file modes are not modelled.
- FilePath.ParsePath and CoreUtil.ParsePath: on `""` the source slices `[]rune("")[:1]`, which Go bounds by capacity, not length, so the outcome depends on the toolchain. Under gc the non-escaping rune slice gets a 32-rune stack buffer, so there is no panic and the first key is `"\x00"`. The utils version then returns the executable's directory plus `/`, the core version returns `""`, and `FileIsExists("")` (so `isLocalPath("")`) holds when that directory exists. The model does not follow the run-time's buffer choice: both return an `EmptyPath` error, and CpArgs.EmptyNotLocal holds of that choice only.
- Upgrade.CompareVersion and Upgrade.UnparsableIsZero: `strconv.Atoi` on a number outside the 64-bit range returns a range error and a clamped value. The model covers syntax errors, which give 0, but not the clamping.
- LegacyApp.EditServer: the answers are given already scanned: the port as the integer `fmt.Scanln` read, or none when it read nothing. How `fmt.Scanln` parses that integer is not modelled.
- ServerEdit.ScanVal: the port is read with `Atoi`, as a decimal number. Go's `fmt.Scanln` into an `int` also accepts the `0b`, `0o` and `0x` prefixes, a leading `0` for octal, and `_` between digits, so "0x16" or "1_000" set the port in the source and leave it unchanged here.
- AppMenu.CheckInput: at the end of input `fmt.Scanln` leaves the last line in place and the loop asks again without end. A run that has used up its lines is modelled as having no result (`None`).
- Scan.ReadFrom and Scan.CheckInput: at the end of input, `utils.Scanln` stores `""` on every read, because `ipt := ""` is declared anew on each pass (src/utils/scan.go:9-13, src/app/scan.go:69-72). The loop therefore ends if the empty line selects a server or a group, for example a group with no prefix. Otherwise it asks again without end. A run that has used up its lines is modelled as having no result (`None`); `Scan.EmptyLineEndsLoop` states the first case over the input with one `""` line appended.
- LegacyApp.InputSh: every refused answer calls `inputSh` again, without end once the input is over. A run that has used up its lines is modelled as having no result (`None`).
- CpArgs.HandleCp: the `copyUpload` and `copyDownload` stubs it reaches (src/app/cp.go:32-48) are not modelled. `copyUpload` only opens an SFTP client and returns its error; `copyDownload` does nothing.
- CopyEngine.Children only states that the loop over a directory returns no error; which children were copied is stated by `ChildrenVisitAll` and `ChildrenMapped`.
- src/app/server_test.go and the other tests are not part of this model.

## Findings

| source | as written | input that shows it | evidently intended | confidence | as-written member | corrected member |
|---|---|---|---|---|---|---|
| src/app/server.go:232-245 | The placeholders are replaced in map order, so `%d` can be replaced before `%dt` and consume its prefix. | Template "%dt" with `%d` taken first gives the date followed by "t". | "%dt" always becomes the date and time. | medium, not executed | Endpoint.FormatLogFilename, Endpoint.DateTimePlaceholderBroken | Endpoint.FormatLogFilenameFixed, Endpoint.DateTimePlaceholderFixed |
| src/app/show_cp.go:294-299 | Under `-r` a missing destination is made with `Mkdir`, which needs its parent to exist. | Copying the tree d/a/b/f.txt with `-r` into an existing t, where a holds only b: f.txt goes to t/a/b, and t/a does not exist. | The missing directories of the copied tree are created (`MkdirAll`). | medium, not executed | CopyEngine.ParseDstFilename, CopyEngine.MissingParentDirectory, CopyEngine.IoCopyMissingParent | CopyEngine.ParseDstFilenameFixed, CopyEngine.IoCopy |
| src/app/app.go:325-330 | An id the index does not have calls `handleEdit` from the remove handler. | Answering "x" and then "1" at the remove prompt edits server 1 and saves it; nothing is deleted. | Ask for the id again, as the edit handler and src/app/cud.go do. | high, not executed | AppMenu.AppRemove, AppMenu.RemoveFallsIntoEdit | AppMenu.AppRemoveFixed |
| src/app/app.go:33, 82-122, 344-358 | `loadServerMap(true)` after a save adds to the global index without clearing it, so the reload finds every key already present. | Any configuration with a top-level server: the second load meets key "1" again and fails. | The reload rebuilds the index from the saved configuration. | high, not executed | ServerIndexing.LoadServerMap, ServerIndexing.ReloadKeepsStaleKeys | ServerIndexing.ReloadFixed |
| core/params.go:22 | `param[:len(key)]` slices each argument without checking its length. | The program name "a" with key "-c=" panics before any argument is looked at. | Arguments shorter than the key are skipped. | high, not executed | LegacyApp.Get, LegacyApp.ShortArgumentPanics | LegacyApp.GetFixed, LegacyApp.GetFixedAgrees |
| src/app/show_menu.go:68-74 | `stringPadding` pads up to a width measured in columns, but compares it with the byte length. | "[add] 添加" is 12 bytes and 10 columns; the column width is 11, so it is not padded and its column is one short. | Pad by display width, as the column widths are measured. | high, not executed | Menu.StringPadding, Menu.CellsAsWritten, Menu.BytePaddingMisaligns, Menu.AsWrittenCellNarrower | Menu.PadToWidth, Menu.Cells |
| src/app/scan.go:49-51 | The collapse flag is flipped on a copy of the group, so the configuration that is saved keeps the old flag. | Choosing a group's prefix saves the group with its `collapse` unchanged. | The group in the configuration is toggled and saved. | high, not executed | Scan.ScanInput, Scan.CollapseToggleLost | Scan.ScanInputFixed |

=== FILE: appmenu.dfy ===
/** The menu loop of src/app/app.go: `checkInput` reads lines until one is
    an operation word or a server key, `handleGlobalCmd` dispatches an
    operation, and the edit, add and remove handlers change the
    configuration (edit and add are those of `CudHandlers`). Its remove
    handler, asked for an id the index does not have, goes on into the
    edit handler instead of asking again. */
module AppMenu {
  import opened Wrappers
  import opened Model
  import opened ConfigEdit
  import ServerEdit
  import GoStrings
  import opened CudHandlers

  /** The operation words of the menu. */
  const Words: seq<string> := ["edit", "add", "remove", "exit"]

  /** `isGlobalInput`: an operation word, matched case-sensitively. */
  predicate IsGlobalInput(flag: string) {
    flag in Words
  }

  /** What `checkInput` accepts: the line, whether it is an operation
      word, and the number of lines read through it. */
  function CheckInput(idx: ServerIndex, lines: seq<string>, i: nat): (r: Option<(string, bool, nat)>)
    requires i <= |lines|
    ensures r.Some? ==> i < r.value.2 <= |lines| && r.value.0 == lines[r.value.2 - 1]
    ensures r.Some? ==> (r.value.1 <==> IsGlobalInput(r.value.0)) && (r.value.1 || r.value.0 in idx)
    ensures r.Some? ==> forall k :: i <= k < r.value.2 - 1 ==> !IsGlobalInput(lines[k]) && lines[k] !in idx
    ensures r.None? <==> forall k :: i <= k < |lines| ==> !IsGlobalInput(lines[k]) && lines[k] !in idx
    decreases |lines| - i
  {
    if i == |lines| then None
    else if IsGlobalInput(lines[i]) then Some((lines[i], true, i + 1))
    else if lines[i] in idx then Some((lines[i], false, i + 1))
    else CheckInput(idx, lines, i + 1)
  }

  /** The operations `handleGlobalCmd` dispatches to. */
  datatype GlobalCmd = ExitCmd | EditCmd | AddCmd | RemoveCmd | InvalidCmd

  /** `handleGlobalCmd`: the command lower-cased picks the operation; only
      "exit" ends the loop. */
  function HandleGlobalCmd(cmd: string): (r: GlobalCmd)
    ensures r == ExitCmd <==> IsExit(cmd)
    ensures r == InvalidCmd <==> !IsGlobalInput(GoStrings.ToLower(cmd))
  {
    match GoStrings.ToLower(cmd)
    case "exit" => ExitCmd
    case "edit" => EditCmd
    case "add" => AddCmd
    case "remove" => RemoveCmd
    case _ => InvalidCmd
  }

  /** `handleRemove` as written: "exit" leaves, a key deletes its server
      and saves, and any other answer starts the edit handler on the
      answers that follow. */
  function AppRemove(cfg: Config, idx: ServerIndex, ids: seq<string>, scans: seq<ServerEdit.Scan>): (r: Option<Done>)
    requires Addressable(cfg, idx)
    ensures |ids| > 0 && IsExit(ids[0]) ==> r == Some(Done(cfg, false))
    ensures |ids| > 0 && !IsExit(ids[0]) && ids[0] in idx ==> r == Some(Done(RemoveEntry(cfg, idx[ids[0]]), true))
    ensures |ids| > 0 && Rejected(idx, ids[0]) ==> r == CudEdit(cfg, idx, ids, 1, scans)
  {
    if |ids| == 0 then None
    else if IsExit(ids[0]) then Some(Done(cfg, false))
    else if ids[0] in idx then Some(Done(RemoveEntry(cfg, idx[ids[0]]), true))
    else CudEdit(cfg, idx, ids, 1, scans)
  }

  /** `handleRemove` asking again after an unknown id, as its edit and the
      `cud.go` version do. */
  function AppRemoveFixed(cfg: Config, idx: ServerIndex, ids: seq<string>): (r: Option<Done>)
    requires Addressable(cfg, idx)
    ensures r.Some? <==> PickOrExit(idx, ids, 0).Some?
    ensures r.Some? ==> (r.value.saved <==> PickOrExit(idx, ids, 0).value.0.Chosen?)
    ensures r.Some? && !r.value.saved ==> r.value.cfg == cfg
    ensures r.Some? && r.value.saved ==>
      Total(r.value.cfg) + 1 == Total(cfg) && r.value.cfg == RemoveEntry(cfg, idx[PickOrExit(idx, ids, 0).value.0.id])
  {
    CudRemove(cfg, idx, ids, 0)
  }

  // ---------------------------------------------------------------------
  // Properties
  // ---------------------------------------------------------------------

  /** The operation words are already lower case, so every line
      `checkInput` accepts as an operation dispatches to it, and it ends
      the loop exactly when it is "exit". */
  lemma {:induction false} GlobalInputDispatches(flag: string)
    requires IsGlobalInput(flag)
    ensures GoStrings.ToLower(flag) == flag
    ensures HandleGlobalCmd(flag) != InvalidCmd
    ensures HandleGlobalCmd(flag) == ExitCmd <==> flag == "exit"
  {
    LowerWordKeeps(flag);
  }

  /** Lower-casing a word of lower-case letters changes nothing. */
  lemma {:induction false} LowerWordKeeps(w: string)
    requires forall i :: 0 <= i < |w| ==> 'a' <= w[i] <= 'z'
    ensures GoStrings.ToLower(w) == w
  {
    var r := GoStrings.ToLower(w);
    assert forall i :: 0 <= i < |w| ==> r[i] == w[i];
  }

  /** An operation word wins over a server alias spelled the same: for
      every index, a first line that is an operation word is taken as that
      operation. */
  lemma {:induction false} WordBeatsAlias(idx: ServerIndex, lines: seq<string>)
    requires |lines| > 0 && IsGlobalInput(lines[0])
    ensures CheckInput(idx, lines, 0) == Some((lines[0], true, 1))
  {
  }

  /** An unknown id at the remove prompt, followed by a key, edits that
      server and saves it, deleting nothing; asking again instead deletes
      the server. */
  lemma {:induction false} RemoveFallsIntoEdit(cfg: Config, idx: ServerIndex, ids: seq<string>, scans: seq<ServerEdit.Scan>)
    requires Addressable(cfg, idx)
    requires |ids| >= 2 && Rejected(idx, ids[0]) && !IsExit(ids[1]) && ids[1] in idx
    ensures var r := AppRemove(cfg, idx, ids, scans);
      && r.Some? && r.value.saved && Total(r.value.cfg) == Total(cfg)
      && At(r.value.cfg, idx[ids[1]]) == ServerEdit.Edit(At(cfg, idx[ids[1]]), scans).0
    ensures var r := AppRemoveFixed(cfg, idx, ids);
      && r == Some(Done(RemoveEntry(cfg, idx[ids[1]]), true))
      && Total(r.value.cfg) + 1 == Total(cfg)
  {
    assert PickOrExit(idx, ids, 1) == Some((Chosen(ids[1]), 2));
    assert PickOrExit(idx, ids, 0) == PickOrExit(idx, ids, 1);
  }
}

=== FILE: bytecopy.dfy ===
/** The chunked copy loop at the heart of `Cp.ioCopy` (src/app/show_cp.go):
    read into a 64 KiB buffer, stop on a read error other than end-of-file,
    write what was read, stop on a write error, and finish after writing the
    chunk that came with end-of-file. The reader is a script of read
    results; the writer is a sink with a fixed amount of room. */
module ByteCopy {
  import opened GoStrings

  /** Size of the copy buffer, and so the largest chunk a read returns. */
  const BufSize: nat := 64 * 1024

  /** What a `Read` call returns besides its bytes: nothing, `io.EOF`, or
      another error. */
  datatype Status = ReadOk | Eof | ReadFail

  datatype ReadCall = ReadCall(chunk: seq<byte>, status: Status)

  /** How the loop ended. */
  datatype End = Done | ReadError | WriteError

  datatype Copied = Copied(end: End, written: seq<byte>)

  /** The `i`-th read; a reader past its script keeps returning end-of-file
      with no bytes. */
  function ReadAt(script: seq<ReadCall>, i: nat): ReadCall {
    if i < |script| then script[i] else ReadCall([], Eof)
  }

  /** All chunks of a list of reads, in order. */
  function Concat(script: seq<ReadCall>): seq<byte> {
    if |script| == 0 then [] else Concat(script[..|script| - 1]) + script[|script| - 1].chunk
  }

  /** Index of the first read that did not return plain success. */
  function Stop(script: seq<ReadCall>): (t: nat)
    ensures t <= |script|
    ensures forall i :: 0 <= i < t ==> script[i].status == ReadOk
    ensures t < |script| ==> script[t].status != ReadOk
  {
    if |script| == 0 || script[0].status != ReadOk then 0 else 1 + Stop(script[1..])
  }

  /** The bytes the reader hands out before it stops: every chunk up to the
      stopping read, plus the chunk delivered together with end-of-file. */
  function Delivered(script: seq<ReadCall>): seq<byte> {
    var t := Stop(script);
    Concat(script[..t]) + (if ReadAt(script, t).status == Eof then ReadAt(script, t).chunk else [])
  }

  /** The loop from read `i` on, `written` bytes already in the sink. */
  function CopyFrom(script: seq<ReadCall>, room: nat, i: nat, written: seq<byte>): Copied
    requires i <= |script|
    decreases |script| - i
  {
    var rc := ReadAt(script, i);
    if rc.status == ReadFail then Copied(ReadError, written)
    else if |written| + |rc.chunk| > room then Copied(WriteError, written)
    else if rc.status == Eof then Copied(Done, written + rc.chunk)
    else CopyFrom(script, room, i + 1, written + rc.chunk)
  }

  /** The whole copy into an empty sink with `room` bytes of space. */
  function Copy(script: seq<ReadCall>, room: nat): Copied {
    CopyFrom(script, room, 0, [])
  }

  /** The loop as `ioCopy` writes it. */
  method CopyLoop(script: seq<ReadCall>, room: nat) returns (end: End, written: seq<byte>)
    ensures Copied(end, written) == Copy(script, room)
    ensures end != WriteError <==> |Delivered(script)| <= room
    ensures end != WriteError ==> written == Delivered(script)
    ensures end == Done <==> end != WriteError && ReadAt(script, Stop(script)).status != ReadFail
    ensures |written| <= room && written <= Delivered(script)
  {
    CopySpec(script, room);
    var i := 0;
    written := [];
    while true
      invariant 0 <= i <= |script|
      invariant CopyFrom(script, room, i, written) == Copy(script, room)
      decreases |script| - i
    {
      var rc := ReadAt(script, i);
      if rc.status == ReadFail {
        return ReadError, written;
      }
      if |written| + |rc.chunk| > room {
        return WriteError, written;
      }
      written := written + rc.chunk;
      if rc.status == Eof {
        return Done, written;
      }
      i := i + 1;
    }
  }

  /** What the loop achieves: if everything the reader delivers fits, the
      sink receives exactly that and the loop ends by the reader's verdict;
      otherwise the write that would overflow fails, after a prefix of it. */
  lemma {:induction false} CopySpec(script: seq<ReadCall>, room: nat)
    ensures var r := Copy(script, room);
      && (r.end != WriteError <==> |Delivered(script)| <= room)
      && (r.end != WriteError ==> r.written == Delivered(script))
      && (r.end == Done <==> r.end != WriteError && ReadAt(script, Stop(script)).status != ReadFail)
      && |r.written| <= room && r.written <= Delivered(script)
  {
    assert script[..0] == [];
    CopyFromSpec(script, room, 0);
  }

  lemma {:induction false} CopyFromSpec(script: seq<ReadCall>, room: nat, i: nat)
    requires i <= Stop(script) && |Concat(script[..i])| <= room
    ensures var r := CopyFrom(script, room, i, Concat(script[..i]));
      && (r.end != WriteError <==> |Delivered(script)| <= room)
      && (r.end != WriteError ==> r.written == Delivered(script))
      && (r.end == Done <==> r.end != WriteError && ReadAt(script, Stop(script)).status != ReadFail)
      && |r.written| <= room && r.written <= Delivered(script)
    decreases |script| - i
  {
    var t := Stop(script);
    var w := Concat(script[..i]);
    var rc := ReadAt(script, i);
    ConcatPrefixes(script, i, t);
    if i == t {
    } else {
      assert rc == script[i] && rc.status == ReadOk;
      assert script[..i + 1][..i] == script[..i];
      assert Concat(script[..i + 1]) == w + rc.chunk;
      ConcatPrefixes(script, i + 1, t);
      if |w| + |rc.chunk| <= room {
        CopyFromSpec(script, room, i + 1);
      }
    }
  }

  /** Concatenation respects prefixes. */
  lemma {:induction false} ConcatPrefixes(script: seq<ReadCall>, i: nat, j: nat)
    requires i <= j <= |script|
    ensures Concat(script[..i]) <= Concat(script[..j])
    ensures |Concat(script[..i])| <= |Concat(script[..j])|
    decreases j - i
  {
    if i < j {
      ConcatPrefixes(script, i, j - 1);
      assert script[..j][..j - 1] == script[..j - 1];
    }
  }

  lemma {:induction false} ConcatAppend(a: seq<ReadCall>, b: seq<ReadCall>)
    ensures Concat(a + b) == Concat(a) + Concat(b)
    decreases |b|
  {
    if |b| == 0 {
      assert a + b == a;
    } else {
      var b' := b[..|b| - 1];
      var x := b[|b| - 1];
      assert (a + b)[..|a + b| - 1] == a + b';
      assert (a + b)[|a + b| - 1] == x;
      assert Concat(a + b) == Concat(a + b') + x.chunk;
      ConcatAppend(a, b');
      assert Concat(b) == Concat(b') + x.chunk;
      assert Concat(a) + Concat(b') + x.chunk == Concat(a) + (Concat(b') + x.chunk);
    }
  }

  /** The reads of a file's content: full buffers, then the rest. */
  function Chunks(data: seq<byte>): (s: seq<ReadCall>)
    ensures forall i :: 0 <= i < |s| ==> s[i].status == ReadOk
    decreases |data|
  {
    if |data| == 0 then []
    else
      var n := if |data| < BufSize then |data| else BufSize;
      [ReadCall(data[..n], ReadOk)] + Chunks(data[n..])
  }

  /** Reading a file: its content in buffer-sized chunks, then end-of-file
      with no bytes, or a read error when the file is faulty. */
  function FileScript(data: seq<byte>, faulty: bool): seq<ReadCall> {
    Chunks(data) + [ReadCall([], if faulty then ReadFail else Eof)]
  }

  lemma {:induction false} ChunksConcat(data: seq<byte>)
    ensures Concat(Chunks(data)) == data
    decreases |data|
  {
    if |data| > 0 {
      var n := if |data| < BufSize then |data| else BufSize;
      ChunksConcat(data[n..]);
      ConcatAppend([ReadCall(data[..n], ReadOk)], Chunks(data[n..]));
      assert [ReadCall(data[..n], ReadOk)][..0] == [];
      assert data[..n] + data[n..] == data;
    }
  }

  /** Copying a file delivers exactly its content when it fits, and ends
      with a read error exactly when the file is faulty. */
  lemma {:induction false} FileCopy(data: seq<byte>, faulty: bool, room: nat)
    ensures var r := Copy(FileScript(data, faulty), room);
      && (r.end == WriteError <==> |data| > room)
      && (|data| <= room ==> r.written == data && (r.end == ReadError <==> faulty))
  {
    var script := FileScript(data, faulty);
    var cs := Chunks(data);
    assert Stop(script) == |cs| by {
      StopAfterChunks(cs, ReadCall([], if faulty then ReadFail else Eof));
    }
    assert script[..|cs|] == cs;
    ChunksConcat(data);
    CopySpec(script, room);
  }

  /** Reading a file whose reads fail once `at` bytes of its content have
      been delivered, `at` anywhere in the content, part-way through a
      buffer included. */
  function FailingScript(data: seq<byte>, at: nat): seq<ReadCall>
    requires at <= |data|
  {
    Chunks(data[..at]) + [ReadCall([], ReadFail)]
  }

  /** A read failure part-way through a file: what was read before it is
      written when it fits, the rest of the file never is, and the loop ends
      with the read error; when the part read does not fit, with the write
      error. */
  lemma {:induction false} FileCopyFailsPartway(data: seq<byte>, at: nat, room: nat)
    requires at <= |data|
    ensures var r := Copy(FailingScript(data, at), room);
      && (r.end == WriteError <==> at > room)
      && (at <= room ==> r.end == ReadError && r.written == data[..at])
  {
    assert FailingScript(data, at) == FileScript(data[..at], true);
    FileCopy(data[..at], true, room);
  }

  lemma {:induction false} StopAfterChunks(cs: seq<ReadCall>, last: ReadCall)
    requires forall i :: 0 <= i < |cs| ==> cs[i].status == ReadOk
    requires last.status != ReadOk
    ensures Stop(cs + [last]) == |cs|
    decreases |cs|
  {
    if |cs| > 0 {
      assert (cs + [last])[1..] == cs[1..] + [last];
      StopAfterChunks(cs[1..], last);
    } else {
      assert (cs + [last])[0] == last;
    }
  }
}

=== FILE: configedit.dfy ===
/** The list surgery the add, edit and remove handlers do on a
    configuration, shared by the three generations of those handlers
    (src/app/handle_*.go, src/app/cud.go, src/app/app.go): reading an id
    until it names a server, deleting or replacing the server at an index
    entry's position, and appending a new server to a group or to the top
    level. */
module ConfigEdit {
  import opened Wrappers
  import opened Model

  // ---------------------------------------------------------------------
  // Positions
  // ---------------------------------------------------------------------

  /** The entry's position exists in the configuration: a top-level
      position for a server entry, a group and a position in it for a group
      entry (the kind alone decides, as in the handlers). */
  predicate InRange(cfg: Config, e: IndexEntry) {
    if e.kind == TopLevel then 0 <= e.serverIndex < |cfg.servers|
    else 0 <= e.groupIndex < |cfg.groups| && 0 <= e.serverIndex < |cfg.groups[e.groupIndex].servers|
  }

  /** Every entry of the index addresses a position of the configuration,
      as one built from it does. */
  predicate Addressable(cfg: Config, idx: ServerIndex) {
    forall k :: k in idx ==> InRange(cfg, idx[k])
  }

  /** The server at an entry's position. */
  function At(cfg: Config, e: IndexEntry): Server
    requires InRange(cfg, e)
  {
    if e.kind == TopLevel then cfg.servers[e.serverIndex] else cfg.groups[e.groupIndex].servers[e.serverIndex]
  }

  /** The number of servers of the groups. */
  function GroupTotal(groups: seq<Group>): nat {
    if |groups| == 0 then 0 else GroupTotal(groups[..|groups| - 1]) + |groups[|groups| - 1].servers|
  }

  /** The number of servers of a configuration. */
  function Total(cfg: Config): nat {
    |cfg.servers| + GroupTotal(cfg.groups)
  }

  /** Replacing one group changes the count by the difference of the two
      lists' lengths. */
  lemma {:induction false} GroupTotalUpdate(groups: seq<Group>, g: nat, x: Group)
    requires g < |groups|
    ensures GroupTotal(groups[g := x]) + |groups[g].servers| == GroupTotal(groups) + |x.servers|
    decreases |groups|
  {
    var n := |groups| - 1;
    var ys := groups[g := x];
    if g < n {
      assert ys[..n] == groups[..n][g := x];
      GroupTotalUpdate(groups[..n], g, x);
    } else {
      assert ys[..n] == groups[..n];
    }
  }

  /** `s` with `x` put back at position `i`. */
  function Insert<T>(s: seq<T>, i: nat, x: T): (r: seq<T>)
    requires i <= |s|
    ensures |r| == |s| + 1 && r[i] == x
  {
    s[..i] + [x] + s[i..]
  }

  /** Two groups that differ at most in their server lists. */
  predicate SameHeader(a: Group, b: Group) {
    a.groupName == b.groupName && a.prefix == b.prefix && a.collapse == b.collapse
  }

  /** `b` is `a` except for the server list of group `g`, which is
      `servers`. */
  predicate OnlyGroupChanged(a: Config, b: Config, g: nat, servers: seq<Server>)
    requires g < |a.groups|
  {
    && b.showDetail == a.showDetail && b.options == a.options && b.servers == a.servers
    && |b.groups| == |a.groups| && SameHeader(b.groups[g], a.groups[g]) && b.groups[g].servers == servers
    && forall k :: 0 <= k < |a.groups| && k != g ==> b.groups[k] == a.groups[k]
  }

  /** `b` is `a` except for the top-level list, which is `servers`. */
  predicate OnlyTopChanged(a: Config, b: Config, servers: seq<Server>) {
    b == a.(servers := servers)
  }

  /** One of the server lists of a configuration: the top level, or the
      list of the group at a position. */
  datatype List = TopList | GroupList(g: nat)

  predicate ValidList(cfg: Config, l: List) {
    l.GroupList? ==> l.g < |cfg.groups|
  }

  /** The list an entry points into. */
  function Which(e: IndexEntry): List
    requires e.kind == InGroup ==> e.groupIndex >= 0
  {
    if e.kind == TopLevel then TopList else GroupList(e.groupIndex)
  }

  function ListOf(cfg: Config, l: List): seq<Server>
    requires ValidList(cfg, l)
  {
    match l
    case TopList => cfg.servers
    case GroupList(g) => cfg.groups[g].servers
  }

  /** `b` is `a` with list `l` changed to `servers`. */
  predicate OnlyListChanged(a: Config, b: Config, l: List, servers: seq<Server>)
    requires ValidList(a, l)
  {
    match l
    case TopList => OnlyTopChanged(a, b, servers)
    case GroupList(g) => OnlyGroupChanged(a, b, g, servers)
  }

  /** Sets list `l`. */
  function WithList(cfg: Config, l: List, servers: seq<Server>): (r: Config)
    requires ValidList(cfg, l)
    ensures OnlyListChanged(cfg, r, l, servers)
    ensures Total(r) + |ListOf(cfg, l)| == Total(cfg) + |servers|
  {
    match l
    case TopList => cfg.(servers := servers)
    case GroupList(g) =>
      var r := cfg.(groups := cfg.groups[g := cfg.groups[g].(servers := servers)]);
      GroupTotalUpdate(cfg.groups, g, cfg.groups[g].(servers := servers));
      r
  }

  /** An entry in range points into a list, at one of its positions. */
  lemma {:induction false} EntryList(cfg: Config, e: IndexEntry)
    requires InRange(cfg, e)
    ensures ValidList(cfg, Which(e)) && e.serverIndex < |ListOf(cfg, Which(e))|
    ensures ListOf(cfg, Which(e))[e.serverIndex] == At(cfg, e)
  {
  }

  // ---------------------------------------------------------------------
  // Remove, replace, append
  // ---------------------------------------------------------------------

  /** Deletes the server at the entry's position from its list, keeping
      the order of the rest; the other lists stay as they are. */
  function RemoveEntry(cfg: Config, e: IndexEntry): (r: Config)
    requires InRange(cfg, e)
    ensures Total(r) + 1 == Total(cfg)
    ensures exists servers :: (OnlyListChanged(cfg, r, Which(e), servers)
      && e.serverIndex <= |servers| && Insert(servers, e.serverIndex, At(cfg, e)) == ListOf(cfg, Which(e)))
  {
    EntryList(cfg, e);
    var list := ListOf(cfg, Which(e));
    var servers := RemoveAt(list, e.serverIndex);
    RemoveAtInverse(list, e.serverIndex);
    WithList(cfg, Which(e), servers)
  }

  /** Puts `s` at the entry's position; the rest of the configuration stays
      as it is. */
  function ReplaceEntry(cfg: Config, e: IndexEntry, s: Server): (r: Config)
    requires InRange(cfg, e)
    ensures InRange(r, e) && At(r, e) == s && Total(r) == Total(cfg)
    ensures ValidList(cfg, Which(e)) && e.serverIndex < |ListOf(cfg, Which(e))|
    ensures OnlyListChanged(cfg, r, Which(e), ListOf(cfg, Which(e))[e.serverIndex := s])
  {
    EntryList(cfg, e);
    WithList(cfg, Which(e), ListOf(cfg, Which(e))[e.serverIndex := s])
  }

  /** Putting back the server that was there restores the configuration. */
  lemma {:induction false} ReplaceSame(cfg: Config, e: IndexEntry)
    requires InRange(cfg, e)
    ensures ReplaceEntry(cfg, e, At(cfg, e)) == cfg
  {
    EntryList(cfg, e);
    var r := ReplaceEntry(cfg, e, At(cfg, e));
    assert ListOf(cfg, Which(e))[e.serverIndex := At(cfg, e)] == ListOf(cfg, Which(e));
    if e.kind == InGroup {
      assert r.groups == cfg.groups;
    }
  }

  /** The last group whose prefix is `p`: the map `prefix -> group` the add
      handlers fill in order keeps the last one. */
  function LastPrefix(groups: seq<Group>, p: string): (r: Option<nat>)
    ensures r.Some? ==> (r.value < |groups| && groups[r.value].prefix == p
      && forall k :: r.value < k < |groups| ==> groups[k].prefix != p)
    ensures r.None? ==> forall k :: 0 <= k < |groups| ==> groups[k].prefix != p
  {
    if |groups| == 0 then None
    else if groups[|groups| - 1].prefix == p then Some(|groups| - 1)
    else LastPrefix(groups[..|groups| - 1], p)
  }

  /** Appends `s` to the last group whose prefix is `p`, or to the top
      level when no group has it: exactly one list grows, by `s` at its
      end. */
  function Append(cfg: Config, p: string, s: Server): (r: Config)
    ensures Total(r) == Total(cfg) + 1
    ensures LastPrefix(cfg.groups, p).None? ==> OnlyTopChanged(cfg, r, cfg.servers + [s])
    ensures LastPrefix(cfg.groups, p).Some? ==>
      var g := LastPrefix(cfg.groups, p).value;
      OnlyGroupChanged(cfg, r, g, cfg.groups[g].servers + [s])
  {
    match LastPrefix(cfg.groups, p)
    case None => WithList(cfg, TopList, cfg.servers + [s])
    case Some(g) => WithList(cfg, GroupList(g), cfg.groups[g].servers + [s])
  }

  // ---------------------------------------------------------------------
  // Reading an id
  // ---------------------------------------------------------------------

  /** The first answer from `i` on that is a key of the index, with the
      number of answers read through it; `None` when the end of input
      (`None` in `ids`) or the end of the answers comes first. */
  function PickId(idx: ServerIndex, ids: seq<Option<string>>, i: nat): (r: Option<(string, nat)>)
    requires i <= |ids|
    ensures r.Some? ==> (i < r.value.1 <= |ids| && ids[r.value.1 - 1] == Some(r.value.0) && r.value.0 in idx
      && forall k :: i <= k < r.value.1 - 1 ==> ids[k].Some? && ids[k].value !in idx)
    ensures r.None? ==> forall k :: i <= k < |ids| && (forall j :: i <= j < k ==> ids[j].Some?) ==> ids[k].None? || ids[k].value !in idx
    decreases |ids| - i
  {
    if i == |ids| then None
    else
      match ids[i]
      case None => None
      case Some(id) => if id in idx then Some((id, i + 1)) else PickId(idx, ids, i + 1)
  }
}

=== FILE: copyengine.dfy ===
/** The `cp` sub-command of src/app/show_cp.go: parsing `[server:]path`
    transfer objects and the command line, the recursive transfer of a file
    or directory tree, the choice of each destination file name, the byte
    copy of one file, and the error policy of upload and download. Both ends
    are `Vfs` volumes; the SFTP connection is a dial outcome. */
module CopyEngine {
  import opened Wrappers
  import opened Model
  import GoStrings
  import GoPath
  import Vfs
  import ByteCopy

  // ---------------------------------------------------------------------
  // Transfer objects and the command line
  // ---------------------------------------------------------------------

  /** Where a transfer object lives: on this machine, or on the server
      found under `key` in the server index. */
  datatype Side = Local | Remote(key: string, server: Server)

  /** `TransferObject`: the raw argument, its side and its path. */
  datatype TransferObject = TransferObject(raw: string, side: Side, path: string)

  const IncompleteMessage := "请输入完整参数"
  const BothLocalMessage := "源和目标不能同时为本地地址"
  const MixedSourcesMessage := "source 类型不一致"
  const FormatErrorSuffix := " 格式错误"

  function UnknownServerMessage(key: string): string {
    "服务器" + key + "不存在"
  }

  /** `newTransferObject`: split the argument at colons; one part is a
      local path, two parts are a server key and a (trimmed) remote path,
      anything else is malformed. */
  function NewTransferObject(index: ServerIndex, raw: string): (r: Result<TransferObject, string>)
    ensures ':' !in raw ==> r == Ok(TransferObject(raw, Local, raw))
    ensures multiset(raw)[':'] >= 2 ==> r == Err(raw + FormatErrorSuffix)
    ensures multiset(raw)[':'] == 1 ==>
      var parts := GoStrings.Split(raw, ':');
      && |parts| == 2 && raw == parts[0] + ":" + parts[1]
      && ':' !in parts[0] && ':' !in parts[1]
      && (r.Ok? <==> parts[0] in index)
      && (r.Ok? ==> r.value == TransferObject(raw, Remote(parts[0], index[parts[0]].server), GoStrings.TrimSpace(parts[1])))
      && (r.Err? ==> r.error == UnknownServerMessage(parts[0]))
  {
    var args := GoStrings.Split(raw, ':');
    GoStrings.SplitCount(raw, ':');
    if |args| == 1 then
      assert ':' !in raw ==> args == [raw] by {
        if ':' !in raw {
          GoStrings.SplitWithoutSeparator(raw, ':');
        }
      }
      Ok(TransferObject(raw, Local, args[0]))
    else if |args| == 2 then
      assert raw == args[0] + ":" + args[1] by {
        GoStrings.SplitThenJoin(raw, ':');
        JoinTwo(args[0], args[1]);
      }
      var path := GoStrings.TrimSpace(args[1]);
      if args[0] !in index then Err(UnknownServerMessage(args[0]))
      else Ok(TransferObject(raw, Remote(args[0], index[args[0]].server), path))
    else Err(raw + FormatErrorSuffix)
  }

  lemma {:induction false} JoinTwo(a: string, b: string)
    ensures GoStrings.Join([a, b], ':') == a + ":" + b
  {
    GoStrings.JoinSnoc([a], b, ':');
    assert [a] + [b] == [a, b];
  }

  /** A parsed `cp` command line. */
  datatype Command = Command(recursive: bool, sources: seq<TransferObject>, target: TransferObject)

  predicate IsLocal(o: TransferObject) {
    o.side.Local?
  }

  /** Whether the source loop of `Cp.parse` stops at argument `j`: it did
      not parse, it is local when the target is, or its locality differs
      from that of the argument before. */
  predicate Fails(parsed: seq<Result<TransferObject, string>>, target: TransferObject, j: nat)
    requires j < |parsed|
  {
    match parsed[j]
    case Err(_) => true
    case Ok(s) =>
      || (IsLocal(s) && IsLocal(target))
      || (j > 0 && parsed[j - 1].Ok? && IsLocal(s) != IsLocal(parsed[j - 1].value))
  }

  /** The first argument from `i` on at which the source loop stops, or
      `|parsed|` when none does. */
  function FirstFail(parsed: seq<Result<TransferObject, string>>, target: TransferObject, i: nat): (j: nat)
    requires i <= |parsed|
    ensures i <= j <= |parsed|
    ensures forall m :: i <= m < j ==> !Fails(parsed, target, m)
    ensures j < |parsed| ==> Fails(parsed, target, j)
    decreases |parsed| - i
  {
    if i == |parsed| || Fails(parsed, target, i) then i else FirstFail(parsed, target, i + 1)
  }

  /** The source loop of `Cp.parse`, from argument `i` on, over the
      arguments' parse results: each must have parsed, must not be local
      when the target is, and must have the locality of the one before. */
  function ParseSources(parsed: seq<Result<TransferObject, string>>, target: TransferObject, i: nat, acc: seq<TransferObject>)
    : (r: Result<seq<TransferObject>, string>)
    requires i == |acc| <= |parsed|
    requires forall j :: 0 <= j < i ==> parsed[j] == Ok(acc[j])
    ensures r.Ok? <==> FirstFail(parsed, target, i) == |parsed|
    ensures r.Ok? ==> |r.value| == |parsed| && r.value[..i] == acc
    ensures r.Ok? ==> forall j :: 0 <= j < |parsed| ==> parsed[j] == Ok(r.value[j])
    ensures r.Ok? ==> forall j :: i <= j < |parsed| ==> !(IsLocal(r.value[j]) && IsLocal(target))
    ensures r.Ok? ==> forall j :: i <= j < |parsed| && j > 0 ==> IsLocal(r.value[j]) == IsLocal(r.value[j - 1])
    ensures r.Err? ==> FirstFailing(parsed, target, FirstFail(parsed, target, i), r.error)
    decreases |parsed| - i
  {
    if i == |parsed| then Ok(acc)
    else
      match parsed[i]
      case Err(e) =>
        assert FirstFailing(parsed, target, i, e);
        Err(e)
      case Ok(s) =>
        if IsLocal(s) && IsLocal(target) then
          assert FirstFailing(parsed, target, i, BothLocalMessage);
          Err(BothLocalMessage)
        else if i > 0 && IsLocal(s) != IsLocal(acc[i - 1]) then
          assert FirstFailing(parsed, target, i, MixedSourcesMessage);
          Err(MixedSourcesMessage)
        else
          assert !Fails(parsed, target, i);
          ParseSources(parsed, target, i + 1, acc + [s])
  }

  /** Argument `j` is where the source loop stops, with message `e`. */
  predicate FirstFailing(parsed: seq<Result<TransferObject, string>>, target: TransferObject, j: nat, e: string)
    requires j < |parsed|
  {
    match parsed[j]
    case Err(m) => e == m
    case Ok(s) =>
      || (IsLocal(s) && IsLocal(target) && e == BothLocalMessage)
      || (!(IsLocal(s) && IsLocal(target)) && j > 0 && parsed[j - 1].Ok? && IsLocal(s) != IsLocal(parsed[j - 1].value)
          && e == MixedSourcesMessage)
  }

  lemma {:induction false} SameLocality(s: seq<TransferObject>)
    requires forall j :: 0 < j < |s| ==> IsLocal(s[j]) == IsLocal(s[j - 1])
    ensures forall j :: 0 <= j < |s| ==> IsLocal(s[j]) == IsLocal(s[0])
    decreases |s|
  {
    if |s| > 1 {
      var p := s[..|s| - 1];
      assert forall j :: 0 <= j < |p| ==> p[j] == s[j];
      SameLocality(p);
      assert IsLocal(s[|s| - 1]) == IsLocal(p[|p| - 1]);
    }
  }

  /** The transfer objects on the command line after an optional `-r`:
      a lone operand gets the temporary directory as its target. */
  function Operands(args: seq<string>, tempDir: string): (r: seq<string>)
    requires |args| > 0 && args != ["-r"]
    ensures |r| >= 2
    ensures var rest := if args[0] == "-r" then args[1..] else args;
      (|rest| == 1 ==> r == rest + [tempDir]) && (|rest| > 1 ==> r == rest)
  {
    var rest := if args[0] == "-r" then args[1..] else args;
    if |rest| == 1 then [rest[0], tempDir] else rest
  }

  /** The operands of a command line `Cp.parse` accepts: the target parses,
      every source parses, no source is local when the target is, and all
      sources have one locality. */
  predicate Acceptable(index: ServerIndex, all: seq<string>)
    requires |all| >= 2
  {
    var target := NewTransferObject(index, all[|all| - 1]);
    var p := Parsed(index, all);
    && target.Ok?
    && p[0].Ok?
    && forall j :: 0 <= j < |p| ==>
      && p[j].Ok?
      && !(IsLocal(p[j].value) && IsLocal(target.value))
      && IsLocal(p[j].value) == IsLocal(p[0].value)
  }

  /** `Cp.parse` over the arguments after the sub-command name: without an
      operand the arguments are incomplete; otherwise the operands, after an
      optional `-r`, are parsed by `ParseAll`. */
  function Parse(index: ServerIndex, args: seq<string>, tempDir: string): (r: Result<Command, string>)
    ensures |args| == 0 || args == ["-r"] ==> r == Err(IncompleteMessage)
    ensures |args| > 0 && args != ["-r"] ==> r == ParseAll(index, Operands(args, tempDir), args[0] == "-r")
    ensures r.Ok? ==> (r.value.recursive <==> args[0] == "-r")
  {
    if |args| == 0 || args == ["-r"] then Err(IncompleteMessage)
    else ParseAll(index, Operands(args, tempDir), args[0] == "-r")
  }

  /** `Cp.parse` once the operands are known: the target first, then the
      source loop. */
  function ParseAll(index: ServerIndex, all: seq<string>, recursive: bool): (r: Result<Command, string>)
    requires |all| >= 2
    ensures var target := NewTransferObject(index, all[|all| - 1]);
      var p := Parsed(index, all);
      && (r.Ok? <==> target.Ok? && FirstFail(p, target.value, 0) == |p|)
      && (target.Err? ==> r == Err(target.error))
      && (target.Ok? && FirstFail(p, target.value, 0) < |p| ==>
            r.Err? && FirstFailing(p, target.value, FirstFail(p, target.value, 0), r.error))
    ensures r.Ok? ==> r.value.recursive == recursive && |r.value.sources| == |all| - 1 >= 1
    ensures r.Ok? ==> forall j :: 0 <= j < |r.value.sources| ==> IsLocal(r.value.sources[j]) == IsLocal(r.value.sources[0])
    ensures r.Ok? ==> !(IsLocal(r.value.sources[0]) && IsLocal(r.value.target))
  {
    var p := Parsed(index, all);
    match NewTransferObject(index, all[|all| - 1])
    case Err(e) => Err(e)
    case Ok(target) =>
      match ParseSources(p, target, 0, [])
      case Err(e) => Err(e)
      case Ok(sources) =>
        SameLocality(sources);
        Ok(Command(recursive, sources, target))
  }

  /** With a parsed target, the operands are acceptable iff the source loop
      finds no failing argument. */
  lemma {:induction false} AcceptableIffNoFailure(index: ServerIndex, all: seq<string>)
    requires |all| >= 2 && NewTransferObject(index, all[|all| - 1]).Ok?
    ensures Acceptable(index, all) <==>
      FirstFail(Parsed(index, all), NewTransferObject(index, all[|all| - 1]).value, 0) == |all| - 1
  {
    var target := NewTransferObject(index, all[|all| - 1]).value;
    var p := Parsed(index, all);
    var f := FirstFail(p, target, 0);
    if f == |p| {
      NoFailureSameLocality(p, target, |p|);
    } else {
      assert Fails(p, target, f);
      if p[f].Ok? && !(IsLocal(p[f].value) && IsLocal(target)) {
        assert f > 0 && p[f - 1].Ok? && IsLocal(p[f].value) != IsLocal(p[f - 1].value);
      }
    }
  }

  /** Where the source loop passes every argument, each has the locality
      of the first. */
  lemma {:induction false} NoFailureSameLocality(p: seq<Result<TransferObject, string>>, target: TransferObject, n: nat)
    requires 0 < n <= |p|
    requires forall m :: 0 <= m < n ==> !Fails(p, target, m)
    ensures p[0].Ok?
    ensures forall j :: 0 <= j < n ==> p[j].Ok? && IsLocal(p[j].value) == IsLocal(p[0].value)
    decreases n
  {
    assert !Fails(p, target, n - 1);
    if n > 1 {
      NoFailureSameLocality(p, target, n - 1);
    }
  }

  /** `Cp.parse` accepts a command line iff its operands are acceptable. */
  lemma {:induction false} ParseAcceptsIff(index: ServerIndex, args: seq<string>, tempDir: string)
    requires |args| > 0 && args != ["-r"]
    ensures Parse(index, args, tempDir).Ok? <==> Acceptable(index, Operands(args, tempDir))
  {
    var all := Operands(args, tempDir);
    assert Parse(index, args, tempDir) == ParseAll(index, all, args[0] == "-r");
    if NewTransferObject(index, all[|all| - 1]).Ok? {
      AcceptableIffNoFailure(index, all);
    }
  }

  /** `key:path` with a known key is a remote transfer object. */
  lemma {:induction false} KnownServerParses(index: ServerIndex, raw: string)
    requires multiset(raw)[':'] == 1 && GoStrings.Split(raw, ':')[0] in index
    ensures NewTransferObject(index, raw).Ok? && !IsLocal(NewTransferObject(index, raw).value)
  {
  }

  /** Operands that all parse as remote objects are acceptable. */
  lemma {:induction false} AllRemoteAcceptable(index: ServerIndex, all: seq<string>)
    requires |all| >= 2
    requires forall j :: 0 <= j < |all| ==>
      NewTransferObject(index, all[j]).Ok? && !IsLocal(NewTransferObject(index, all[j]).value)
    ensures Acceptable(index, all)
  {
    var p := Parsed(index, all);
    forall j | 0 <= j < |p| ensures p[j] == NewTransferObject(index, all[j]) {
    }
  }

  /** A copy between servers, every operand naming a known server, is
      never rejected. */
  lemma {:induction false} RemoteToRemoteAccepted(index: ServerIndex, args: seq<string>, tempDir: string)
    requires |args| > 0 && args != ["-r"]
    requires var all := Operands(args, tempDir);
      forall j :: 0 <= j < |all| ==>
        multiset(all[j])[':'] == 1 && GoStrings.Split(all[j], ':')[0] in index
    ensures Parse(index, args, tempDir).Ok?
    ensures !IsLocal(Parse(index, args, tempDir).value.target)
    ensures forall j :: 0 <= j < |Parse(index, args, tempDir).value.sources| ==>
      !IsLocal(Parse(index, args, tempDir).value.sources[j])
  {
    var all := Operands(args, tempDir);
    forall j | 0 <= j < |all| ensures NewTransferObject(index, all[j]).Ok? && !IsLocal(NewTransferObject(index, all[j]).value) {
      KnownServerParses(index, all[j]);
    }
    AllRemoteAcceptable(index, all);
    ParseAcceptsIff(index, args, tempDir);
    ParseOperands(index, args, tempDir);
  }

  /** The parse results of all operands but the last. */
  function Parsed(index: ServerIndex, all: seq<string>): (r: seq<Result<TransferObject, string>>)
    requires |all| >= 1
    ensures |r| == |all| - 1
  {
    seq(|all| - 1, j requires 0 <= j < |all| - 1 => NewTransferObject(index, all[j]))
  }

  /** A parsed command line holds the transfer objects of its operands:
      the last is the target, the others the sources in order. */
  lemma {:induction false} ParseOperands(index: ServerIndex, args: seq<string>, tempDir: string)
    ensures var r := Parse(index, args, tempDir);
      r.Ok? ==>
        var all := Operands(args, tempDir);
        && NewTransferObject(index, all[|all| - 1]) == Ok(r.value.target)
        && |r.value.sources| == |all| - 1
        && forall j :: 0 <= j < |r.value.sources| ==> NewTransferObject(index, all[j]) == Ok(r.value.sources[j])
  {
    var r := Parse(index, args, tempDir);
    if r.Ok? {
      var all := Operands(args, tempDir);
      ParseUnfolds(index, args, tempDir);
      ParsedSources(index, all, r.value.target, r.value.sources);
    }
  }

  lemma {:induction false} ParseUnfolds(index: ServerIndex, args: seq<string>, tempDir: string)
    requires Parse(index, args, tempDir).Ok?
    ensures var c := Parse(index, args, tempDir).value;
      var all := Operands(args, tempDir);
      && NewTransferObject(index, all[|all| - 1]) == Ok(c.target)
      && ParseSources(Parsed(index, all), c.target, 0, []) == Ok(c.sources)
  {
  }

  lemma {:induction false} ParsedSources(index: ServerIndex, all: seq<string>, target: TransferObject, sources: seq<TransferObject>)
    requires |all| >= 1 && ParseSources(Parsed(index, all), target, 0, []) == Ok(sources)
    ensures |sources| == |all| - 1
    ensures forall j :: 0 <= j < |sources| ==> NewTransferObject(index, all[j]) == Ok(sources[j])
  {
    var parsed := Parsed(index, all);
    forall j | 0 <= j < |sources| ensures NewTransferObject(index, all[j]) == Ok(sources[j]) {
      assert parsed[j] == NewTransferObject(index, all[j]);
    }
  }

  // ---------------------------------------------------------------------
  // Destination names and the copy of one file
  // ---------------------------------------------------------------------

  /** The fields of `Cp` a transfer reads: the `-r` flag and the target's
      path (reported on a write failure). `mkdirAll` selects the corrected
      destination resolver `ParseDstFilenameFixed`; the program as written
      runs with it off. */
  datatype Job = Job(recursive: bool, targetPath: string, mkdirAll: bool)

  /** `Cp.parseDstFilename`: the name a source file is written to, the
      destination volume after any directory it created, and the error. */
  function ParseDstFilename(job: Job, v: Vfs.Volume, src: string, dst: string)
    : (r: (Vfs.Volume, string, Option<Vfs.FsError>))
    ensures Vfs.Stat(v, dst) == Ok(true) ==> r == (v, GoPath.Join(dst, GoPath.Base(src)), None)
    ensures Vfs.Stat(v, dst) == Ok(false) ==> r == (v, dst, None)
    ensures Vfs.Stat(v, dst).Err? && Vfs.Stat(v, dst).error != Vfs.NotExist ==>
      r == (v, dst, Some(Vfs.Stat(v, dst).error))
    ensures Vfs.Stat(v, dst) == Err(Vfs.NotExist) && job.recursive ==>
      match Vfs.Mkdir(v, dst)
      case Ok(w) => r == (w, GoPath.Join(dst, GoPath.Base(src)), None)
      case Err(e) => r == (v, dst, Some(e))
    ensures Vfs.Stat(v, dst) == Err(Vfs.NotExist) && !job.recursive ==>
      match Vfs.Stat(v, GoPath.Dir(dst))
      case Ok(_) => r.0 == v && r.2 == None && (dst == "" || dst == GoPath.Clean(dst) ==> r.1 == GoPath.Clean(dst))
      case Err(e) => r == (v, dst, Some(e))
    ensures r.2.Some? ==> r.1 == dst
  {
    match Vfs.Stat(v, dst)
    case Err(e) =>
      if e != Vfs.NotExist then (v, dst, Some(e))
      else if job.recursive then
        (match Vfs.Mkdir(v, dst)
         case Err(e2) => (v, dst, Some(e2))
         case Ok(w) => (w, GoPath.Join(dst, GoPath.Base(src)), None))
      else
        (match Vfs.Stat(v, GoPath.Dir(dst))
         case Err(e2) => (v, dst, Some(e2))
         case Ok(_) =>
           assert dst == "" || dst == GoPath.Clean(dst) ==> GoPath.Join(GoPath.Dir(dst), GoPath.Base(dst)) == GoPath.Clean(dst) by {
             if dst == "" || dst == GoPath.Clean(dst) {
               GoPath.JoinDirBase(dst);
             }
           }
           (v, GoPath.Join(GoPath.Dir(dst), GoPath.Base(dst)), None))
    case Ok(isDir) =>
      (v, if isDir then GoPath.Join(dst, GoPath.Base(src)) else dst, None)
  }

  /** What the copy engine reports for a failed object. */
  datatype Cause = Io(error: Vfs.FsError) | IsDirectory

  /** A reported failure: the name printed with it and its cause. */
  datatype Failure = Failure(name: string, cause: Cause)

  /** The destination resolver of a job: `Cp.parseDstFilename` as written,
      or the corrected one when `mkdirAll` is set. */
  function Destination(job: Job, v: Vfs.Volume, src: string, dst: string): (Vfs.Volume, string, Option<Vfs.FsError>) {
    if job.mkdirAll then ParseDstFilenameFixed(job, v, src, dst) else ParseDstFilename(job, v, src, dst)
  }

  /** `Cp.ioCopy`: resolve the destination name, create the file, then run
      the byte loop over the source's content. */
  function IoCopy(job: Job, v: Vfs.Volume, src: string, data: seq<GoStrings.byte>, faulty: bool, dst: string)
    : (r: (Vfs.Volume, Option<Failure>))
    ensures var p := Destination(job, v, src, dst);
      p.2.Some? ==> r == (p.0, Some(Failure(p.1, Io(p.2.value))))
    ensures var p := Destination(job, v, src, dst);
      p.2.None? && Vfs.Create(p.0, p.1).Err? ==> r == (p.0, Some(Failure(p.1, Io(Vfs.Create(p.0, p.1).error))))
    ensures var p := Destination(job, v, src, dst);
      p.2.None? && Vfs.Create(p.0, p.1).Ok? ==>
        var (w, k) := Vfs.Create(p.0, p.1).value;
        && r.0.cwd == w.cwd && r.0.nodes.Keys == w.nodes.Keys
        && (forall q :: q in w.nodes && q != k ==> r.0.nodes[q] == w.nodes[q])
        && (|data| <= w.free ==> r.0.nodes[k] == Vfs.File(data, false) && r.0.free == w.free - |data|)
        && (|data| <= w.free ==> r.1 == if faulty then Some(Failure(src, Io(Vfs.ReadFailure))) else None)
        && (|data| > w.free ==> r.1 == Some(Failure(job.targetPath, Io(Vfs.NoSpace))))
  {
    var (v1, name, err) := Destination(job, v, src, dst);
    if err.Some? then (v1, Some(Failure(name, Io(err.value))))
    else
      match Vfs.Create(v1, name)
      case Err(e) => (v1, Some(Failure(name, Io(e))))
      case Ok((w, k)) => Fill(job, w, k, src, data, faulty)
  }

  /** The byte loop of `Cp.ioCopy` into the freshly created file `k`: a
      read error names the source, a full disk the target. */
  function Fill(job: Job, w: Vfs.Volume, k: Vfs.Key, src: string, data: seq<GoStrings.byte>, faulty: bool)
    : (r: (Vfs.Volume, Option<Failure>))
    requires k in w.nodes && w.nodes[k] == Vfs.File([], false)
    ensures r.0.cwd == w.cwd && r.0.nodes.Keys == w.nodes.Keys
    ensures forall q :: q in w.nodes && q != k ==> r.0.nodes[q] == w.nodes[q]
    ensures |data| <= w.free ==> r.0.nodes[k] == Vfs.File(data, false) && r.0.free == w.free - |data|
    ensures |data| <= w.free ==> r.1 == if faulty then Some(Failure(src, Io(Vfs.ReadFailure))) else None
    ensures |data| > w.free ==> r.1 == Some(Failure(job.targetPath, Io(Vfs.NoSpace)))
  {
    var c := ByteCopy.Copy(ByteCopy.FileScript(data, faulty), w.free);
    ByteCopy.CopySpec(ByteCopy.FileScript(data, faulty), w.free);
    ByteCopy.FileCopy(data, faulty, w.free);
    var v3 := Vfs.Append(w, k, c.written).value;
    assert v3.nodes[k].data == c.written;
    match c.end
    case Done => (v3, None)
    case ReadError => (v3, Some(Failure(src, Io(Vfs.ReadFailure))))
    case WriteError => (v3, Some(Failure(job.targetPath, Io(Vfs.NoSpace))))
  }

  // ---------------------------------------------------------------------
  // The recursive transfer
  // ---------------------------------------------------------------------

  /** A call of `ioCopy`: the source file and the destination passed in. */
  datatype CopyCall = CopyCall(src: string, dst: string)

  /** What a transfer did: the destination volume afterwards, the failures
      it printed (in order), the failure it returned, the source paths it
      visited (in order), and the `ioCopy` calls it made (in order). */
  datatype Outcome = Outcome(
    dst: Vfs.Volume,
    printed: seq<Failure>,
    ret: Option<Failure>,
    visited: seq<string>,
    copies: seq<CopyCall>
  )

  /** The failure a parent prints for a child, if any. */
  function Report(f: Option<Failure>): (r: seq<Failure>)
    ensures |r| <= 1 && (r == [] <==> f.None?)
  {
    match f
    case None => []
    case Some(x) => [x]
  }

  /** Size of the source sub-tree a path names: the termination measure of
      the recursion. */
  function Measure(from: Vfs.Volume, s: string): nat {
    match Vfs.Resolve(from, s)
    case None => 0
    case Some(k) => |Vfs.Below(from.nodes, k)|
  }

  /** The virtual sub-path handed to the children of directory `s`: the
      root marker for the top directory (whose own name is dropped), else
      the parent's sub-path extended by the directory's name. */
  function SubPath(vp: string, s: string): string {
    if vp == "" then "/" else GoPath.Join(vp, GoPath.Base(s))
  }

  /** `Cp.transfer(src = s, dst = d, vPath = vp)`, reading from `from` and
      writing to `to`. */
  function Transfer(job: Job, from: Vfs.Volume, to: Vfs.Volume, s: string, d: string, vp: string): (r: Outcome)
    ensures |r.visited| >= 1 && r.visited[0] == s
    ensures Vfs.Open(from, s).Err? ==>
      r == Outcome(to, [], Some(Failure(s, Io(Vfs.Open(from, s).error))), [s], [])
    ensures Vfs.Open(from, s).Ok? && Vfs.Open(from, s).value.1.OpenedDir? && !job.recursive ==>
      r == Outcome(to, [], Some(Failure(s, IsDirectory)), [s], [])
    ensures Vfs.Open(from, s).Ok? && Vfs.Open(from, s).value.1.OpenedDir? && job.recursive ==>
      r.ret == if Vfs.Open(from, s).value.1.listable then None else Some(Failure(s, Io(Vfs.Permission)))
    ensures Vfs.Open(from, s).Ok? && Vfs.Open(from, s).value.1.OpenedFile? ==>
      var f := Vfs.Open(from, s).value.1;
      r.copies == [CopyCall(s, GoPath.Join(d, vp))] &&
      (r.dst, r.ret) == IoCopy(job, to, s, f.data, f.faulty, GoPath.Join(d, vp))
    decreases Measure(from, s), 1, 0
  {
    match Vfs.Open(from, s)
    case Err(e) => Outcome(to, [], Some(Failure(s, Io(e))), [s], [])
    case Ok((k, OpenedDir(entries, listable))) =>
      if !job.recursive then Outcome(to, [], Some(Failure(s, IsDirectory)), [s], [])
      else if !listable then Outcome(to, [], Some(Failure(s, Io(Vfs.Permission))), [s], [])
      else
        var o := Children(job, from, to, s, k, entries, 0, d, SubPath(vp, s));
        Outcome(o.dst, o.printed, None, [s] + o.visited, o.copies)
    case Ok((k, OpenedFile(data, faulty))) =>
      var newDst := GoPath.Join(d, vp);
      var (w, f) := IoCopy(job, to, s, data, faulty, newDst);
      Outcome(w, [], f, [s], [CopyCall(s, newDst)])
  }

  /** The loop over a directory's listing from entry `i` on: each child is
      transferred, a failing child is printed, and the loop goes on. */
  function Children(job: Job, from: Vfs.Volume, to: Vfs.Volume, s: string, k: Vfs.Key,
                    entries: seq<GoPath.Name>, i: nat, d: string, sub: string): (r: Outcome)
    requires Vfs.Resolve(from, s) == Some(k) && k in from.nodes && i <= |entries|
    ensures r.ret == None
    decreases |Vfs.Below(from.nodes, k)|, 0, |entries| - i
  {
    if i == |entries| then Outcome(to, [], None, [], [])
    else
      var child := GoPath.Join(s, entries[i]);
      Vfs.ResolveJoin(from, s, entries[i]);
      Vfs.BelowShrinks(from.nodes, k, entries[i]);
      var o1 := Transfer(job, from, to, child, d, sub);
      var o2 := Children(job, from, o1.dst, s, k, entries, i + 1, d, sub);
      Outcome(o2.dst, o1.printed + Report(o1.ret) + o2.printed, None, o1.visited + o2.visited, o1.copies + o2.copies)
  }

  lemma {:induction false} InLeft<T>(a: seq<T>, b: seq<T>, x: T)
    requires x in a
    ensures x in a + b
  {
    var m :| 0 <= m < |a| && a[m] == x;
    assert (a + b)[m] == x;
  }

  lemma {:induction false} InRight<T>(a: seq<T>, b: seq<T>, x: T)
    requires x in b
    ensures x in a + b
  {
    var m :| 0 <= m < |b| && b[m] == x;
    assert (a + b)[|a| + m] == x;
  }

  /** The loop over a directory's listing visits every child. */
  lemma {:induction false} ChildrenVisitAll(job: Job, from: Vfs.Volume, to: Vfs.Volume, s: string, k: Vfs.Key,
                         entries: seq<GoPath.Name>, i: nat, d: string, sub: string)
    requires Vfs.Resolve(from, s) == Some(k) && k in from.nodes && i <= |entries|
    ensures forall j :: i <= j < |entries| ==> GoPath.Join(s, entries[j]) in Children(job, from, to, s, k, entries, i, d, sub).visited
  {
    forall j | i <= j < |entries|
      ensures GoPath.Join(s, entries[j]) in Children(job, from, to, s, k, entries, i, d, sub).visited
    {
      ChildrenVisit(job, from, to, s, k, entries, i, d, sub, j);
    }
  }

  lemma {:induction false} ChildrenVisit(job: Job, from: Vfs.Volume, to: Vfs.Volume, s: string, k: Vfs.Key,
                                         entries: seq<GoPath.Name>, i: nat, d: string, sub: string, j: nat)
    requires Vfs.Resolve(from, s) == Some(k) && k in from.nodes && i <= j < |entries|
    ensures GoPath.Join(s, entries[j]) in Children(job, from, to, s, k, entries, i, d, sub).visited
    decreases j - i
  {
    var child := GoPath.Join(s, entries[i]);
    var o1 := Transfer(job, from, to, child, d, sub);
    var o2 := Children(job, from, o1.dst, s, k, entries, i + 1, d, sub);
    assert Children(job, from, to, s, k, entries, i, d, sub).visited == o1.visited + o2.visited;
    if j == i {
      InLeft(o1.visited, o2.visited, child);
    } else {
      ChildrenVisit(job, from, o1.dst, s, k, entries, i + 1, d, sub, j);
      InRight(o1.visited, o2.visited, GoPath.Join(s, entries[j]));
    }
  }

  // ---------------------------------------------------------------------
  // Where files land
  // ---------------------------------------------------------------------

  /** Copy call `c` takes a file strictly below `k` in the source, and
      writes it under `d` at the sub-path `base` followed by the directories
      between `k` and the file. */
  predicate Mapped(from: Vfs.Volume, c: CopyCall, k: Vfs.Key, base: seq<string>, d: string) {
    match Vfs.Resolve(from, c.src)
    case None => false
    case Some(key) => KeyMapped(key, c.dst, k, base, d)
  }

  /** A file of key `key` strictly below `k` written to `dst`, under `d` at
      `base` followed by the directories between. */
  predicate KeyMapped(key: Vfs.Key, dst: string, k: Vfs.Key, base: seq<string>, d: string) {
    && |key| > |k| && key[..|k|] == k
    && dst == GoPath.Join(d, GoPath.Render(GoPath.Loc(true, base + key[|k|..|key| - 1])))
  }

  /** Every file a directory's loop copies lands at its mapped place. */
  lemma {:induction false} ChildrenMapped(job: Job, from: Vfs.Volume, to: Vfs.Volume, s: string, k: Vfs.Key,
                                          entries: seq<GoPath.Name>, i: nat, d: string, base: seq<string>)
    requires Vfs.Resolve(from, s) == Some(k) && k in from.nodes && i <= |entries|
    requires GoPath.AllNames(base)
    ensures var r := Children(job, from, to, s, k, entries, i, d, GoPath.Render(GoPath.Loc(true, base)));
      forall c :: c in r.copies ==> Mapped(from, c, k, base, d)
    decreases |Vfs.Below(from.nodes, k)|, 0, |entries| - i
  {
    if i < |entries| {
      var n := entries[i];
      var o1 := Transfer(job, from, to, GoPath.Join(s, n), d, GoPath.Render(GoPath.Loc(true, base)));
      Vfs.ResolveJoin(from, s, n);
      Vfs.BelowShrinks(from.nodes, k, n);
      ChildMapped(job, from, to, s, k, n, d, base);
      ChildrenMapped(job, from, o1.dst, s, k, entries, i + 1, d, base);
    }
  }

  /** The files one child of directory `s` copies land at their mapped
      place below `s`. */
  lemma {:induction false} ChildMapped(job: Job, from: Vfs.Volume, to: Vfs.Volume, s: string, k: Vfs.Key,
                                       n: GoPath.Name, d: string, base: seq<string>)
    requires Vfs.Resolve(from, s) == Some(k) && GoPath.AllNames(base)
    ensures forall c :: c in Transfer(job, from, to, GoPath.Join(s, n), d, GoPath.Render(GoPath.Loc(true, base))).copies ==>
      Mapped(from, c, k, base, d)
    decreases Measure(from, GoPath.Join(s, n)), 3, 0
  {
    var child := GoPath.Join(s, n);
    var sub := GoPath.Render(GoPath.Loc(true, base));
    var kn := k + [n];
    Vfs.ResolveJoin(from, s, n);
    GoPath.BaseJoinName(s, n);
    assert Vfs.Resolve(from, child) == Some(kn) && kn[|kn| - 1] == n;
    TransferMapped(job, from, to, child, d, sub, base);
    forall c | c in Transfer(job, from, to, child, d, sub).copies ensures Mapped(from, c, k, base, d) {
      if Vfs.Open(from, child).Ok? && Vfs.Open(from, child).value.1.OpenedFile? {
        MappedSelf(from, c, k, n, base, d);
      } else if Vfs.Open(from, child).Ok? {
        assert Vfs.Open(from, child).value.0 == kn;
        assert sub != "";
        MappedLift(from, c, k, n, base, d);
      }
    }
  }

  lemma {:induction false} MappedSelf(from: Vfs.Volume, c: CopyCall, k: Vfs.Key, n: string, base: seq<string>, d: string)
    requires Vfs.Resolve(from, c.src) == Some(k + [n])
    requires c.dst == GoPath.Join(d, GoPath.Render(GoPath.Loc(true, base)))
    ensures Mapped(from, c, k, base, d)
  {
    var key := k + [n];
    assert key[..|k|] == k;
    assert key[|k|..|key| - 1] == [];
    assert base + [] == base;
  }

  lemma {:induction false} MappedLift(from: Vfs.Volume, c: CopyCall, k: Vfs.Key, n: string, base: seq<string>, d: string)
    requires Mapped(from, c, k + [n], base + [n], d)
    ensures Mapped(from, c, k, base, d)
  {
    KeyMappedLift(Vfs.Resolve(from, c.src).value, c.dst, k, n, base, d);
  }

  lemma {:induction false} KeyMappedLift(key: Vfs.Key, dst: string, k: Vfs.Key, n: string, base: seq<string>, d: string)
    requires KeyMapped(key, dst, k + [n], base + [n], d)
    ensures KeyMapped(key, dst, k, base, d)
  {
    var rest := key[|k| + 1..|key| - 1];
    LiftSlices(key, k, n);
    GoStrings.ConcatAssoc(base, [n], rest);
  }

  /** A key below `k + [n]` is below `k`, one name further down. */
  lemma {:induction false} LiftSlices(key: Vfs.Key, k: Vfs.Key, n: string)
    requires |key| > |k| + 1 && key[..|k| + 1] == k + [n]
    ensures key[..|k|] == k
    ensures key[|k|..|key| - 1] == [n] + key[|k| + 1..|key| - 1]
  {
    assert key[..|k|] == key[..|k| + 1][..|k|];
    assert key[|k|] == (k + [n])[|k|];
  }

  /** Transferring `s` with sub-path `vp`: a file is copied to `d` joined
      with `vp`; a directory's files land below it, at a sub-path that
      starts empty for the top directory and otherwise extends `vp` with the
      directory's own name. */
  lemma {:induction false} TransferMapped(job: Job, from: Vfs.Volume, to: Vfs.Volume, s: string, d: string, vp: string,
                                          ms: seq<string>)
    requires vp == "" || (vp == GoPath.Render(GoPath.Loc(true, ms)) && GoPath.AllNames(ms))
    requires vp != "" ==> (s != "" && |Vfs.Resolve(from, s).value| > 0 &&
      GoPath.Base(s) == Vfs.Resolve(from, s).value[|Vfs.Resolve(from, s).value| - 1])
    ensures var r := Transfer(job, from, to, s, d, vp);
      && (Vfs.Open(from, s).Ok? && Vfs.Open(from, s).value.1.OpenedFile? ==> r.copies == [CopyCall(s, GoPath.Join(d, vp))])
      && (Vfs.Open(from, s).Ok? && Vfs.Open(from, s).value.1.OpenedDir? ==>
            var k := Vfs.Open(from, s).value.0;
            forall c :: c in r.copies ==> Mapped(from, c, k, if vp == "" then [] else ms + [k[|k| - 1]], d))
      && (Vfs.Open(from, s).Err? ==> r.copies == [])
    decreases Measure(from, s), 2, 0
  {
    if Vfs.Open(from, s).Ok? && Vfs.Open(from, s).value.1.OpenedDir? {
      TransferDirMapped(job, from, to, s, d, vp, ms);
    }
  }

  /** The directory case of `TransferMapped`. */
  lemma {:induction false} TransferDirMapped(job: Job, from: Vfs.Volume, to: Vfs.Volume, s: string, d: string, vp: string,
                                             ms: seq<string>)
    requires vp == "" || (vp == GoPath.Render(GoPath.Loc(true, ms)) && GoPath.AllNames(ms))
    requires vp != "" ==> (s != "" && |Vfs.Resolve(from, s).value| > 0 &&
      GoPath.Base(s) == Vfs.Resolve(from, s).value[|Vfs.Resolve(from, s).value| - 1])
    requires Vfs.Open(from, s).Ok? && Vfs.Open(from, s).value.1.OpenedDir?
    ensures var k := Vfs.Open(from, s).value.0;
      forall c :: c in Transfer(job, from, to, s, d, vp).copies ==>
        Mapped(from, c, k, if vp == "" then [] else ms + [k[|k| - 1]], d)
    decreases Measure(from, s), 1, 0
  {
    var k := Vfs.Open(from, s).value.0;
    var entries := Vfs.Open(from, s).value.1.entries;
    if job.recursive && Vfs.Open(from, s).value.1.listable {
      var last := if vp == "" then "a" else k[|k| - 1];
      var base := if vp == "" then [] else ms + [last];
      SubPathRooted(vp, s, ms, last);
      ChildrenMapped(job, from, to, s, k, entries, 0, d, base);
      assert Transfer(job, from, to, s, d, vp).copies ==
        Children(job, from, to, s, k, entries, 0, d, GoPath.Render(GoPath.Loc(true, base))).copies;
    }
  }

  /** The sub-path of a directory's children is the rooted path of the
      names leading to it. */
  lemma {:induction false} SubPathRooted(vp: string, s: string, ms: seq<string>, last: string)
    requires vp == "" || (vp == GoPath.Render(GoPath.Loc(true, ms)) && GoPath.AllNames(ms)
      && GoPath.IsName(last) && GoPath.Base(s) == last)
    ensures GoPath.AllNames(if vp == "" then [] else ms + [last])
    ensures SubPath(vp, s) == GoPath.Render(GoPath.Loc(true, if vp == "" then [] else ms + [last]))
  {
    if vp == "" {
      GoPath.RootRender();
    } else {
      GoPath.JoinRooted(ms, last);
    }
  }

  /** Destination mapping of a whole command-line source: a file source is
      copied to the target joined with nothing; a directory source's file at
      `d1/…/dk/f` below it is copied to the target joined with `/d1/…/dk`,
      the source directory's own name being dropped. */
  lemma {:induction false} CopyDestinations(job: Job, from: Vfs.Volume, to: Vfs.Volume, s: string, d: string)
    ensures var r := Transfer(job, from, to, s, d, "");
      && (Vfs.Open(from, s).Ok? && Vfs.Open(from, s).value.1.OpenedFile? ==> r.copies == [CopyCall(s, GoPath.Join(d, ""))])
      && (Vfs.Open(from, s).Ok? && Vfs.Open(from, s).value.1.OpenedDir? ==>
            var k := Vfs.Open(from, s).value.0;
            forall c :: c in r.copies ==> Mapped(from, c, k, [], d))
  {
    TransferMapped(job, from, to, s, d, "", []);
  }

  /** Copying one intact file into an existing directory that has room for
      it, where its name is free or names a file: the transfer succeeds and
      the directory then holds a file of that name with exactly the source's
      content. */
  lemma {:induction false} CopyFileIntoDirectory(job: Job, from: Vfs.Volume, to: Vfs.Volume, s: string, d: string, data: seq<GoStrings.byte>)
    requires Vfs.Open(from, s).Ok? && Vfs.Open(from, s).value.1 == Vfs.OpenedFile(data, false)
    requires Vfs.Stat(to, d) == Ok(true)
    requires GoPath.IsName(GoPath.Base(s))
    requires |data| <= to.free
    requires var t := Vfs.Resolve(to, d).value + [GoPath.Base(s)]; t !in to.nodes || to.nodes[t].File?
    ensures var r := Transfer(job, from, to, s, d, "");
      var t := Vfs.Resolve(to, d).value + [GoPath.Base(s)];
      && r.ret == None && t in r.dst.nodes && r.dst.nodes[t] == Vfs.File(data, false)
  {
    var b := GoPath.Base(s);
    var kd := Vfs.Resolve(to, d).value;
    var t := kd + [b];
    var cd := GoPath.Join(d, "");
    ResolveClean(to, d);
    assert Vfs.Stat(to, cd) == Ok(true);
    var name := GoPath.Join(cd, b);
    assert Destination(job, to, s, cd) == (to, name, None);
    Vfs.ResolveJoin(to, cd, b);
    assert Vfs.Resolve(to, name) == Some(t);
    assert t[..|t| - 1] == kd;
    CreateInDirectory(to, d, b, name);
  }

  /** Creating a free or file name inside an existing directory succeeds
      and opens that name. */
  lemma {:induction false} CreateInDirectory(to: Vfs.Volume, d: string, b: string, name: string)
    requires Vfs.Stat(to, d) == Ok(true)
    requires GoPath.IsName(b)
    requires Vfs.Resolve(to, name) == Some(Vfs.Resolve(to, d).value + [b])
    requires var t := Vfs.Resolve(to, d).value + [b]; t !in to.nodes || to.nodes[t].File?
    ensures Vfs.Create(to, name).Ok? && Vfs.Create(to, name).value.1 == Vfs.Resolve(to, d).value + [b]
  {
    var kd := Vfs.Resolve(to, d).value;
    ChildOfDirectory(to.nodes, kd, b);
  }

  /** A child key of an existing directory either exists and can be looked
      up, or can be added. */
  lemma {:induction false} ChildOfDirectory(nodes: map<Vfs.Key, Vfs.Node>, kd: Vfs.Key, b: string)
    requires Vfs.Lookup(nodes, kd).Ok? && nodes[kd].Dir?
    ensures kd + [b] in nodes ==> Vfs.Lookup(nodes, kd + [b]) == Ok(nodes[kd + [b]])
    ensures kd + [b] !in nodes ==> Vfs.Addable(nodes, kd + [b])
  {
    var t := kd + [b];
    assert t[..|t| - 1] == kd;
    if t in nodes {
      forall i | 0 <= i < |t| ensures t[..i] in nodes && nodes[t[..i]].Dir? {
        assert t[..i] == kd[..i] || i == |kd|;
      }
      assert Vfs.Reachable(nodes, t);
    }
  }

  /** Cleaning a non-empty path names the same object. */
  lemma {:induction false} ResolveClean(v: Vfs.Volume, d: string)
    requires d != ""
    ensures GoPath.Join(d, "") == GoPath.Clean(d) != ""
    ensures Vfs.Resolve(v, GoPath.Clean(d)) == Vfs.Resolve(v, d)
  {
    GoPath.LocOfClean(d);
    var l := GoPath.LocOf(d);
    GoPath.LocOfReduced(d);
    if !l.abs && |l.segs| > 0 {
      GoPath.JoinHead(l.segs);
    }
  }

  // ---------------------------------------------------------------------
  // Creating the destination directory
  // ---------------------------------------------------------------------

  /** `Cp.parseDstFilename` with `MkdirAll` in place of `Mkdir` for a
      missing destination under `-r`, so that missing parents are created
      as well. */
  function ParseDstFilenameFixed(job: Job, v: Vfs.Volume, src: string, dst: string)
    : (r: (Vfs.Volume, string, Option<Vfs.FsError>))
    ensures Vfs.Stat(v, dst) != Err(Vfs.NotExist) || !job.recursive ==> r == ParseDstFilename(job, v, src, dst)
    ensures Vfs.Stat(v, dst) == Err(Vfs.NotExist) && job.recursive ==>
      match Vfs.MkdirAll(v, dst)
      case Ok(w) => r == (w, GoPath.Join(dst, GoPath.Base(src)), None) && Vfs.Stat(w, dst) == Ok(true)
      case Err(e) => r == (v, dst, Some(e))
  {
    if Vfs.Stat(v, dst) == Err(Vfs.NotExist) && job.recursive then
      match Vfs.MkdirAll(v, dst)
      case Err(e) => (v, dst, Some(e))
      case Ok(w) => (w, GoPath.Join(dst, GoPath.Base(src)), None)
    else ParseDstFilename(job, v, src, dst)
  }

  /** Under `-r`, a destination directory whose parent is missing too is
      not created: the file fails with not-exist. The fixed version creates
      the whole chain and goes on. */
  lemma {:induction false} MissingParentDirectory(job: Job, v: Vfs.Volume, src: string, dst: string)
    requires Vfs.WellFormed(v) && job.recursive
    requires Vfs.Resolve(v, dst).Some? && |Vfs.Resolve(v, dst).value| >= 2
    requires Vfs.Unblocked(v.nodes, Vfs.Resolve(v, dst).value)
    requires Vfs.Resolve(v, dst).value[..|Vfs.Resolve(v, dst).value| - 1] !in v.nodes
    ensures ParseDstFilename(job, v, src, dst) == (v, dst, Some(Vfs.NotExist))
    ensures var f := ParseDstFilenameFixed(job, v, src, dst);
      f.2 == None && Vfs.Stat(f.0, dst) == Ok(true)
  {
    var k := Vfs.Resolve(v, dst).value;
    var parent := k[..|k| - 1];
    assert k !in v.nodes by {
      assert k == parent + [k[|k| - 1]];
    }
    Vfs.LookupMissing(v.nodes, k);
    assert Vfs.Unblocked(v.nodes, parent) by {
      assert forall i :: 0 <= i <= |parent| ==> parent[..i] == k[..i];
    }
    Vfs.LookupMissing(v.nodes, parent);
    Vfs.MkdirAllSucceeds(v, k);
  }

  /** In the copy as written, such a file fails with not-exist under the
      destination's own name and the volume is left as it was. */
  lemma {:induction false} IoCopyMissingParent(job: Job, v: Vfs.Volume, src: string, data: seq<GoStrings.byte>, faulty: bool, dst: string)
    requires Vfs.WellFormed(v) && job.recursive && !job.mkdirAll
    requires Vfs.Resolve(v, dst).Some? && |Vfs.Resolve(v, dst).value| >= 2
    requires Vfs.Unblocked(v.nodes, Vfs.Resolve(v, dst).value)
    requires Vfs.Resolve(v, dst).value[..|Vfs.Resolve(v, dst).value| - 1] !in v.nodes
    ensures IoCopy(job, v, src, data, faulty, dst) == (v, Some(Failure(dst, Io(Vfs.NotExist))))
  {
    MissingParentDirectory(job, v, src, dst);
  }

  // ---------------------------------------------------------------------
  // Upload, download and the sub-command
  // ---------------------------------------------------------------------

  /** The end of a run: the volume written to, the failures printed along
      the way, and the error the run returned. */
  datatype Session = Session(written: Vfs.Volume, printed: seq<Failure>, error: Option<string>)

  /** The source loop of `Cp.upload` from source `i` on: each source is
      transferred into the target path, and a failing one is printed before
      the loop goes on. */
  function TransferEach(job: Job, from: Vfs.Volume, to: Vfs.Volume, sources: seq<TransferObject>, i: nat)
    : (r: (Vfs.Volume, seq<Failure>))
    requires i <= |sources|
    decreases |sources| - i
  {
    if i == |sources| then (to, [])
    else
      var o := Transfer(job, from, to, sources[i].path, job.targetPath, "");
      var rest := TransferEach(job, from, o.dst, sources, i + 1);
      (rest.0, o.printed + Report(o.ret) + rest.1)
  }

  /** Every source that cannot be opened, and every directory when not
      recursive, has its failure printed; the loop goes on after each. */
  lemma {:induction false} TransferEachReported(job: Job, from: Vfs.Volume, to: Vfs.Volume, sources: seq<TransferObject>, i: nat)
    requires i <= |sources|
    ensures forall j :: i <= j < |sources| ==> Reported(job, from, sources[j].path, TransferEach(job, from, to, sources, i).1)
  {
    forall j | i <= j < |sources|
      ensures Reported(job, from, sources[j].path, TransferEach(job, from, to, sources, i).1)
    {
      ReportedAt(job, from, to, sources, i, j);
    }
  }

  lemma {:induction false} ReportedAt(job: Job, from: Vfs.Volume, to: Vfs.Volume, sources: seq<TransferObject>, i: nat, j: nat)
    requires i <= j < |sources|
    ensures Reported(job, from, sources[j].path, TransferEach(job, from, to, sources, i).1)
    decreases j - i
  {
    var o := Transfer(job, from, to, sources[i].path, job.targetPath, "");
    var rest := TransferEach(job, from, o.dst, sources, i + 1);
    assert TransferEach(job, from, to, sources, i).1 == o.printed + Report(o.ret) + rest.1;
    if j == i {
      ReportedHere(job, from, to, sources[i].path, o.printed, rest.1);
    } else {
      ReportedAt(job, from, o.dst, sources, i + 1, j);
      ReportedAfter(job, from, sources[j].path, o.printed + Report(o.ret), rest.1);
    }
  }

  /** The failures the source loop promises to print for source `s`: one
      that cannot be opened, and a directory when not recursive. */
  predicate Reported(job: Job, from: Vfs.Volume, s: string, printed: seq<Failure>) {
    && (Vfs.Open(from, s).Err? ==> Failure(s, Io(Vfs.Open(from, s).error)) in printed)
    && (!job.recursive && Vfs.Open(from, s).Ok? && Vfs.Open(from, s).value.1.OpenedDir? ==>
          Failure(s, IsDirectory) in printed)
  }

  lemma {:induction false} ReportedHere(job: Job, from: Vfs.Volume, to: Vfs.Volume, s: string, pre: seq<Failure>, post: seq<Failure>)
    ensures var o := Transfer(job, from, to, s, job.targetPath, "");
      Reported(job, from, s, pre + Report(o.ret) + post)
  {
    var o := Transfer(job, from, to, s, job.targetPath, "");
    if o.ret.Some? {
      assert (pre + Report(o.ret) + post)[|pre|] == o.ret.value;
    }
  }

  lemma {:induction false} ReportedAfter(job: Job, from: Vfs.Volume, s: string, pre: seq<Failure>, post: seq<Failure>)
    requires Reported(job, from, s, post)
    ensures Reported(job, from, s, pre + post)
  {
    if Vfs.Open(from, s).Err? {
      InRight(pre, post, Failure(s, Io(Vfs.Open(from, s).error)));
    }
    if !job.recursive && Vfs.Open(from, s).Ok? && Vfs.Open(from, s).value.1.OpenedDir? {
      InRight(pre, post, Failure(s, IsDirectory));
    }
  }

  /** `Cp.upload`: one connection to the target's server, `dial` giving
      the error of `GetSftpClient`; if it fails nothing is transferred and
      its error is returned, otherwise every source is transferred from the
      local volume into the target's volume and the run returns no error. */
  function Upload(job: Job, local: Vfs.Volume, remote: Vfs.Volume, dial: Server -> Option<string>,
                  sources: seq<TransferObject>, target: TransferObject): (r: Session)
    requires target.side.Remote?
    ensures dial(target.side.server).Some? ==> r == Session(remote, [], dial(target.side.server))
    ensures dial(target.side.server).None? ==> (
      && r.error == None
      && forall j :: 0 <= j < |sources| ==> Reported(job, local, sources[j].path, r.printed))
  {
    match dial(target.side.server)
    case Some(e) => Session(remote, [], Some(e))
    case None =>
      var (w, printed) := TransferEach(job, local, remote, sources, 0);
      TransferEachReported(job, local, remote, sources, 0);
      Session(w, printed, None)
  }

  /** The source loop of `Cp.download` from source `i` on: a connection per
      source; the first that cannot be made ends the run with its error,
      otherwise the source is transferred from its server's volume into the
      local one, and a failure is printed before the loop goes on. */
  function DownloadFrom(job: Job, volume: string -> Vfs.Volume, dial: Server -> Option<string>,
                        local: Vfs.Volume, sources: seq<TransferObject>, i: nat, printed: seq<Failure>): (r: Session)
    requires i <= |sources|
    requires forall j :: 0 <= j < |sources| ==> sources[j].side.Remote?
    ensures FirstDialFailure(dial, sources, i).None? ==> r.error == None
    ensures FirstDialFailure(dial, sources, i).Some? ==>
      r.error == dial(sources[FirstDialFailure(dial, sources, i).value].side.server)
    ensures printed <= r.printed
    decreases |sources| - i
  {
    if i == |sources| then Session(local, printed, None)
    else
      var src := sources[i];
      match dial(src.side.server)
      case Some(e) => Session(local, printed, Some(e))
      case None =>
        var o := Transfer(job, volume(src.side.key), local, src.path, job.targetPath, "");
        DownloadFrom(job, volume, dial, o.dst, sources, i + 1, printed + o.printed + Report(o.ret))
  }

  /** The first source from `i` on whose connection cannot be made. */
  function FirstDialFailure(dial: Server -> Option<string>, sources: seq<TransferObject>, i: nat): (r: Option<nat>)
    requires i <= |sources|
    requires forall j :: 0 <= j < |sources| ==> sources[j].side.Remote?
    ensures r.Some? ==> i <= r.value < |sources| && DialFailsFirst(dial, sources, i, r.value)
    ensures r.None? <==> forall j :: i <= j < |sources| ==> dial(sources[j].side.server).None?
    decreases |sources| - i
  {
    if i == |sources| then None
    else if dial(sources[i].side.server).Some? then Some(i)
    else FirstDialFailure(dial, sources, i + 1)
  }

  /** Source `j` is the first from `i` on whose connection fails. */
  predicate DialFailsFirst(dial: Server -> Option<string>, sources: seq<TransferObject>, i: nat, j: nat)
    requires forall m :: 0 <= m < |sources| ==> sources[m].side.Remote?
    requires j < |sources|
  {
    dial(sources[j].side.server).Some? &&
    forall m :: i <= m < j ==> dial(sources[m].side.server).None?
  }

  /** `Cp.download`. */
  function Download(job: Job, volume: string -> Vfs.Volume, dial: Server -> Option<string>,
                    local: Vfs.Volume, sources: seq<TransferObject>): (r: Session)
    requires forall j :: 0 <= j < |sources| ==> sources[j].side.Remote?
    ensures r.error.Some? <==> exists j :: 0 <= j < |sources| && dial(sources[j].side.server).Some?
    ensures r.error.Some? ==> exists j :: (0 <= j < |sources| && DialFailsFirst(dial, sources, 0, j) &&
      r.error == dial(sources[j].side.server))
  {
    var r := DownloadFrom(job, volume, dial, local, sources, 0, []);
    var f := FirstDialFailure(dial, sources, 0);
    assert f.Some? ==> 0 <= f.value < |sources| && DialFailsFirst(dial, sources, 0, f.value);
    r
  }

  /** `showCp` after the configuration is loaded: parse the command line,
      then upload when the sources are local and download otherwise. A
      download always writes to the local volume, also when the target
      names a server. */
  function ShowCp(index: ServerIndex, args: seq<string>, tempDir: string, local: Vfs.Volume,
                  volume: string -> Vfs.Volume, dial: Server -> Option<string>): (r: Result<Session, string>)
    ensures Parse(index, args, tempDir).Err? ==> r == Err(Parse(index, args, tempDir).error)
    ensures Parse(index, args, tempDir).Ok? ==> r.Ok?
    ensures Parse(index, args, tempDir).Ok? && IsLocal(Parse(index, args, tempDir).value.sources[0]) ==>
      var c := Parse(index, args, tempDir).value;
      c.target.side.Remote? && r.value.error == dial(c.target.side.server)
    ensures Parse(index, args, tempDir).Ok? && !IsLocal(Parse(index, args, tempDir).value.sources[0]) ==>
      var c := Parse(index, args, tempDir).value;
      (r.value.error.Some? <==> exists j :: 0 <= j < |c.sources| && dial(c.sources[j].side.server).Some?)
  {
    match Parse(index, args, tempDir)
    case Err(e) => Err(e)
    case Ok(c) => Ok(Run(c, local, volume, dial, false))
  }

  /** A parsed command run: an upload when its sources are local, a
      download otherwise; the dial that fails decides the error. `showCp`
      runs it with the destination resolver as written. */
  function Run(c: Command, local: Vfs.Volume, volume: string -> Vfs.Volume, dial: Server -> Option<string>, mkdirAll: bool): (r: Session)
    requires |c.sources| >= 1
    requires forall j :: 0 <= j < |c.sources| ==> c.sources[j].side.Local? == c.sources[0].side.Local?
    requires !(IsLocal(c.sources[0]) && IsLocal(c.target))
    ensures IsLocal(c.sources[0]) ==> c.target.side.Remote? && r.error == dial(c.target.side.server)
    ensures !IsLocal(c.sources[0]) ==>
      (r.error.Some? <==> exists j :: 0 <= j < |c.sources| && dial(c.sources[j].side.server).Some?)
  {
    var job := Job(c.recursive, c.target.path, mkdirAll);
    if IsLocal(c.sources[0]) then
      Upload(job, local, volume(c.target.side.key), dial, c.sources, c.target)
    else
      Download(job, volume, dial, local, c.sources)
  }
}

=== FILE: cpargs.dfy ===
/** The argument parsing of the older copy command (src/app/cp.go): `-r`,
    `key:path` server arguments and local paths, the direction fixed by
    the first of them, and the guard of `handleCp`. The index lookup and
    the existence check of a local path are parameters. */
module CpArgs {
  import opened Wrappers
  import opened Model
  import GoStrings
  import FilePath

  /** `isR`. */
  predicate IsR(arg: string) {
    arg == "-r"
  }

  /** `isServer`: the part before the first ':' names the server, the part
      after it (up to a second ':') is the remote path. */
  function IsServer(idx: ServerIndex, arg: string): (r: (Option<Server>, string, bool))
    ensures var parts := GoStrings.Split(arg, ':');
      && r.1 == (if |parts| > 1 then parts[1] else "")
      && (r.0.Some? <==> parts[0] in idx)
      && (r.0.Some? ==> r.0.value == idx[parts[0]].server)
      && (r.2 <==> parts[0] in idx && r.1 != "")
  {
    var parts := GoStrings.Split(arg, ':');
    var path := if |parts| > 1 then parts[1] else "";
    var server := if parts[0] in idx then Some(idx[parts[0]].server) else None;
    (server, path, server.Some? && path != "")
  }

  /** For `key:path`, and for `key:path:more`, the server is the key's and
      the path is `path`: anything after a second ':' is ignored. */
  lemma {:induction false} IsServerForm(idx: ServerIndex, key: string, path: string, more: string)
    requires ':' !in key && ':' !in path
    ensures IsServer(idx, key + ":" + path).1 == path
    ensures IsServer(idx, key + ":" + path).2 <==> key in idx && path != ""
    ensures IsServer(idx, key + ":" + path + ":" + more) == IsServer(idx, key + ":" + path)
  {
    GoStrings.SplitAround(key, path, ':');
    GoStrings.SplitWithoutSeparator(key, ':');
    GoStrings.SplitWithoutSeparator(path, ':');
    assert key + ":" + path == key + [':'] + path;
    GoStrings.SplitAround(key + ":" + path, more, ':');
    assert key + ":" + path + ":" + more == (key + ":" + path) + [':'] + more;
  }

  /** The world a local path is checked against: the host, the error
      `os.Stat` gives for a path, and which errors `os.IsNotExist`
      recognises. */
  datatype Local = Local(host: FilePath.Host, statError: string -> Option<string>, notExist: string -> bool)

  /** `isLocalPath`: a path that exists, or whose stat failed because it
      does not exist (a download target). */
  function IsLocalPath(w: Local, arg: string): (r: (string, bool))
    ensures r.0 == arg
    ensures r.1 <==>
      || FilePath.FileIsExists(w.host, w.statError, arg).0
      || (match FilePath.FileIsExists(w.host, w.statError, arg).1
          case Some(StatFailed(m)) => w.notExist(m)
          case _ => false)
  {
    var (ok, err) := FilePath.FileIsExists(w.host, w.statError, arg);
    var missing := match err case Some(StatFailed(m)) => w.notExist(m) case _ => false;
    (arg, ok || missing)
  }

  /** How `parseArgs` reads one argument, in the order of its tests. */
  datatype Arg = RecursiveFlag | Remote(server: Server, path: string) | LocalPath(path: string) | Ignored

  function Kind(idx: ServerIndex, w: Local, arg: string): (k: Arg)
    ensures k.RecursiveFlag? <==> IsR(arg)
    ensures k.Remote? <==> !IsR(arg) && IsServer(idx, arg).2
    ensures k.LocalPath? <==> !IsR(arg) && !IsServer(idx, arg).2 && IsLocalPath(w, arg).1
    ensures k.Remote? ==> k.path != ""
    ensures k.LocalPath? ==> k.path == arg
  {
    if IsR(arg) then RecursiveFlag
    else
      var s := IsServer(idx, arg);
      if s.2 then Remote(s.0.value, s.1)
      else if IsLocalPath(w, arg).1 then LocalPath(arg)
      else Ignored
  }

  /** The results of `parseArgs`; `server` is Go's zero `Server` until a
      server argument is seen. */
  datatype Parsed = Parsed(recursive: bool, direction: string, server: Server, serverPath: string, localPath: string)

  /** One iteration of the loop of `parseArgs`. */
  function Step(p: Parsed, k: Arg): Parsed {
    match k
    case RecursiveFlag => p.(recursive := true)
    case Remote(s, path) => p.(direction := if p.direction == "" then "down" else p.direction, server := s, serverPath := path)
    case LocalPath(path) => p.(direction := if p.direction == "" then "up" else p.direction, localPath := path)
    case Ignored => p
  }

  /** The loop of `parseArgs` from argument `i` on. */
  function ParseFrom(idx: ServerIndex, w: Local, p: Parsed, args: seq<string>, i: nat): Parsed
    requires i <= |args|
    decreases |args| - i
  {
    if i == |args| then p else ParseFrom(idx, w, Step(p, Kind(idx, w, args[i])), args, i + 1)
  }

  /** `parseArgs`. */
  function ParseArgs(idx: ServerIndex, w: Local, args: seq<string>): Parsed {
    ParseFrom(idx, w, Parsed(false, "", EmptyServer, "", ""), args, 0)
  }

  // ---------------------------------------------------------------------
  // Reference reading of the arguments
  // ---------------------------------------------------------------------

  /** The first argument from `i` on that is a server or a local path. */
  function FirstPlace(idx: ServerIndex, w: Local, args: seq<string>, i: nat): (r: Option<Arg>)
    requires i <= |args|
    ensures r.Some? ==> r.value.Remote? || r.value.LocalPath?
    decreases |args| - i
  {
    if i == |args| then None
    else
      var k := Kind(idx, w, args[i]);
      if k.Remote? || k.LocalPath? then Some(k) else FirstPlace(idx, w, args, i + 1)
  }

  /** The last server argument from `i` on. */
  function LastRemote(idx: ServerIndex, w: Local, args: seq<string>, i: nat): (r: Option<Arg>)
    requires i <= |args|
    ensures r.Some? ==> r.value.Remote? && r.value.path != ""
    decreases |args| - i
  {
    if i == |args| then None
    else
      var later := LastRemote(idx, w, args, i + 1);
      if later.Some? then later
      else if Kind(idx, w, args[i]).Remote? then Some(Kind(idx, w, args[i]))
      else None
  }

  /** The last local-path argument from `i` on. */
  function LastLocal(idx: ServerIndex, w: Local, args: seq<string>, i: nat): (r: Option<Arg>)
    requires i <= |args|
    ensures r.Some? ==> r.value.LocalPath?
    decreases |args| - i
  {
    if i == |args| then None
    else
      var later := LastLocal(idx, w, args, i + 1);
      if later.Some? then later
      else if Kind(idx, w, args[i]).LocalPath? then Some(Kind(idx, w, args[i]))
      else None
  }

  /** The direction a first placed argument fixes. */
  function DirectionOf(k: Option<Arg>): string {
    match k
    case Some(Remote(_, _)) => "down"
    case Some(LocalPath(_)) => "up"
    case _ => ""
  }

  /** `-r` anywhere from `i` on sets the recursive flag. */
  lemma {:induction false} ParseFromRecursive(idx: ServerIndex, w: Local, p: Parsed, args: seq<string>, i: nat)
    requires i <= |args|
    ensures ParseFrom(idx, w, p, args, i).recursive <==> p.recursive || exists k :: i <= k < |args| && args[k] == "-r"
    decreases |args| - i
  {
    if i < |args| {
      ParseFromRecursive(idx, w, Step(p, Kind(idx, w, args[i])), args, i + 1);
      if args[i] == "-r" {
        assert exists k :: i <= k < |args| && args[k] == "-r";
      }
    }
  }

  /** A direction already chosen stays; otherwise the first placed
      argument from `i` on chooses it. */
  lemma {:induction false} ParseFromDirection(idx: ServerIndex, w: Local, p: Parsed, args: seq<string>, i: nat)
    requires i <= |args|
    ensures ParseFrom(idx, w, p, args, i).direction
         == if p.direction != "" then p.direction else DirectionOf(FirstPlace(idx, w, args, i))
    decreases |args| - i
  {
    if i < |args| {
      ParseFromDirection(idx, w, Step(p, Kind(idx, w, args[i])), args, i + 1);
    }
  }

  /** The last server argument from `i` on wins. */
  lemma {:induction false} ParseFromServer(idx: ServerIndex, w: Local, p: Parsed, args: seq<string>, i: nat)
    requires i <= |args|
    ensures var r := ParseFrom(idx, w, p, args, i);
      && r.serverPath == (match LastRemote(idx, w, args, i) case Some(k) => k.path case None => p.serverPath)
      && r.server == (match LastRemote(idx, w, args, i) case Some(k) => k.server case None => p.server)
    decreases |args| - i
  {
    if i < |args| {
      ParseFromServer(idx, w, Step(p, Kind(idx, w, args[i])), args, i + 1);
    }
  }

  /** The last local path from `i` on wins. */
  lemma {:induction false} ParseFromLocal(idx: ServerIndex, w: Local, p: Parsed, args: seq<string>, i: nat)
    requires i <= |args|
    ensures ParseFrom(idx, w, p, args, i).localPath
         == match LastLocal(idx, w, args, i) case Some(k) => k.path case None => p.localPath
    decreases |args| - i
  {
    if i < |args| {
      ParseFromLocal(idx, w, Step(p, Kind(idx, w, args[i])), args, i + 1);
    }
  }

  /** `parseArgs` against the reference reading. */
  lemma {:induction false} ParseArgsSpec(idx: ServerIndex, w: Local, args: seq<string>)
    ensures var r := ParseArgs(idx, w, args);
      && (r.recursive <==> "-r" in args)
      && r.direction == DirectionOf(FirstPlace(idx, w, args, 0))
      && r.serverPath == (match LastRemote(idx, w, args, 0) case Some(k) => k.path case None => "")
      && r.localPath == (match LastLocal(idx, w, args, 0) case Some(k) => k.path case None => "")
  {
    var p0 := Parsed(false, "", EmptyServer, "", "");
    ParseFromRecursive(idx, w, p0, args, 0);
    ParseFromDirection(idx, w, p0, args, 0);
    ParseFromServer(idx, w, p0, args, 0);
    ParseFromLocal(idx, w, p0, args, 0);
    if "-r" in args {
      var k :| 0 <= k < |args| && args[k] == "-r";
    }
  }

  // ---------------------------------------------------------------------
  // handleCp
  // ---------------------------------------------------------------------

  /** What `handleCp` goes on to do: the call it would make. The
      `copyUpload` and `copyDownload` stubs it reaches (src/app/cp.go)
      hold no copying logic and are not modelled. */
  datatype CpAction = Rejected | Upload(server: Server, serverPath: string, localPath: string)
                    | Download(server: Server, serverPath: string, localPath: string)

  /** `handleCp`: the address of a local variable is never nil, so only
      the two paths decide; "up" uploads and every other direction
      downloads. */
  function HandleCp(idx: ServerIndex, w: Local, args: seq<string>): (r: CpAction)
    ensures var p := ParseArgs(idx, w, args);
      && (r.Rejected? <==> p.serverPath == "" || p.localPath == "")
      && (r.Upload? ==> p.direction == "up" && r == Upload(p.server, p.serverPath, p.localPath))
      && (r.Download? ==> p.direction != "up" && r == Download(p.server, p.serverPath, p.localPath))
  {
    var p := ParseArgs(idx, w, args);
    if p.serverPath == "" || p.localPath == "" then Rejected
    else if p.direction == "up" then Upload(p.server, p.serverPath, p.localPath)
    else Download(p.server, p.serverPath, p.localPath)
  }

  /** A copy is accepted exactly when the arguments hold a server argument
      and a local path, whatever their order and whatever else they hold. */
  lemma {:induction false} HandleCpAccepts(idx: ServerIndex, w: Local, args: seq<string>)
    ensures HandleCp(idx, w, args).Rejected? <==> LastRemote(idx, w, args, 0).None? || LastLocal(idx, w, args, 0).None?
  {
    ParseArgsSpec(idx, w, args);
    if LastLocal(idx, w, args, 0).Some? {
      LastLocalNonEmpty(idx, w, args, 0);
    }
  }

  /** A local path argument is never empty: under the model's `EmptyPath`
      outcome the empty path fails to expand, and that is not a "does not
      exist" error. */
  lemma {:induction false} LastLocalNonEmpty(idx: ServerIndex, w: Local, args: seq<string>, i: nat)
    requires i <= |args| && LastLocal(idx, w, args, i).Some?
    ensures LastLocal(idx, w, args, i).value.path != ""
    decreases |args| - i
  {
    if LastLocal(idx, w, args, i + 1).Some? {
      LastLocalNonEmpty(idx, w, args, i + 1);
    } else {
      EmptyNotLocal(w);
    }
  }

  /** The empty argument is not a local path, given the model's
      `EmptyPath` outcome for expanding `""`. */
  lemma {:induction false} EmptyNotLocal(w: Local)
    ensures !IsLocalPath(w, "").1
  {
    assert FilePath.ParsePath(w.host, "") == Err(FilePath.EmptyPath);
  }
}

=== FILE: cud.dfy ===
/** The add, edit and remove handlers of src/app/cud.go, which
    src/app/app.go repeats for edit and add: an id answer of "exit" in any
    case leaves the operation, an unknown id asks again, the form's errors
    are ignored, and every change is saved and reloaded, whose outcome is
    discarded. The answers are parameters; the end of input reads as an
    empty answer, which asks again, so an operation that runs out of
    answers has no result. */
module CudHandlers {
  import opened Wrappers
  import opened Model
  import opened ConfigEdit
  import ServerEdit
  import GoStrings
  import Handlers

  /** What an id answer selects: leaving the operation, or a key of the
      index. */
  datatype Pick = Leave | Chosen(id: string)

  /** The answer that leaves an operation, checked before the index. */
  predicate IsExit(id: string) {
    GoStrings.ToLower(id) == "exit"
  }

  /** An answer that asks again. */
  predicate Rejected(idx: ServerIndex, id: string) {
    !IsExit(id) && id !in idx
  }

  /** The first answer from `i` on that leaves or names a server, with the
      number of answers read through it. */
  function PickOrExit(idx: ServerIndex, ids: seq<string>, i: nat): (r: Option<(Pick, nat)>)
    requires i <= |ids|
    ensures r.Some? ==> i < r.value.1 <= |ids|
    ensures r.Some? ==> (r.value.0.Leave? <==> IsExit(ids[r.value.1 - 1]))
    ensures r.Some? && r.value.0.Chosen? ==> r.value.0.id == ids[r.value.1 - 1] && r.value.0.id in idx
    ensures r.Some? ==> forall k :: i <= k < r.value.1 - 1 ==> Rejected(idx, ids[k])
    ensures r.None? <==> forall k :: i <= k < |ids| ==> Rejected(idx, ids[k])
    decreases |ids| - i
  {
    if i == |ids| then None
    else if IsExit(ids[i]) then Some((Leave, i + 1))
    else if ids[i] in idx then Some((Chosen(ids[i]), i + 1))
    else PickOrExit(idx, ids, i + 1)
  }

  /** What an operation leaves behind: the configuration in memory and
      whether it was saved. */
  datatype Done = Done(cfg: Config, saved: bool)

  /** `handleEdit` from answer `i` on: the chosen server is edited and the
      configuration saved, even when the form met the end of input. */
  function CudEdit(cfg: Config, idx: ServerIndex, ids: seq<string>, i: nat, scans: seq<ServerEdit.Scan>): (r: Option<Done>)
    requires Addressable(cfg, idx) && i <= |ids|
    ensures r.Some? <==> PickOrExit(idx, ids, i).Some?
    ensures r.Some? ==> (r.value.saved <==> PickOrExit(idx, ids, i).value.0.Chosen?)
    ensures r.Some? && !r.value.saved ==> r.value.cfg == cfg
    ensures r.Some? && r.value.saved ==>
      var e := idx[PickOrExit(idx, ids, i).value.0.id];
      && InRange(r.value.cfg, e) && Total(r.value.cfg) == Total(cfg)
      && OnlyListChanged(cfg, r.value.cfg, Which(e), ListOf(cfg, Which(e))[e.serverIndex := At(r.value.cfg, e)])
      && At(r.value.cfg, e) == ServerEdit.Edit(At(cfg, e), scans).0
  {
    match PickOrExit(idx, ids, i)
    case None => None
    case Some((Leave, _)) => Some(Done(cfg, false))
    case Some((Chosen(id), _)) =>
      var e := idx[id];
      Some(Done(ReplaceEntry(cfg, e, ServerEdit.Edit(At(cfg, e), scans).0), true))
  }

  /** `handleAdd`: the prefix answer is read once (empty at the end of
      input), the form is filled in whatever happens, and the new server is
      appended and saved. */
  function CudAdd(cfg: Config, prefix: string, scans: seq<ServerEdit.Scan>): (r: Done)
    ensures r.saved && Total(r.cfg) == Total(cfg) + 1
    ensures var s := ServerEdit.Edit(Handlers.NewServer, scans).0;
      && (LastPrefix(cfg.groups, prefix).None? ==> OnlyTopChanged(cfg, r.cfg, cfg.servers + [s]))
      && (LastPrefix(cfg.groups, prefix).Some? ==>
            var g := LastPrefix(cfg.groups, prefix).value;
            OnlyGroupChanged(cfg, r.cfg, g, cfg.groups[g].servers + [s]))
  {
    Done(Append(cfg, prefix, ServerEdit.Edit(Handlers.NewServer, scans).0), true)
  }

  /** `handleRemove`: the chosen server is deleted and the configuration
      saved; "exit" leaves it as it was. */
  function CudRemove(cfg: Config, idx: ServerIndex, ids: seq<string>, i: nat): (r: Option<Done>)
    requires Addressable(cfg, idx) && i <= |ids|
    ensures r.Some? <==> PickOrExit(idx, ids, i).Some?
    ensures r.Some? ==> (r.value.saved <==> PickOrExit(idx, ids, i).value.0.Chosen?)
    ensures r.Some? && !r.value.saved ==> r.value.cfg == cfg
    ensures r.Some? && r.value.saved ==>
      Total(r.value.cfg) + 1 == Total(cfg) && r.value.cfg == RemoveEntry(cfg, idx[PickOrExit(idx, ids, i).value.0.id])
  {
    match PickOrExit(idx, ids, i)
    case None => None
    case Some((Leave, _)) => Some(Done(cfg, false))
    case Some((Chosen(id), _)) => Some(Done(RemoveEntry(cfg, idx[id]), true))
  }

  // ---------------------------------------------------------------------
  // Properties
  // ---------------------------------------------------------------------

  /** The exit word is recognised in any case: an answer and its
      lower-cased form leave alike. */
  lemma {:induction false} ExitAnyCase(w: string)
    ensures IsExit(w) <==> IsExit(GoStrings.ToLower(w))
    ensures IsExit(w) ==> |w| == 4
    ensures IsExit("exit") && IsExit("EXIT") && IsExit("Exit")
  {
    GoStrings.ToLowerIdempotent(w);
    assert GoStrings.ToLower("EXIT") == "exit";
    assert GoStrings.ToLower("Exit") == "exit";
    assert GoStrings.ToLower("exit") == "exit";
  }

  /** Unlike the handlers that stop at the end of input, a form cut short
      here is saved with what was typed before it. */
  lemma {:induction false} CutShortFormSaved(cfg: Config, idx: ServerIndex, ids: seq<string>, name: string)
    requires Addressable(cfg, idx) && PickOrExit(idx, ids, 0).Some? && PickOrExit(idx, ids, 0).value.0.Chosen?
    ensures var r := CudEdit(cfg, idx, ids, 0, [ServerEdit.Token(name), ServerEdit.Eof]).value;
      && r.saved
      && At(r.cfg, idx[PickOrExit(idx, ids, 0).value.0.id]).name == name
  {
  }

  /** At the end of input `handleAdd` still appends a server: with no
      group of empty prefix, the formatted empty server lands at the end of
      the top level. */
  lemma {:induction false} AddAtEndOfInput(cfg: Config)
    requires LastPrefix(cfg.groups, "").None?
    ensures CudAdd(cfg, "", []).cfg.servers == cfg.servers + [Handlers.NewServer]
    ensures CudAdd(cfg, "", []).saved
  {
  }
}

=== FILE: endpoint.dfy ===
/** Connection set-up of src/app/server.go: endpoint defaults, option
    merging, the choice of authentication method, the session-log file name,
    the error mapping and `defer` teardown of `Connect`, and one step of the
    keepalive and window-size watchers. The SSH library calls are replaced by
    their outcomes. */
module Endpoint {
  import opened Wrappers
  import opened Model
  import GoStrings
  import FilePath

  // ---------------------------------------------------------------------
  // Format and MergeOptions
  // ---------------------------------------------------------------------

  /** A server whose port and method have their defaults filled in. */
  predicate Formatted(s: Server) {
    s.port != 0 && s.authMethod != ""
  }

  const DefaultPort := 22
  const DefaultMethod := "password"

  /** `Server.Format`: port 0 becomes 22 and an empty method becomes
      "password"; nothing else changes. */
  function Format(s: Server): (r: Server)
    ensures Formatted(r)
    ensures r.port == s.port || (s.port == 0 && r.port == DefaultPort)
    ensures r.authMethod == s.authMethod || (s.authMethod == "" && r.authMethod == DefaultMethod)
    ensures r.(port := s.port, authMethod := s.authMethod) == s
  {
    s.(port := if s.port == 0 then DefaultPort else s.port,
       authMethod := if s.authMethod == "" then DefaultMethod else s.authMethod)
  }

  /** A formatted server is a fixed point of `Format`, so `Format` is
      idempotent. */
  lemma {:induction false} FormatIdempotent(s: Server)
    ensures Formatted(s) ==> Format(s) == s
    ensures Format(Format(s)) == Format(s)
  {
  }

  /** The entries of an options map, a nil map having none. */
  function Entries(o: Options): map<string, OptValue> {
    match o
    case None => map[]
    case Some(m) => m
  }

  /** `Server.MergeOptions`: copies the incoming options into the server's
      own map (created when nil); with `overwrite` the incoming values win,
      without it only missing keys are added. */
  function MergeOptions(s: Server, incoming: Options, overwrite: bool): (r: Server)
    ensures r.options.Some?
    ensures r.(options := s.options) == s
    ensures r.options.value.Keys == Entries(s.options).Keys + Entries(incoming).Keys
    ensures forall k :: k in Entries(s.options) && !(overwrite && k in Entries(incoming)) ==>
      r.options.value[k] == Entries(s.options)[k]
    ensures forall k :: k in Entries(incoming) && (overwrite || k !in Entries(s.options)) ==>
      r.options.value[k] == Entries(incoming)[k]
  {
    var own := Entries(s.options);
    var inc := Entries(incoming);
    s.(options := Some(if overwrite then own + inc else inc + own))
  }

  /** Merging the same options twice changes nothing the first merge did
      not. */
  lemma {:induction false} MergeOptionsIdempotent(s: Server, incoming: Options, overwrite: bool)
    ensures MergeOptions(MergeOptions(s, incoming, overwrite), incoming, overwrite)
         == MergeOptions(s, incoming, overwrite)
  {
    var once := MergeOptions(s, incoming, overwrite);
    var twice := MergeOptions(once, incoming, overwrite);
    assert twice.options.value == once.options.value;
  }

  // ---------------------------------------------------------------------
  // Authentication
  // ---------------------------------------------------------------------

  /** The method `parseAuthMethods` builds: password authentication, or
      public-key authentication with the key file read from `keyPath` and
      decrypted with `passphrase` when there is one. */
  datatype AuthMethod = PasswordAuth(password: string) | KeyAuth(keyPath: string, passphrase: Option<string>)

  /** The outside world of `pemKey`: path expansion, the key files and the
      private-key parser (`Some(error)` when the key cannot be parsed with
      the given passphrase). */
  datatype KeyEnv = KeyEnv(
    host: FilePath.Host,
    readFile: string -> Result<seq<GoStrings.byte>, string>,
    parseKey: (seq<GoStrings.byte>, Option<string>) -> Option<string>
  )

  const DefaultKey := "~/.ssh/id_rsa"

  /** The key file `pemKey` reads: the default key for an empty Key, then
      expanded; an expansion error is ignored and leaves the empty path. */
  function KeyPath(s: Server, env: KeyEnv): string {
    var key := if s.key == "" then DefaultKey else s.key;
    match FilePath.ParsePath(env.host, key)
    case Ok(p) => p
    case Err(_) => ""
  }

  /** The passphrase rule: the password, iff it is non-empty. */
  function Passphrase(s: Server): (p: Option<string>)
    ensures p.Some? <==> s.password != ""
    ensures p.Some? ==> p.value == s.password
  {
    if s.password == "" then None else Some(s.password)
  }

  /** `pemKey`: read and parse the key file; read and parse errors are
      returned. */
  function PemKey(s: Server, env: KeyEnv): (r: Result<AuthMethod, string>)
    ensures r.Ok? ==> r.value == KeyAuth(KeyPath(s, env), Passphrase(s))
    ensures env.readFile(KeyPath(s, env)).Err? ==> r == Err(env.readFile(KeyPath(s, env)).error)
    ensures r.Ok? <==> env.readFile(KeyPath(s, env)).Ok? &&
                       env.parseKey(env.readFile(KeyPath(s, env)).value, Passphrase(s)).None?
  {
    var path := KeyPath(s, env);
    match env.readFile(path)
    case Err(e) => Err(e)
    case Ok(pem) =>
      match env.parseKey(pem, Passphrase(s))
      case Some(e) => Err(e)
      case None => Ok(KeyAuth(path, Passphrase(s)))
  }

  /** An empty Key falls back to `~/.ssh/id_rsa` under the home directory. */
  lemma {:induction false} DefaultKeyPath(s: Server, env: KeyEnv)
    requires s.key == "" && FilePath.Home(env.host).Ok?
    ensures KeyPath(s, env) == FilePath.Home(env.host).value + "/.ssh/id_rsa"
  {
    assert DefaultKey[1..] == "/.ssh/id_rsa";
  }

  /** `parseAuthMethods`: the lower-cased method "key" selects key
      authentication; every other method, empty and unknown ones included,
      selects the password. */
  function ParseAuthMethods(s: Server, env: KeyEnv): (r: Result<seq<AuthMethod>, string>)
    ensures r.Ok? ==> |r.value| == 1
    ensures r.Ok? ==> (r.value[0].KeyAuth? <==> GoStrings.ToLower(s.authMethod) == "key")
    ensures GoStrings.ToLower(s.authMethod) != "key" ==> r == Ok([PasswordAuth(s.password)])
    ensures r.Err? ==> GoStrings.ToLower(s.authMethod) == "key" && PemKey(s, env).Err?
    ensures GoStrings.ToLower(s.authMethod) == "key" ==>
      (r.Ok? <==> PemKey(s, env).Ok?) && (r.Ok? ==> r.value == [KeyAuth(KeyPath(s, env), Passphrase(s))])
  {
    var m := GoStrings.ToLower(s.authMethod);
    if m == "password" then Ok([PasswordAuth(s.password)])
    else if m == "key" then
      match PemKey(s, env)
      case Err(e) => Err(e)
      case Ok(m) => Ok([m])
    else Ok([PasswordAuth(s.password)])
  }

  /** The method name is matched without regard to case: two spellings
      that lower-case alike authenticate alike. */
  lemma {:induction false} ParseAuthMethodsIgnoresCase(s: Server, env: KeyEnv, m: string, n: string)
    requires GoStrings.ToLower(m) == GoStrings.ToLower(n)
    ensures ParseAuthMethods(s.(authMethod := m), env) == ParseAuthMethods(s.(authMethod := n), env)
  {
    var sm, sn := s.(authMethod := m), s.(authMethod := n);
    assert KeyPath(sm, env) == KeyPath(sn, env);
    assert Passphrase(sm) == Passphrase(sn);
    assert PemKey(sm, env) == PemKey(sn, env);
  }

  /** An empty Key and the literal `~/.ssh/id_rsa` read the same file with
      the same outcome. */
  lemma {:induction false} PemKeyDefaultsKey(s: Server, env: KeyEnv)
    ensures PemKey(s.(key := ""), env) == PemKey(s.(key := DefaultKey), env)
  {
    assert KeyPath(s.(key := ""), env) == KeyPath(s.(key := DefaultKey), env);
    assert Passphrase(s.(key := "")) == Passphrase(s.(key := DefaultKey));
  }

  /** The dial address of `GetSshClient`: port 0 dials port 22, any other
      port is dialled as it is; in both cases the address of the formatted
      server. */
  function DialAddress(s: Server): (a: string)
    ensures s.port == 0 ==> a == s.ip + ":22"
    ensures s.port != 0 ==> a == s.ip + ":" + GoStrings.Itoa(s.port)
    ensures a == s.ip + ":" + GoStrings.Itoa(Format(s).port)
  {
    assert GoStrings.Itoa(22) == "22" by {
      assert GoStrings.Digits(22) == GoStrings.Digits(2) + [GoStrings.DigitChar(2)];
    }
    s.ip + ":" + GoStrings.Itoa(if s.port == 0 then DefaultPort else s.port)
  }

  // ---------------------------------------------------------------------
  // Session-log file name
  // ---------------------------------------------------------------------

  /** The clock readings substituted into a log file name: `%dt` is the
      date and time, `%d` the date. */
  datatype Clock = Clock(dateTime: string, date: string)

  /** The placeholders of `formatLogFilename`. */
  datatype Placeholder = GroupKey | NameKey | DateTimeKey | DateKey | UserKey | AliasKey

  /** The text of a placeholder in a template. */
  function Token(k: Placeholder): (t: string)
    ensures |t| >= 2 && t[0] == '%' && '%' !in t[1..]
  {
    match k
    case GroupKey => "%g"
    case NameKey => "%n"
    case DateTimeKey => "%dt"
    case DateKey => "%d"
    case UserKey => "%u"
    case AliasKey => "%a"
  }

  /** The text substituted for a placeholder. */
  function LogValue(s: Server, now: Clock, k: Placeholder): string {
    match k
    case GroupKey => s.groupName
    case NameKey => s.name
    case DateTimeKey => now.dateTime
    case DateKey => now.date
    case UserKey => s.user
    case AliasKey => s.alias
  }

  /** An order in which Go's map iteration may visit the six placeholders:
      each exactly once. */
  predicate IsKeyOrder(order: seq<Placeholder>) {
    |order| == 6 && forall k: Placeholder :: k in order
  }

  /** `strings.ReplaceAll` of each placeholder in turn, in the given order. */
  function Substitute(filename: string, s: Server, now: Clock, order: seq<Placeholder>): string
    decreases |order|
  {
    if |order| == 0 then filename
    else Substitute(GoStrings.ReplaceAll(filename, Token(order[0]), LogValue(s, now, order[0])), s, now, order[1..])
  }

  /** `formatLogFilename`, where `order` is the iteration order Go happens to
      pick for the placeholder map. */
  function FormatLogFilename(s: Server, now: Clock, filename: string, order: seq<Placeholder>): (r: string)
    requires IsKeyOrder(order)
    ensures NoPlaceholder(filename) ==> r == filename
  {
    assert NoPlaceholder(filename) ==> Substitute(filename, s, now, order) == filename by {
      if NoPlaceholder(filename) {
        SubstituteAbsent(filename, s, now, order);
      }
    }
    Substitute(filename, s, now, order)
  }

  /** No placeholder occurs in `t`. */
  predicate NoPlaceholder(t: string) {
    forall k: Placeholder :: !GoStrings.Contains(t, Token(k))
  }

  lemma {:induction false} SubstituteAbsent(t: string, s: Server, now: Clock, order: seq<Placeholder>)
    requires NoPlaceholder(t)
    ensures Substitute(t, s, now, order) == t
    decreases |order|
  {
    if |order| > 0 {
      var k := order[0];
      GoStrings.ContainsMeansOccurs(t, Token(k));
      GoStrings.ReplaceAllAbsent(t, Token(k), LogValue(s, now, k));
      SubstituteAbsent(t, s, now, order[1..]);
    }
  }

  /** A string without `%` holds no placeholder. */
  lemma {:induction false} NoPercentNoPlaceholder(t: string)
    requires '%' !in t
    ensures NoPlaceholder(t)
  {
    forall k: Placeholder ensures !GoStrings.Contains(t, Token(k)) {
      var tok := Token(k);
      GoStrings.ContainsMeansOccurs(t, tok);
    }
  }

  /** Values substituted by the model carry no `%`. */
  predicate PlainValues(s: Server, now: Clock) {
    forall k: Placeholder :: '%' !in LogValue(s, now, k)
  }

  /** One order Go may pick: `%d` before `%dt`. */
  const DateFirst: seq<Placeholder> := [DateKey, DateTimeKey, GroupKey, NameKey, UserKey, AliasKey]

  /** The corrected order: `%dt` is replaced before its prefix `%d`. */
  const LongestFirst: seq<Placeholder> := [DateTimeKey, DateKey, GroupKey, NameKey, UserKey, AliasKey]

  lemma Orders()
    ensures IsKeyOrder(DateFirst) && IsKeyOrder(LongestFirst)
  {
    forall k: Placeholder ensures k in DateFirst && k in LongestFirst {
      match k
      case DateKey => assert DateFirst[0] == k && LongestFirst[1] == k;
      case DateTimeKey => assert DateFirst[1] == k && LongestFirst[0] == k;
      case GroupKey => assert DateFirst[2] == k && LongestFirst[2] == k;
      case NameKey => assert DateFirst[3] == k && LongestFirst[3] == k;
      case UserKey => assert DateFirst[4] == k && LongestFirst[4] == k;
      case AliasKey => assert DateFirst[5] == k && LongestFirst[5] == k;
    }
  }

  /** Replacing `%d` in `%dt` leaves a stray `t`. */
  lemma {:induction false} ReplaceDateInDateTime(v: string)
    ensures GoStrings.ReplaceAll("%dt", "%d", v) == v + "t"
  {
    assert "%dt"[..2] == "%d" && "%dt"[2..] == "t";
    assert GoStrings.ReplaceAll("t", "%d", v) == "t";
  }

  lemma {:induction false} ReplaceDateTime(v: string)
    ensures GoStrings.ReplaceAll("%dt", "%dt", v) == v
  {
    assert "%dt"[..3] == "%dt" && "%dt"[3..] == "";
    assert GoStrings.ReplaceAll("", "%dt", v) == "";
  }

  /** As written: when the map happens to visit `%d` first, the template
      `%dt` becomes the date followed by a literal `t`. */
  lemma {:induction false} DateTimePlaceholderBroken(s: Server, now: Clock)
    requires PlainValues(s, now)
    ensures IsKeyOrder(DateFirst)
    ensures FormatLogFilename(s, now, "%dt", DateFirst) == now.date + "t"
  {
    Orders();
    ReplaceDateInDateTime(now.date);
    var once := now.date + "t";
    assert '%' !in LogValue(s, now, DateKey);
    NoPercentNoPlaceholder(once);
    SubstituteAbsent(once, s, now, DateFirst[1..]);
  }

  /** The placeholder `k` occurs nowhere in `t`. */
  ghost predicate Absent(t: string, k: Placeholder) {
    forall j :: !GoStrings.OccursAt(t, Token(k), j)
  }

  /** `k` is in `order` and every placeholder before it is absent from `t`. */
  ghost predicate ClearUntil(t: string, k: Placeholder, order: seq<Placeholder>)
    decreases |order|
  {
    |order| > 0 && (order[0] == k || (Absent(t, order[0]) && ClearUntil(t, k, order[1..])))
  }

  lemma {:induction false} ClearUntilAll(t: string, k: Placeholder, order: seq<Placeholder>)
    requires k in order
    requires forall other :: other != k ==> Absent(t, other)
    ensures ClearUntil(t, k, order)
    decreases |order|
  {
    if order[0] != k {
      ClearUntilAll(t, k, order[1..]);
    }
  }

  /** A template with one placeholder and no other `%` becomes that
      placeholder's value in place, provided no placeholder replaced before
      it occurs in the template. */
  lemma {:induction false} SubstituteOne(pre: string, k: Placeholder, post: string, s: Server, now: Clock, order: seq<Placeholder>)
    requires '%' !in pre && '%' !in post && PlainValues(s, now)
    requires ClearUntil(pre + Token(k) + post, k, order)
    ensures Substitute(pre + Token(k) + post, s, now, order) == pre + LogValue(s, now, k) + post
    decreases |order|
  {
    var t := pre + Token(k) + post;
    if order[0] == k {
      var v := LogValue(s, now, k);
      GoStrings.ReplaceAllOnce(pre, Token(k), post, v);
      assert '%' !in v;
      assert '%' !in pre + v + post;
      NoPercentNoPlaceholder(pre + v + post);
      SubstituteAbsent(pre + v + post, s, now, order[1..]);
    } else {
      GoStrings.ReplaceAllAbsent(t, Token(order[0]), LogValue(s, now, order[0]));
      SubstituteOne(pre, k, post, s, now, order[1..]);
    }
  }

  /** In a template whose only `%` starts the placeholder `k`, another
      placeholder occurs only as a prefix of `k` (`%d` in `%dt`) or by
      running on into the text after it (`%d` followed by `t`). */
  lemma {:induction false} OtherTokenAbsent(pre: string, k: Placeholder, post: string, other: Placeholder)
    requires '%' !in pre && '%' !in post && other != k
    requires !(other == DateKey && k == DateTimeKey)
    requires !(other == DateTimeKey && k == DateKey && |post| > 0 && post[0] == 't')
    ensures Absent(pre + Token(k) + post, other)
  {
    var tk := Token(k);
    var t := pre + tk + post;
    var o := Token(other);
    forall j | 0 <= j && j + |o| <= |t| ensures !GoStrings.OccursAt(t, o, j) {
      var w := t[j..j + |o|];
      assert w[0] == t[j];
      if j < |pre| {
        assert t[j] == pre[j];
      } else if j >= |pre| + |tk| {
        assert t[j] == post[j - |pre| - |tk|];
      } else if j > |pre| {
        assert t[j] == tk[1..][j - |pre| - 1];
      } else if o[1] != tk[1] {
        assert w[1] == t[j + 1] == tk[1];
      } else {
        assert other == DateTimeKey && k == DateKey;
        assert w[2] == t[j + 2] == post[0];
      }
    }
  }

  /** Corrected `formatLogFilename` with a fixed, longest-first order. */
  function FormatLogFilenameFixed(s: Server, now: Clock, filename: string): (r: string)
    ensures NoPlaceholder(filename) ==> r == filename
  {
    Orders();
    FormatLogFilename(s, now, filename, LongestFirst)
  }

  /** With the fixed order, a template holding one placeholder and no other
      `%` gets that placeholder's value in its place; `%d` counts as `%d`
      only when no `t` follows it. */
  lemma {:induction false} FormatLogFilenameFixedExpands(s: Server, now: Clock, pre: string, k: Placeholder, post: string)
    requires PlainValues(s, now) && '%' !in pre && '%' !in post
    requires k == DateKey ==> |post| == 0 || post[0] != 't'
    ensures FormatLogFilenameFixed(s, now, pre + Token(k) + post) == pre + LogValue(s, now, k) + post
  {
    Orders();
    var t := pre + Token(k) + post;
    if k != DateTimeKey {
      forall other | other != k ensures Absent(t, other) {
        OtherTokenAbsent(pre, k, post, other);
      }
      ClearUntilAll(t, k, LongestFirst);
    }
    SubstituteOne(pre, k, post, s, now, LongestFirst);
  }

  /** With the fixed order, `%dt` always expands to the date and time. */
  lemma {:induction false} DateTimePlaceholderFixed(s: Server, now: Clock)
    requires PlainValues(s, now)
    ensures FormatLogFilenameFixed(s, now, "%dt") == now.dateTime
  {
    Orders();
    ReplaceDateTime(now.dateTime);
    assert '%' !in LogValue(s, now, DateTimeKey);
    NoPercentNoPlaceholder(now.dateTime);
    SubstituteAbsent(now.dateTime, s, now, LongestFirst[1..]);
  }

  // ---------------------------------------------------------------------
  // Connect: error mapping and defer order
  // ---------------------------------------------------------------------

  /** The deferred clean-ups of `Connect`. */
  datatype Cleanup = CloseClient | CloseSession | CloseKeepAlive | RestoreTerminal | CloseWindowChange

  /** The order in which `Connect` registers its defers. */
  const Registration: seq<Cleanup> := [CloseClient, CloseSession, CloseKeepAlive, RestoreTerminal, CloseWindowChange]

  /** The outcomes of the library calls `Connect` makes (`Some(error)` for
      a failure); dialling sees the address. The outcome of `session.Wait` is not an input: it is
      discarded. */
  datatype Remote = Remote(
    dial: string -> Option<string>,
    newSession: Option<string>,
    makeRaw: Option<string>,
    requestPty: Option<string>,
    shell: Option<string>
  )

  /** The error `Connect` returns (`None` for nil) and the clean-ups that
      ran, in the order they ran. */
  datatype Session = Session(err: Option<string>, teardown: seq<Cleanup>)

  const AuthFailureMarker := "ssh: unable to authenticate"
  const CredentialMessage := "连接失败，请检查密码/密钥是否有误"
  const DialPrefix := "ssh dial fail:"
  const SessionPrefix := "create session fail:"
  const RawModePrefix := "创建文件描述符出错:"
  const PtyPrefix := "创建终端出错:"
  const ShellPrefix := "执行Shell出错:"

  function Reverse<T>(s: seq<T>): (r: seq<T>)
    ensures |r| == |s|
    ensures forall i :: 0 <= i < |s| ==> r[i] == s[|s| - 1 - i]
  {
    if |s| == 0 then [] else Reverse(s[1..]) + [s[0]]
  }

  /** `GetSshClient`: authentication is prepared first, then the address
      of the formatted server is dialled. */
  function GetSshClient(s: Server, env: KeyEnv, dial: string -> Option<string>): (r: Option<string>)
    ensures ParseAuthMethods(s, env).Err? ==> r == Some(ParseAuthMethods(s, env).error)
    ensures ParseAuthMethods(s, env).Ok? ==> r == dial(DialAddress(s))
  {
    match ParseAuthMethods(s, env)
    case Err(e) => Some(e)
    case Ok(_) => dial(DialAddress(s))
  }

  /** The error text for a failed client set-up. */
  function DialError(e: string): string {
    if GoStrings.Contains(e, AuthFailureMarker) then CredentialMessage else DialPrefix + e
  }

  /** Leaves `Connect` after `registered` defers with error `e`: Go runs the
      registered defers last-in first-out. */
  function Leave(e: Option<string>, registered: nat): (r: Session)
    requires registered <= |Registration|
    ensures r.err == e && |r.teardown| == registered
    ensures registered == 0 ==> r.teardown == []
    ensures registered == 1 ==> r.teardown == [CloseClient]
    ensures registered == 2 ==> r.teardown == [CloseSession, CloseClient]
    ensures registered == 4 ==> r.teardown == [RestoreTerminal, CloseKeepAlive, CloseSession, CloseClient]
    ensures registered == 5 ==> r.teardown == [CloseWindowChange, RestoreTerminal, CloseKeepAlive, CloseSession, CloseClient]
  {
    Session(e, Reverse(Registration[..registered]))
  }

  /** `Connect`. */
  function Connect(s: Server, env: KeyEnv, net: Remote): (r: Session)
    ensures r.err.None? <==>
      (GetSshClient(s, env, net.dial).None? && net.newSession.None? &&
       net.makeRaw.None? && net.requestPty.None? && net.shell.None?)
    ensures r.err.None? ==> r.teardown == [CloseWindowChange, RestoreTerminal, CloseKeepAlive, CloseSession, CloseClient]
    ensures |r.teardown| <= |Registration| && r.teardown == Reverse(Registration[..|r.teardown|])
    ensures GetSshClient(s, env, net.dial).Some? ==>
      r == Session(Some(DialError(GetSshClient(s, env, net.dial).value)), [])
    ensures CloseSession in r.teardown ==> net.newSession.None?
    ensures RestoreTerminal in r.teardown ==> net.makeRaw.None?
    ensures GetSshClient(s, env, net.dial).None? && net.newSession.Some? ==>
      r == Session(Some(SessionPrefix + net.newSession.value), [CloseClient])
    ensures GetSshClient(s, env, net.dial).None? && net.newSession.None? && net.makeRaw.Some? ==>
      r == Session(Some(RawModePrefix + net.makeRaw.value), [CloseSession, CloseClient])
    ensures GetSshClient(s, env, net.dial).None? && net.newSession.None? && net.makeRaw.None? && net.requestPty.Some? ==>
      r == Session(Some(PtyPrefix + net.requestPty.value), [RestoreTerminal, CloseKeepAlive, CloseSession, CloseClient])
    ensures GetSshClient(s, env, net.dial).None? && net.newSession.None? && net.makeRaw.None? && net.requestPty.None? && net.shell.Some? ==>
      r == Session(Some(ShellPrefix + net.shell.value), [CloseWindowChange, RestoreTerminal, CloseKeepAlive, CloseSession, CloseClient])
  {
    match GetSshClient(s, env, net.dial)
    case Some(e) => Leave(Some(DialError(e)), 0)
    case None =>
      match net.newSession
      case Some(e) => Leave(Some(SessionPrefix + e), 1)
      case None =>
        match net.makeRaw
        case Some(e) => Leave(Some(RawModePrefix + e), 2)
        case None =>
          // the keepalive loop is started and the terminal restore deferred
          match net.requestPty
          case Some(e) => Leave(Some(PtyPrefix + e), 4)
          case None =>
            match net.shell
            case Some(e) => Leave(Some(ShellPrefix + e), 5)
            case None => Leave(None, 5)
  }

  /** A raw-mode failure closes only the session, then the client. */
  lemma {:induction false} RawModeFailureTeardown(s: Server, env: KeyEnv, net: Remote)
    requires GetSshClient(s, env, net.dial).None? && net.newSession.None? && net.makeRaw.Some?
    ensures Connect(s, env, net) == Session(Some(RawModePrefix + net.makeRaw.value), [CloseSession, CloseClient])
  {
  }

  /** Whether the resource a clean-up releases was acquired: the client
      once dialled, the session once opened, the keepalive channel and the
      saved terminal state once the terminal is raw, the window watcher once
      the pty is granted. */
  predicate Acquired(c: Cleanup, s: Server, env: KeyEnv, net: Remote) {
    var client := GetSshClient(s, env, net.dial).None?;
    var session := client && net.newSession.None?;
    var raw := session && net.makeRaw.None?;
    match c
    case CloseClient => client
    case CloseSession => session
    case CloseKeepAlive => raw
    case RestoreTerminal => raw
    case CloseWindowChange => raw && net.requestPty.None?
  }

  /** The position at which `Connect` acquires what a clean-up releases. */
  function Rank(c: Cleanup): nat {
    match c
    case CloseClient => 0
    case CloseSession => 1
    case CloseKeepAlive => 2
    case RestoreTerminal => 3
    case CloseWindowChange => 4
  }

  /** The first `n` registered clean-ups, run last-in first-out: a
      clean-up runs iff its rank is below `n`, in decreasing rank. */
  lemma {:induction false} ReleasedPrefix(n: nat)
    requires n <= |Registration|
    ensures forall c :: c in Reverse(Registration[..n]) <==> Rank(c) < n
    ensures forall i :: 0 <= i < n ==> Rank(Reverse(Registration[..n])[i]) == n - 1 - i
  {
    var t := Reverse(Registration[..n]);
    forall i | 0 <= i < n ensures Rank(t[i]) == n - 1 - i {
      assert t[i] == Registration[n - 1 - i];
    }
    forall c ensures c in t <==> Rank(c) < n {
      assert Registration[Rank(c)] == c;
      if Rank(c) < n {
        assert t[n - 1 - Rank(c)] == c;
      }
    }
  }

  /** What `Connect` acquired is exactly what ranks below the number of
      clean-ups it ran. */
  lemma {:induction false} AcquiredBelowTeardown(s: Server, env: KeyEnv, net: Remote)
    ensures forall c :: Acquired(c, s, env, net) <==> Rank(c) < |Connect(s, env, net).teardown|
  {
    var n := |Connect(s, env, net).teardown|;
    if GetSshClient(s, env, net.dial).Some? {
      assert n == 0;
    } else if net.newSession.Some? {
      assert n == 1;
    } else if net.makeRaw.Some? {
      assert n == 2;
    } else if net.requestPty.Some? {
      assert n == 4;
    } else {
      assert n == 5;
    }
  }

  /** Whatever step fails, `Connect` releases exactly what it acquired, each
      once, the most recently acquired first. */
  lemma {:induction false} ConnectReleasesAcquired(s: Server, env: KeyEnv, net: Remote)
    ensures forall c :: c in Connect(s, env, net).teardown <==> Acquired(c, s, env, net)
    ensures forall i, j :: 0 <= i < j < |Connect(s, env, net).teardown| ==>
      Rank(Connect(s, env, net).teardown[i]) > Rank(Connect(s, env, net).teardown[j])
  {
    var t := Connect(s, env, net).teardown;
    ReleasedPrefix(|t|);
    AcquiredBelowTeardown(s, env, net);
  }

  /** An authentication rejection by the server is reported with the
      credential message, whatever else the error says. */
  lemma {:induction false} AuthRejectionMessage(s: Server, env: KeyEnv, net: Remote)
    requires ParseAuthMethods(s, env).Ok? && net.dial(DialAddress(s)).Some?
    requires GoStrings.Contains(net.dial(DialAddress(s)).value, AuthFailureMarker)
    ensures Connect(s, env, net).err == Some(CredentialMessage)
  {
  }

  // ---------------------------------------------------------------------
  // Keepalive and window-size watchers
  // ---------------------------------------------------------------------

  const AliveKey := "ServerAliveInterval"

  /** The keepalive guard: the option is present and not JSON null. */
  predicate KeepAliveEnabled(o: Options) {
    o.Some? && AliveKey in o.value && o.value[AliveKey] != Null
  }

  /** How the keepalive goroutine ended: it returned on its own, it
      panicked on a non-numeric interval, or it was still running when
      `Connect` closed its channel. */
  datatype LoopEnd = Returned | Panicked | Terminated

  /** The keepalive loop, given the number of times it finds its channel
      still open. The outcome of each request is ignored, so it is not an
      input. Returns the number of requests sent and how the loop ended. */
  function KeepAlive(o: Options, iterations: nat): (r: (nat, LoopEnd))
    ensures !KeepAliveEnabled(o) && iterations > 0 ==> r == (0, Returned)
    ensures KeepAliveEnabled(o) && o.value[AliveKey].Number? ==> r == (iterations, Terminated)
    ensures KeepAliveEnabled(o) && !o.value[AliveKey].Number? && iterations > 0 ==> r == (1, Panicked)
    ensures iterations == 0 ==> r == (0, Terminated)
    ensures r.0 <= iterations
    decreases iterations
  {
    if iterations == 0 then (0, Terminated)
    else if !KeepAliveEnabled(o) then (0, Returned)
    else
      // the send error is ignored; the interval is then asserted to be a number
      if !o.value[AliveKey].Number? then (1, Panicked)
      else var rest := KeepAlive(o, iterations - 1); (rest.0 + 1, rest.1)
  }

  /** A loop that returned or panicked does so for good: however much
      longer the session lasts, nothing more is sent. */
  lemma {:induction false} KeepAliveEndsOnce(o: Options, n: nat, m: nat)
    requires KeepAlive(o, n).1 != Terminated
    ensures KeepAlive(o, n + m) == KeepAlive(o, n)
  {
  }

  /** A terminal size sample, width and height. */
  datatype Size = Size(width: int, height: int)

  /** One step of `listenWindowChange`: the new cached size, and the
      window-change request sent (if any). */
  function WatchStep(cached: Size, sample: Size): (r: (Size, Option<Size>))
    ensures r.0 == sample
    ensures r.1.Some? <==> sample != cached
    ensures r.1.Some? ==> r.1.value == sample
  {
    if cached.width != sample.width || cached.height != sample.height then (sample, Some(sample))
    else (cached, None)
  }

  /** The watcher over a sequence of samples: the requests sent. */
  function Watch(cached: Size, samples: seq<Size>): (reqs: seq<Size>)
    ensures |reqs| <= |samples|
    decreases |samples|
  {
    if |samples| == 0 then []
    else
      var step := WatchStep(cached, samples[0]);
      (if step.1.Some? then [step.1.value] else []) + Watch(step.0, samples[1..])
  }

  /** The size cached just before sample `i` is examined. */
  function Before(cached: Size, samples: seq<Size>, i: nat): Size
    requires i < |samples|
  {
    if i == 0 then cached else samples[i - 1]
  }

  /** The samples that differ from the one before them (the first one
      compared with the initial size), from position `i` on. */
  function ChangePoints(cached: Size, samples: seq<Size>, i: nat): seq<Size>
    requires i <= |samples|
    decreases |samples| - i
  {
    if i == |samples| then []
    else (if samples[i] != Before(cached, samples, i) then [samples[i]] else [])
         + ChangePoints(cached, samples, i + 1)
  }

  lemma {:induction false} WatchFrom(cached: Size, samples: seq<Size>, i: nat)
    requires i <= |samples|
    ensures Watch(if i == 0 then cached else samples[i - 1], samples[i..]) == ChangePoints(cached, samples, i)
    decreases |samples| - i
  {
    if i < |samples| {
      WatchFrom(cached, samples, i + 1);
      assert samples[i..][1..] == samples[i + 1..];
    }
  }

  /** The requests are exactly the samples at change points. */
  lemma {:induction false} WatchSendsChangePoints(cached: Size, samples: seq<Size>)
    ensures Watch(cached, samples) == ChangePoints(cached, samples, 0)
  {
    WatchFrom(cached, samples, 0);
    assert samples[0..] == samples;
  }
}

=== FILE: filepath.dfy ===
/** Path expansion of src/utils/file_path.go: `~` expands to the home
    directory, absolute paths are kept, anything else is taken relative to the
    executable's directory. The process environment, the current-user lookup,
    the home-directory shell fallback and the executable's directory are the
    fields of a `Host` value. */
module FilePath {
  import opened Wrappers
  import GoStrings

  /** What the path helpers can observe about the running process. */
  datatype Host = Host(
    env: map<string, string>,          // environment variables
    currentUser: Result<string, string>, // `user.Current()`: home dir or error
    windows: bool,                     // `runtime.GOOS == "windows"`
    shellHome: Result<string, string>, // stdout of `sh -c "eval echo ~$USER"`
    exeDir: string                     // `filepath.Abs(filepath.Dir(os.Args[0]))`
  )

  /** `os.Getenv`: a missing variable reads as the empty string. */
  function Getenv(h: Host, name: string): (v: string)
    ensures name !in h.env ==> v == ""
    ensures name in h.env ==> v == h.env[name]
  {
    if name in h.env then h.env[name] else ""
  }

  const BlankHomeMessage := "blank output when reading home directory"
  const BlankWindowsHomeMessage := "HOMEDRIVE, HOMEPATH, and USERPROFILE are blank"

  /** `homeUnix`: a non-empty `HOME` wins; otherwise the trimmed shell
      output, which must be non-empty. */
  function HomeUnix(h: Host): (r: Result<string, string>)
    ensures Getenv(h, "HOME") != "" ==> r == Ok(Getenv(h, "HOME"))
    ensures r.Ok? ==> r.value != ""
    ensures Getenv(h, "HOME") == "" && h.shellHome.Err? ==> r == Err(h.shellHome.error)
  {
    var home := Getenv(h, "HOME");
    if home != "" then Ok(home)
    else match h.shellHome
      case Err(e) => Err(e)
      case Ok(out) =>
        var result := GoStrings.TrimSpace(out);
        if result == "" then Err(BlankHomeMessage) else Ok(result)
  }

  /** `homeWindows`: HOMEDRIVE+HOMEPATH when both are set, else
      USERPROFILE; an error only when the chosen value is empty. */
  function HomeWindows(h: Host): (r: Result<string, string>)
    ensures var drive := Getenv(h, "HOMEDRIVE"); var path := Getenv(h, "HOMEPATH");
      var chosen := if drive != "" && path != "" then drive + path else Getenv(h, "USERPROFILE");
      r == if chosen == "" then Err(BlankWindowsHomeMessage) else Ok(chosen)
  {
    var drive := Getenv(h, "HOMEDRIVE");
    var path := Getenv(h, "HOMEPATH");
    var home := if drive == "" || path == "" then Getenv(h, "USERPROFILE") else drive + path;
    if home == "" then Err(BlankWindowsHomeMessage) else Ok(home)
  }

  /** `home`: the current user's home directory, else the platform
      fallback. */
  function Home(h: Host): (r: Result<string, string>)
    ensures h.currentUser.Ok? ==> r == Ok(h.currentUser.value)
    ensures h.currentUser.Err? && h.windows ==> r == HomeWindows(h)
    ensures h.currentUser.Err? && !h.windows ==> r == HomeUnix(h)
  {
    match h.currentUser
    case Ok(dir) => Ok(dir)
    case Err(_) => if h.windows then HomeWindows(h) else HomeUnix(h)
  }

  /** Why a path could not be expanded. `EmptyPath` is the model's choice
      for the empty path: slicing the first rune of `""` reads past the
      length, and whether that panics depends on the capacity the Go
      toolchain gives the rune slice. */
  datatype PathError = EmptyPath | HomeUnknown(message: string)

  /** `utils.ParsePath`. */
  function ParsePath(h: Host, p: string): (r: Result<string, PathError>)
    ensures p == "" ==> r == Err(EmptyPath)
    ensures p != "" && p[0] == '~' ==>
      r == match Home(h) { case Ok(home) => Ok(home + p[1..]) case Err(e) => Err(HomeUnknown(e)) }
    ensures p != "" && p[0] == '/' ==> r == Ok(p)
    ensures p != "" && p[0] != '~' && p[0] != '/' ==> r == Ok(h.exeDir + "/" + p)
  {
    if p == "" then Err(EmptyPath)
    else if p[0] == '~' then
      match Home(h)
      case Err(e) => Err(HomeUnknown(e))
      case Ok(home) => Ok(home + p[1..])
    else if p[0] == '/' then Ok(p)
    else Ok(h.exeDir + "/" + p)
  }

  predicate Rooted(s: string) {
    |s| > 0 && s[0] == '/'
  }

  /** When the home and executable directories are absolute, every expanded
      path is absolute and expanding it again changes nothing. */
  lemma {:induction false} ParsePathIdempotent(h: Host, p: string)
    requires Home(h).Ok? ==> Rooted(Home(h).value)
    requires Rooted(h.exeDir)
    requires ParsePath(h, p).Ok?
    ensures Rooted(ParsePath(h, p).value)
    ensures ParsePath(h, ParsePath(h, p).value) == ParsePath(h, p)
  {
  }

  /** A tilde is replaced by the home directory and nothing else, so a
      `~name` path is not looked up as another user's home. */
  lemma {:induction false} TildeIsLiteral(h: Host, rest: string)
    requires Home(h).Ok?
    ensures ParsePath(h, "~" + rest) == Ok(Home(h).value + rest)
  {
    assert ("~" + rest)[1..] == rest;
  }

  /** Why an existence check failed. */
  datatype ExistsError = BadPath(cause: PathError) | StatFailed(message: string)

  /** `FileIsExists`: expands the path, then stats it; `statError` gives
      `os.Stat`'s error for a path (`None` when the stat succeeds). */
  function FileIsExists(h: Host, statError: string -> Option<string>, file: string)
    : (r: (bool, Option<ExistsError>))
    ensures r.0 <==> ParsePath(h, file).Ok? && statError(ParsePath(h, file).value).None?
    ensures r.0 <==> r.1.None?
    ensures ParsePath(h, file).Err? ==> r.1 == Some(BadPath(ParsePath(h, file).error))
  {
    match ParsePath(h, file)
    case Err(e) => (false, Some(BadPath(e)))
    case Ok(p) =>
      match statError(p)
      case Some(msg) => (false, Some(StatFailed(msg)))
      case None => (true, None)
  }
}

/** The older path helpers of core/util.go. */
module CoreUtil {
  import opened Wrappers
  import FilePath

  /** `core.ParsePath`: `~` expands to the home directory, a leading `.`
      is prefixed with the executable's directory (the dot is kept), and
      everything else, relative or absolute, is returned as is. */
  function ParsePath(h: FilePath.Host, p: string): (r: Result<string, FilePath.PathError>)
    ensures p == "" ==> r == Err(FilePath.EmptyPath)
    ensures p != "" && p[0] != '~' && p[0] != '.' ==> r == Ok(p)
    ensures p != "" && p[0] == '.' ==> r == Ok(h.exeDir + "/" + p)
    ensures p != "" && p[0] == '~' && FilePath.Home(h).Err? ==>
      r == Err(FilePath.HomeUnknown(FilePath.Home(h).error))
    ensures p != "" && p[0] == '~' && FilePath.Home(h).Ok? ==>
      r == Ok(FilePath.Home(h).value + p[1..])
  {
    if p == "" then Err(FilePath.EmptyPath)
    else if p[0] == '~' then
      match FilePath.Home(h)
      case Err(e) => Err(FilePath.HomeUnknown(e))
      case Ok(home) => Ok(home + p[1..])
    else if p[0] == '.' then Ok(h.exeDir + "/" + p)
    else Ok(p)
  }

  /** The two generations agree on `~` and absolute paths, and differ on
      plain relative paths: the newer one anchors them at the executable's
      directory, the older one leaves them alone. */
  lemma {:induction false} GenerationsOnRelativePath(h: FilePath.Host, p: string)
    requires p != "" && p[0] != '~' && p[0] != '/' && p[0] != '.'
    ensures ParsePath(h, p) == Ok(p)
    ensures FilePath.ParsePath(h, p) == Ok(h.exeDir + "/" + p)
  {
  }

  /** core/util.go's `homeWindows` has the same fallback rule: USERPROFILE
      is used as soon as either HOMEDRIVE or HOMEPATH is empty. */
  lemma {:induction false} HomeWindowsFallback(h: FilePath.Host)
    requires FilePath.Getenv(h, "HOMEDRIVE") == "" || FilePath.Getenv(h, "HOMEPATH") == ""
    ensures FilePath.HomeWindows(h) ==
      if FilePath.Getenv(h, "USERPROFILE") == "" then Err(FilePath.BlankWindowsHomeMessage)
      else Ok(FilePath.Getenv(h, "USERPROFILE"))
  {
  }
}

/** The `-c` (config file) flag of src/app/commands/config.go. */
module ConfigFlag {
  import opened Wrappers
  import FilePath

  const DefaultConfigFile := "./config.json"

  /** `Config.Process`: returns the new flag value and `Process`'s boolean
      result (whether the program should stop). */
  function Process(h: FilePath.Host, value: string): (r: (string, bool))
    ensures !r.1
    ensures value == "" ==> r.0 == DefaultConfigFile
    ensures value != "" ==>
      r.0 == match FilePath.ParsePath(h, value) { case Ok(p) => p case Err(_) => "" }
  {
    if value == "" then (DefaultConfigFile, false)
    else match FilePath.ParsePath(h, value)
      case Ok(p) => (p, false)
      case Err(_) => ("", false)
  }

  /** An expanded flag is an absolute path that processing again leaves as
      it is, so the configuration file named stays the same. */
  lemma {:induction false} ProcessStable(h: FilePath.Host, value: string)
    requires FilePath.Home(h).Ok? ==> FilePath.Rooted(FilePath.Home(h).value)
    requires FilePath.Rooted(h.exeDir)
    requires value != "" && FilePath.ParsePath(h, value).Ok?
    ensures FilePath.Rooted(Process(h, value).0)
    ensures Process(h, Process(h, value).0) == Process(h, value)
  {
    FilePath.ParsePathIdempotent(h, value);
  }
}

=== FILE: gopath.dfy ===
/** Go's `path` package (slash-separated paths): `Clean`, `Join`, `Base` and
    `Dir`. A path is understood through its lexical location `LocOf(s)`: the
    absolute flag and the element stack left by `path.Clean`'s rewriting
    rules (drop empty and `.` elements, let `..` cancel the element before it,
    drop `..` at the root of an absolute path). */
module GoPath {
  import GoStrings

  /** A path after lexical processing. */
  datatype Loc = Loc(abs: bool, segs: seq<string>)

  /** An element that may appear in a cleaned path (possibly `..`). */
  predicate IsElem(e: string) {
    e != "" && e != "." && '/' !in e
  }

  /** A directory-entry name: an element that is not `..`. */
  predicate IsName(e: string) {
    IsElem(e) && e != ".."
  }

  type Name = e: string | IsName(e) witness "a"

  predicate AllNames(es: seq<string>) {
    forall i :: 0 <= i < |es| ==> IsName(es[i])
  }

  /** The shape `path.Clean` produces: elements only, `..` only as a leading
      run, and never in an absolute path. */
  predicate Reduced(l: Loc) {
    && (forall i :: 0 <= i < |l.segs| ==> IsElem(l.segs[i]))
    && (forall i, j :: 0 <= i < j < |l.segs| && l.segs[j] == ".." ==> l.segs[i] == "..")
    && (l.abs ==> forall i :: 0 <= i < |l.segs| ==> l.segs[i] != "..")
  }

  /** One element of `path.Clean`'s rewriting loop applied to stack `st`. */
  function Step(st: seq<string>, e: string, abs: bool): seq<string> {
    if e == "" || e == "." then st
    else if e == ".." then
      if |st| > 0 && st[|st| - 1] != ".." then st[..|st| - 1]
      else if abs then st
      else st + [".."]
    else st + [e]
  }

  /** The rewriting loop over a whole list of elements. */
  function Steps(st: seq<string>, es: seq<string>, abs: bool): seq<string>
    decreases |es|
  {
    if |es| == 0 then st else Step(Steps(st, es[..|es| - 1], abs), es[|es| - 1], abs)
  }

  function IsRooted(s: string): bool {
    |s| > 0 && s[0] == '/'
  }

  /** The lexical location a path string denotes. */
  function LocOf(s: string): Loc {
    Loc(IsRooted(s), Steps([], GoStrings.Split(s, '/'), IsRooted(s)))
  }

  /** The canonical spelling of a location, as `path.Clean` prints it. */
  function Render(l: Loc): string {
    if l.abs then "/" + GoStrings.Join(l.segs, '/')
    else if |l.segs| == 0 then "."
    else GoStrings.Join(l.segs, '/')
  }

  /** `path.Clean`. */
  function Clean(s: string): string {
    Render(LocOf(s))
  }

  /** `path.Join(a, b)`: empty arguments are ignored, the rest joined with a
      slash and cleaned; two empty arguments give the empty string. */
  function Join(a: string, b: string): string {
    if a == "" && b == "" then ""
    else if a == "" then Clean(b)
    else if b == "" then Clean(a)
    else Clean(a + "/" + b)
  }

  /** Position of the last `c` in `s`, or -1. */
  function LastIndex(s: string, c: char): (r: int)
    ensures -1 <= r < |s|
    ensures r >= 0 ==> s[r] == c
    ensures forall k :: r < k < |s| ==> s[k] != c
  {
    if |s| == 0 then -1
    else if s[|s| - 1] == c then |s| - 1
    else LastIndex(s[..|s| - 1], c)
  }

  /** `s` without its trailing slashes. */
  function StripTrailingSlashes(s: string): (r: string)
    ensures r <= s
    ensures |r| > 0 ==> r[|r| - 1] != '/'
  {
    if |s| > 0 && s[|s| - 1] == '/' then StripTrailingSlashes(s[..|s| - 1]) else s
  }

  /** `path.Base`: the last element, `.` for the empty path and `/` for a
      path made of slashes only. */
  function Base(p: string): string {
    if p == "" then "."
    else
      var q := StripTrailingSlashes(p);
      if q == "" then "/" else q[LastIndex(q, '/') + 1..]
  }

  /** `path.Dir`: everything up to the last slash, cleaned. */
  function Dir(p: string): string {
    Clean(p[..LastIndex(p, '/') + 1])
  }

  // ---------------------------------------------------------------------
  // The rewriting loop
  // ---------------------------------------------------------------------

  lemma {:induction false} StepsAppend(st: seq<string>, xs: seq<string>, ys: seq<string>, abs: bool)
    ensures Steps(st, xs + ys, abs) == Steps(Steps(st, xs, abs), ys, abs)
    decreases |ys|
  {
    if |ys| == 0 {
      assert xs + ys == xs;
    } else {
      assert (xs + ys)[..|xs + ys| - 1] == xs + ys[..|ys| - 1];
      assert (xs + ys)[|xs + ys| - 1] == ys[|ys| - 1];
      StepsAppend(st, xs, ys[..|ys| - 1], abs);
    }
  }

  /** Plain names are simply pushed. */
  lemma {:induction false} StepsNames(st: seq<string>, es: seq<string>, abs: bool)
    requires AllNames(es)
    ensures Steps(st, es, abs) == st + es
    decreases |es|
  {
    if |es| > 0 {
      StepsNames(st, es[..|es| - 1], abs);
      assert st + es[..|es| - 1] + [es[|es| - 1]] == st + es;
    }
  }

  lemma {:induction false} StepKeepsReduced(st: seq<string>, e: string, abs: bool)
    requires Reduced(Loc(abs, st))
    requires '/' !in e
    ensures Reduced(Loc(abs, Step(st, e, abs)))
  {
    var r := Step(st, e, abs);
    if e == ".." && !(|st| > 0 && st[|st| - 1] != "..") && !abs {
      assert r == st + [".."];
      forall i, j | 0 <= i < j < |r| && r[j] == ".." ensures r[i] == ".." {
        if j == |r| - 1 {
          assert st[|st| - 1] == "..";
          if i < |st| - 1 { assert st[i] == ".."; }
        }
      }
    }
  }

  lemma {:induction false} StepsKeepReduced(st: seq<string>, es: seq<string>, abs: bool)
    requires Reduced(Loc(abs, st))
    requires forall i :: 0 <= i < |es| ==> '/' !in es[i]
    ensures Reduced(Loc(abs, Steps(st, es, abs)))
    decreases |es|
  {
    if |es| > 0 {
      StepsKeepReduced(st, es[..|es| - 1], abs);
      StepKeepsReduced(Steps(st, es[..|es| - 1], abs), es[|es| - 1], abs);
    }
  }

  /** Every path denotes a reduced location. */
  lemma {:induction false} LocOfReduced(s: string)
    ensures Reduced(LocOf(s))
  {
    StepsKeepReduced([], GoStrings.Split(s, '/'), IsRooted(s));
  }

  /** Replaying an already reduced stack rebuilds it unchanged. */
  lemma {:induction false} StepsOfReduced(segs: seq<string>, abs: bool)
    requires Reduced(Loc(abs, segs))
    ensures Steps([], segs, abs) == segs
    decreases |segs|
  {
    if |segs| > 0 {
      var p := segs[..|segs| - 1];
      var x := segs[|segs| - 1];
      assert Reduced(Loc(abs, p));
      StepsOfReduced(p, abs);
      StepLast(Loc(abs, segs));
    }
  }

  /** From a stack of names, `..` cannot climb above the stack's base, so a
      rooted walk from names stays among names. */
  lemma {:induction false} StepsRootedNames(st: seq<string>, es: seq<string>)
    requires AllNames(st)
    requires forall i :: 0 <= i < |es| ==> '/' !in es[i]
    ensures AllNames(Steps(st, es, true))
    decreases |es|
  {
    if |es| > 0 {
      StepsRootedNames(st, es[..|es| - 1]);
    }
  }

  // ---------------------------------------------------------------------
  // Rendering and re-reading
  // ---------------------------------------------------------------------

  lemma {:induction false} JoinHead(segs: seq<string>)
    requires |segs| >= 1 && |segs[0]| > 0
    ensures |GoStrings.Join(segs, '/')| > 0 && GoStrings.Join(segs, '/')[0] == segs[0][0]
  {
  }

  /** A leading slash reads as an empty first element, which the
      rewriting loop drops. */
  lemma {:induction false} SplitRooted(j: string)
    ensures GoStrings.Split("/" + j, '/') == [""] + GoStrings.Split(j, '/')
    ensures Steps([], [""] + GoStrings.Split(j, '/'), true) == Steps([], GoStrings.Split(j, '/'), true)
  {
    assert "/" + j == "" + "/" + j;
    GoStrings.SplitAround("", j, '/');
    assert GoStrings.Split("", '/') == [""];
    StepsAppend([], [""], GoStrings.Split(j, '/'), true);
    assert Steps([], [""], true) == [];
  }

  /** A non-empty reduced stack splits back from its join. */
  lemma {:induction false} SplitJoinedSegs(l: Loc)
    requires Reduced(l) && |l.segs| > 0
    ensures GoStrings.Split(GoStrings.Join(l.segs, '/'), '/') == l.segs
    ensures Steps([], GoStrings.Split(GoStrings.Join(l.segs, '/'), '/'), l.abs) == l.segs
  {
    GoStrings.JoinThenSplit(l.segs, '/');
    StepsOfReduced(l.segs, l.abs);
  }

  lemma {:induction false} LocOfRenderAbs(l: Loc)
    requires Reduced(l) && l.abs
    ensures LocOf(Render(l)) == l
  {
    var j := GoStrings.Join(l.segs, '/');
    assert Render(l) == "/" + j;
    assert IsRooted("/" + j);
    SplitRooted(j);
    if |l.segs| > 0 {
      SplitJoinedSegs(l);
      assert Steps([], GoStrings.Split(j, '/'), true) == l.segs;
    } else {
      assert GoStrings.Split(j, '/') == [""];
      assert Steps([], [""], true) == [];
    }
    assert LocOf(Render(l)) == Loc(true, Steps([], GoStrings.Split(j, '/'), true));
  }

  lemma {:induction false} LocOfRenderRel(l: Loc)
    requires Reduced(l) && !l.abs && |l.segs| > 0
    ensures LocOf(Render(l)) == l
  {
    JoinHead(l.segs);
    SplitJoinedSegs(l);
  }

  /** Reading back a rendered reduced location gives the location. */
  lemma {:induction false} LocOfRender(l: Loc)
    requires Reduced(l)
    ensures LocOf(Render(l)) == l
  {
    if l.abs {
      LocOfRenderAbs(l);
    } else if |l.segs| == 0 {
      GoStrings.SplitWithoutSeparator(".", '/');
    } else {
      LocOfRenderRel(l);
    }
  }

  /** `path.Clean` does not change the location a path denotes. */
  lemma {:induction false} LocOfClean(s: string)
    ensures LocOf(Clean(s)) == LocOf(s)
  {
    LocOfReduced(s);
    LocOfRender(LocOf(s));
  }

  /** `path.Clean` is idempotent. */
  lemma {:induction false} CleanIdempotent(s: string)
    ensures Clean(Clean(s)) == Clean(s)
  {
    LocOfClean(s);
  }

  /** The location of `path.Join(a, b)` for two non-empty arguments: the
      elements of `b` replayed on top of `a`'s location. */
  lemma {:induction false} JoinLoc(a: string, b: string)
    requires a != "" && b != ""
    ensures LocOf(Join(a, b)) ==
      Loc(LocOf(a).abs, Steps(LocOf(a).segs, GoStrings.Split(b, '/'), LocOf(a).abs))
  {
    var ab := a + "/" + b;
    LocOfClean(ab);
    GoStrings.SplitAround(a, b, '/');
    assert IsRooted(ab) == IsRooted(a);
    StepsAppend([], GoStrings.Split(a, '/'), GoStrings.Split(b, '/'), IsRooted(a));
  }

  /** Joining a directory-entry name adds exactly that element. */
  lemma {:induction false} JoinName(a: string, n: string)
    requires IsName(n)
    ensures LocOf(Join(a, n)) ==
      if a == "" then Loc(false, [n]) else Loc(LocOf(a).abs, LocOf(a).segs + [n])
  {
    GoStrings.SplitWithoutSeparator(n, '/');
    assert AllNames([n]);
    if a == "" {
      LocOfClean(n);
      StepsNames([], [n], false);
    } else {
      JoinLoc(a, n);
      StepsNames(LocOf(a).segs, [n], LocOf(a).abs);
    }
  }

  /** Joining the rendering of an absolute list of names appends the names
      (and yields that absolute path when `a` is empty). */
  lemma {:induction false} JoinRootedNames(a: string, ds: seq<string>)
    requires AllNames(ds)
    ensures LocOf(Join(a, Render(Loc(true, ds)))) ==
      if a == "" then Loc(true, ds) else Loc(LocOf(a).abs, LocOf(a).segs + ds)
  {
    var v := Render(Loc(true, ds));
    assert Reduced(Loc(true, ds));
    if a == "" {
      LocOfClean(v);
      LocOfRender(Loc(true, ds));
    } else {
      JoinLoc(a, v);
      var j := GoStrings.Join(ds, '/');
      assert v == "" + "/" + j;
      GoStrings.SplitAround("", j, '/');
      var tail := if |ds| == 0 then [""] else ds;
      if |ds| > 0 {
        GoStrings.JoinThenSplit(ds, '/');
      }
      assert GoStrings.Split(v, '/') == [""] + tail;
      var st := LocOf(a).segs;
      StepsAppend(st, [""], tail, LocOf(a).abs);
      if |ds| > 0 {
        StepsNames(st, ds, LocOf(a).abs);
      }
    }
  }

  /** The rendering of a non-empty reduced location, split at its last
      slash: everything before it and the last element. */
  lemma {:induction false} RenderSnoc(l: Loc)
    requires |l.segs| > 0
    ensures var x := l.segs[|l.segs| - 1];
      var p := Loc(l.abs, l.segs[..|l.segs| - 1]);
      if !l.abs && |p.segs| == 0 then Render(l) == x
      else if |p.segs| == 0 then Render(l) == "" + "/" + x
      else Render(l) == Render(p) + "/" + x
  {
    var segs := l.segs;
    var x := segs[|segs| - 1];
    var ps := segs[..|segs| - 1];
    assert segs == ps + [x];
    if |ps| > 0 {
      GoStrings.JoinSnoc(ps, x, '/');
      if l.abs {
        assert Render(l) == "/" + (GoStrings.Join(ps, '/') + "/" + x);
      }
    } else {
      assert segs == [x];
      assert GoStrings.Join(segs, '/') == x;
    }
  }

  lemma {:induction false} LastIndexAfter(pre: string, x: string)
    requires '/' !in x
    ensures LastIndex(pre + "/" + x, '/') == |pre|
  {
    var s := pre + "/" + x;
    var r := LastIndex(s, '/');
    assert s[|pre|] == '/';
  }

  lemma {:induction false} LastIndexNone(x: string)
    requires '/' !in x
    ensures LastIndex(x, '/') == -1
  {
  }

  /** `path.Base` of a cleaned non-root path is its last element. */
  lemma {:induction false} BaseOfRender(l: Loc)
    requires Reduced(l) && |l.segs| > 0
    ensures Base(Render(l)) == l.segs[|l.segs| - 1]
  {
    var x := l.segs[|l.segs| - 1];
    var p := Loc(l.abs, l.segs[..|l.segs| - 1]);
    RenderSnoc(l);
    var s := Render(l);
    assert |x| > 0 && s[|s| - 1] == x[|x| - 1];
    assert StripTrailingSlashes(s) == s;
    if !l.abs && |p.segs| == 0 {
      LastIndexNone(x);
    } else if |p.segs| == 0 {
      LastIndexAfter("", x);
    } else {
      LastIndexAfter(Render(p), x);
    }
  }

  /** `path.Dir` of a cleaned non-root path is the location one level up. */
  lemma {:induction false} DirOfRender(l: Loc)
    requires Reduced(l) && |l.segs| > 0
    ensures LocOf(Dir(Render(l))) == Loc(l.abs, l.segs[..|l.segs| - 1])
  {
    var x := l.segs[|l.segs| - 1];
    var p := Loc(l.abs, l.segs[..|l.segs| - 1]);
    RenderSnoc(l);
    if !l.abs && |p.segs| == 0 {
      LastIndexNone(x);
      assert Dir(Render(l)) == Clean("");
      LocOfClean("");
      assert GoStrings.Split("", '/') == [""];
    } else {
      var pre := if |p.segs| == 0 then "" else Render(p);
      LastIndexAfter(pre, x);
      assert Render(l)[..|pre| + 1] == pre + "/";
      DirOfSlashed(l, pre);
    }
  }

  /** The location of a cleaned parent spelling followed by a slash. */
  lemma {:induction false} DirOfSlashed(l: Loc, pre: string)
    requires Reduced(l) && |l.segs| > 0 && (l.abs || |l.segs| > 1)
    requires pre == if |l.segs| == 1 then "" else Render(Loc(l.abs, l.segs[..|l.segs| - 1]))
    ensures LocOf(Clean(pre + "/")) == Loc(l.abs, l.segs[..|l.segs| - 1])
  {
    var p := Loc(l.abs, l.segs[..|l.segs| - 1]);
    assert Reduced(p);
    LocOfClean(pre + "/");
    GoStrings.SplitAround(pre, "", '/');
    assert pre + "/" == pre + "/" + "";
    assert GoStrings.Split("", '/') == [""];
    StepsAppend([], GoStrings.Split(pre, '/'), [""], l.abs);
    if |p.segs| == 0 {
      assert GoStrings.Split("", '/') == [""];
    } else {
      LocOfRender(p);
      assert IsRooted(pre) == l.abs;
    }
  }

  lemma DotLoc()
    ensures LocOf(".") == Loc(false, []) && LocOf("") == Loc(false, [])
    ensures GoStrings.Split(".", '/') == ["."]
  {
    GoStrings.SplitWithoutSeparator(".", '/');
    GoStrings.SplitWithoutSeparator("", '/');
  }

  lemma RootLoc()
    ensures GoStrings.Split("/", '/') == ["", ""]
    ensures LocOf("/") == Loc(true, [])
  {
    GoStrings.SplitAround("", "", '/');
    assert "" + "/" + "" == "/";
    GoStrings.SplitWithoutSeparator("", '/');
  }

  /** The output of `path.Join` is already clean. */
  lemma {:induction false} JoinIsClean(a: string, b: string)
    requires a != "" || b != ""
    ensures Clean(Join(a, b)) == Join(a, b)
  {
    if a == "" { CleanIdempotent(b); }
    else if b == "" { CleanIdempotent(a); }
    else { CleanIdempotent(a + "/" + b); }
  }

  lemma RootDirBase()
    ensures Dir("/") == "/" && Base("/") == "/"
  {
    RootLoc();
    assert LastIndex("/", '/') == 0;
    assert "/"[..1] == "/";
    assert StripTrailingSlashes("/") == "";
  }

  lemma JoinDirBaseRoot()
    ensures LocOf(Join(Dir("/"), Base("/"))) == LocOf("/")
  {
    RootLoc();
    RootDirBase();
    JoinLoc("/", "/");
    assert Steps([], ["", ""], true) == [];
  }

  lemma {:induction false} JoinDirBaseDot(s: string)
    requires s == "" || s == "."
    ensures LocOf(Join(Dir(s), Base(s))) == LocOf(s)
  {
    DotLoc();
    assert LastIndex(s, '/') == -1;
    assert s[..0] == "";
    LocOfClean("");
    JoinLoc(".", ".");
  }

  /** `Join(Dir(s), Base(s))` for the rendering of a non-empty location. */
  lemma {:induction false} JoinDirBaseElems(l: Loc)
    requires Reduced(l) && |l.segs| > 0
    ensures LocOf(Join(Dir(Render(l)), Base(Render(l)))) == l
  {
    var s := Render(l);
    BaseOfRender(l);
    DirOfRender(l);
    var x := l.segs[|l.segs| - 1];
    var d := Dir(s);
    assert d != "";
    JoinLoc(d, x);
    GoStrings.SplitWithoutSeparator(x, '/');
    var ps := l.segs[..|l.segs| - 1];
    assert Steps(ps, [x], l.abs) == Step(Steps(ps, [], l.abs), x, l.abs);
    StepLast(l);
  }

  /** Pushing the last element of a reduced location back onto the rest
      rebuilds it. */
  lemma {:induction false} StepLast(l: Loc)
    requires Reduced(l) && |l.segs| > 0
    ensures Step(l.segs[..|l.segs| - 1], l.segs[|l.segs| - 1], l.abs) == l.segs
  {
    var ps := l.segs[..|l.segs| - 1];
    var x := l.segs[|l.segs| - 1];
    if x == ".." {
      assert |ps| == 0 || ps[|ps| - 1] == "..";
    }
    assert ps + [x] == l.segs;
  }

  /** The location of re-joining `path.Dir` and `path.Base` of a cleaned
      path, or of the empty path. */
  lemma {:induction false} JoinDirBaseLoc(s: string)
    requires s == "" || s == Clean(s)
    ensures LocOf(Join(Dir(s), Base(s))) == LocOf(s)
  {
    var l := LocOf(s);
    LocOfReduced(s);
    if s == "" || |l.segs| == 0 {
      assert s == "" || s == "." || s == "/";
      if s == "/" { JoinDirBaseRoot(); } else { JoinDirBaseDot(s); }
    } else {
      LocOfRender(l);
      JoinDirBaseElems(l);
    }
  }

  /** Re-joining `path.Dir` and `path.Base` of a cleaned path (or of the
      empty path) denotes the same location, and spells the cleaned path. */
  lemma {:induction false} JoinDirBase(s: string)
    requires s == "" || s == Clean(s)
    ensures LocOf(Join(Dir(s), Base(s))) == LocOf(s)
    ensures Join(Dir(s), Base(s)) == Clean(s)
  {
    JoinDirBaseLoc(s);
    assert Base(s) != "";
    JoinIsClean(Dir(s), Base(s));
  }

  /** Joining a name onto a cleaned path yields the cleaned path one
      element deeper. */
  lemma {:induction false} JoinNameRender(a: string, n: string)
    requires a != "" && IsName(n)
    ensures Join(a, n) == Render(Loc(LocOf(a).abs, LocOf(a).segs + [n]))
  {
    JoinName(a, n);
    LocOfClean(a + "/" + n);
  }

  /** The sub-path of a list of names, extended by one more name. */
  lemma {:induction false} JoinRooted(ms: seq<string>, n: string)
    requires AllNames(ms) && IsName(n)
    ensures Join(Render(Loc(true, ms)), n) == Render(Loc(true, ms + [n]))
  {
    var r := Render(Loc(true, ms));
    assert Reduced(Loc(true, ms));
    LocOfRender(Loc(true, ms));
    JoinNameRender(r, n);
  }

  /** The last element of a joined name is that name. */
  lemma {:induction false} BaseJoinName(a: string, n: string)
    requires a != "" && IsName(n)
    ensures Base(Join(a, n)) == n
  {
    JoinNameRender(a, n);
    var l := LocOf(a);
    LocOfReduced(a);
    assert Reduced(Loc(l.abs, l.segs + [n]));
    BaseOfRender(Loc(l.abs, l.segs + [n]));
  }

  /** The root marker is the rendering of the empty absolute location. */
  lemma RootRender()
    ensures Render(Loc(true, [])) == "/"
  {
  }
}

=== FILE: gostrings.dfy ===
/** The parts of Go's `strings` and `strconv` packages that the client relies
    on, written over Dafny strings (sequences of Unicode scalar values, which
    is what ranging over a Go string yields). */
module GoStrings {
  import opened Wrappers

  /** Go's `byte`. */
  newtype byte = b: int | 0 <= b < 256

  // ---------------------------------------------------------------------
  // strings.Split / strings.Join with a one-character separator
  // ---------------------------------------------------------------------

  /** `strings.Split(s, string(sep))`: the pieces between separators, always
      at least one (the empty string splits into `[""]`). */
  function Split(s: string, sep: char): (parts: seq<string>)
    ensures |parts| >= 1
    ensures forall i :: 0 <= i < |parts| ==> sep !in parts[i]
  {
    if |s| == 0 then [""]
    else
      var rest := Split(s[1..], sep);
      if s[0] == sep then [""] + rest
      else [[s[0]] + rest[0]] + rest[1..]
  }

  /** `strings.Join(parts, string(sep))`. */
  function Join(parts: seq<string>, sep: char): string
  {
    if |parts| == 0 then ""
    else if |parts| == 1 then parts[0]
    else parts[0] + [sep] + Join(parts[1..], sep)
  }

  /** Joining the pieces of a split restores the original string. */
  lemma {:induction false} SplitThenJoin(s: string, sep: char)
    ensures Join(Split(s, sep), sep) == s
  {
    if |s| > 0 {
      var rest := Split(s[1..], sep);
      SplitThenJoin(s[1..], sep);
      if s[0] == sep {
        JoinEmptyHead(rest, sep);
      } else {
        JoinConsHead(s[0], rest, sep);
      }
      assert s == [s[0]] + s[1..];
    }
  }

  /** An empty first piece contributes only its separator. */
  lemma {:induction false} JoinEmptyHead(parts: seq<string>, sep: char)
    requires |parts| >= 1
    ensures Join([""] + parts, sep) == [sep] + Join(parts, sep)
  {
    assert ([""] + parts)[1..] == parts;
  }

  /** A character put in front of the first piece comes first in the
      join. */
  lemma {:induction false} JoinConsHead(c: char, parts: seq<string>, sep: char)
    requires |parts| >= 1
    ensures Join([[c] + parts[0]] + parts[1..], sep) == [c] + Join(parts, sep)
  {
    var q := [[c] + parts[0]] + parts[1..];
    assert q[1..] == parts[1..];
  }

  /** A string without the separator splits into itself. */
  lemma {:induction false} SplitWithoutSeparator(s: string, sep: char)
    requires sep !in s
    ensures Split(s, sep) == [s]
  {
    if |s| > 0 {
      assert sep !in s[1..] by {
        forall i | 0 <= i < |s[1..]| ensures s[1..][i] != sep {
          assert s[1..][i] == s[i + 1];
        }
      }
      SplitWithoutSeparator(s[1..], sep);
      assert s == [s[0]] + s[1..];
    }
  }

  /** Splitting distributes over a separator placed between two strings. */
  lemma {:induction false} SplitAround(a: string, b: string, sep: char)
    ensures Split(a + [sep] + b, sep) == Split(a, sep) + Split(b, sep)
  {
    var s := a + [sep] + b;
    if |a| == 0 {
      assert s == [sep] + b;
      assert s[1..] == b;
      assert Split(s, sep) == [""] + Split(b, sep);
    } else {
      assert s[0] == a[0];
      assert s[1..] == a[1..] + [sep] + b;
      SplitAround(a[1..], b, sep);
      var ra := Split(a[1..], sep);
      var rb := Split(b, sep);
      var rs := Split(s[1..], sep);
      assert rs == ra + rb;
      if a[0] == sep {
        assert Split(s, sep) == [""] + rs;
        assert Split(a, sep) == [""] + ra;
        ConcatAssoc([""], ra, rb);
      } else {
        assert rs[0] == ra[0];
        assert rs[1..] == ra[1..] + rb;
        assert Split(s, sep) == [[a[0]] + ra[0]] + (ra[1..] + rb);
        assert Split(a, sep) == [[a[0]] + ra[0]] + ra[1..];
        ConcatAssoc([[a[0]] + ra[0]], ra[1..], rb);
      }
    }
  }

  lemma {:induction false} ConcatAssoc<T>(x: seq<T>, y: seq<T>, z: seq<T>)
    ensures x + (y + z) == (x + y) + z
  {
  }

  /** Splitting a join of separator-free pieces gives the pieces back. */
  lemma {:induction false} JoinThenSplit(parts: seq<string>, sep: char)
    requires |parts| >= 1
    requires forall i :: 0 <= i < |parts| ==> sep !in parts[i]
    ensures Split(Join(parts, sep), sep) == parts
  {
    if |parts| == 1 {
      SplitWithoutSeparator(parts[0], sep);
    } else {
      JoinThenSplit(parts[1..], sep);
      SplitAround(parts[0], Join(parts[1..], sep), sep);
      SplitWithoutSeparator(parts[0], sep);
      assert parts == [parts[0]] + parts[1..];
    }
  }

  /** Appending one more piece to a non-empty join adds one separator. */
  lemma {:induction false} JoinSnoc(parts: seq<string>, x: string, sep: char)
    requires |parts| >= 1
    ensures Join(parts + [x], sep) == Join(parts, sep) + [sep] + x
  {
    if |parts| == 1 {
      assert parts + [x] == [parts[0], x];
      assert (parts + [x])[1..] == [x];
    } else {
      assert (parts + [x])[1..] == parts[1..] + [x];
      JoinSnoc(parts[1..], x, sep);
    }
  }

  /** The number of pieces is one more than the number of separators. */
  lemma {:induction false} SplitCount(s: string, sep: char)
    ensures |Split(s, sep)| == multiset(s)[sep] + 1
  {
    if |s| > 0 {
      SplitCount(s[1..], sep);
      assert s == [s[0]] + s[1..];
      assert multiset(s) == multiset{s[0]} + multiset(s[1..]);
    }
  }

  // ---------------------------------------------------------------------
  // Prefixes and substrings
  // ---------------------------------------------------------------------

  /** `strings.HasPrefix`. */
  predicate HasPrefix(s: string, prefix: string) {
    |prefix| <= |s| && s[..|prefix|] == prefix
  }

  /** True when `sub` occurs in `s` at position `j`. */
  predicate OccursAt(s: string, sub: string, j: int) {
    0 <= j && j + |sub| <= |s| && s[j..j + |sub|] == sub
  }

  /** First occurrence of `sub` in `s` at or after `i`, or -1. */
  function IndexFrom(s: string, sub: string, i: nat): (r: int)
    ensures r == -1 || (i <= r && OccursAt(s, sub, r))
    ensures r == -1 ==> forall j :: i <= j ==> !OccursAt(s, sub, j)
    ensures r != -1 ==> forall j :: i <= j < r ==> !OccursAt(s, sub, j)
    decreases |s| - i
  {
    if i + |sub| > |s| then -1
    else if s[i..i + |sub|] == sub then i
    else IndexFrom(s, sub, i + 1)
  }

  /** `strings.Index`: the first occurrence of `sub` in `s`, or -1. */
  function Index(s: string, sub: string): int {
    IndexFrom(s, sub, 0)
  }

  /** `strings.Contains`. */
  predicate Contains(s: string, sub: string) {
    Index(s, sub) != -1
  }

  lemma {:induction false} ContainsMeansOccurs(s: string, sub: string)
    ensures Contains(s, sub) <==> exists j :: OccursAt(s, sub, j)
  {
    if Contains(s, sub) {
      assert OccursAt(s, sub, Index(s, sub));
    }
  }

  /** `strings.ReplaceAll(s, pat, rep)` for a non-empty `pat`: leftmost,
      non-overlapping replacement. */
  function ReplaceAll(s: string, pat: string, rep: string): string
    requires |pat| > 0
    decreases |s|
  {
    if |s| < |pat| then s
    else if s[..|pat|] == pat then rep + ReplaceAll(s[|pat|..], pat, rep)
    else [s[0]] + ReplaceAll(s[1..], pat, rep)
  }

  /** Replacing a pattern that does not occur leaves the string as it is. */
  lemma {:induction false} ReplaceAllAbsent(s: string, pat: string, rep: string)
    requires |pat| > 0
    requires forall j :: !OccursAt(s, pat, j)
    ensures ReplaceAll(s, pat, rep) == s
  {
    if |s| >= |pat| {
      assert !OccursAt(s, pat, 0);
      forall j ensures !OccursAt(s[1..], pat, j) {
        if OccursAt(s[1..], pat, j) {
          assert s[1..][j..j + |pat|] == s[j + 1..j + 1 + |pat|];
          assert OccursAt(s, pat, j + 1);
        }
      }
      ReplaceAllAbsent(s[1..], pat, rep);
      assert s == [s[0]] + s[1..];
    }
  }

  /** A pattern at the start, followed by text without its first
      character, is replaced there only. */
  lemma {:induction false} ReplaceAllAtStart(pat: string, post: string, rep: string)
    requires |pat| > 0 && pat[0] !in post
    ensures ReplaceAll(pat + post, pat, rep) == rep + post
  {
    var s := pat + post;
    assert s[..|pat|] == pat && s[|pat|..] == post;
    forall j ensures !OccursAt(post, pat, j) {
      if 0 <= j && j + |pat| <= |post| {
        assert post[j..j + |pat|][0] == post[j];
      }
    }
    ReplaceAllAbsent(post, pat, rep);
  }

  /** A pattern whose first character occurs nowhere else in the string is
      replaced at that one place. */
  lemma {:induction false} ReplaceAllOnce(pre: string, pat: string, post: string, rep: string)
    requires |pat| > 0 && pat[0] !in pre && pat[0] !in post
    ensures ReplaceAll(pre + pat + post, pat, rep) == pre + rep + post
    decreases |pre|
  {
    var s := pre + pat + post;
    if |pre| == 0 {
      assert s == pat + post;
      ReplaceAllAtStart(pat, post, rep);
    } else {
      assert s[..|pat|][0] == pre[0] != pat[0];
      assert ReplaceAll(s, pat, rep) == [pre[0]] + ReplaceAll(s[1..], pat, rep);
      assert s[1..] == pre[1..] + pat + post;
      ReplaceAllOnce(pre[1..], pat, post, rep);
      assert [pre[0]] + pre[1..] == pre;
    }
  }

  // ---------------------------------------------------------------------
  // Case and white space
  // ---------------------------------------------------------------------

  function LowerChar(c: char): char {
    if 'A' <= c <= 'Z' then (c as int + 32) as char else c
  }

  /** `strings.ToLower`, restricted to the ASCII letters. */
  function ToLower(s: string): (r: string)
    ensures |r| == |s|
    ensures forall i :: 0 <= i < |s| ==> r[i] == LowerChar(s[i])
  {
    if |s| == 0 then "" else [LowerChar(s[0])] + ToLower(s[1..])
  }

  /** Lower-casing an already lower-cased string changes nothing. */
  lemma {:induction false} ToLowerIdempotent(s: string)
    ensures ToLower(ToLower(s)) == ToLower(s)
  {
  }

  /** `unicode.IsSpace`: the Unicode White_Space characters. */
  predicate IsSpace(c: char) {
    var x := c as int;
    (9 <= x <= 13) || x == 32 || x == 0x85 || x == 0xA0 || x == 0x1680
    || (0x2000 <= x <= 0x200A) || x == 0x2028 || x == 0x2029
    || x == 0x202F || x == 0x205F || x == 0x3000
  }

  /** Index of the first character at or after `i` that `cut` keeps. */
  function TrimStart(s: string, cut: char -> bool, i: nat): (r: nat)
    requires i <= |s|
    ensures i <= r <= |s|
    ensures forall k :: i <= k < r ==> cut(s[k])
    ensures r < |s| ==> !cut(s[r])
    decreases |s| - i
  {
    if i == |s| || !cut(s[i]) then i else TrimStart(s, cut, i + 1)
  }

  /** End (exclusive) of the kept part of `s[lo..j]` once trailing cut
      characters are dropped. */
  function TrimEnd(s: string, cut: char -> bool, lo: nat, j: nat): (r: nat)
    requires lo <= j <= |s|
    ensures lo <= r <= j
    ensures forall k :: r <= k < j ==> cut(s[k])
    ensures r > lo ==> !cut(s[r - 1])
    decreases j
  {
    if j == lo || !cut(s[j - 1]) then j else TrimEnd(s, cut, lo, j - 1)
  }

  /** `r` is the part of `s` starting at `i`, and only `cut` characters
      were dropped on either side of it. */
  predicate TrimmedAt(s: string, r: string, cut: char -> bool, i: nat) {
    && i + |r| <= |s|
    && r == s[i..i + |r|]
    && (forall k :: 0 <= k < i ==> cut(s[k]))
    && (forall k :: i + |r| <= k < |s| ==> cut(s[k]))
  }

  /** Removes every leading and trailing character satisfying `cut`; the
      shared shape of `strings.TrimSpace` and `strings.Trim`. */
  function TrimBy(s: string, cut: char -> bool): (r: string)
    ensures TrimmedAt(s, r, cut, TrimStart(s, cut, 0))
    ensures |r| > 0 ==> !cut(r[0]) && !cut(r[|r| - 1])
  {
    var i := TrimStart(s, cut, 0);
    var j := TrimEnd(s, cut, i, |s|);
    assert TrimmedAt(s, s[i..j], cut, i);
    s[i..j]
  }

  /** `strings.TrimSpace`. */
  function TrimSpace(s: string): string {
    TrimBy(s, IsSpace)
  }

  /** The cut set holding the one character `c`. */
  function Is(c: char): char -> bool {
    x => x == c
  }

  /** `strings.Trim(s, string(c))` with a one-character cut set. */
  function TrimChar(s: string, c: char): string {
    TrimBy(s, Is(c))
  }

  lemma {:induction false} TrimStartShift(c: char, s: string, cut: char -> bool, k: nat)
    requires k <= |s|
    ensures TrimStart([c] + s, cut, k + 1) == TrimStart(s, cut, k) + 1
    decreases |s| - k
  {
    if k < |s| {
      assert ([c] + s)[k + 1] == s[k];
      if cut(s[k]) {
        TrimStartShift(c, s, cut, k + 1);
      }
    }
  }

  lemma {:induction false} TrimEndShift(c: char, s: string, cut: char -> bool, lo: nat, j: nat)
    requires lo <= j <= |s|
    ensures TrimEnd([c] + s, cut, lo + 1, j + 1) == TrimEnd(s, cut, lo, j) + 1
    decreases j
  {
    if j > lo {
      assert ([c] + s)[j] == s[j - 1];
      if cut(s[j - 1]) {
        TrimEndShift(c, s, cut, lo, j - 1);
      }
    }
  }

  /** A leading character of the cut set makes no difference to the
      trimmed result. */
  lemma {:induction false} TrimByLeading(c: char, s: string, cut: char -> bool)
    requires cut(c)
    ensures TrimBy([c] + s, cut) == TrimBy(s, cut)
  {
    var t := [c] + s;
    TrimStartShift(c, s, cut, 0);
    var i := TrimStart(s, cut, 0);
    assert TrimStart(t, cut, 0) == i + 1;
    TrimEndShift(c, s, cut, i, |s|);
    var j := TrimEnd(s, cut, i, |s|);
    assert TrimEnd(t, cut, i + 1, |t|) == j + 1;
    ConsSlice(c, s, i, j);
    assert TrimBy(t, cut) == t[i + 1..j + 1];
    assert TrimBy(s, cut) == s[i..j];
  }

  lemma {:induction false} ConsSlice(c: char, s: string, i: nat, j: nat)
    requires i <= j <= |s|
    ensures ([c] + s)[i + 1..j + 1] == s[i..j]
  {
  }

  lemma {:induction false} TrimCharLeading(c: char, s: string)
    ensures TrimChar([c] + s, c) == TrimChar(s, c)
  {
    TrimByLeading(c, s, Is(c));
  }

  // ---------------------------------------------------------------------
  // strconv.Itoa / strconv.Atoi (64-bit int)
  // ---------------------------------------------------------------------

  const MaxInt64: int := 0x7FFF_FFFF_FFFF_FFFF
  const MaxUint64: int := 0xFFFF_FFFF_FFFF_FFFF

  predicate IsDigit(c: char) {
    '0' <= c <= '9'
  }

  function DigitChar(d: nat): (c: char)
    requires d < 10
    ensures IsDigit(c)
  {
    ('0' as int + d) as char
  }

  function DigitValue(c: char): nat
    requires IsDigit(c)
  {
    c as int - '0' as int
  }

  /** Decimal digits of a natural number, most significant first. */
  function Digits(n: nat): (ds: string)
    ensures |ds| >= 1
    ensures forall i :: 0 <= i < |ds| ==> IsDigit(ds[i])
  {
    if n < 10 then [DigitChar(n)] else Digits(n / 10) + [DigitChar(n % 10)]
  }

  /** `strconv.Itoa`. */
  function Itoa(n: int): string {
    if n < 0 then "-" + Digits(-n) else Digits(n)
  }

  /** The number a digit string denotes. */
  function Value(ds: string): nat
    requires forall i :: 0 <= i < |ds| ==> IsDigit(ds[i])
  {
    if |ds| == 0 then 0
    else Value(ds[..|ds| - 1]) * 10 + DigitValue(ds[|ds| - 1])
  }

  /** The two kinds of `strconv.NumError`. */
  datatype NumError = Syntax | Range

  /** What `strconv.Atoi` hands back: the int (0 on a syntax error, the
      clamped bound on a range error) and the error, if any. */
  datatype Parsed = Parsed(value: int, err: Option<NumError>)

  /** The digit loop of `strconv.ParseUint` in base 10: stops with a syntax
      error at the first non-digit and with a range error as soon as the
      accumulated value no longer fits in 64 unsigned bits. */
  function ScanDigits(s: string, i: nat, n: nat): (r: Parsed)
    requires i <= |s| && n <= MaxUint64
    ensures 0 <= r.value <= MaxUint64
    decreases |s| - i
  {
    if i == |s| then Parsed(n, None)
    else if !IsDigit(s[i]) then Parsed(0, Some(Syntax))
    else if n * 10 + DigitValue(s[i]) > MaxUint64 then Parsed(MaxUint64, Some(Range))
    else ScanDigits(s, i + 1, n * 10 + DigitValue(s[i]))
  }

  /** `strconv.Atoi` on a 64-bit platform. */
  function Atoi(s: string): (r: Parsed)
    ensures -MaxInt64 - 1 <= r.value <= MaxInt64
    ensures r.err == Some(Syntax) ==> r.value == 0
    ensures |s| == 0 ==> r == Parsed(0, Some(Syntax))
  {
    if |s| == 0 then Parsed(0, Some(Syntax))
    else
      var neg := s[0] == '-';
      var body := if s[0] == '-' || s[0] == '+' then s[1..] else s;
      if |body| == 0 then Parsed(0, Some(Syntax))
      else
        var u := ScanDigits(body, 0, 0);
        if u.err == Some(Syntax) then Parsed(0, Some(Syntax))
        else if !neg && u.value > MaxInt64 then Parsed(MaxInt64, Some(Range))
        else if neg && u.value > MaxInt64 + 1 then Parsed(-MaxInt64 - 1, Some(Range))
        else Parsed(if neg then -u.value else u.value, u.err)
  }

  lemma {:induction false} DigitsValue(n: nat)
    ensures Value(Digits(n)) == n
  {
    if n >= 10 {
      DigitsValue(n / 10);
      var ds := Digits(n);
      assert ds[..|ds| - 1] == Digits(n / 10);
    }
  }

  lemma {:induction false} ValuePrefixBound(ds: string, k: nat)
    requires forall i :: 0 <= i < |ds| ==> IsDigit(ds[i])
    requires k <= |ds|
    ensures Value(ds[..k]) <= Value(ds)
    decreases |ds| - k
  {
    if k < |ds| {
      ValuePrefixBound(ds, k + 1);
      assert ds[..k + 1][..k] == ds[..k];
    } else {
      assert ds[..k] == ds;
    }
  }

  lemma {:induction false} ScanAll(ds: string, i: nat)
    requires forall j :: 0 <= j < |ds| ==> IsDigit(ds[j])
    requires i <= |ds| && Value(ds) <= MaxUint64
    ensures Value(ds[..i]) <= MaxUint64
    ensures ScanDigits(ds, i, Value(ds[..i])) == Parsed(Value(ds), None)
    decreases |ds| - i
  {
    ValuePrefixBound(ds, i);
    if i == |ds| {
      assert ds[..i] == ds;
    } else {
      ValuePrefixBound(ds, i + 1);
      assert ds[..i + 1][..i] == ds[..i];
      ScanAll(ds, i + 1);
    }
  }

  /** Atoi inverts Itoa on every non-negative 64-bit value. */
  lemma {:induction false} ItoaAtoiRoundTrip(n: nat)
    requires n <= MaxInt64
    ensures Atoi(Itoa(n)) == Parsed(n, None)
  {
    var ds := Digits(n);
    DigitsValue(n);
    assert ds[..0] == "";
    ScanAll(ds, 0);
  }

  /** Distinct naturals have distinct decimal spellings. */
  lemma {:induction false} ItoaInjective(m: nat, n: nat)
    requires Itoa(m) == Itoa(n)
    ensures m == n
  {
    DigitsValue(m);
    DigitsValue(n);
  }
}

=== FILE: handlers.dfy ===
/** The add, edit and remove handlers of src/app/handle_add.go,
    handle_edit.go and handle_remove.go: each reads its answers from the
    console, changes the configuration in memory and saves it with a
    backup. The answers are parameters: an id answer is `None` at the end
    of input, and the field answers of the server form are `ServerEdit`
    scans. */
module Handlers {
  import opened Wrappers
  import opened Model
  import opened ConfigEdit
  import ServerEdit
  import Endpoint
  import Saving

  /** What a handler leaves behind: the configuration in memory, whether
      it called `saveConfig(true)`, and the error it returned. */
  datatype Reply = Reply(cfg: Config, saved: bool, err: Option<string>)

  /** Saving with a backup, as every handler ends. */
  function Save(cfg: Config, io: Saving.SaveIo): Reply {
    Reply(cfg, true, Saving.SaveConfig(true, io).err)
  }

  /** Returning at the end of input: nothing saved, no error. */
  function Quit(cfg: Config): Reply {
    Reply(cfg, false, None)
  }

  /** `handleRemove`: re-prompts until an id of the index, deletes that
      server from its list and saves; the end of input returns with the
      configuration as it was. */
  function HandleRemove(cfg: Config, idx: ServerIndex, ids: seq<Option<string>>, io: Saving.SaveIo): (r: Reply)
    requires Addressable(cfg, idx)
    ensures r.saved <==> PickId(idx, ids, 0).Some?
    ensures !r.saved ==> r.cfg == cfg && r.err.None?
    ensures r.saved ==> Total(r.cfg) + 1 == Total(cfg) && r.cfg == RemoveEntry(cfg, idx[PickId(idx, ids, 0).value.0])
    ensures r.saved ==> r.err == Saving.SaveConfig(true, io).err
  {
    match PickId(idx, ids, 0)
    case None => Quit(cfg)
    case Some((id, _)) => Save(RemoveEntry(cfg, idx[id]), io)
  }

  /** The server `handleAdd` starts its form from. */
  const NewServer: Server := Endpoint.Format(EmptyServer)

  /** `handleAdd`: reads a group prefix, fills in a new server and appends
      it to the last group with that prefix, or to the top level; the end
      of input at the prefix or anywhere in the form returns without a
      change. */
  function HandleAdd(cfg: Config, prefix: Option<string>, scans: seq<ServerEdit.Scan>, io: Saving.SaveIo): (r: Reply)
    ensures r.saved <==> prefix.Some? && ServerEdit.FirstEof(scans, 0) == |ServerEdit.Fields|
    ensures !r.saved ==> r.cfg == cfg && r.err.None?
    ensures r.saved ==> Total(r.cfg) == Total(cfg) + 1 && r.err == Saving.SaveConfig(true, io).err
    ensures r.saved ==> r.cfg == Append(cfg, prefix.value, ServerEdit.Edit(NewServer, scans).0)
  {
    ServerEdit.EditFromEof(NewServer, scans, 0);
    match prefix
    case None => Quit(cfg)
    case Some(p) =>
      var (s, eof) := ServerEdit.Edit(NewServer, scans);
      if eof then Quit(cfg) else Save(Append(cfg, p, s), io)
  }

  /** `handleEdit`: re-prompts until an id of the index, then edits that
      server in place. The edit reaches the configuration even when the end
      of input cuts the form short; only a complete form is saved. */
  function HandleEdit(cfg: Config, idx: ServerIndex, ids: seq<Option<string>>, scans: seq<ServerEdit.Scan>, io: Saving.SaveIo): (r: Reply)
    requires Addressable(cfg, idx)
    ensures r.saved <==> PickId(idx, ids, 0).Some? && ServerEdit.FirstEof(scans, 0) == |ServerEdit.Fields|
    ensures PickId(idx, ids, 0).None? ==> r == Quit(cfg)
    ensures PickId(idx, ids, 0).Some? ==>
      var e := idx[PickId(idx, ids, 0).value.0];
      && InRange(r.cfg, e) && Total(r.cfg) == Total(cfg)
      && OnlyListChanged(cfg, r.cfg, Which(e), ListOf(cfg, Which(e))[e.serverIndex := At(r.cfg, e)])
      && At(r.cfg, e) == ServerEdit.Edit(At(cfg, e), scans).0
    ensures !r.saved ==> r.err.None?
    ensures r.saved ==> r.err == Saving.SaveConfig(true, io).err
  {
    match PickId(idx, ids, 0)
    case None => Quit(cfg)
    case Some((id, _)) =>
      var e := idx[id];
      var (s, eof) := ServerEdit.Edit(At(cfg, e), scans);
      ServerEdit.EditFromEof(At(cfg, e), scans, 0);
      var c := ReplaceEntry(cfg, e, s);
      if eof then Quit(c) else Save(c, io)
  }

  // ---------------------------------------------------------------------
  // Properties
  // ---------------------------------------------------------------------

  /** Editing with only empty answers leaves the configuration as it was,
      and it is saved. */
  lemma {:induction false} EditBlanksKeepConfig(cfg: Config, idx: ServerIndex, ids: seq<Option<string>>, scans: seq<ServerEdit.Scan>, io: Saving.SaveIo)
    requires Addressable(cfg, idx) && PickId(idx, ids, 0).Some?
    requires |scans| >= |ServerEdit.Fields| && forall k :: 0 <= k < |scans| ==> scans[k] == ServerEdit.Blank
    ensures HandleEdit(cfg, idx, ids, scans, io).cfg == cfg
    ensures HandleEdit(cfg, idx, ids, scans, io).saved
  {
    var e := idx[PickId(idx, ids, 0).value.0];
    ServerEdit.BlankKeeps(At(cfg, e), scans, 0);
    ReplaceSame(cfg, e);
    ServerEdit.EditFromEof(At(cfg, e), scans, 0);
  }

  /** A form cut short by the end of input still changes the server in
      memory: the name typed before it sticks, though nothing is saved. */
  lemma {:induction false} EditCutShortSticks(cfg: Config, idx: ServerIndex, ids: seq<Option<string>>, name: string, io: Saving.SaveIo)
    requires Addressable(cfg, idx) && PickId(idx, ids, 0).Some?
    ensures var r := HandleEdit(cfg, idx, ids, [ServerEdit.Token(name), ServerEdit.Eof], io);
      && !r.saved
      && At(r.cfg, idx[PickId(idx, ids, 0).value.0]).name == name
  {
  }

  /** An added server gets the defaults of `Format` for every field left
      blank: port 22 and password authentication. */
  lemma {:induction false} AddedDefaults(cfg: Config, p: string, scans: seq<ServerEdit.Scan>, io: Saving.SaveIo)
    requires |scans| >= |ServerEdit.Fields| && forall k :: 0 <= k < |scans| ==> scans[k] == ServerEdit.Blank
    ensures HandleAdd(cfg, Some(p), scans, io).saved
    ensures HandleAdd(cfg, Some(p), scans, io).cfg == Append(cfg, p, NewServer)
    ensures NewServer.port == 22 && NewServer.authMethod == "password"
  {
    ServerEdit.BlankKeeps(NewServer, scans, 0);
    ServerEdit.EditFromEof(NewServer, scans, 0);
  }
}

=== FILE: legacy.dfy ===
/** The first generation of the program (package `core`): a flat list of
    servers in `servers.json`, a command-line front end, authentication
    with a fallback to the application's own credentials, and the
    interactive connection. */
module LegacyServer {
  import opened Wrappers
  import GoStrings

  /** `core.Server`. */
  datatype Server = Server(
    name: string,
    ip: string,
    port: int,
    user: string,
    password: string,
    authMethod: string,
    key: string
  )

  /** The credentials of the application configuration that
      `parseAuthMethods` falls back on. The configuration type itself is
      not part of this model; only these three fields are read. */
  datatype Fallback = Fallback(authMethod: string, password: string, key: string)

  /** Password authentication, or public-key authentication with the key
      read from `keyPath` and decrypted with `passphrase` when there is
      one. */
  datatype AuthMethod = PasswordAuth(password: string) | KeyAuth(keyPath: string, passphrase: Option<string>)

  /** The key files (`ioutil.ReadFile`) and the private-key parser
      (`Some(error)` when the key cannot be parsed with that passphrase). */
  datatype KeyFiles = KeyFiles(
    readFile: string -> Result<seq<GoStrings.byte>, string>,
    parseKey: (seq<GoStrings.byte>, Option<string>) -> Option<string>
  )

  /** The passphrase rule of `pemKey`: the password, iff it is non-empty. */
  function Passphrase(password: string): (p: Option<string>)
    ensures p.Some? <==> password != ""
    ensures p.Some? ==> p.value == password
  {
    if password == "" then None else Some(password)
  }

  /** `pemKey`: read the key file as given (no defaulting, no expansion)
      and parse it; read and parse errors are returned. */
  function PemKey(key: string, password: string, files: KeyFiles): (r: Result<AuthMethod, string>)
    ensures r.Ok? <==> files.readFile(key).Ok? && files.parseKey(files.readFile(key).value, Passphrase(password)).None?
    ensures r.Ok? ==> r.value == KeyAuth(key, Passphrase(password))
    ensures files.readFile(key).Err? ==> r == Err(files.readFile(key).error)
    ensures files.readFile(key).Ok? && files.parseKey(files.readFile(key).value, Passphrase(password)).Some? ==>
      r == Err(files.parseKey(files.readFile(key).value, Passphrase(password)).value)
  {
    match files.readFile(key)
    case Err(e) => Err(e)
    case Ok(pem) =>
      match files.parseKey(pem, Passphrase(password))
      case Some(e) => Err(e)
      case None => Ok(KeyAuth(key, Passphrase(password)))
  }

  const InvalidMethodPrefix := "无效的密码方式: "

  /** The two method names `parseAuthMethods` knows, matched exactly. */
  predicate Known(m: string) {
    m == "password" || m == "pem"
  }

  /** Authentication with one set of credentials of a known method. */
  function Authenticate(m: string, password: string, key: string, files: KeyFiles): (r: Result<seq<AuthMethod>, string>)
    requires Known(m)
    ensures r.Ok? ==> |r.value| == 1
    ensures m == "password" ==> r == Ok([PasswordAuth(password)])
    ensures m == "pem" ==> (r.Ok? <==> PemKey(key, password, files).Ok?)
    ensures m == "pem" && r.Ok? ==> r.value == [KeyAuth(key, Passphrase(password))]
  {
    if m == "password" then Ok([PasswordAuth(password)])
    else
      match PemKey(key, password, files)
      case Err(e) => Err(e)
      case Ok(a) => Ok([a])
  }

  /** `parseAuthMethods`: the server's own method when it is exactly
      "password" or "pem", otherwise the configuration's method with the
      configuration's credentials; an error naming the server's method
      when neither is known. */
  function ParseAuthMethods(s: Server, c: Fallback, files: KeyFiles): (r: Result<seq<AuthMethod>, string>)
    ensures r.Ok? ==> |r.value| == 1
    ensures Known(s.authMethod) ==> r == Authenticate(s.authMethod, s.password, s.key, files)
    ensures !Known(s.authMethod) && Known(c.authMethod) ==> r == Authenticate(c.authMethod, c.password, c.key, files)
    ensures !Known(s.authMethod) && !Known(c.authMethod) ==> r == Err(InvalidMethodPrefix + s.authMethod)
  {
    if s.authMethod == "password" || s.authMethod == "pem" then Authenticate(s.authMethod, s.password, s.key, files)
    else if c.authMethod == "password" || c.authMethod == "pem" then Authenticate(c.authMethod, c.password, c.key, files)
    else Err(InvalidMethodPrefix + s.authMethod)
  }

  /** Method names are case-sensitive: a server whose method is spelled
      "Password" does not use its own password but the configuration's
      credentials, and is rejected when the configuration names no known
      method either. */
  lemma {:induction false} MethodCaseMatters(s: Server, c: Fallback, files: KeyFiles)
    requires s.authMethod == "Password"
    ensures c.authMethod == "password" ==> ParseAuthMethods(s, c, files) == Ok([PasswordAuth(c.password)])
    ensures !Known(c.authMethod) ==> ParseAuthMethods(s, c, files) == Err(InvalidMethodPrefix + "Password")
  {
  }

  // ---------------------------------------------------------------------
  // The interactive connection
  // ---------------------------------------------------------------------

  /** The deferred clean-ups of `Connection`. */
  datatype Cleanup = CloseClient | CloseSession | RestoreTerminal

  /** The outcomes of the library calls `Connection` makes (`Some(error)`
      for a failure); dialling sees the address. The outcome of
      `session.Wait` is not an input: it is never reported. */
  datatype Calls = Calls(
    dial: string -> Option<string>,
    newSession: Option<string>,
    makeRaw: Option<string>,
    getSize: Option<string>,
    requestPty: Option<string>,
    shell: Option<string>
  )

  /** What a run of `Connection` shows: the error it printed (the message
      prefix and the error), the address it dialled, the clean-ups that ran
      in the order they ran, and whether the terminal was left in raw
      mode. */
  datatype Run = Run(printed: Option<(string, string)>, dialled: Option<string>, teardown: seq<Cleanup>, rawLeft: bool)

  const AuthPrefix := "鉴权出错:"
  const DialPrefix := "建立连接出错:"
  const SessionPrefix := "创建Session出错:"
  const RawModePrefix := "创建文件描述符出错:"
  const SizePrefix := "获取窗口宽高出错:"
  const PtyPrefix := "创建终端出错:"
  const ShellPrefix := "执行Shell出错:"

  /** The address `Connection` dials. */
  function Address(s: Server): string {
    s.ip + ":" + GoStrings.Itoa(s.port)
  }

  /** `Connection`. */
  function Connection(s: Server, c: Fallback, files: KeyFiles, calls: Calls): (r: Run)
    ensures ParseAuthMethods(s, c, files).Err? ==> r == Run(Some((AuthPrefix, ParseAuthMethods(s, c, files).error)), None, [], false)
    ensures ParseAuthMethods(s, c, files).Ok? ==> r.dialled == Some(Address(s))
    ensures r.teardown in {[], [CloseClient], [CloseSession, CloseClient], [RestoreTerminal, CloseSession, CloseClient]}
    ensures r.printed.None? <==>
      (&& ParseAuthMethods(s, c, files).Ok? && calls.dial(Address(s)).None? && calls.newSession.None?
       && calls.makeRaw.None? && calls.getSize.None? && calls.requestPty.None? && calls.shell.None?)
    ensures r.rawLeft <==>
      (&& ParseAuthMethods(s, c, files).Ok? && calls.dial(Address(s)).None? && calls.newSession.None?
       && calls.makeRaw.None? && calls.getSize.Some?)
    ensures r.rawLeft ==> r.printed == Some((SizePrefix, calls.getSize.value)) && RestoreTerminal !in r.teardown
    ensures CloseSession in r.teardown ==> calls.newSession.None?
    ensures ParseAuthMethods(s, c, files).Ok? && calls.dial(Address(s)).Some? ==>
      r == Run(Some((DialPrefix, calls.dial(Address(s)).value)), Some(Address(s)), [], false)
    ensures ParseAuthMethods(s, c, files).Ok? && calls.dial(Address(s)).None? ==>
      (calls.newSession.Some? ==> r.printed == Some((SessionPrefix, calls.newSession.value)) && r.teardown == [CloseClient]) &&
      (calls.newSession.None? && calls.makeRaw.Some? ==>
         r.printed == Some((RawModePrefix, calls.makeRaw.value)) && r.teardown == [CloseSession, CloseClient]) &&
      (calls.newSession.None? && calls.makeRaw.None? && calls.getSize.Some? ==> r.teardown == [CloseSession, CloseClient]) &&
      (calls.newSession.None? && calls.makeRaw.None? && calls.getSize.None? ==>
         r.teardown == [RestoreTerminal, CloseSession, CloseClient] && !r.rawLeft &&
         (calls.requestPty.Some? ==> r.printed == Some((PtyPrefix, calls.requestPty.value))) &&
         (calls.requestPty.None? && calls.shell.Some? ==> r.printed == Some((ShellPrefix, calls.shell.value))))
  {
    match ParseAuthMethods(s, c, files)
    case Err(e) => Run(Some((AuthPrefix, e)), None, [], false)
    case Ok(_) =>
      var addr := Address(s);
      match calls.dial(addr)
      case Some(e) => Run(Some((DialPrefix, e)), Some(addr), [], false)
      case None =>
        match calls.newSession
        case Some(e) => Run(Some((SessionPrefix, e)), Some(addr), [CloseClient], false)
        case None =>
          match calls.makeRaw
          case Some(e) => Run(Some((RawModePrefix, e)), Some(addr), [CloseSession, CloseClient], false)
          case None =>
            // the terminal is raw from here on; its restore is deferred only
            // after the size is known
            match calls.getSize
            case Some(e) => Run(Some((SizePrefix, e)), Some(addr), [CloseSession, CloseClient], true)
            case None =>
              var all := [RestoreTerminal, CloseSession, CloseClient];
              match calls.requestPty
              case Some(e) => Run(Some((PtyPrefix, e)), Some(addr), all, false)
              case None =>
                match calls.shell
                case Some(e) => Run(Some((ShellPrefix, e)), Some(addr), all, false)
                case None => Run(None, Some(addr), all, false)
  }

  /** Whether `Connection` made the terminal raw. */
  predicate MadeRaw(s: Server, c: Fallback, files: KeyFiles, calls: Calls) {
    && ParseAuthMethods(s, c, files).Ok? && calls.dial(Address(s)).None?
    && calls.newSession.None? && calls.makeRaw.None?
  }

  /** The terminal stays raw exactly when it was made raw and its restore
      was never deferred; the client is closed whenever it was opened, and
      the session whenever it was opened. */
  lemma {:induction false} ConnectionRestoresTerminal(s: Server, c: Fallback, files: KeyFiles, calls: Calls)
    ensures Connection(s, c, files, calls).rawLeft <==>
      MadeRaw(s, c, files, calls) && RestoreTerminal !in Connection(s, c, files, calls).teardown
    ensures CloseClient in Connection(s, c, files, calls).teardown <==>
      ParseAuthMethods(s, c, files).Ok? && calls.dial(Address(s)).None?
    ensures CloseSession in Connection(s, c, files, calls).teardown <==>
      ParseAuthMethods(s, c, files).Ok? && calls.dial(Address(s)).None? && calls.newSession.None?
  {
  }

  /** Which credentials authenticate: the server's own when its method is
      known, otherwise the configuration's; a password method never fails,
      and an error arises only from an unknown method on both sides or from
      the key file of the chosen side. */
  lemma {:induction false} ParseAuthMethodsCredentials(s: Server, c: Fallback, files: KeyFiles)
    ensures var r := ParseAuthMethods(s, c, files);
      && (r.Ok? && r.value[0].PasswordAuth? ==> r.value[0].password == (if Known(s.authMethod) then s.password else c.password))
      && (r.Ok? && r.value[0].KeyAuth? ==> r.value[0].keyPath == (if Known(s.authMethod) then s.key else c.key))
      && (r.Err? <==>
            (!Known(s.authMethod) && !Known(c.authMethod))
            || (s.authMethod == "pem" && PemKey(s.key, s.password, files).Err?)
            || (!Known(s.authMethod) && c.authMethod == "pem" && PemKey(c.key, c.password, files).Err?))
  {
  }

  /** There is no port default in this generation: port 0 is dialled as
      port 0. */
  lemma {:induction false} PortZeroDialled(s: Server, c: Fallback, files: KeyFiles, calls: Calls)
    requires s.port == 0 && ParseAuthMethods(s, c, files).Ok?
    ensures Connection(s, c, files, calls).dialled == Some(s.ip + ":0")
  {
    assert GoStrings.DigitChar(0) == '0';
    assert GoStrings.Itoa(0) == "0";
    assert Address(s) == s.ip + ":0";
  }
}

/** The command-line application of package `core` (`App` in core/app.go)
    and its parameter cache (core/params.go). */
module LegacyApp {
  import opened Wrappers
  import GoStrings
  import LegacyServer
  import Model

  type Server = LegacyServer.Server

  /** `serverExists`: whether a server has the name, and the first such
      position (-1 when there is none). */
  function ServerExists(servers: seq<Server>, name: string): (r: (bool, int))
    ensures r.0 <==> exists i :: 0 <= i < |servers| && servers[i].name == name
    ensures r.0 ==> 0 <= r.1 < |servers| && servers[r.1].name == name
    ensures r.0 ==> forall j :: 0 <= j < r.1 ==> servers[j].name != name
    ensures !r.0 ==> r.1 == -1
    decreases |servers|
  {
    if |servers| == 0 then (false, -1)
    else if servers[0].name == name then (true, 0)
    else
      var (found, i) := ServerExists(servers[1..], name);
      assert forall j :: 1 <= j < |servers| ==> servers[j] == servers[1..][j - 1];
      if found then (true, i + 1) else (false, -1)
  }

  /** Names are pairwise distinct. */
  predicate UniqueNames(servers: seq<Server>) {
    forall i, j :: 0 <= i < j < |servers| ==> servers[i].name != servers[j].name
  }

  /** `remove`: deletes the first server of that name, keeping the order of
      the rest; an unknown name leaves the list as it is. */
  function Remove(servers: seq<Server>, name: string): (r: seq<Server>)
    ensures !ServerExists(servers, name).0 ==> r == servers
    ensures ServerExists(servers, name).0 ==> |r| == |servers| - 1
    ensures ServerExists(servers, name).0 ==>
      var i := ServerExists(servers, name).1;
      r[..i] == servers[..i] && r[i..] == servers[i + 1..]
    ensures UniqueNames(servers) ==> UniqueNames(r) && forall k :: 0 <= k < |r| ==> r[k].name != name
  {
    var (found, i) := ServerExists(servers, name);
    if found then Model.RemoveAt(servers, i) else servers
  }

  /** What `add` reads from the terminal. `key` is only asked for when the
      method is "pem"; a field whose scan fails is left empty. */
  datatype AddInput = AddInput(ip: string, port: int, user: string, authMethod: string, key: string, password: string)

  datatype AddError = EmptyName | Duplicate(name: string)

  /** `add`: an empty or taken name is refused; otherwise the new server is
      appended. */
  function Add(servers: seq<Server>, name: string, input: AddInput): (r: Result<seq<Server>, AddError>)
    ensures name == "" ==> r == Err(EmptyName)
    ensures name != "" && ServerExists(servers, name).0 ==> r == Err(Duplicate(name))
    ensures r.Ok? <==> name != "" && !ServerExists(servers, name).0
    ensures r.Ok? ==> |r.value| == |servers| + 1 && r.value[..|servers|] == servers
    ensures r.Ok? ==> r.value[|servers|].name == name
    ensures r.Ok? && r.value[|servers|].key != "" ==> r.value[|servers|].authMethod == "pem"
    ensures r.Ok? && UniqueNames(servers) ==> UniqueNames(r.value)
  {
    if name == "" then Err(EmptyName)
    else if ServerExists(servers, name).0 then Err(Duplicate(name))
    else
      var key := if input.authMethod == "pem" then input.key else "";
      Ok(servers + [LegacyServer.Server(name, input.ip, input.port, input.user, input.password, input.authMethod, key)])
  }

  /** What `edit` reads: `None` where the scan fails (a blank line), which
      leaves the field as it was. */
  datatype EditInput = EditInput(
    ip: Option<string>,
    port: Option<int>,
    user: Option<string>,
    authMethod: Option<string>,
    key: Option<string>,
    password: Option<string>
  )

  datatype EditError = Unknown(name: string) | PortIllegal

  /** A prompted string field: the scanned value, the old one when nothing
      or an empty value was read. */
  function Prompted(previous: string, scanned: Option<string>): (v: string)
    ensures v == previous || (scanned == Some(v) && v != "")
  {
    match scanned
    case Some(x) => if x == "" then previous else x
    case None => previous
  }

  /** The edited server: fields are prompted in turn; the password is
      cleared first and so is empty unless a new one is typed; the key is
      only prompted for with the "pem" method. A port read as 0 falls back
      to the parsed old value. */
  function EditServer(s: Server, input: EditInput): (r: Result<Server, EditError>)
    ensures r.Ok? ==> r.value.name == s.name
    ensures r.Ok? ==> r.value.password == input.password.GetOr("")
    ensures r.Ok? && r.value.authMethod != "pem" ==> r.value.key == s.key
    ensures r.Ok? ==> r.value.ip == Prompted(s.ip, input.ip) && r.value.user == Prompted(s.user, input.user)
    ensures r.Ok? ==> r.value.authMethod == Prompted(s.authMethod, input.authMethod)
    ensures r.Ok? && r.value.authMethod == "pem" ==> r.value.key == Prompted(s.key, input.key)
    ensures input.port.GetOr(s.port) != 0 ==> r.Ok? && r.value.port == input.port.GetOr(s.port)
    ensures input.port.GetOr(s.port) == 0 && 0 <= s.port <= GoStrings.MaxInt64 ==> r.Ok? && r.value.port == s.port
    ensures r.Err? ==> r == Err(PortIllegal) && input.port.GetOr(s.port) == 0 && GoStrings.Atoi(GoStrings.Itoa(s.port)).err.Some?
  {
    assert 0 <= s.port <= GoStrings.MaxInt64 ==> GoStrings.Atoi(GoStrings.Itoa(s.port)) == GoStrings.Parsed(s.port, None) by {
      if 0 <= s.port <= GoStrings.MaxInt64 {
        GoStrings.ItoaAtoiRoundTrip(s.port);
      }
    }
    var ip := Prompted(s.ip, input.ip);
    var scannedPort := input.port.GetOr(s.port);
    var port := if scannedPort == 0 then GoStrings.Atoi(GoStrings.Itoa(s.port)) else GoStrings.Parsed(scannedPort, None);
    if port.err.Some? then Err(PortIllegal)
    else
      var user := Prompted(s.user, input.user);
      var m := Prompted(s.authMethod, input.authMethod);
      var key := if m == "pem" then Prompted(s.key, input.key) else s.key;
      Ok(LegacyServer.Server(s.name, ip, port.value, user, input.password.GetOr(""), m, key))
  }

  /** `edit`: an unknown name is refused; otherwise the first server of
      that name is replaced by its edited version and nothing else
      changes. */
  function Edit(servers: seq<Server>, name: string, input: EditInput): (r: Result<seq<Server>, EditError>)
    ensures !ServerExists(servers, name).0 ==> r == Err(Unknown(name))
    ensures r.Ok? ==> |r.value| == |servers|
    ensures r.Ok? ==> var i := ServerExists(servers, name).1;
      && 0 <= i < |servers|
      && (forall k :: 0 <= k < |servers| && k != i ==> r.value[k] == servers[k])
      && EditServer(servers[i], input) == Ok(r.value[i])
    ensures r.Ok? && UniqueNames(servers) ==> UniqueNames(r.value)
  {
    var (found, i) := ServerExists(servers, name);
    if !found then Err(Unknown(name))
    else
      match EditServer(servers[i], input)
      case Err(e) => Err(e)
      case Ok(s) => Ok(servers[i := s])
  }

  /** `inputSh`: a line is accepted when it parses as an integer in
      1..len, and selects that server. */
  function Choice(servers: seq<Server>, line: string): (r: Option<nat>)
    ensures r.Some? ==> 1 <= r.value <= |servers| && GoStrings.Atoi(line) == GoStrings.Parsed(r.value, None)
    ensures r.None? ==> GoStrings.Atoi(line).err.Some? || !(1 <= GoStrings.Atoi(line).value <= |servers|)
  {
    var p := GoStrings.Atoi(line);
    if p.err.None? && 1 <= p.value <= |servers| then Some(p.value) else None
  }

  /** Line `i` is the first acceptable one. */
  predicate FirstChoice(servers: seq<Server>, lines: seq<string>, i: nat) {
    && i < |lines| && Choice(servers, lines[i]).Some?
    && forall j :: 0 <= j < i ==> Choice(servers, lines[j]).None?
  }

  /** The first acceptable line from `i` on. */
  function FirstChosen(servers: seq<Server>, lines: seq<string>, i: nat): (r: Option<nat>)
    requires i <= |lines|
    ensures r.Some? ==> (
      && i <= r.value < |lines| && Choice(servers, lines[r.value]).Some?
      && forall j :: i <= j < r.value ==> Choice(servers, lines[j]).None?)
    ensures r.None? <==> forall j :: i <= j < |lines| ==> Choice(servers, lines[j]).None?
    decreases |lines| - i
  {
    if i == |lines| then None
    else if Choice(servers, lines[i]).Some? then Some(i)
    else FirstChosen(servers, lines, i + 1)
  }

  /** `inputSh` over the lines typed from line `i` on: every rejected line
      is asked again; `None` when the lines run out first. */
  function InputShFrom(servers: seq<Server>, lines: seq<string>, i: nat): (r: Option<Server>)
    requires i <= |lines|
    ensures r.None? <==> FirstChosen(servers, lines, i).None?
    ensures r.Some? ==> r.value == servers[Choice(servers, lines[FirstChosen(servers, lines, i).value]).value - 1]
    decreases |lines| - i
  {
    if i == |lines| then None
    else
      match Choice(servers, lines[i])
      case Some(n) => Some(servers[n - 1])
      case None => InputShFrom(servers, lines, i + 1)
  }

  /** `inputSh`: the server of the first acceptable line, `None` when no
      line is acceptable. */
  function InputSh(servers: seq<Server>, lines: seq<string>): (r: Option<Server>)
    ensures r.Some? <==> exists i :: 0 <= i < |lines| && Choice(servers, lines[i]).Some?
    ensures r.Some? ==> var i := FirstChosen(servers, lines, 0).value;
      FirstChoice(servers, lines, i) && r.value == servers[Choice(servers, lines[i]).value - 1]
  {
    InputShFrom(servers, lines, 0)
  }

  /** `getArg(index, def)`: the argument at `index`, or `def` when there
      are not that many. */
  function GetArg(args: seq<string>, index: nat, def: string): (r: string)
    ensures index < |args| ==> r == args[index]
    ensures index >= |args| ==> r == def
  {
    if |args| - 1 >= index then args[index] else def
  }

  /** What `Exec` runs. */
  datatype Action = Start | List | AddCommand(name: string) | EditCommand(name: string) | RemoveCommand(name: string)
                  | Version | Help

  /** `Exec` after loading the servers, on the whole argument list
      (`os.Args`, program name first). */
  function Exec(args: seq<string>): (a: Action)
    ensures a == Start <==> |args| <= 1
    ensures a == List <==> |args| > 1 && args[1] == "list"
    ensures a == Version <==> |args| > 1 && args[1] in {"-v", "--version"}
    ensures a == Help <==> |args| > 1 && args[1] !in {"list", "add", "edit", "remove", "-v", "--version"}
    ensures a.AddCommand? || a.EditCommand? || a.RemoveCommand? ==> a.name == GetArg(args, 2, "")
    ensures a.AddCommand? <==> |args| > 1 && args[1] == "add"
    ensures a.EditCommand? <==> |args| > 1 && args[1] == "edit"
    ensures a.RemoveCommand? <==> |args| > 1 && args[1] == "remove"
  {
    if |args| <= 1 then Start
    else
      var option := args[1];
      if option == "list" then List
      else if option == "add" then AddCommand(GetArg(args, 2, ""))
      else if option == "edit" then EditCommand(GetArg(args, 2, ""))
      else if option == "remove" then RemoveCommand(GetArg(args, 2, ""))
      else if option == "--version" || option == "-v" then Version
      else Help
  }

  // ---------------------------------------------------------------------
  // Parameters (core/params.go)
  // ---------------------------------------------------------------------

  /** A Go string as `len` and slicing see it: its bytes. The arguments,
      the keys and the cached values are all byte strings. */
  type Bytes = seq<GoStrings.byte>

  /** The result of `Params.Get`: the value found (`nil` is `None`) and the
      cache afterwards. */
  datatype Got = Got(value: Option<Bytes>, cache: map<Bytes, Bytes>)

  /** Argument `a` is long enough for both slice operations and starts
      with `key`. */
  predicate Matches(a: Bytes, key: Bytes) {
    |a| > |key| && a[..|key|] == key
  }

  /** The argument loop of `Params.Get` from argument `i` on: the first
      argument starting with `key` gives the bytes after the key and one
      separator byte. `Err(j)` is the slice panic at argument `j`: an
      argument shorter than the key, or one equal to it. */
  function Scan(args: seq<Bytes>, key: Bytes, i: nat): (r: Result<Option<Bytes>, nat>)
    requires i <= |args|
    ensures r.Ok? ==> forall j :: i <= j < |args| && (r.value.None? || j < FirstMatch(args, key, i)) ==>
      |args[j]| >= |key| && args[j][..|key|] != key
    ensures r.Ok? && r.value.Some? ==>
      var m := FirstMatch(args, key, i);
      i <= m < |args| && Matches(args[m], key) && r.value.value == args[m][|key| + 1..]
    ensures r.Err? ==> i <= r.error < |args| && (|args[r.error]| < |key| || args[r.error] == key)
    decreases |args| - i
  {
    if i == |args| then Ok(None)
    else if |args[i]| < |key| then Err(i)
    else if args[i][..|key|] == key then
      if |args[i]| < |key| + 1 then Err(i) else Ok(Some(args[i][|key| + 1..]))
    else Scan(args, key, i + 1)
  }

  /** Index of the first argument from `i` on that starts with `key`
      (`|args|` when there is none). */
  function FirstMatch(args: seq<Bytes>, key: Bytes, i: nat): (m: nat)
    requires i <= |args|
    ensures i <= m <= |args|
    decreases |args| - i
  {
    if i == |args| then i
    else if |args[i]| >= |key| && args[i][..|key|] == key then i
    else FirstMatch(args, key, i + 1)
  }

  /** `Params.Get` as written: a cached key is answered from the cache
      without looking at the arguments; otherwise the arguments are
      scanned, and a found value is cached. */
  function Get(cache: map<Bytes, Bytes>, args: seq<Bytes>, key: Bytes): (r: Result<Got, nat>)
    ensures key in cache ==> r == Ok(Got(Some(cache[key]), cache))
    ensures r.Ok? && r.value.value.None? ==> r.value.cache == cache
    ensures r.Ok? && r.value.value.Some? ==> r.value.cache == cache[key := r.value.value.value]
    ensures key !in cache ==> (r.Err? <==> Scan(args, key, 0).Err?)
  {
    if key in cache then Ok(Got(Some(cache[key]), cache))
    else
      match Scan(args, key, 0)
      case Err(j) => Err(j)
      case Ok(None) => Ok(Got(None, cache))
      case Ok(Some(v)) => Ok(Got(Some(v), cache[key := v]))
  }

  /** Once a value is found it is answered from the cache, whatever the
      arguments are later. */
  lemma {:induction false} GetRemembers(cache: map<Bytes, Bytes>, args: seq<Bytes>, later: seq<Bytes>, key: Bytes)
    requires Get(cache, args, key).Ok? && Get(cache, args, key).value.value.Some?
    ensures var g := Get(cache, args, key).value;
      Get(g.cache, later, key) == Ok(Got(g.value, g.cache))
  {
  }

  /** As written, a program name shorter than the key makes the lookup
      fail before any argument is examined. */
  lemma {:induction false} ShortArgumentPanics(cache: map<Bytes, Bytes>, args: seq<Bytes>, key: Bytes)
    requires key !in cache && |args| > 0 && |args[0]| < |key|
    ensures Get(cache, args, key) == Err(0)
  {
  }

  /** The intended scan: arguments that are too short or do not start with
      the key are skipped. */
  function ScanFixed(args: seq<Bytes>, key: Bytes, i: nat): (r: Option<Bytes>)
    requires i <= |args|
    ensures r.None? <==> forall j :: i <= j < |args| ==> !Matches(args[j], key)
    ensures r.Some? ==> exists j :: (&& i <= j < |args| && Matches(args[j], key) && r.value == args[j][|key| + 1..]
      && forall m :: i <= m < j ==> !Matches(args[m], key))
    decreases |args| - i
  {
    if i == |args| then None
    else if Matches(args[i], key) then Some(args[i][|key| + 1..])
    else ScanFixed(args, key, i + 1)
  }

  /** `Params.Get` with the intended scan: it always answers. */
  function GetFixed(cache: map<Bytes, Bytes>, args: seq<Bytes>, key: Bytes): (r: Got)
    ensures key in cache ==> r == Got(Some(cache[key]), cache)
    ensures key !in cache ==> r.value == ScanFixed(args, key, 0)
    ensures r.value.None? ==> r.cache == cache
    ensures r.value.Some? ==> r.cache == cache[key := r.value.value]
  {
    if key in cache then Got(Some(cache[key]), cache)
    else
      match ScanFixed(args, key, 0)
      case None => Got(None, cache)
      case Some(v) => Got(Some(v), cache[key := v])
  }

  /** The fixed lookup agrees with the one as written wherever that one
      does not fail. */
  lemma {:induction false} ScanFixedAgrees(args: seq<Bytes>, key: Bytes, i: nat)
    requires i <= |args| && Scan(args, key, i).Ok?
    ensures ScanFixed(args, key, i) == Scan(args, key, i).value
    decreases |args| - i
  {
    if i < |args| && !(|args[i]| >= |key| && args[i][..|key|] == key) {
      ScanFixedAgrees(args, key, i + 1);
    }
  }

  lemma {:induction false} GetFixedAgrees(cache: map<Bytes, Bytes>, args: seq<Bytes>, key: Bytes)
    requires Get(cache, args, key).Ok?
    ensures GetFixed(cache, args, key) == Get(cache, args, key).value
  {
    if key !in cache {
      ScanFixedAgrees(args, key, 0);
    }
  }
}

=== FILE: listing.dfy ===
/** The server list the menu shows (`show` and `separatorLength` in
    src/app/show_servers.go) and the display helpers of the older menu in
    src/app/app.go (`showServers`, `separatorLength`, `formatSeparator`,
    `recordServer`). The separator text of `utils.FormatSeparator` and the
    line text of `Server.FormatPrint` are not part of this model: a line is
    kept as its label and server, a separator as its title and fill. */
module Listing {
  import opened Model
  import opened Width
  import GoStrings
  import ServerIndexing

  // ---------------------------------------------------------------------
  // separatorLength
  // ---------------------------------------------------------------------

  /** The loop of `separatorLength` from group `i` on, `m` the running
      maximum: a group name wider than `m` makes it the name's width plus
      ten. */
  function SeparatorFrom(groups: seq<Group>, i: nat, m: int, isHan: char -> bool): (r: int)
    requires i <= |groups|
    ensures r >= m
    decreases |groups| - i
  {
    if i == |groups| then m
    else
      SeparatorFrom(groups, i + 1, SeparatorNext(groups[i].groupName, m, isHan), isHan)
  }

  /** Every group name from `i` on fits in `w` columns. */
  predicate Covers(groups: seq<Group>, i: nat, w: int, isHan: char -> bool) {
    forall g :: i <= g < |groups| ==> ZhLen(groups[g].groupName, isHan) <= w
  }

  /** `w` is ten more than the width of some group name from `i` on. */
  predicate Attained(groups: seq<Group>, i: nat, w: int, isHan: char -> bool) {
    exists g :: i <= g < |groups| && w == ZhLen(groups[g].groupName, isHan) + 10
  }

  /** The loop's result is as wide as every group name it looked at, and
      is either where it started or ten more than one of those names. */
  lemma {:induction false} SeparatorFromBounds(groups: seq<Group>, i: nat, m: int, isHan: char -> bool)
    requires i <= |groups|
    ensures Covers(groups, i, SeparatorFrom(groups, i, m, isHan), isHan)
    ensures var r := SeparatorFrom(groups, i, m, isHan); r == m || Attained(groups, i, r, isHan)
    decreases |groups| - i
  {
    if i < |groups| {
      var m' := SeparatorNext(groups[i].groupName, m, isHan);
      var r := SeparatorFrom(groups, i + 1, m', isHan);
      SeparatorFromBounds(groups, i + 1, m', isHan);
      assert r >= m' >= ZhLen(groups[i].groupName, isHan);
      if r != m' {
        var g :| i + 1 <= g < |groups| && r == ZhLen(groups[g].groupName, isHan) + 10;
        assert Attained(groups, i, r, isHan);
      } else if m' != m {
        assert Attained(groups, i, r, isHan);
      }
    }
  }

  /** `separatorLength` of src/app/show_servers.go: at least 60. */
  function SeparatorLength(groups: seq<Group>, isHan: char -> bool): int {
    SeparatorFrom(groups, 0, 60, isHan)
  }

  /** `separatorLength` of src/app/app.go: the same rule from 50. */
  function AppSeparatorLength(groups: seq<Group>, isHan: char -> bool): int {
    SeparatorFrom(groups, 0, 50, isHan)
  }

  /** The separator is as wide as every group name, never below its
      starting width, and exactly that width without groups. */
  lemma {:induction false} SeparatorLengthBounds(groups: seq<Group>, isHan: char -> bool)
    ensures SeparatorLength(groups, isHan) >= 60 && AppSeparatorLength(groups, isHan) >= 50
    ensures groups == [] ==> SeparatorLength(groups, isHan) == 60 && AppSeparatorLength(groups, isHan) == 50
    ensures Covers(groups, 0, SeparatorLength(groups, isHan), isHan)
    ensures SeparatorLength(groups, isHan) == 60 || Attained(groups, 0, SeparatorLength(groups, isHan), isHan)
  {
    SeparatorFromBounds(groups, 0, 60, isHan);
  }

  /** One step of the loop of `separatorLength`: the running maximum after
      looking at a group named `name`. */
  function SeparatorNext(name: string, m: int, isHan: char -> bool): (r: int)
    ensures r >= m && r >= ZhLen(name, isHan)
  {
    var w := ZhLen(name, isHan);
    if w > m then w + 10 else m
  }

  /** Appending a group adds one step at the end of the loop. */
  lemma {:induction false} SeparatorAppend(groups: seq<Group>, extra: Group, i: nat, m: int, isHan: char -> bool)
    requires i <= |groups|
    ensures SeparatorFrom(groups + [extra], i, m, isHan)
         == SeparatorNext(extra.groupName, SeparatorFrom(groups, i, m, isHan), isHan)
    decreases |groups| - i
  {
    var more := groups + [extra];
    if i < |groups| {
      assert more[i] == groups[i];
      SeparatorAppend(groups, extra, i + 1, SeparatorNext(groups[i].groupName, m, isHan), isHan);
    } else {
      assert more[i] == extra;
    }
  }

  /** Adding a group never narrows the separator. */
  lemma {:induction false} SeparatorMonotone(groups: seq<Group>, extra: Group, isHan: char -> bool)
    ensures SeparatorLength(groups, isHan) <= SeparatorLength(groups + [extra], isHan)
    ensures AppSeparatorLength(groups, isHan) <= AppSeparatorLength(groups + [extra], isHan)
  {
    SeparatorAppend(groups, extra, 0, 60, isHan);
    SeparatorAppend(groups, extra, 0, 50, isHan);
  }

  // ---------------------------------------------------------------------
  // formatSeparator (src/app/app.go)
  // ---------------------------------------------------------------------

  /** `c` repeated `n` times. */
  function Repeat(c: string, n: nat): (r: string)
    ensures |r| == n * |c|
  {
    if n == 0 then "" else Repeat(c, n - 1) + c
  }

  /** The number of fill strings on each side: the float
      `(maxlength - width) / 2` truncated toward zero, so none when the
      title is at least as wide as the line. */
  function FillCount(maxLength: int, width: nat): (n: nat)
    ensures 2 * n <= (if maxLength > width then maxLength - width else 0) <= 2 * n + 1
  {
    var d := maxLength - width;
    if d > 0 then d / 2 else 0
  }

  /** `formatSeparator`: the title with the same number of fill strings on
      either side. */
  function FormatSeparator(title: string, c: string, maxLength: int, isHan: char -> bool): string {
    var chars := Repeat(c, FillCount(maxLength, ZhLen(title, isHan)));
    chars + title + chars
  }

  lemma {:induction false} RepeatWidth(c: string, n: nat, isHan: char -> bool)
    ensures ZhLen(Repeat(c, n), isHan) == n * ZhLen(c, isHan)
    decreases n
  {
    if n > 0 {
      var p := Repeat(c, n - 1);
      var z := ZhLen(c, isHan);
      assert Repeat(c, n) == p + c;
      RepeatWidth(c, n - 1, isHan);
      ZhLenAppend(p, c, isHan);
      assert ZhLen(Repeat(c, n), isHan) == (n - 1) * z + z;
      MulSucc(n, z);
    }
  }

  /** One more copy adds one more width. */
  lemma MulSucc(n: nat, z: int)
    requires n > 0
    ensures (n - 1) * z + z == n * z
  {
  }

  /** With a one-column fill, a title that fits gives a line of the full
      width or one column less; a wider title is printed alone. */
  lemma {:induction false} FormatSeparatorWidth(title: string, c: string, maxLength: int, isHan: char -> bool)
    requires ZhLen(c, isHan) == 1
    ensures var w := ZhLen(title, isHan);
      var r := ZhLen(FormatSeparator(title, c, maxLength, isHan), isHan);
      && (w <= maxLength ==> maxLength - 1 <= r <= maxLength)
      && (w >= maxLength ==> FormatSeparator(title, c, maxLength, isHan) == title)
  {
    var n := FillCount(maxLength, ZhLen(title, isHan));
    var chars := Repeat(c, n);
    RepeatWidth(c, n, isHan);
    ZhLenAppend(chars + title, chars, isHan);
    ZhLenAppend(chars, title, isHan);
    if ZhLen(title, isHan) >= maxLength {
      assert chars == "";
      assert chars + title + chars == title;
    }
  }

  // ---------------------------------------------------------------------
  // recordServer (src/app/app.go)
  // ---------------------------------------------------------------------

  /** `recordServer`: the line for a server with its key, followed by
      "user@ip" when details are on. */
  function RecordServer(flag: string, s: Server, showDetail: bool): string {
    var line := " [" + flag + "]" + "\t" + s.name;
    if showDetail then line + " [" + s.user + "@" + s.ip + "]" else line
  }

  /** The detailed line is the plain one with " [user@ip]" appended. */
  lemma {:induction false} RecordServerDetail(flag: string, s: Server)
    ensures RecordServer(flag, s, true) == RecordServer(flag, s, false) + " [" + s.user + "@" + s.ip + "]"
    ensures GoStrings.HasPrefix(RecordServer(flag, s, true), RecordServer(flag, s, false))
  {
    var plain := RecordServer(flag, s, false);
    assert (plain + " [" + s.user + "@" + s.ip + "]")[..|plain|] == plain;
  }

  // ---------------------------------------------------------------------
  // The list (show in src/app/show_servers.go)
  // ---------------------------------------------------------------------

  /** A printed line: a separator with its title and fill, a server with
      its key, the operation menu, or the prompt. */
  datatype Line = Separator(title: string, fill: string) | Entry(key: string, server: Server) | MenuLines | Prompt

  /** The group heading shows the prefix with an arrow: down when the
      group is collapsed, up when it is open. */
  function GroupTitle(g: Group): string {
    " " + g.groupName + " " + (if g.collapse then "[" + g.prefix + " ↓]" else "[" + g.prefix + " ↑]") + " "
  }

  /** The lines of the top-level servers, keyed 1, 2, ... */
  function TopEntries(servers: seq<Server>): (r: seq<Line>)
    ensures |r| == |servers|
    ensures forall i :: 0 <= i < |r| ==> r[i] == Entry(ServerIndexing.TopKey(i), servers[i])
  {
    seq(|servers|, i requires 0 <= i < |servers| => Entry(ServerIndexing.TopKey(i), servers[i]))
  }

  /** The lines of one group: nothing for an empty group, only the heading
      for a collapsed one, the heading and the members (keyed by prefix and
      position) for an open one. */
  function GroupLines(g: Group): (r: seq<Line>)
    ensures |g.servers| == 0 ==> r == []
    ensures |g.servers| > 0 ==> |r| >= 1 && r[0] == Separator(GroupTitle(g), "_")
    ensures |g.servers| > 0 && g.collapse ==> |r| == 1
    ensures |g.servers| > 0 && !g.collapse ==> |r| == 1 + |g.servers|
    ensures |g.servers| > 0 && !g.collapse ==>
      forall j :: 0 <= j < |g.servers| ==> r[1 + j] == Entry(ServerIndexing.GroupKey(g.prefix, j), g.servers[j])
  {
    if |g.servers| == 0 then []
    else if g.collapse then [Separator(GroupTitle(g), "_")]
    else
      [Separator(GroupTitle(g), "_")]
      + seq(|g.servers|, j requires 0 <= j < |g.servers| => Entry(ServerIndexing.GroupKey(g.prefix, j), g.servers[j]))
  }

  function GroupsLines(groups: seq<Group>, i: nat): seq<Line>
    requires i <= |groups|
    decreases |groups| - i
  {
    if i == |groups| then [] else GroupLines(groups[i]) + GroupsLines(groups, i + 1)
  }

  /** `show`: the banner, the top-level servers, the groups, then the
      menu between two rules and the prompt. */
  function Show(cfg: Config): (r: seq<Line>)
    ensures |r| >= 5 + |cfg.servers| && r[0] == Separator(" 欢迎使用 Auto SSH ", "=") && r[|r| - 1] == Prompt
    ensures r[1..1 + |cfg.servers|] == TopEntries(cfg.servers)
  {
    var r := [Separator(" 欢迎使用 Auto SSH ", "=")] + TopEntries(cfg.servers) + GroupsLines(cfg.groups, 0)
      + [Separator("", "="), MenuLines, Separator("", "="), Prompt];
    assert r[1..1 + |cfg.servers|] == TopEntries(cfg.servers);
    r
  }

  /** Every key a group's lines show is the key of one of its positions. */
  lemma {:induction false} GroupLinesKeys(g: Group, key: string, s: Server)
    requires Entry(key, s) in GroupLines(g)
    ensures exists j :: 0 <= j < |g.servers| && key == ServerIndexing.GroupKey(g.prefix, j)
  {
    var lines := GroupLines(g);
    var k :| 0 <= k < |lines| && lines[k] == Entry(key, s);
    assert key == ServerIndexing.GroupKey(g.prefix, k - 1);
  }

  lemma {:induction false} GroupsLinesKeys(groups: seq<Group>, i: nat, key: string, s: Server)
    requires i <= |groups| && Entry(key, s) in GroupsLines(groups, i)
    ensures exists g, j :: i <= g < |groups| && 0 <= j < |groups[g].servers| && key == ServerIndexing.GroupKey(groups[g].prefix, j)
    decreases |groups| - i
  {
    if Entry(key, s) in GroupLines(groups[i]) {
      GroupLinesKeys(groups[i], key, s);
    } else {
      GroupsLinesKeys(groups, i + 1, key, s);
    }
  }

  /** An entry below the top-level servers is one of the group lines:
      the lines after the groups are separators, the menu and the prompt. */
  lemma {:induction false} ShownGroupEntry(c: Config, k: nat, key: string, s: Server)
    requires 1 + |c.servers| <= k < |Show(c)| && Show(c)[k] == Entry(key, s)
    ensures Entry(key, s) in GroupsLines(c.groups, 0)
  {
    var top := [Separator(" 欢迎使用 Auto SSH ", "=")] + TopEntries(c.servers);
    var tail := GroupsLines(c.groups, 0);
    var after := [Separator("", "="), MenuLines, Separator("", "="), Prompt];
    var lines := Show(c);
    assert lines == top + tail + after;
    forall j | |top| + |tail| <= j < |lines| ensures !lines[j].Entry? {
      assert lines[j] == after[j - |top| - |tail|];
    }
    assert lines[k] == tail[k - |top|];
  }

  /** Every key the list shows selects a server: after
      `createServerIndex`, it is a key of the index. */
  lemma {:induction false} ShownKeysAreIndexed(cfg: Config, c: Config, idx: ServerIndex, key: string, s: Server)
    requires ServerIndexing.Indexed(cfg, c, idx)
    requires Entry(key, s) in Show(c)
    ensures key in idx
  {
    var lines := Show(c);
    var k :| 0 <= k < |lines| && lines[k] == Entry(key, s);
    if k <= |c.servers| {
      assert lines[k] == TopEntries(c.servers)[k - 1];
    } else {
      ShownGroupEntry(c, k, key, s);
      GroupsLinesKeys(c.groups, 0, key, s);
      var g, j :| 0 <= g < |c.groups| && 0 <= j < |c.groups[g].servers| && key == ServerIndexing.GroupKey(c.groups[g].prefix, j);
      assert ServerIndexing.GroupKeyed(cfg, g, idx.Keys);
    }
  }
}

=== FILE: menu.dfy ===
/** The operation menu under the server list (src/app/show_menu.go): the
    operations, their registry, the column widths and the padding of each
    cell. */
module Menu {
  import opened Width

  /** An operation of the menu; `hasProcess` says whether it has a
      handler (only "exit" has none). */
  datatype Operation = Operation(key: string, caption: string, end: bool, hasProcess: bool)

  /** The menu as laid out: add, edit and remove on the first row, exit on
      the second. */
  const Layout: seq<seq<Operation>> := [
    [Operation("add", "添加", false, true), Operation("edit", "编辑", false, true), Operation("remove", "删除", false, true)],
    [Operation("exit", "退出", true, false)]
  ]

  /** `operationFormat`: "[key] label". */
  function OperationFormat(op: Operation): string {
    "[" + op.key + "] " + op.caption
  }

  /** The brackets and the space of a formatted operation take three
      columns. */
  lemma {:induction false} OperationFormatWidth(op: Operation, isHan: char -> bool)
    requires !isHan('[') && !isHan(']') && !isHan(' ')
    ensures ZhLen(OperationFormat(op), isHan) == ZhLen(op.key, isHan) + ZhLen(op.caption, isHan) + 3
  {
    ZhLenAppend("[" + op.key + "] ", op.caption, isHan);
    ZhLenAppend("[" + op.key, "] ", isHan);
    ZhLenAppend("[", op.key, isHan);
    assert ZhLen("] ", isHan) == 2 by {
      assert "] "[..1] == "]";
    }
  }

  // ---------------------------------------------------------------------
  // The registry
  // ---------------------------------------------------------------------

  /** The keys of `row` from position `j` on. */
  function RowKeys(row: seq<Operation>, j: nat): (r: set<string>)
    requires j <= |row|
    decreases |row| - j
  {
    if j == |row| then {} else {row[j].key} + RowKeys(row, j + 1)
  }

  /** The keys of the rows of `menu` from row `i` on. */
  function MenuKeys(menu: seq<seq<Operation>>, i: nat): (r: set<string>)
    requires i <= |menu|
    decreases |menu| - i
  {
    if i == |menu| then {} else RowKeys(menu[i], 0) + MenuKeys(menu, i + 1)
  }

  /** Registers the operations of `row` from position `j` on; a later
      operation with the same key replaces an earlier one. */
  function RegisterRow(ops: map<string, Operation>, row: seq<Operation>, j: nat): (r: map<string, Operation>)
    requires j <= |row|
    ensures r.Keys == ops.Keys + RowKeys(row, j)
    decreases |row| - j
  {
    if j == |row| then ops
    else RegisterRow(ops[row[j].key := row[j]], row, j + 1)
  }

  /** The registry `showMenu` fills, row by row from row `i` on. */
  function Register(ops: map<string, Operation>, menu: seq<seq<Operation>>, i: nat): (r: map<string, Operation>)
    requires i <= |menu|
    ensures r.Keys == ops.Keys + MenuKeys(menu, i)
    decreases |menu| - i
  {
    if i == |menu| then ops
    else Register(RegisterRow(ops, menu[i], 0), menu, i + 1)
  }

  /** Every operation's key of a row is among its keys. */
  lemma {:induction false} RowKeysHas(row: seq<Operation>, j: nat, k: nat)
    requires j <= k < |row|
    ensures row[k].key in RowKeys(row, j)
    decreases k - j
  {
    if j < k {
      RowKeysHas(row, j + 1, k);
    }
  }

  /** Every key of a row is the key of one of its operations. */
  lemma {:induction false} RowKeysFrom(row: seq<Operation>, j: nat, key: string) returns (k: nat)
    requires j <= |row| && key in RowKeys(row, j)
    ensures j <= k < |row| && row[k].key == key
    decreases |row| - j
  {
    if row[j].key == key {
      k := j;
    } else {
      k := RowKeysFrom(row, j + 1, key);
    }
  }

  /** Every operation's key of the menu is registered. */
  lemma {:induction false} MenuKeysHas(menu: seq<seq<Operation>>, i: nat, a: nat, b: nat)
    requires i <= a < |menu| && b < |menu[a]|
    ensures menu[a][b].key in MenuKeys(menu, i)
    decreases a - i
  {
    if i < a {
      MenuKeysHas(menu, i + 1, a, b);
    } else {
      RowKeysHas(menu[a], 0, b);
    }
  }

  /** Every registered key is the key of an operation of the menu. */
  lemma {:induction false} MenuKeysFrom(menu: seq<seq<Operation>>, i: nat, key: string) returns (a: nat, b: nat)
    requires i <= |menu| && key in MenuKeys(menu, i)
    ensures i <= a < |menu| && b < |menu[a]| && menu[a][b].key == key
    decreases |menu| - i
  {
    if key in RowKeys(menu[i], 0) {
      a := i;
      b := RowKeysFrom(menu[i], 0, key);
    } else {
      a, b := MenuKeysFrom(menu, i + 1, key);
    }
  }

  /** The operation registered last under its key is the one kept. */
  lemma {:induction false} RegisterRowLast(ops: map<string, Operation>, row: seq<Operation>, j: nat, k: nat)
    requires j <= k < |row|
    requires forall l :: k < l < |row| ==> row[l].key != row[k].key
    ensures row[k].key in RegisterRow(ops, row, j) && RegisterRow(ops, row, j)[row[k].key] == row[k]
    decreases |row| - j
  {
    if j < k {
      RegisterRowLast(ops[row[j].key := row[j]], row, j + 1, k);
    } else {
      RegisterRowKeeps(ops[row[j].key := row[j]], row, j + 1, row[k].key);
    }
  }

  /** A key no operation of the row uses keeps its operation. */
  lemma {:induction false} RegisterRowKeeps(ops: map<string, Operation>, row: seq<Operation>, j: nat, key: string)
    requires j <= |row| && key in ops
    requires forall k :: j <= k < |row| ==> row[k].key != key
    ensures key in RegisterRow(ops, row, j) && RegisterRow(ops, row, j)[key] == ops[key]
    decreases |row| - j
  {
    if j < |row| {
      RegisterRowKeeps(ops[row[j].key := row[j]], row, j + 1, key);
    }
  }

  /** After the menu is shown the registry holds exactly the four
      operations of the layout, each under its own key. */
  lemma LayoutRegistry()
    ensures Register(map[], Layout, 0)
         == map["add" := Layout[0][0], "edit" := Layout[0][1], "remove" := Layout[0][2], "exit" := Layout[1][0]]
  {
    var m3 := FirstRowRegistered();
    var m4 := m3["exit" := Layout[1][0]];
    assert RegisterRow(m4, Layout[1], 1) == m4;
    assert RegisterRow(m3, Layout[1], 0) == m4;
    assert Register(m4, Layout, 2) == m4;
  }

  /** Of the registered operations only "exit" ends the loop, and only it
      lacks a handler. */
  lemma OnlyExitEnds()
    ensures var ops := Register(map[], Layout, 0);
      forall k :: k in ops ==> (ops[k].end <==> k == "exit") && (ops[k].hasProcess <==> k != "exit")
  {
    LayoutRegistry();
    var ops := Register(map[], Layout, 0);
    assert ops.Keys == {"add", "edit", "remove", "exit"};
  }

  lemma FirstRowRegistered() returns (m: map<string, Operation>)
    ensures m == map["add" := Layout[0][0], "edit" := Layout[0][1], "remove" := Layout[0][2]]
    ensures Register(map[], Layout, 0) == Register(m, Layout, 1)
  {
    var row := Layout[0];
    var m1 := map["add" := row[0]];
    var m2 := m1["edit" := row[1]];
    m := m2["remove" := row[2]];
    assert RegisterRow(m, row, 3) == m;
    assert RegisterRow(m2, row, 2) == m;
    assert RegisterRow(m1, row, 1) == m;
    assert RegisterRow(map[], row, 0) == m;
  }

  // ---------------------------------------------------------------------
  // Column widths and padding
  // ---------------------------------------------------------------------

  /** The widest formatted operation of column `j` over rows `i..`, 0
      when no row from `i` on reaches column `j`. */
  function ColumnWidthFrom(menu: seq<seq<Operation>>, j: nat, i: nat, isHan: char -> bool): (w: nat)
    requires i <= |menu|
    ensures forall a :: i <= a < |menu| && j < |menu[a]| ==> ZhLen(OperationFormat(menu[a][j]), isHan) <= w
    ensures w == 0 || exists a :: i <= a < |menu| && j < |menu[a]| && w == ZhLen(OperationFormat(menu[a][j]), isHan)
    decreases |menu| - i
  {
    if i == |menu| then 0
    else
      var rest := ColumnWidthFrom(menu, j, i + 1, isHan);
      if j < |menu[i]| && ZhLen(OperationFormat(menu[i][j]), isHan) > rest
      then ZhLen(OperationFormat(menu[i][j]), isHan)
      else rest
  }

  /** `columnsMaxWidths[j]`: the widest formatted operation in column
      `j`. */
  function ColumnWidth(menu: seq<seq<Operation>>, j: nat, isHan: char -> bool): nat {
    ColumnWidthFrom(menu, j, 0, isHan)
  }

  /** `stringPadding` as written: appends spaces while the byte length of
      the string is below `n`. */
  function StringPadding(str: string, n: int): (r: string)
    ensures |str| <= |r| && r[..|str|] == str
    ensures forall i :: |str| <= i < |r| ==> r[i] == ' '
    ensures ByteLen(r) == if ByteLen(str) >= n then ByteLen(str) else n
    decreases n - ByteLen(str)
  {
    if ByteLen(str) < n then
      assert (str + " ")[..|str|] == str;
      StringPadding(str + " ", n)
    else str
  }

  /** The padding the column widths call for: appends spaces while the
      display width of the string is below `n`. */
  function PadToWidth(str: string, n: int, isHan: char -> bool): (r: string)
    requires !isHan(' ')
    ensures |str| <= |r| && r[..|str|] == str
    ensures forall i :: |str| <= i < |r| ==> r[i] == ' '
    ensures ZhLen(r, isHan) == if ZhLen(str, isHan) >= n then ZhLen(str, isHan) else n
    decreases n - ZhLen(str, isHan)
  {
    if ZhLen(str, isHan) < n then
      assert (str + " ")[..|str|] == str;
      PadToWidth(str + " ", n, isHan)
    else str
  }

  /** The cells of menu row `i` as `showMenu` prints them (each followed
      by a tab), padded by `stringPadding`: each cell is the formatted
      operation followed by spaces, and its BYTE length, not its display
      width, reaches the column's width. */
  function CellsAsWritten(menu: seq<seq<Operation>>, i: nat, isHan: char -> bool): (r: seq<string>)
    requires i < |menu|
    ensures |r| == |menu[i]|
    ensures forall j :: 0 <= j < |r| ==>
      var f := OperationFormat(menu[i][j]);
      |f| <= |r[j]| && r[j][..|f|] == f &&
      ByteLen(r[j]) == if ByteLen(f) >= ColumnWidth(menu, j, isHan) then ByteLen(f) else ColumnWidth(menu, j, isHan)
  {
    seq(|menu[i]|, j requires 0 <= j < |menu[i]| => StringPadding(OperationFormat(menu[i][j]), ColumnWidth(menu, j, isHan)))
  }

  /** As written, the first cell of the menu's first row, "[add] 添加",
      is printed narrower than its column, so the columns do not line
      up. */
  lemma AsWrittenCellNarrower(isHan: char -> bool)
    requires forall c: char :: c as int < 0x80 ==> !isHan(c)
    requires isHan('添') && isHan('加') && isHan('退') && isHan('出')
    ensures ZhLen(CellsAsWritten(Layout, 0, isHan)[0], isHan) < ColumnWidth(Layout, 0, isHan)
  {
    BytePaddingMisaligns(isHan);
  }

  /** The cells of menu row `i` as the corrected program prints them
      (padding by display width, see `PadToWidth`): each cell is exactly
      as wide as its column. */
  function Cells(menu: seq<seq<Operation>>, i: nat, isHan: char -> bool): (r: seq<string>)
    requires i < |menu| && !isHan(' ')
    ensures |r| == |menu[i]|
    ensures forall j :: 0 <= j < |r| ==> ZhLen(r[j], isHan) == ColumnWidth(menu, j, isHan)
  {
    seq(|menu[i]|, j requires 0 <= j < |menu[i]| => PadToWidth(OperationFormat(menu[i][j]), ColumnWidth(menu, j, isHan), isHan))
  }

  /** As written, a cell holding a Han label is never padded: its byte
      length (three per Han character) already exceeds its display width
      (two per Han character). In the menu's first column "[add] 添加"
      stays 10 columns wide while "[exit] 退出" is 11. */
  lemma {:induction false} BytePaddingMisaligns(isHan: char -> bool)
    requires forall c: char :: c as int < 0x80 ==> !isHan(c)
    requires isHan('添') && isHan('加') && isHan('退') && isHan('出')
    ensures ColumnWidth(Layout, 0, isHan) == 11
    ensures ZhLen(StringPadding(OperationFormat(Layout[0][0]), ColumnWidth(Layout, 0, isHan)), isHan) == 10
  {
    var add := OperationFormat(Layout[0][0]);
    FirstColumnMeasures(isHan);
    assert ColumnWidthFrom(Layout, 0, 2, isHan) == 0;
    assert ColumnWidthFrom(Layout, 0, 1, isHan) == 11;
    assert StringPadding(add, 11) == add;
  }

  /** The measures of the first column's two cells. */
  lemma {:induction false} FirstColumnMeasures(isHan: char -> bool)
    requires forall c: char :: c as int < 0x80 ==> !isHan(c)
    requires isHan('添') && isHan('加') && isHan('退') && isHan('出')
    ensures ZhLen(OperationFormat(Layout[0][0]), isHan) == 10 && ByteLen(OperationFormat(Layout[0][0])) == 12
    ensures ZhLen(OperationFormat(Layout[1][0]), isHan) == 11
  {
    assert OperationFormat(Layout[0][0]) == "[add] " + "添加";
    assert OperationFormat(Layout[1][0]) == "[exit] " + "退出";
    CellMeasures("[add] ", '添', '加', isHan);
    CellMeasures("[exit] ", '退', '出', isHan);
  }

  /** An ASCII label followed by two Han characters. */
  lemma {:induction false} CellMeasures(lead: string, a: char, b: char, isHan: char -> bool)
    requires forall c: char :: c as int < 0x80 ==> !isHan(c)
    requires forall i :: 0 <= i < |lead| ==> lead[i] as int < 0x80
    requires isHan(a) && isHan(b) && 0x800 <= a as int < 0x1_0000 && 0x800 <= b as int < 0x1_0000
    ensures ZhLen(lead + [a, b], isHan) == |lead| + 4
    ensures ByteLen(lead + [a, b]) == |lead| + 6
  {
    AsciiMeasure(lead, isHan);
    HanPairMeasure(a, b, isHan);
    ZhLenAppend(lead, [a, b], isHan);
    ByteLenAppend(lead, [a, b]);
  }

  /** An ASCII string is one byte and one column per character. */
  lemma {:induction false} AsciiMeasure(s: string, isHan: char -> bool)
    requires forall c: char :: c as int < 0x80 ==> !isHan(c)
    requires forall i :: 0 <= i < |s| ==> s[i] as int < 0x80
    ensures ZhLen(s, isHan) == |s| && ByteLen(s) == |s|
    decreases |s|
  {
    if |s| > 0 {
      AsciiMeasure(s[..|s| - 1], isHan);
    }
  }

  /** Two Han characters of the Basic Multilingual Plane: six bytes, four
      columns. */
  lemma {:induction false} HanPairMeasure(a: char, b: char, isHan: char -> bool)
    requires isHan(a) && isHan(b)
    requires 0x800 <= a as int < 0x1_0000 && 0x800 <= b as int < 0x1_0000
    ensures ZhLen([a, b], isHan) == 4 && ByteLen([a, b]) == 6
  {
    assert [a, b][..1] == [a];
  }
}

=== FILE: model.dfy ===
/** The configuration records of src/app (structs.go, config.go): servers,
    groups, the whole configuration file, and the index entries that map a
    menu key to a server. */
module Model {
  import opened Wrappers

  /** A decoded JSON value of an `options` map (`interface{}`); JSON numbers
      are decoded as floating point by Go, modelled here as integers. */
  datatype OptValue = Null | Number(n: int) | Text(s: string) | Flag(b: bool) | Compound

  /** An options map; `None` is Go's nil map. */
  type Options = Option<map<string, OptValue>>

  /** The session-log settings of a server. */
  datatype ServerLog = ServerLog(enable: bool, filename: string, mode: string)

  datatype Server = Server(
    name: string,
    ip: string,
    port: int,
    user: string,
    password: string,
    authMethod: string,
    key: string,
    alias: string,
    options: Options,
    log: ServerLog,
    groupName: string       // unexported; set while indexing, never saved
  )

  datatype Group = Group(groupName: string, prefix: string, servers: seq<Server>, collapse: bool)

  datatype Config = Config(showDetail: bool, servers: seq<Server>, groups: seq<Group>, options: Options)

  /** A server with every field empty, as `Server{}` in Go. */
  const EmptyServer := Server("", "", 0, "", "", "", "", "", None, ServerLog(false, "", ""), "")

  /** Whether an index entry points into the top-level list or into a
      group's list. */
  datatype IndexKind = TopLevel | InGroup

  /** `ServerIndex`: where a keyed server lives, and (a copy of) the server
      itself. Top-level entries carry group index -1. */
  datatype IndexEntry = IndexEntry(kind: IndexKind, groupIndex: int, serverIndex: int, server: Server)

  type ServerIndex = map<string, IndexEntry>

  /** Removes position `i` of a list, keeping the order of the rest (Go's
      `append(s[:i], s[i+1:]...)`). */
  function RemoveAt<T>(s: seq<T>, i: nat): (r: seq<T>)
    requires i < |s|
    ensures |r| == |s| - 1
    ensures forall k :: 0 <= k < i ==> r[k] == s[k]
    ensures forall k :: i <= k < |r| ==> r[k] == s[k + 1]
  {
    s[..i] + s[i + 1..]
  }

  /** Removing a position and re-inserting the removed element restores the
      list. */
  lemma {:induction false} RemoveAtInverse<T>(s: seq<T>, i: nat)
    requires i < |s|
    ensures RemoveAt(s, i)[..i] + [s[i]] + RemoveAt(s, i)[i..] == s
  {
    assert RemoveAt(s, i)[..i] == s[..i];
    assert RemoveAt(s, i)[i..] == s[i + 1..];
  }
}

=== FILE: saving.dfy ===
/** Writing the configuration back to its file (`saveConfig` in
    src/app/config.go, src/app/cud.go and src/app/app.go): marshal, indent,
    optionally copy the old file to a time-stamped backup, then write. The
    outcome of each step is a parameter; the result records the steps that
    touched the disk, in order, and the error returned. */
module Saving {
  import opened Wrappers

  /** A step that touches the disk: copying the old file aside, and
      writing the new one. */
  datatype SaveEvent = Backup | Write

  /** The error each step would report, `None` when it succeeds. */
  datatype SaveIo = SaveIo(
    marshalError: Option<string>,
    indentError: Option<string>,
    backupError: Option<string>,
    writeError: Option<string>)

  /** The steps attempted and the returned error. */
  datatype Saved = Saved(events: seq<SaveEvent>, err: Option<string>)

  /** The steps in the order `saveConfig` runs them, the backup only when
      asked for. */
  function Steps(backup: bool, io: SaveIo): seq<Option<string>> {
    [io.marshalError, io.indentError] + (if backup then [io.backupError] else []) + [io.writeError]
  }

  /** The first failure of a list of steps. */
  function FirstFailure(steps: seq<Option<string>>): (r: Option<string>)
    ensures r.None? <==> forall k :: 0 <= k < |steps| ==> steps[k].None?
    ensures r.Some? ==> r in steps
  {
    if |steps| == 0 then None
    else if steps[0].Some? then steps[0]
    else FirstFailure(steps[1..])
  }

  /** Steps that succeed can be skipped. */
  lemma {:induction false} FirstFailureSkip(steps: seq<Option<string>>, n: nat)
    requires n <= |steps| && forall k :: 0 <= k < n ==> steps[k].None?
    ensures FirstFailure(steps) == FirstFailure(steps[n..])
  {
    if n > 0 {
      assert steps[1..][n - 1..] == steps[n..];
      FirstFailureSkip(steps[1..], n - 1);
    }
  }

  /** A backup, if any, comes before the write, and each happens at most
      once. */
  predicate BackupFirst(events: seq<SaveEvent>) {
    forall i, j :: 0 <= i < j < |events| ==> events[i] == Backup && events[j] == Write
  }

  /** `saveConfig(backup)`: stops at the first failing step and returns its
      error. */
  function SaveConfig(backup: bool, io: SaveIo): (r: Saved)
    ensures Backup in r.events <==> backup && io.marshalError.None? && io.indentError.None?
    ensures Write in r.events <==> io.marshalError.None? && io.indentError.None? && (!backup || io.backupError.None?)
    ensures BackupFirst(r.events)
    ensures r.err.None? <==> Write in r.events && io.writeError.None?
  {
    if io.marshalError.Some? then Saved([], io.marshalError)
    else if io.indentError.Some? then Saved([], io.indentError)
    else if backup && io.backupError.Some? then Saved([Backup], io.backupError)
    else if backup then Saved([Backup, Write], io.writeError)
    else Saved([Write], io.writeError)
  }

  /** The returned error is the first failing step's. */
  lemma {:induction false} SaveConfigFirstFailure(backup: bool, io: SaveIo)
    ensures SaveConfig(backup, io).err == FirstFailure(Steps(backup, io))
  {
    var steps := Steps(backup, io);
    if io.marshalError.None? && io.indentError.None? {
      if backup && io.backupError.Some? {
        FirstFailureSkip(steps, 2);
      } else {
        FirstFailureSkip(steps, |steps| - 1);
      }
    }
  }

  /** Without a backup the disk is only ever written, never copied; with
      one, a written file always has its old contents saved first. */
  lemma {:induction false} BackupGuardsWrite(io: SaveIo)
    ensures Backup !in SaveConfig(false, io).events
    ensures Write in SaveConfig(true, io).events ==> SaveConfig(true, io).events == [Backup, Write]
  {
  }
}

=== FILE: scan.dfy ===
/** Reading and dispatching one menu input (src/app/scan.go): `checkInput`
    classifies a line as an operation, a server key or a group prefix, and
    `scanInput` turns the choice into the loop/clear/reload flags of the
    menu loop. The console is a sequence of lines; the handlers, the SSH
    session and the configuration file are outcomes passed in. */
module Scan {
  import opened Wrappers
  import opened Model
  import GoStrings
  import Menu

  // ---------------------------------------------------------------------
  // checkInput
  // ---------------------------------------------------------------------

  /** What a line selects: an operation with the words after its key, an
      indexed server, or the group at a position. */
  datatype Input = OpInput(args: seq<string>) | ServerInput | GroupInput(index: nat)

  datatype Choice = Choice(cmd: string, input: Input)

  /** The command word of a line: the text before its first space. */
  function Command(line: string): string {
    GoStrings.Split(line, ' ')[0]
  }

  /** No group in positions `lo..hi` has prefix `p`. */
  predicate NoPrefix(groups: seq<Group>, p: string, lo: nat, hi: nat)
    requires lo <= hi <= |groups|
  {
    forall k :: lo <= k < hi ==> groups[k].prefix != p
  }

  /** The position of the first group from `i` on whose prefix is `p`. */
  function FirstPrefix(groups: seq<Group>, p: string, i: nat): (r: Option<nat>)
    requires i <= |groups|
    ensures r.Some? ==> i <= r.value < |groups| && groups[r.value].prefix == p && NoPrefix(groups, p, i, r.value)
    ensures r.None? ==> NoPrefix(groups, p, i, |groups|)
    decreases |groups| - i
  {
    if i == |groups| then None
    else if groups[i].prefix == p then Some(i)
    else FirstPrefix(groups, p, i + 1)
  }

  /** One pass of the loop of `checkInput` over `line`: an operation key
      first (unless the line is the preset server), then a key of the
      index, then the first group with that prefix; `None` when nothing
      matches. */
  function Classify(ops: map<string, Menu.Operation>, idx: ServerIndex, groups: seq<Group>, line: string, skipOpt: bool)
    : (r: Option<Choice>)
    ensures r.Some? ==> r.value.cmd == Command(line)
    ensures (r.Some? && r.value.input.OpInput?) <==> !skipOpt && Command(line) in ops
    ensures r.Some? && r.value.input.OpInput? ==> r.value.input.args == GoStrings.Split(line, ' ')[1..]
    ensures (r.Some? && r.value.input.ServerInput?) <==> (skipOpt || Command(line) !in ops) && Command(line) in idx
    ensures r.Some? && r.value.input.GroupInput? ==>
      && (skipOpt || Command(line) !in ops) && Command(line) !in idx
      && r.value.input.index < |groups| && groups[r.value.input.index].prefix == Command(line)
      && NoPrefix(groups, Command(line), 0, r.value.input.index)
    ensures r.None? <==> (skipOpt || Command(line) !in ops) && Command(line) !in idx && NoPrefix(groups, Command(line), 0, |groups|)
  {
    var parts := GoStrings.Split(line, ' ');
    var cmd := parts[0];
    if !skipOpt && cmd in ops then Some(Choice(cmd, OpInput(parts[1..])))
    else if cmd in idx then Some(Choice(cmd, ServerInput))
    else
      match FirstPrefix(groups, cmd, 0)
      case Some(g) => Some(Choice(cmd, GroupInput(g)))
      case None => None
  }

  /** The lines `lo..hi` were all rejected. */
  predicate Rejected(ops: map<string, Menu.Operation>, idx: ServerIndex, groups: seq<Group>, lines: seq<string>, lo: nat, hi: nat)
    requires lo <= hi <= |lines|
  {
    forall k :: lo <= k < hi ==> Classify(ops, idx, groups, lines[k], false).None?
  }

  /** The loop of `checkInput` from line `i` on: the first line that
      selects something, with the number of lines read through it; `None`
      when the input ends first. */
  function ReadFrom(ops: map<string, Menu.Operation>, idx: ServerIndex, groups: seq<Group>, lines: seq<string>, i: nat)
    : (r: Option<(Choice, nat)>)
    requires i <= |lines|
    ensures r.Some? ==>
      && i < r.value.1 <= |lines|
      && Classify(ops, idx, groups, lines[r.value.1 - 1], false) == Some(r.value.0)
      && Rejected(ops, idx, groups, lines, i, r.value.1 - 1)
    ensures r.None? ==> Rejected(ops, idx, groups, lines, i, |lines|)
    decreases |lines| - i
  {
    if i == |lines| then None
    else
      match Classify(ops, idx, groups, lines[i], false)
      case Some(c) => Some((c, i + 1))
      case None =>
        var r := ReadFrom(ops, idx, groups, lines, i + 1);
        RejectedStep(ops, idx, groups, lines, i, if r.Some? then r.value.1 - 1 else |lines|);
        r
  }

  /** A rejected line followed by rejected lines. */
  lemma {:induction false} RejectedStep(ops: map<string, Menu.Operation>, idx: ServerIndex, groups: seq<Group>, lines: seq<string>, i: nat, hi: nat)
    requires i < hi <= |lines|
    requires Classify(ops, idx, groups, lines[i], false).None? && Rejected(ops, idx, groups, lines, i + 1, hi)
    ensures Rejected(ops, idx, groups, lines, i, hi)
  {
  }

  /** The command names an operation, an indexed server or a group. */
  predicate Matched(ops: map<string, Menu.Operation>, idx: ServerIndex, groups: seq<Group>, c: Choice) {
    match c.input
    case OpInput(_) => c.cmd in ops
    case ServerInput => c.cmd in idx
    case GroupInput(g) => g < |groups| && groups[g].prefix == c.cmd
  }

  /** `checkInput`: a non-empty `preset` (the package's `defaultServer`) is
      tried once, without the operation check, before any line is read;
      unmatched input is rejected and the next line read. The result holds
      the choice and the number of lines consumed. */
  function CheckInput(ops: map<string, Menu.Operation>, idx: ServerIndex, groups: seq<Group>, preset: string, lines: seq<string>)
    : (r: Option<(Choice, nat)>)
    ensures r.Some? ==> Matched(ops, idx, groups, r.value.0) && r.value.1 <= |lines|
    ensures r.Some? && r.value.1 == 0 ==> preset != "" && !r.value.0.input.OpInput? && r.value.0.cmd == Command(preset)
    ensures r.Some? && r.value.1 > 0 ==>
      && (preset == "" || Classify(ops, idx, groups, preset, true).None?)
      && Classify(ops, idx, groups, lines[r.value.1 - 1], false) == Some(r.value.0)
      && Rejected(ops, idx, groups, lines, 0, r.value.1 - 1)
    ensures r.None? ==> Rejected(ops, idx, groups, lines, 0, |lines|)
  {
    var first := if preset != "" then Classify(ops, idx, groups, preset, true) else None;
    match first
    case Some(c) =>
      ClassifiedMatched(ops, idx, groups, preset, true);
      Some((c, 0))
    case None =>
      var r := ReadFrom(ops, idx, groups, lines, 0);
      if r.Some? then
        ClassifiedMatched(ops, idx, groups, lines[r.value.1 - 1], false);
        r
      else r
  }

  /** Once the input is over `utils.Scanln` stores "" on every read, so
      when "" is an operation, a key of the index or a group's prefix
      (a group without a prefix, say), the loop ends on the first such
      read at the latest. */
  lemma {:induction false} EmptyLineEndsLoop(ops: map<string, Menu.Operation>, idx: ServerIndex, groups: seq<Group>, lines: seq<string>, i: nat)
    requires i <= |lines|
    requires "" in ops || "" in idx || exists k :: 0 <= k < |groups| && groups[k].prefix == ""
    ensures ReadFrom(ops, idx, groups, lines + [""], i).Some?
    decreases |lines| - i
  {
    var all := lines + [""];
    if i == |lines| {
      GoStrings.SplitWithoutSeparator("", ' ');
      assert Command(all[i]) == "";
      if "" !in ops && "" !in idx {
        var k :| 0 <= k < |groups| && groups[k].prefix == "";
        assert !NoPrefix(groups, "", 0, |groups|);
      }
    } else if Classify(ops, idx, groups, all[i], false).None? {
      assert all[i] == lines[i];
      EmptyLineEndsLoop(ops, idx, groups, lines, i + 1);
    }
  }

  /** Whatever a line selects, its command names. */
  lemma {:induction false} ClassifiedMatched(ops: map<string, Menu.Operation>, idx: ServerIndex, groups: seq<Group>, line: string, skipOpt: bool)
    ensures Classify(ops, idx, groups, line, skipOpt).Some? ==> Matched(ops, idx, groups, Classify(ops, idx, groups, line, skipOpt).value)
  {
  }

  /** A line whose first word has no space in it splits into that word
      and the words of the rest. */
  lemma {:induction false} CommandBeforeSpace(cmd: string, rest: string)
    requires ' ' !in cmd
    ensures Command(cmd + " " + rest) == cmd
    ensures GoStrings.Split(cmd + " " + rest, ' ')[1..] == GoStrings.Split(rest, ' ')
  {
    GoStrings.SplitAround(cmd, rest, ' ');
    GoStrings.SplitWithoutSeparator(cmd, ' ');
    assert cmd + " " + rest == cmd + [' '] + rest;
  }

  /** The preset server is matched against the index only: a preset that
      is both an operation key and a server key selects the server, the
      same text typed in selects the operation. */
  lemma {:induction false} PresetSkipsOperations(ops: map<string, Menu.Operation>, idx: ServerIndex, groups: seq<Group>, key: string)
    requires key != "" && ' ' !in key && key in ops && key in idx
    ensures CheckInput(ops, idx, groups, key, []) == Some((Choice(key, ServerInput), 0))
    ensures CheckInput(ops, idx, groups, "", [key]) == Some((Choice(key, OpInput([])), 1))
  {
    GoStrings.SplitWithoutSeparator(key, ' ');
    assert GoStrings.Split(key, ' ')[1..] == [];
  }

  // ---------------------------------------------------------------------
  // scanInput
  // ---------------------------------------------------------------------

  /** The three results of `scanInput`: keep looping, clear the screen,
      reload the configuration. */
  datatype Flags = Flags(loop: bool, clear: bool, reload: bool)

  /** What `scanInput` did besides its flags: the server it connected to
      and the configuration it saved (without backup). */
  datatype Outcome = Outcome(flags: Flags, connected: Option<Server>, saved: Option<Config>)

  /** The operation stored under `key`, or Go's zero `Operation` (no
      handler, not an end) for a missing key. */
  function Lookup(ops: map<string, Menu.Operation>, key: string): Menu.Operation {
    if key in ops then ops[key] else Menu.Operation("", "", false, false)
  }

  /** `scanInput` as written. `processFailed` is whether the operation's
      handler returned an error, `saveFailed` whether `saveConfig(false)`
      did. Selecting a group flips `Collapse` of a copy of the group, so
      the configuration saved is the one that was read. */
  function ScanInput(cfg: Config, idx: ServerIndex, ops: map<string, Menu.Operation>, c: Choice,
                     processFailed: bool, saveFailed: bool): (r: Outcome)
    requires c.input.ServerInput? ==> c.cmd in idx
    requires c.input.GroupInput? ==> c.input.index < |cfg.groups|
    ensures r.flags.loop ==> r.flags.clear
    ensures r.flags.loop <==>
      || (c.input.OpInput? && Lookup(ops, c.cmd).hasProcess && !processFailed && !Lookup(ops, c.cmd).end)
      || c.input.ServerInput?
      || (c.input.GroupInput? && !saveFailed)
    ensures r.flags.reload <==> r.flags.loop && !c.input.ServerInput?
    ensures r.connected.Some? <==> c.input.ServerInput?
    ensures r.connected.Some? ==> r.connected.value == idx[c.cmd].server
    ensures r.saved.Some? <==> c.input.GroupInput?
    ensures r.saved.Some? ==> r.saved.value == cfg
  {
    match c.input
    case OpInput(_) =>
      var op := Lookup(ops, c.cmd);
      if op.hasProcess && processFailed then Outcome(Flags(false, false, false), None, None)
      else if op.hasProcess && !op.end then Outcome(Flags(true, true, true), None, None)
      else Outcome(Flags(false, false, false), None, None)
    case ServerInput =>
      Outcome(Flags(true, true, false), Some(idx[c.cmd].server), None)
    case GroupInput(g) =>
      if saveFailed then Outcome(Flags(false, false, false), None, Some(cfg))
      else Outcome(Flags(true, true, true), None, Some(cfg))
  }

  /** Group `g` with its collapse flag flipped. */
  function ToggleCollapse(cfg: Config, g: nat): (r: Config)
    requires g < |cfg.groups|
    ensures |r.groups| == |cfg.groups| && r.servers == cfg.servers && r.options == cfg.options
    ensures r.showDetail == cfg.showDetail
    ensures r.groups[g].collapse == !cfg.groups[g].collapse
    ensures r.groups[g] == cfg.groups[g].(collapse := r.groups[g].collapse)
    ensures forall k :: 0 <= k < |cfg.groups| && k != g ==> r.groups[k] == cfg.groups[k]
  {
    cfg.(groups := cfg.groups[g := cfg.groups[g].(collapse := !cfg.groups[g].collapse)])
  }

  /** Toggling a group twice restores the configuration. */
  lemma {:induction false} ToggleTwice(cfg: Config, g: nat)
    requires g < |cfg.groups|
    ensures ToggleCollapse(ToggleCollapse(cfg, g), g) == cfg
  {
    var twice := ToggleCollapse(ToggleCollapse(cfg, g), g);
    assert twice.groups == cfg.groups;
  }

  /** `scanInput` with the toggle applied to the group in the
      configuration itself, as the prefix command intends. */
  function ScanInputFixed(cfg: Config, idx: ServerIndex, ops: map<string, Menu.Operation>, c: Choice,
                          processFailed: bool, saveFailed: bool): (r: Outcome)
    requires c.input.ServerInput? ==> c.cmd in idx
    requires c.input.GroupInput? ==> c.input.index < |cfg.groups|
    ensures r.flags == ScanInput(cfg, idx, ops, c, processFailed, saveFailed).flags
    ensures r.connected == ScanInput(cfg, idx, ops, c, processFailed, saveFailed).connected
    ensures r.saved.Some? <==> c.input.GroupInput?
    ensures c.input.GroupInput? ==> r.saved == Some(ToggleCollapse(cfg, c.input.index))
  {
    var r := ScanInput(cfg, idx, ops, c, processFailed, saveFailed);
    match c.input
    case GroupInput(g) => r.(saved := Some(ToggleCollapse(cfg, g)))
    case _ => r
  }

  /** As written, typing a group's prefix never changes its collapse state:
      the saved configuration, which the reload reads back, still has the
      old flag. With the fix, the saved flag is flipped. */
  lemma {:induction false} CollapseToggleLost(cfg: Config, idx: ServerIndex, ops: map<string, Menu.Operation>, g: nat)
    requires g < |cfg.groups|
    ensures var c := Choice(cfg.groups[g].prefix, GroupInput(g));
      && ScanInput(cfg, idx, ops, c, false, false).saved.value.groups[g].collapse == cfg.groups[g].collapse
      && ScanInputFixed(cfg, idx, ops, c, false, false).saved.value.groups[g].collapse != cfg.groups[g].collapse
      && ScanInput(cfg, idx, ops, c, false, false).flags.reload
  {
  }

  /** Whatever `checkInput` returns is something `scanInput` can dispatch:
      a server key is in the index and a group position is in range. */
  lemma {:induction false} CheckedChoiceDispatches(ops: map<string, Menu.Operation>, idx: ServerIndex, cfg: Config, preset: string, lines: seq<string>)
    requires CheckInput(ops, idx, cfg.groups, preset, lines).Some?
    ensures var c := CheckInput(ops, idx, cfg.groups, preset, lines).value.0;
      && (c.input.ServerInput? ==> c.cmd in idx)
      && (c.input.GroupInput? ==> c.input.index < |cfg.groups|)
      && (c.input.OpInput? ==> c.cmd in ops)
  {
  }

  /** With the menu's own operations, a successful operation keeps the
      loop going exactly when it is not "exit". */
  lemma {:induction false} OnlyExitStops(cfg: Config, idx: ServerIndex, key: string, args: seq<string>)
    requires key in Menu.Register(map[], Menu.Layout, 0)
    ensures ScanInput(cfg, idx, Menu.Register(map[], Menu.Layout, 0), Choice(key, OpInput(args)), false, false).flags.loop
        <==> key != "exit"
  {
    Menu.OnlyExitEnds();
  }
}

=== FILE: serveredit.dfy ===
/** Interactive editing of a server (src/app/server_edit.go): `Edit` asks
    for eight fields in a fixed order, each through `scanVal`, and stops at
    the first end of input. A scanned line is an outcome of the console,
    one per prompt. */
module ServerEdit {
  import opened Model
  import GoStrings

  /** `deftVal`: the hint shown after a field name. */
  function DeftVal(v: string): (r: string)
    ensures v == "" <==> r == ""
    ensures v != "" ==> |r| == |v| + 10 && r[..9] == "(default=" && r[9..|r| - 1] == v && r[|r| - 1] == ')'
  {
    if v != "" then "(default=" + v + ")" else ""
  }

  /** What one `fmt.Scanln` into a field gave: a token, an empty line
      ("unexpected newline"), the end of input, or another scanning
      error. */
  datatype Scan = Token(text: string) | Blank | Eof | Failed(message: string)

  /** The fields `Edit` visits. */
  datatype Field = Name | Ip | Port | User | Password | Method | Key | Alias

  /** The order of the prompts. */
  const Fields: seq<Field> := [Name, Ip, Port, User, Password, Method, Key, Alias]

  /** A field's value: `Port` is the one int field, the others are
      strings. */
  datatype Value = IntValue(i: int) | TextValue(s: string)

  function Get(s: Server, f: Field): Value {
    match f
    case Name => TextValue(s.name)
    case Ip => TextValue(s.ip)
    case Port => IntValue(s.port)
    case User => TextValue(s.user)
    case Password => TextValue(s.password)
    case Method => TextValue(s.authMethod)
    case Key => TextValue(s.key)
    case Alias => TextValue(s.alias)
  }

  /** The fields that are neither int nor string, which `Edit` never
      touches, are those of `a` and `b` alike. */
  predicate SameRest(a: Server, b: Server) {
    a.options == b.options && a.log == b.log && a.groupName == b.groupName
  }

  /** `scanVal` on field `f`: a token sets a string field, and sets the int
      field when it reads as a decimal int; every other outcome leaves the
      field alone. The flag is the returned error, which is set only at
      the end of input. */
  function ScanVal(s: Server, f: Field, scan: Scan): (r: (Server, bool))
    ensures r.1 <==> scan.Eof?
    ensures forall g: Field :: g != f ==> Get(r.0, g) == Get(s, g)
    ensures SameRest(r.0, s)
    ensures Get(r.0, f) != Get(s, f) ==> scan.Token?
    ensures scan.Token? && f != Port ==> Get(r.0, f) == TextValue(scan.text)
    ensures scan.Token? && f == Port ==>
      r.0.port == (if GoStrings.Atoi(scan.text).err.None? then GoStrings.Atoi(scan.text).value else s.port)
  {
    match scan
    case Token(t) =>
      (match f
       case Name => (s.(name := t), false)
       case Ip => (s.(ip := t), false)
       case Port =>
         var n := GoStrings.Atoi(t);
         (if n.err.None? then s.(port := n.value) else s, false)
       case User => (s.(user := t), false)
       case Password => (s.(password := t), false)
       case Method => (s.(authMethod := t), false)
       case Key => (s.(key := t), false)
       case Alias => (s.(alias := t), false))
    case Eof => (s, true)
    case _ => (s, false)
  }

  /** The scan for prompt `k`; past the end of the console every read is
      the end of input. */
  function ScanAt(scans: seq<Scan>, k: nat): Scan {
    if k < |scans| then scans[k] else Eof
  }

  /** The loop of `Edit` from prompt `i` on. */
  function EditFrom(s: Server, scans: seq<Scan>, i: nat): (r: (Server, bool))
    requires i <= |Fields|
    decreases |Fields| - i
  {
    if i == |Fields| then (s, false)
    else
      var (t, eof) := ScanVal(s, Fields[i], ScanAt(scans, i));
      if eof then (t, true) else EditFrom(t, scans, i + 1)
  }

  /** `Edit`: the edited server (edited in place, so the fields before an
      end of input keep their new values) and whether it stopped at the
      end of input. */
  function Edit(s: Server, scans: seq<Scan>): (r: (Server, bool)) {
    EditFrom(s, scans, 0)
  }

  // ---------------------------------------------------------------------
  // The edit against a field-by-field reading
  // ---------------------------------------------------------------------

  /** The first prompt from `i` on that meets the end of input, or 8. */
  function FirstEof(scans: seq<Scan>, i: nat): (k: nat)
    requires i <= |Fields|
    ensures i <= k <= |Fields|
    ensures forall j :: i <= j < k ==> !ScanAt(scans, j).Eof?
    ensures k < |Fields| ==> ScanAt(scans, k).Eof?
    decreases |Fields| - i
  {
    if i == |Fields| || ScanAt(scans, i).Eof? then i else FirstEof(scans, i + 1)
  }

  /** What prompt `k` makes of field `Fields[k]` of `s` on its own. */
  function Scanned(s: Server, scans: seq<Scan>, k: nat): Value
    requires k < |Fields|
  {
    Get(ScanVal(s, Fields[k], ScanAt(scans, k)).0, Fields[k])
  }

  /** Field `Fields[k]` of `r`: scanned if its prompt came before the end
      of input, untouched otherwise. */
  predicate FieldsEdited(s: Server, scans: seq<Scan>, r: Server, lo: nat, stop: nat)
    requires lo <= stop <= |Fields|
  {
    && (forall k :: lo <= k < stop ==> Get(r, Fields[k]) == Scanned(s, scans, k))
    && (forall k :: stop <= k < |Fields| ==> Get(r, Fields[k]) == Get(s, Fields[k]))
  }

  lemma {:induction false} FieldsDistinct(j: nat, k: nat)
    requires j < |Fields| && k < |Fields| && j != k
    ensures Fields[j] != Fields[k]
  {
  }

  /** The loop from `i` on reports the end of input exactly when one of
      its prompts meets it. */
  lemma {:induction false} EditFromEof(s: Server, scans: seq<Scan>, i: nat)
    requires i <= |Fields|
    ensures EditFrom(s, scans, i).1 <==> FirstEof(scans, i) < |Fields|
    decreases |Fields| - i
  {
    if i < |Fields| && !ScanAt(scans, i).Eof? {
      EditFromEof(ScanVal(s, Fields[i], ScanAt(scans, i)).0, scans, i + 1);
    }
  }

  /** The loop never touches the fields that are neither int nor
      string. */
  lemma {:induction false} EditFromRest(s: Server, scans: seq<Scan>, i: nat)
    requires i <= |Fields|
    ensures SameRest(EditFrom(s, scans, i).0, s)
    decreases |Fields| - i
  {
    if i < |Fields| && !ScanAt(scans, i).Eof? {
      EditFromRest(ScanVal(s, Fields[i], ScanAt(scans, i)).0, scans, i + 1);
    }
  }

  /** A field before `i`, or at or after the first end of input, keeps its
      value. */
  lemma {:induction false} EditFromUntouched(s: Server, scans: seq<Scan>, i: nat, k: nat)
    requires i <= |Fields| && k < |Fields|
    requires k < i || FirstEof(scans, i) <= k
    ensures Get(EditFrom(s, scans, i).0, Fields[k]) == Get(s, Fields[k])
    decreases |Fields| - i
  {
    if i < |Fields| {
      var t := ScanVal(s, Fields[i], ScanAt(scans, i)).0;
      if !ScanAt(scans, i).Eof? {
        FieldsDistinct(i, k);
        assert Get(t, Fields[k]) == Get(s, Fields[k]);
        assert k < i + 1 || FirstEof(scans, i + 1) <= k;
        EditFromUntouched(t, scans, i + 1, k);
      }
    }
  }

  /** Scanning a field depends only on that field's value. */
  lemma {:induction false} ScannedLocal(s: Server, t: Server, scans: seq<Scan>, k: nat)
    requires k < |Fields| && Get(s, Fields[k]) == Get(t, Fields[k])
    ensures Scanned(s, scans, k) == Scanned(t, scans, k)
  {
  }

  /** A field reached before the end of input gets what its own prompt
      read. */
  lemma {:induction false} EditFromScanned(s: Server, scans: seq<Scan>, i: nat, k: nat)
    requires i <= |Fields| && i <= k < FirstEof(scans, i)
    ensures Get(EditFrom(s, scans, i).0, Fields[k]) == Scanned(s, scans, k)
    decreases |Fields| - i
  {
    var t := ScanVal(s, Fields[i], ScanAt(scans, i)).0;
    if k == i {
      EditFromUntouched(t, scans, i + 1, k);
    } else {
      FieldsDistinct(i, k);
      EditFromScanned(t, scans, i + 1, k);
      ScannedLocal(s, t, scans, k);
    }
  }

  /** `Edit` stops exactly at the first end of input, gives every field it
      reached what its own prompt read, and touches nothing else. */
  lemma {:induction false} EditSpec(s: Server, scans: seq<Scan>)
    ensures var r := Edit(s, scans);
      && (r.1 <==> FirstEof(scans, 0) < |Fields|)
      && FieldsEdited(s, scans, r.0, 0, FirstEof(scans, 0))
      && SameRest(r.0, s)
  {
    EditFromEof(s, scans, 0);
    EditFromRest(s, scans, 0);
    var stop := FirstEof(scans, 0);
    forall k | 0 <= k < stop ensures Get(Edit(s, scans).0, Fields[k]) == Scanned(s, scans, k) {
      EditFromScanned(s, scans, 0, k);
    }
    forall k | stop <= k < |Fields| ensures Get(Edit(s, scans).0, Fields[k]) == Get(s, Fields[k]) {
      EditFromUntouched(s, scans, 0, k);
    }
  }

  /** Two consoles that agree up to and including the first end of input
      edit alike. */
  predicate AgreeThroughEof(a: seq<Scan>, b: seq<Scan>, i: nat)
    requires i <= |Fields|
  {
    forall k :: i <= k < |Fields| && k <= FirstEof(a, i) ==> ScanAt(a, k) == ScanAt(b, k)
  }

  lemma {:induction false} EditReadsThroughEof(s: Server, a: seq<Scan>, b: seq<Scan>, i: nat)
    requires i <= |Fields| && AgreeThroughEof(a, b, i)
    ensures EditFrom(s, a, i) == EditFrom(s, b, i)
    decreases |Fields| - i
  {
    if i < |Fields| {
      assert ScanAt(a, i) == ScanAt(b, i);
      if !ScanAt(a, i).Eof? {
        assert FirstEof(a, i) == FirstEof(a, i + 1);
        EditReadsThroughEof(ScanVal(s, Fields[i], ScanAt(a, i)).0, a, b, i + 1);
      }
    }
  }

  /** Nothing after the first end of input is read: the answers after it
      can be dropped. */
  lemma {:induction false} EditStopsAtEof(s: Server, scans: seq<Scan>)
    requires FirstEof(scans, 0) < |scans|
    ensures Edit(s, scans) == Edit(s, scans[..FirstEof(scans, 0) + 1])
  {
    var n := FirstEof(scans, 0) + 1;
    var cut := scans[..n];
    forall k | 0 <= k < |Fields| && k <= FirstEof(scans, 0) ensures ScanAt(scans, k) == ScanAt(cut, k) {
      PrefixScanAt(scans, n, k);
    }
    EditReadsThroughEof(s, scans, cut, 0);
  }

  lemma {:induction false} PrefixScanAt(scans: seq<Scan>, n: nat, k: nat)
    requires k < n <= |scans|
    ensures ScanAt(scans[..n], k) == ScanAt(scans, k)
  {
  }

  /** Blank lines keep every field: editing with only empty answers gives
      the server back unchanged. */
  lemma {:induction false} BlankKeeps(s: Server, scans: seq<Scan>, i: nat)
    requires i <= |Fields|
    requires forall k :: 0 <= k < |scans| ==> scans[k] == Blank
    requires |scans| >= |Fields|
    ensures EditFrom(s, scans, i) == (s, false)
    decreases |Fields| - i
  {
    if i < |Fields| {
      assert ScanAt(scans, i) == Blank;
      BlankKeeps(s, scans, i + 1);
    }
  }
}

=== FILE: serverindex.dfy ===
/** The server index of src/app: the keys a menu user types to pick a
    server (1-based positions, group prefix plus position, and aliases),
    built by `Config.createServerIndex` (config.go) and by the older
    `loadServerMap` (app.go). */
module ServerIndexing {
  import opened Wrappers
  import opened Model
  import GoStrings
  import Endpoint

  /** The key of top-level server `i` (counted from 0). */
  function TopKey(i: nat): string {
    GoStrings.Itoa(i + 1)
  }

  /** The key of server `j` (counted from 0) of the group with `prefix`. */
  function GroupKey(prefix: string, j: nat): string {
    prefix + GoStrings.Itoa(j + 1)
  }

  /** A server as it is indexed: its own options are kept and the
      configuration's are added where it has none. */
  function Prepared(s: Server, opts: Options): Server {
    s.(options := Some(Endpoint.Entries(opts) + Endpoint.Entries(s.options)))
  }

  /** Preparing is `MergeOptions` without overwriting. */
  lemma {:induction false} PreparedMerges(s: Server, opts: Options)
    ensures Prepared(s, opts) == Endpoint.MergeOptions(s, opts, false)
  {
  }

  // ---------------------------------------------------------------------
  // Where an entry points
  // ---------------------------------------------------------------------

  /** The server lists of the groups. */
  function Lists(groups: seq<Group>): (r: seq<seq<Server>>)
    ensures |r| == |groups| && forall g :: 0 <= g < |groups| ==> r[g] == groups[g].servers
  {
    seq(|groups|, g requires 0 <= g < |groups| => groups[g].servers)
  }

  /** Entry `e` names a position of the top-level list `top` or of a group
      list, and its copy of the server equals the one there. */
  predicate Locates(top: seq<Server>, groups: seq<seq<Server>>, e: IndexEntry) {
    match e.kind
    case TopLevel => e.groupIndex == -1 && 0 <= e.serverIndex < |top| && top[e.serverIndex] == e.server
    case InGroup =>
      && 0 <= e.groupIndex < |groups| && 0 <= e.serverIndex < |groups[e.groupIndex]|
      && groups[e.groupIndex][e.serverIndex] == e.server
  }

  predicate PointsInto(top: seq<Server>, groups: seq<seq<Server>>, idx: ServerIndex) {
    forall k :: k in idx ==> Locates(top, groups, idx[k])
  }

  /** Lists that only grew at their ends. */
  predicate Extends(top: seq<Server>, groups: seq<seq<Server>>, top2: seq<Server>, groups2: seq<seq<Server>>) {
    && top <= top2 && |groups| <= |groups2|
    && forall g :: 0 <= g < |groups| ==> groups[g] <= groups2[g]
  }

  lemma {:induction false} PointsIntoExtended(top: seq<Server>, groups: seq<seq<Server>>, top2: seq<Server>, groups2: seq<seq<Server>>,
                           idx: ServerIndex)
    requires PointsInto(top, groups, idx) && Extends(top, groups, top2, groups2)
    ensures PointsInto(top2, groups2, idx)
  {
    forall k | k in idx ensures Locates(top2, groups2, idx[k]) {
      var e := idx[k];
      if e.kind == InGroup {
        assert groups[e.groupIndex] <= groups2[e.groupIndex];
      }
    }
  }

  /** The server an entry stands for in the configuration as read: the
      original at its position, formatted, with the group's name for a
      group member. */
  predicate Sourced(cfg: Config, e: IndexEntry) {
    match e.kind
    case TopLevel =>
      0 <= e.serverIndex < |cfg.servers| && e.server == Prepared(Endpoint.Format(cfg.servers[e.serverIndex]), cfg.options)
    case InGroup =>
      && 0 <= e.groupIndex < |cfg.groups| && 0 <= e.serverIndex < |cfg.groups[e.groupIndex].servers|
      && e.server == Prepared(Member(cfg.groups[e.groupIndex], e.serverIndex), cfg.options)
  }

  /** Group member `j` after formatting and tagging with the group's name. */
  function Member(g: Group, j: nat): Server
    requires j < |g.servers|
  {
    Endpoint.Format(g.servers[j]).(groupName := g.groupName)
  }

  predicate AllSourced(cfg: Config, idx: ServerIndex) {
    forall k :: k in idx ==> Sourced(cfg, idx[k])
  }

  // ---------------------------------------------------------------------
  // createServerIndex
  // ---------------------------------------------------------------------

  /** One step of `createServerIndex` for the prepared-to-be server `s`
      under `key`: a taken key skips the server, which is then neither
      indexed nor merged; otherwise the merged server is indexed under the
      key and under its alias, overwriting what the alias held. */
  function Place(idx: ServerIndex, opts: Options, s: Server, key: string, kind: IndexKind, gi: int, si: nat)
    : (r: (Server, ServerIndex))
    ensures key in idx ==> r == (s, idx)
    ensures key !in idx ==> r.0 == Prepared(s, opts)
    ensures key !in idx ==> r.1.Keys == idx.Keys + {key} + (if s.alias != "" then {s.alias} else {})
    ensures key !in idx ==> r.1[key] == IndexEntry(kind, gi, si, r.0) && (s.alias != "" ==> r.1[s.alias] == r.1[key])
    ensures key !in idx ==> forall k :: k in idx && k != s.alias ==> r.1[k] == idx[k]
  {
    if key in idx then (s, idx)
    else
      var m := Prepared(s, opts);
      var e := IndexEntry(kind, gi, si, m);
      var idx2 := idx[key := e];
      (m, if m.alias != "" then idx2[m.alias := e] else idx2)
  }

  /** A step keeps every entry pointing at its server, given that the new
      entry, if any, points at where the server is put. */
  lemma {:induction false} PlacePoints(top: seq<Server>, groups: seq<seq<Server>>, top2: seq<Server>, groups2: seq<seq<Server>>,
                    idx: ServerIndex, opts: Options, s: Server, key: string, kind: IndexKind, gi: int, si: nat)
    requires PointsInto(top, groups, idx) && Extends(top, groups, top2, groups2)
    requires key !in idx ==> Locates(top2, groups2, IndexEntry(kind, gi, si, Place(idx, opts, s, key, kind, gi, si).0))
    ensures PointsInto(top2, groups2, Place(idx, opts, s, key, kind, gi, si).1)
  {
    PointsIntoExtended(top, groups, top2, groups2, idx);
  }

  /** A step keeps every entry standing for its source, given that the
      new entry, if any, does. */
  lemma {:induction false} PlaceSourced(cfg: Config, idx: ServerIndex, s: Server, key: string, kind: IndexKind, gi: int, si: nat)
    requires AllSourced(cfg, idx)
    requires key !in idx ==> Sourced(cfg, IndexEntry(kind, gi, si, Prepared(s, cfg.options)))
    ensures AllSourced(cfg, Place(idx, cfg.options, s, key, kind, gi, si).1)
  {
  }

  /** `s` is top-level server `i` after indexing: formatted, and merged
      or not. */
  predicate TopBuilt(cfg: Config, i: nat, s: Server)
    requires i < |cfg.servers|
  {
    s == Endpoint.Format(cfg.servers[i]) || s == Prepared(Endpoint.Format(cfg.servers[i]), cfg.options)
  }

  /** `s` is member `j` of group `g` after indexing. */
  predicate MemberBuilt(cfg: Config, g: nat, j: nat, s: Server)
    requires g < |cfg.groups| && j < |cfg.groups[g].servers|
  {
    s == Member(cfg.groups[g], j) || s == Prepared(Member(cfg.groups[g], j), cfg.options)
  }

  /** A list that starts with `done + [x]` starts with `done`, then `x`. */
  lemma {:induction false} PrefixStep<T>(a: seq<T>, done: seq<T>, x: T)
    requires |done| < |a| && a[..|done| + 1] == done + [x]
    ensures a[..|done|] == done && a[|done|] == x
  {
    assert a[..|done|] == a[..|done| + 1][..|done|];
    assert a[|done|] == a[..|done| + 1][|done|];
  }

  lemma {:induction false} TopFrom(cfg: Config, i: nat, top: seq<Server>, keys: set<string>)
    requires i < |top| == |cfg.servers|
    requires TopBuilt(cfg, i, top[i]) && TopKey(i) in keys
    requires forall j :: i + 1 <= j < |top| ==> TopBuilt(cfg, j, top[j]) && TopKey(j) in keys
    ensures forall j :: i <= j < |top| ==> TopBuilt(cfg, j, top[j]) && TopKey(j) in keys
  {
  }

  lemma {:induction false} MembersFrom(cfg: Config, g: nat, j: nat, ms: seq<Server>, keys: set<string>)
    requires g < |cfg.groups| && j < |ms| == |cfg.groups[g].servers|
    requires MemberBuilt(cfg, g, j, ms[j]) && GroupKey(cfg.groups[g].prefix, j) in keys
    requires forall m :: j + 1 <= m < |ms| ==> MemberBuilt(cfg, g, m, ms[m]) && GroupKey(cfg.groups[g].prefix, m) in keys
    ensures forall m :: j <= m < |ms| ==> MemberBuilt(cfg, g, m, ms[m]) && GroupKey(cfg.groups[g].prefix, m) in keys
  {
  }

  /** The loop over the top-level servers from position `|done|` on,
      `done` holding the servers already handled. */
  function IndexTop(cfg: Config, idx: ServerIndex, done: seq<Server>): (r: (seq<Server>, ServerIndex))
    requires |done| <= |cfg.servers|
    decreases |cfg.servers| - |done|
  {
    if |done| == |cfg.servers| then (done, idx)
    else
      var i := |done|;
      var p := Place(idx, cfg.options, Endpoint.Format(cfg.servers[i]), TopKey(i), TopLevel, -1, i);
      IndexTop(cfg, p.1, done + [p.0])
  }

  /** What holds on entry to the top-level loop. */
  predicate TopPre(cfg: Config, idx: ServerIndex, done: seq<Server>) {
    |done| <= |cfg.servers| && PointsInto(done, [], idx) && AllSourced(cfg, idx)
  }

  /** What the top-level loop from `|done|` on guarantees of its result:
      the servers handled before stay, every entry points at its server
      and stands for its source, no key is lost, and every position from
      `|done|` on is built and keyed. */
  predicate TopPost(cfg: Config, idx: ServerIndex, done: seq<Server>, r: (seq<Server>, ServerIndex))
    requires |done| <= |cfg.servers|
  {
    && |r.0| == |cfg.servers| && r.0[..|done|] == done
    && PointsInto(r.0, [], r.1) && AllSourced(cfg, r.1) && idx.Keys <= r.1.Keys
    && forall i :: |done| <= i < |cfg.servers| ==> TopBuilt(cfg, i, r.0[i]) && TopKey(i) in r.1.Keys
  }

  lemma {:induction false} TopStepPre(cfg: Config, idx: ServerIndex, done: seq<Server>)
    requires TopPre(cfg, idx, done) && |done| < |cfg.servers|
    ensures var i := |done|;
      var p := Place(idx, cfg.options, Endpoint.Format(cfg.servers[i]), TopKey(i), TopLevel, -1, i);
      TopPre(cfg, p.1, done + [p.0])
  {
    var i := |done|;
    var f := Endpoint.Format(cfg.servers[i]);
    var p := Place(idx, cfg.options, f, TopKey(i), TopLevel, -1, i);
    PlacePoints(done, [], done + [p.0], [], idx, cfg.options, f, TopKey(i), TopLevel, -1, i);
    PlaceSourced(cfg, idx, f, TopKey(i), TopLevel, -1, i);
  }

  lemma {:induction false} TopStepPost(cfg: Config, idx: ServerIndex, done: seq<Server>, r: (seq<Server>, ServerIndex))
    requires |done| < |cfg.servers|
    requires var i := |done|;
      var p := Place(idx, cfg.options, Endpoint.Format(cfg.servers[i]), TopKey(i), TopLevel, -1, i);
      TopPost(cfg, p.1, done + [p.0], r)
    ensures TopPost(cfg, idx, done, r)
  {
    var i := |done|;
    var p := Place(idx, cfg.options, Endpoint.Format(cfg.servers[i]), TopKey(i), TopLevel, -1, i);
    PrefixStep(r.0, done, p.0);
    TopFrom(cfg, i, r.0, r.1.Keys);
  }

  lemma {:induction false} IndexTopSpec(cfg: Config, idx: ServerIndex, done: seq<Server>)
    requires TopPre(cfg, idx, done)
    ensures TopPost(cfg, idx, done, IndexTop(cfg, idx, done))
    decreases |cfg.servers| - |done|
  {
    if |done| == |cfg.servers| {
      assert done[..|done|] == done;
    } else {
      var i := |done|;
      var p := Place(idx, cfg.options, Endpoint.Format(cfg.servers[i]), TopKey(i), TopLevel, -1, i);
      TopStepPre(cfg, idx, done);
      IndexTopSpec(cfg, p.1, done + [p.0]);
      TopStepPost(cfg, idx, done, IndexTop(cfg, p.1, done + [p.0]));
    }
  }

  /** The loop over the members of group `gi` from position `|done|` on. */
  function IndexMembers(cfg: Config, gi: nat, idx: ServerIndex, done: seq<Server>): (r: (seq<Server>, ServerIndex))
    requires gi < |cfg.groups| && |done| <= |cfg.groups[gi].servers|
    decreases |cfg.groups[gi].servers| - |done|
  {
    var g := cfg.groups[gi];
    if |done| == |g.servers| then (done, idx)
    else
      var j := |done|;
      var p := Place(idx, cfg.options, Member(g, j), GroupKey(g.prefix, j), InGroup, gi, j);
      IndexMembers(cfg, gi, p.1, done + [p.0])
  }

  /** What holds on entry to the member loop of group `gi`, `groups`
      holding the lists of the groups already handled. */
  predicate MembersPre(cfg: Config, gi: nat, idx: ServerIndex, top: seq<Server>, groups: seq<seq<Server>>, done: seq<Server>) {
    && gi == |groups| < |cfg.groups| && |done| <= |cfg.groups[gi].servers|
    && PointsInto(top, groups + [done], idx) && AllSourced(cfg, idx)
  }

  predicate MembersPost(cfg: Config, gi: nat, idx: ServerIndex, top: seq<Server>, groups: seq<seq<Server>>, done: seq<Server>,
                        r: (seq<Server>, ServerIndex))
    requires gi < |cfg.groups| && |done| <= |cfg.groups[gi].servers|
  {
    && |r.0| == |cfg.groups[gi].servers| && r.0[..|done|] == done
    && PointsInto(top, groups + [r.0], r.1) && AllSourced(cfg, r.1) && idx.Keys <= r.1.Keys
    && forall j :: |done| <= j < |r.0| ==> MemberBuilt(cfg, gi, j, r.0[j]) && GroupKey(cfg.groups[gi].prefix, j) in r.1.Keys
  }

  lemma {:induction false} MembersStepPre(cfg: Config, gi: nat, idx: ServerIndex, top: seq<Server>, groups: seq<seq<Server>>, done: seq<Server>)
    requires MembersPre(cfg, gi, idx, top, groups, done) && |done| < |cfg.groups[gi].servers|
    ensures var g := cfg.groups[gi]; var j := |done|;
      var p := Place(idx, cfg.options, Member(g, j), GroupKey(g.prefix, j), InGroup, gi, j);
      MembersPre(cfg, gi, p.1, top, groups, done + [p.0])
  {
    var g := cfg.groups[gi];
    var j := |done|;
    var f := Member(g, j);
    var key := GroupKey(g.prefix, j);
    var p := Place(idx, cfg.options, f, key, InGroup, gi, j);
    assert Locates(top, groups + [done + [p.0]], IndexEntry(InGroup, gi, j, p.0));
    PlacePoints(top, groups + [done], top, groups + [done + [p.0]], idx, cfg.options, f, key, InGroup, gi, j);
    PlaceSourced(cfg, idx, f, key, InGroup, gi, j);
  }

  lemma {:induction false} MembersStepPost(cfg: Config, gi: nat, idx: ServerIndex, top: seq<Server>, groups: seq<seq<Server>>, done: seq<Server>,
                        r: (seq<Server>, ServerIndex))
    requires gi < |cfg.groups| && |done| < |cfg.groups[gi].servers|
    requires var g := cfg.groups[gi]; var j := |done|;
      var p := Place(idx, cfg.options, Member(g, j), GroupKey(g.prefix, j), InGroup, gi, j);
      MembersPost(cfg, gi, p.1, top, groups, done + [p.0], r)
    ensures MembersPost(cfg, gi, idx, top, groups, done, r)
  {
    var g := cfg.groups[gi];
    var j := |done|;
    var p := Place(idx, cfg.options, Member(g, j), GroupKey(g.prefix, j), InGroup, gi, j);
    PrefixStep(r.0, done, p.0);
    MembersFrom(cfg, gi, j, r.0, r.1.Keys);
  }

  lemma {:induction false} IndexMembersSpec(cfg: Config, gi: nat, idx: ServerIndex, top: seq<Server>, groups: seq<seq<Server>>,
                                            done: seq<Server>)
    requires MembersPre(cfg, gi, idx, top, groups, done)
    ensures MembersPost(cfg, gi, idx, top, groups, done, IndexMembers(cfg, gi, idx, done))
    decreases |cfg.groups[gi].servers| - |done|
  {
    var g := cfg.groups[gi];
    if |done| == |g.servers| {
      assert done[..|done|] == done;
    } else {
      var j := |done|;
      var p := Place(idx, cfg.options, Member(g, j), GroupKey(g.prefix, j), InGroup, gi, j);
      MembersStepPre(cfg, gi, idx, top, groups, done);
      IndexMembersSpec(cfg, gi, p.1, top, groups, done + [p.0]);
      MembersStepPost(cfg, gi, idx, top, groups, done, IndexMembers(cfg, gi, p.1, done + [p.0]));
    }
  }

  /** Group `a` is group `b` with possibly other servers. */
  predicate SameHeader(a: Group, b: Group) {
    a.groupName == b.groupName && a.prefix == b.prefix && a.collapse == b.collapse
  }

  /** `ms` is group `g`'s list after indexing: its members formatted and
      tagged, each merged or not. */
  predicate GroupBuilt(cfg: Config, g: nat, ms: seq<Server>)
    requires g < |cfg.groups|
  {
    && |ms| == |cfg.groups[g].servers|
    && forall j :: 0 <= j < |ms| ==> MemberBuilt(cfg, g, j, ms[j])
  }

  /** Every position of group `g` has its key among `keys`. */
  predicate GroupKeyed(cfg: Config, g: nat, keys: set<string>)
    requires g < |cfg.groups|
  {
    forall j :: 0 <= j < |cfg.groups[g].servers| ==> GroupKey(cfg.groups[g].prefix, j) in keys
  }

  lemma {:induction false} HeadersExtended(cfg: Config, done: seq<Group>, g2: Group)
    requires |done| < |cfg.groups| && SameHeader(g2, cfg.groups[|done|])
    requires forall g :: 0 <= g < |done| ==> SameHeader(done[g], cfg.groups[g])
    ensures forall g :: 0 <= g < |done + [g2]| ==> SameHeader((done + [g2])[g], cfg.groups[g])
  {
  }

  lemma {:induction false} BuiltFrom(cfg: Config, gi: nat, gs: seq<Group>, keys: set<string>)
    requires gi < |cfg.groups| == |gs|
    requires GroupBuilt(cfg, gi, gs[gi].servers) && GroupKeyed(cfg, gi, keys)
    requires forall g :: gi + 1 <= g < |cfg.groups| ==> GroupBuilt(cfg, g, gs[g].servers) && GroupKeyed(cfg, g, keys)
    ensures forall g :: gi <= g < |cfg.groups| ==> GroupBuilt(cfg, g, gs[g].servers) && GroupKeyed(cfg, g, keys)
  {
  }

  /** The loop over the groups from group `|done|` on. */
  function IndexGroups(cfg: Config, idx: ServerIndex, done: seq<Group>): (r: (seq<Group>, ServerIndex))
    requires |done| <= |cfg.groups|
    decreases |cfg.groups| - |done|
  {
    if |done| == |cfg.groups| then (done, idx)
    else
      var gi := |done|;
      var p := IndexMembers(cfg, gi, idx, []);
      IndexGroups(cfg, p.1, done + [cfg.groups[gi].(servers := p.0)])
  }

  /** What holds on entry to the group loop. */
  predicate GroupsPre(cfg: Config, idx: ServerIndex, top: seq<Server>, done: seq<Group>) {
    && |done| <= |cfg.groups|
    && (forall g :: 0 <= g < |done| ==> SameHeader(done[g], cfg.groups[g]))
    && PointsInto(top, Lists(done), idx) && AllSourced(cfg, idx)
  }

  predicate GroupsPost(cfg: Config, idx: ServerIndex, top: seq<Server>, done: seq<Group>, r: (seq<Group>, ServerIndex))
    requires |done| <= |cfg.groups|
  {
    && |r.0| == |cfg.groups| && r.0[..|done|] == done
    && (forall g :: 0 <= g < |r.0| ==> SameHeader(r.0[g], cfg.groups[g]))
    && PointsInto(top, Lists(r.0), r.1) && AllSourced(cfg, r.1) && idx.Keys <= r.1.Keys
    && forall g :: |done| <= g < |cfg.groups| ==> GroupBuilt(cfg, g, r.0[g].servers) && GroupKeyed(cfg, g, r.1.Keys)
  }

  /** The member loop run on the next group builds and keys it. */
  lemma {:induction false} GroupsStepMembers(cfg: Config, idx: ServerIndex, top: seq<Server>, done: seq<Group>)
    requires GroupsPre(cfg, idx, top, done) && |done| < |cfg.groups|
    ensures var p := IndexMembers(cfg, |done|, idx, []);
      && MembersPost(cfg, |done|, idx, top, Lists(done), [], p)
      && GroupBuilt(cfg, |done|, p.0) && GroupKeyed(cfg, |done|, p.1.Keys)
  {
    var gi := |done|;
    var ls := Lists(done);
    assert (ls + [[]])[..gi] == ls;
    PointsIntoExtended(top, ls, top, ls + [[]], idx);
    IndexMembersSpec(cfg, gi, idx, top, ls, []);
  }

  lemma {:induction false} GroupsStepPre(cfg: Config, idx: ServerIndex, top: seq<Server>, done: seq<Group>)
    requires GroupsPre(cfg, idx, top, done) && |done| < |cfg.groups|
    ensures var p := IndexMembers(cfg, |done|, idx, []);
      GroupsPre(cfg, p.1, top, done + [cfg.groups[|done|].(servers := p.0)])
  {
    var gi := |done|;
    var p := IndexMembers(cfg, gi, idx, []);
    var g2 := cfg.groups[gi].(servers := p.0);
    GroupsStepMembers(cfg, idx, top, done);
    assert Lists(done + [g2]) == Lists(done) + [p.0];
    HeadersExtended(cfg, done, g2);
  }

  lemma {:induction false} GroupsStepPost(cfg: Config, idx: ServerIndex, top: seq<Server>, done: seq<Group>, r: (seq<Group>, ServerIndex))
    requires GroupsPre(cfg, idx, top, done) && |done| < |cfg.groups|
    requires var p := IndexMembers(cfg, |done|, idx, []);
      GroupsPost(cfg, p.1, top, done + [cfg.groups[|done|].(servers := p.0)], r)
    ensures GroupsPost(cfg, idx, top, done, r)
  {
    var gi := |done|;
    GroupsStepMembers(cfg, idx, top, done);
    assert r.0[..gi] == r.0[..gi + 1][..gi];
    assert r.0[gi] == r.0[..gi + 1][gi];
    BuiltFrom(cfg, gi, r.0, r.1.Keys);
  }

  lemma {:induction false} IndexGroupsSpec(cfg: Config, idx: ServerIndex, top: seq<Server>, done: seq<Group>)
    requires GroupsPre(cfg, idx, top, done)
    ensures GroupsPost(cfg, idx, top, done, IndexGroups(cfg, idx, done))
    decreases |cfg.groups| - |done|
  {
    if |done| == |cfg.groups| {
      assert done[..|done|] == done;
    } else {
      var gi := |done|;
      var p := IndexMembers(cfg, gi, idx, []);
      var next := done + [cfg.groups[gi].(servers := p.0)];
      GroupsStepPre(cfg, idx, top, done);
      IndexGroupsSpec(cfg, p.1, top, next);
      GroupsStepPost(cfg, idx, top, done, IndexGroups(cfg, p.1, next));
    }
  }

  /** What `createServerIndex` leaves behind for the configuration
      `cfg` as read: the updated configuration `c` differs only in its
      server lists; every entry points at its server in `c`, and that
      server is the formatted original merged with the configuration's
      options; every position has its key; and every server in `c` is
      formatted, merged only if indexed. */
  predicate Indexed(cfg: Config, c: Config, idx: ServerIndex) {
    && c.showDetail == cfg.showDetail && c.options == cfg.options
    && |c.servers| == |cfg.servers| && |c.groups| == |cfg.groups|
    && PointsInto(c.servers, Lists(c.groups), idx)
    && AllSourced(cfg, idx)
    && (forall i :: 0 <= i < |cfg.servers| ==> TopBuilt(cfg, i, c.servers[i]) && TopKey(i) in idx.Keys)
    && (forall g :: 0 <= g < |cfg.groups| ==>
          SameHeader(c.groups[g], cfg.groups[g]) && GroupBuilt(cfg, g, c.groups[g].servers) && GroupKeyed(cfg, g, idx.Keys))
  }

  lemma {:induction false} IndexedIntro(cfg: Config, top: seq<Server>, idx1: ServerIndex, gs: seq<Group>, idx: ServerIndex)
    requires |top| == |cfg.servers| && |gs| == |cfg.groups| && idx1.Keys <= idx.Keys
    requires forall i :: 0 <= i < |cfg.servers| ==> TopBuilt(cfg, i, top[i]) && TopKey(i) in idx1.Keys
    requires forall g :: 0 <= g < |gs| ==> SameHeader(gs[g], cfg.groups[g])
    requires forall g :: 0 <= g < |cfg.groups| ==> GroupBuilt(cfg, g, gs[g].servers) && GroupKeyed(cfg, g, idx.Keys)
    requires PointsInto(top, Lists(gs), idx) && AllSourced(cfg, idx)
    ensures Indexed(cfg, cfg.(servers := top, groups := gs), idx)
  {
  }

  /** The two loops together leave the configuration indexed. */
  lemma {:induction false} LoopsIndex(cfg: Config)
    ensures var t := IndexTop(cfg, map[], []);
      var g := IndexGroups(cfg, t.1, []);
      Indexed(cfg, cfg.(servers := t.0, groups := g.0), g.1)
  {
    var t := IndexTop(cfg, map[], []);
    IndexTopSpec(cfg, map[], []);
    PointsIntoExtended(t.0, [], t.0, Lists([]), t.1);
    IndexGroupsSpec(cfg, t.1, t.0, []);
    var g := IndexGroups(cfg, t.1, []);
    IndexedIntro(cfg, t.0, t.1, g.0, g.1);
  }

  /** `Config.createServerIndex`: a fresh index over the configuration;
      every server is formatted (group members also learn their group's
      name) and every indexed one merged with the configuration's
      options. */
  function CreateServerIndex(cfg: Config): (r: (Config, ServerIndex))
    ensures Indexed(cfg, r.0, r.1)
  {
    var t := IndexTop(cfg, map[], []);
    var g := IndexGroups(cfg, t.1, []);
    LoopsIndex(cfg);
    (cfg.(servers := t.0, groups := g.0), g.1)
  }

  /** The two rules that make an index entry disagree with its position:
      an alias that equals a later position's key takes that key first, so
      the server at that position is skipped and stays unmerged. */
  lemma {:induction false} AliasShadowsPosition(cfg: Config)
    requires |cfg.servers| == 2 && cfg.servers[0].alias == TopKey(1) && cfg.groups == []
    ensures var r := CreateServerIndex(cfg);
      && r.1[TopKey(1)].serverIndex == 0
      && r.0.servers[1] == Endpoint.Format(cfg.servers[1])
  {
    var f0 := Endpoint.Format(cfg.servers[0]);
    var f1 := Endpoint.Format(cfg.servers[1]);
    assert GoStrings.DigitChar(1) == '1' && GoStrings.DigitChar(2) == '2';
    assert TopKey(0) == "1" && TopKey(1) == "2";
    var p0 := Place(map[], cfg.options, f0, TopKey(0), TopLevel, -1, 0);
    assert TopKey(1) in p0.1 && p0.1[TopKey(1)].serverIndex == 0;
    var p1 := Place(p0.1, cfg.options, f1, TopKey(1), TopLevel, -1, 1);
    assert p1 == (f1, p0.1);
    assert IndexTop(cfg, p0.1, [p0.0, f1]) == ([p0.0, f1], p0.1);
    assert [p0.0] + [p1.0] == [p0.0, f1];
    assert IndexTop(cfg, p0.1, [p0.0]) == ([p0.0, f1], p0.1);
    assert [] + [p0.0] == [p0.0];
    assert IndexTop(cfg, map[], []) == ([p0.0, f1], p0.1);
    assert IndexGroups(cfg, p0.1, []) == ([], p0.1);
  }

  // ---------------------------------------------------------------------
  // loadServerMap
  // ---------------------------------------------------------------------

  /** A position to index: its key and location and the formatted
      server. */
  datatype Slot = Slot(key: string, kind: IndexKind, groupIndex: int, serverIndex: nat, server: Server)

  function TopSlots(servers: seq<Server>): (r: seq<Slot>)
    ensures |r| == |servers|
    ensures forall i :: 0 <= i < |r| ==> r[i] == Slot(TopKey(i), TopLevel, -1, i, Endpoint.Format(servers[i]))
  {
    seq(|servers|, i requires 0 <= i < |servers| => Slot(TopKey(i), TopLevel, -1, i, Endpoint.Format(servers[i])))
  }

  function GroupSlots(g: Group, gi: nat): (r: seq<Slot>)
    ensures |r| == |g.servers|
    ensures forall j :: 0 <= j < |r| ==> r[j] == Slot(GroupKey(g.prefix, j), InGroup, gi, j, Endpoint.Format(g.servers[j]))
  {
    seq(|g.servers|, j requires 0 <= j < |g.servers| => Slot(GroupKey(g.prefix, j), InGroup, gi, j, Endpoint.Format(g.servers[j])))
  }

  function GroupsSlots(groups: seq<Group>, gi: nat): seq<Slot>
    requires gi <= |groups|
    decreases |groups| - gi
  {
    if gi == |groups| then [] else GroupSlots(groups[gi], gi) + GroupsSlots(groups, gi + 1)
  }

  /** The positions in the order `loadServerMap` visits them. */
  function Slots(cfg: Config): seq<Slot> {
    TopSlots(cfg.servers) + GroupsSlots(cfg.groups, 0)
  }

  /** Slot keys from `i` on are pairwise distinct and all new to `idx`. */
  predicate Fresh(slots: seq<Slot>, idx: ServerIndex, i: nat) {
    && (forall a :: i <= a < |slots| ==> slots[a].key !in idx)
    && (forall a, b :: i <= a < b < |slots| ==> slots[a].key != slots[b].key)
  }

  function DuplicateMessage(key: string): string {
    "标识[" + key + "]已存在，请检查您的配置文件"
  }

  /** The loop of `loadServerMap` from slot `i` on, into the package-level
      index `idx`: with `check`, a key already present is an error naming
      it; otherwise the slot's merged server is stored under its key. */
  function LoadSlots(slots: seq<Slot>, opts: Options, idx: ServerIndex, check: bool, i: nat): (r: Result<ServerIndex, string>)
    requires i <= |slots|
    ensures check ==> (r.Ok? <==> Fresh(slots, idx, i))
    ensures !check ==> r.Ok?
    ensures r.Ok? ==> idx.Keys <= r.value.Keys && forall a :: i <= a < |slots| ==> slots[a].key in r.value
    ensures r.Err? ==> exists a :: i <= a < |slots| && r.error == DuplicateMessage(slots[a].key)
    decreases |slots| - i
  {
    if i == |slots| then Ok(idx)
    else
      var s := slots[i];
      if s.key in idx && check then Err(DuplicateMessage(s.key))
      else
        var e := IndexEntry(s.kind, s.groupIndex, s.serverIndex, Prepared(s.server, opts));
        var r := LoadSlots(slots, opts, idx[s.key := e], check, i + 1);
        assert check ==> (r.Ok? <==> Fresh(slots, idx, i)) by {
          if check && r.Ok? {
            forall a, b | i <= a < b < |slots| ensures slots[a].key != slots[b].key {
              if a == i {
                assert slots[b].key !in idx[s.key := e];
              }
            }
          }
        }
        r
  }

  /** `loadServerMap(check)` into the index `idx` left by earlier loads. */
  function LoadServerMap(idx: ServerIndex, cfg: Config, check: bool): (r: Result<ServerIndex, string>)
    ensures check ==> (r.Ok? <==> Fresh(Slots(cfg), idx, 0))
    ensures r.Ok? ==> idx.Keys <= r.value.Keys
    ensures r.Ok? ==> forall i :: 0 <= i < |cfg.servers| ==> TopKey(i) in r.value
  {
    var r := LoadSlots(Slots(cfg), cfg.options, idx, check, 0);
    assert r.Ok? ==> forall i :: 0 <= i < |cfg.servers| ==> TopKey(i) in r.value by {
      if r.Ok? {
        forall i | 0 <= i < |cfg.servers| ensures TopKey(i) in r.value {
          assert Slots(cfg)[i] == TopSlots(cfg.servers)[i];
        }
      }
    }
    r
  }

  /** `saveAndReload` as written: the package-level index is never
      cleared, so the reload sees the keys of the first load. After a first
      load and an edit that keeps a top-level server, the reload fails on
      key "1". */
  lemma {:induction false} ReloadKeepsStaleKeys(cfg: Config, edited: Config)
    requires LoadServerMap(map[], cfg, true).Ok? && |cfg.servers| > 0 && |edited.servers| > 0
    ensures LoadServerMap(LoadServerMap(map[], cfg, true).value, edited, true).Err?
  {
    var idx := LoadServerMap(map[], cfg, true).value;
    assert TopKey(0) in idx;
    assert Slots(edited)[0].key == TopKey(0);
  }

  /** The reload with a fresh index, as `createServerIndex` does it. */
  function ReloadFixed(edited: Config): (r: Result<ServerIndex, string>)
    ensures r.Ok? <==> Fresh(Slots(edited), map[], 0)
  {
    LoadServerMap(map[], edited, true)
  }
}

=== FILE: upgrade.dfy ===
/** The decisions of the self-update command (src/app/show_upgrade.go):
    comparing dotted version numbers, choosing the release asset for the
    running platform, and whether to update at all. The HTTP download, the
    unzip and running the installer are outcomes passed in. */
module Upgrade {
  import opened Wrappers
  import opened GoStrings
  import GoPath

  // ---------------------------------------------------------------------
  // compareVersion
  // ---------------------------------------------------------------------

  /** The pieces of a version string: every `v` trimmed from both ends,
      then split at the dots. */
  function Pieces(version: string): (r: seq<string>)
    ensures |r| >= 1
  {
    Split(TrimChar(version, 'v'), '.')
  }

  /** `v` extended with `"0"` pieces until it has `lim` of them. */
  function Pad(v: seq<string>, lim: nat): (r: seq<string>)
    ensures |r| == if |v| >= lim then |v| else lim
    ensures forall i :: 0 <= i < |r| ==> r[i] == if i < |v| then v[i] else "0"
    decreases lim - |v|
  {
    if |v| >= lim then v else Pad(v + ["0"], lim)
  }

  /** What the piece at `i` counts as; the `strconv.Atoi` result, which
      is 0 for a piece that is not a number. */
  function Number(piece: string): int {
    Atoi(piece).value
  }

  /** The comparison loop from piece `i` on. */
  function CompareFrom(v1: seq<string>, v2: seq<string>, i: nat, lim: nat): (r: int)
    requires i <= lim <= |v1| && lim <= |v2|
    ensures r == -1 || r == 0 || r == 1
    decreases lim - i
  {
    if i == lim then 0
    else
      var n1 := Number(v1[i]);
      var n2 := Number(v2[i]);
      if n1 > n2 then 1 else if n1 < n2 then -1 else CompareFrom(v1, v2, i + 1, lim)
  }

  /** The comparison on split versions: the shorter is padded with zero
      pieces first. */
  function ComparePieces(v1: seq<string>, v2: seq<string>): (r: int)
    ensures r == -1 || r == 0 || r == 1
  {
    var lim := if |v1| > |v2| then |v1| else |v2|;
    CompareFrom(Pad(v1, lim), Pad(v2, lim), 0, lim)
  }

  /** `Upgrade.compareVersion`: 1 when `src` is the newer version, 0 when
      they are the same, -1 when `other` is newer. */
  function CompareVersion(src: string, other: string): (r: int)
    ensures r == -1 || r == 0 || r == 1
  {
    ComparePieces(Pieces(src), Pieces(other))
  }

  // ---------------------------------------------------------------------
  // What the comparison means
  // ---------------------------------------------------------------------

  /** Component `i` of a version, past its end a zero. */
  function Component(v: seq<string>, i: nat): int {
    if i < |v| then Number(v[i]) else 0
  }

  predicate AgreeBelow(v1: seq<string>, v2: seq<string>, k: nat) {
    forall i :: 0 <= i < k ==> Component(v1, i) == Component(v2, i)
  }

  /** Component `k` is the first one at which the versions differ. */
  predicate FirstDifference(v1: seq<string>, v2: seq<string>, k: nat) {
    AgreeBelow(v1, v2, k) && Component(v1, k) != Component(v2, k)
  }

  lemma ZeroPiece()
    ensures Number("0") == 0
  {
    assert DigitChar(0) == '0';
    assert Itoa(0) == "0";
    ItoaAtoiRoundTrip(0);
  }

  /** The scan from `i` gives 0 exactly when all the rest agree. */
  lemma {:induction false} CompareFromSpec(v1: seq<string>, v2: seq<string>, i: nat, lim: nat)
    requires i <= lim <= |v1| && lim <= |v2|
    ensures CompareFrom(v1, v2, i, lim) == 0 <==> forall j :: i <= j < lim ==> Number(v1[j]) == Number(v2[j])
    decreases lim - i
  {
    if i < lim {
      CompareFromSpec(v1, v2, i + 1, lim);
    }
  }

  /** The scan from `i` is decided at the first disagreeing position `k`. */
  lemma {:induction false} CompareFromAt(v1: seq<string>, v2: seq<string>, i: nat, lim: nat, k: nat)
    requires i <= k < lim <= |v1| && lim <= |v2|
    requires forall j :: i <= j < k ==> Number(v1[j]) == Number(v2[j])
    requires Number(v1[k]) != Number(v2[k])
    ensures CompareFrom(v1, v2, i, lim) == 1 <==> Number(v1[k]) > Number(v2[k])
    decreases k - i
  {
    if i < k {
      CompareFromAt(v1, v2, i + 1, lim, k);
    }
  }

  /** The padded pieces count as the components of the unpadded ones. */
  lemma {:induction false} PadComponents(v: seq<string>, lim: nat, i: nat)
    requires i < lim && |v| <= lim
    ensures Number(Pad(v, lim)[i]) == Component(v, i)
  {
    ZeroPiece();
  }

  lemma {:induction false} PaddedComponents(v: seq<string>, lim: nat)
    requires |v| <= lim
    ensures forall i :: 0 <= i < lim ==> Number(Pad(v, lim)[i]) == Component(v, i)
  {
    forall i | 0 <= i < lim ensures Number(Pad(v, lim)[i]) == Component(v, i) {
      PadComponents(v, lim, i);
    }
  }

  /** The comparison is 0 exactly when every component agrees. */
  lemma {:induction false} ComparePiecesZero(v1: seq<string>, v2: seq<string>)
    ensures ComparePieces(v1, v2) == 0 <==> forall i: nat :: Component(v1, i) == Component(v2, i)
  {
    var lim := if |v1| > |v2| then |v1| else |v2|;
    var p1, p2 := Pad(v1, lim), Pad(v2, lim);
    PaddedComponents(v1, lim);
    PaddedComponents(v2, lim);
    CompareFromSpec(p1, p2, 0, lim);
    if ComparePieces(v1, v2) == 0 {
      forall i: nat ensures Component(v1, i) == Component(v2, i) {
        if i < lim {
          assert Number(p1[i]) == Number(p2[i]);
        }
      }
    }
  }

  /** At the first differing component, the larger one wins. */
  lemma {:induction false} ComparePiecesFirst(v1: seq<string>, v2: seq<string>, k: nat)
    requires FirstDifference(v1, v2, k)
    ensures ComparePieces(v1, v2) == 1 <==> Component(v1, k) > Component(v2, k)
  {
    var lim := if |v1| > |v2| then |v1| else |v2|;
    var p1, p2 := Pad(v1, lim), Pad(v2, lim);
    PaddedComponents(v1, lim);
    PaddedComponents(v2, lim);
    assert k < lim;
    CompareFromAt(p1, p2, 0, lim, k);
  }

  /** The comparison is decided by the first component at which the two
      versions differ, a missing component counting as zero: equal when
      there is none, otherwise 1 exactly when `v1`'s is the larger. */
  lemma {:induction false} ComparePiecesSpec(v1: seq<string>, v2: seq<string>)
    ensures ComparePieces(v1, v2) == 0 <==> forall i: nat :: Component(v1, i) == Component(v2, i)
    ensures forall k: nat :: FirstDifference(v1, v2, k) ==>
      (ComparePieces(v1, v2) == 1 <==> Component(v1, k) > Component(v2, k))
  {
    ComparePiecesZero(v1, v2);
    forall k: nat | FirstDifference(v1, v2, k)
      ensures ComparePieces(v1, v2) == 1 <==> Component(v1, k) > Component(v2, k)
    {
      ComparePiecesFirst(v1, v2, k);
    }
  }

  /** Comparing a version with itself gives 0. */
  lemma {:induction false} CompareReflexive(a: string)
    ensures CompareVersion(a, a) == 0
  {
    ComparePiecesSpec(Pieces(a), Pieces(a));
  }

  lemma {:induction false} CompareFromAntisymmetric(v1: seq<string>, v2: seq<string>, i: nat, lim: nat)
    requires i <= lim <= |v1| && lim <= |v2|
    ensures CompareFrom(v1, v2, i, lim) == -CompareFrom(v2, v1, i, lim)
    decreases lim - i
  {
    if i < lim {
      CompareFromAntisymmetric(v1, v2, i + 1, lim);
    }
  }

  /** Swapping the versions negates the result. */
  lemma {:induction false} CompareAntisymmetric(a: string, b: string)
    ensures CompareVersion(a, b) == -CompareVersion(b, a)
  {
    var v1, v2 := Pieces(a), Pieces(b);
    var lim := if |v1| > |v2| then |v1| else |v2|;
    assert lim == if |v2| > |v1| then |v2| else |v1|;
    CompareFromAntisymmetric(Pad(v1, lim), Pad(v2, lim), 0, lim);
  }

  /** A `v` in front of a version does not change how it compares. */
  lemma {:induction false} LeadingVIgnored(a: string, b: string)
    ensures CompareVersion("v" + a, b) == CompareVersion(a, b)
    ensures CompareVersion(b, "v" + a) == CompareVersion(b, a)
  {
    assert "v" + a == ['v'] + a;
    TrimCharLeading('v', a);
  }

  /** Equal components give equal comparisons. */
  lemma {:induction false} SameComponents(v1: seq<string>, v2: seq<string>, w: seq<string>)
    requires forall i: nat :: Component(v1, i) == Component(v2, i)
    ensures ComparePieces(v1, w) == ComparePieces(v2, w)
  {
    ComparePiecesSpec(v1, w);
    ComparePiecesSpec(v2, w);
    if ComparePieces(v1, w) != 0 {
      var k := FirstDiff(v1, w, 0);
      assert FirstDifference(v2, w, k);
    }
  }

  /** The first differing component, for versions that differ somewhere
      at or after `i` and agree before it. */
  lemma {:induction false} FirstDiff(v1: seq<string>, v2: seq<string>, i: nat) returns (k: nat)
    requires AgreeBelow(v1, v2, i)
    requires exists j: nat :: i <= j && Component(v1, j) != Component(v2, j)
    ensures FirstDifference(v1, v2, k)
    decreases (if |v1| > |v2| then |v1| else |v2|) - i
  {
    if Component(v1, i) != Component(v2, i) {
      k := i;
    } else {
      var j: nat :| i <= j && Component(v1, j) != Component(v2, j);
      assert i < |v1| || i < |v2|;
      k := FirstDiff(v1, v2, i + 1);
    }
  }

  /** A trailing zero piece changes nothing: `1.2` is the same version as
      `1.2.0`. */
  lemma {:induction false} TrailingZeroIgnored(v: seq<string>, w: seq<string>)
    ensures ComparePieces(v + ["0"], w) == ComparePieces(v, w)
  {
    ZeroPiece();
    SameComponents(v + ["0"], v, w);
  }

  /** A piece that is not a number counts as zero. */
  lemma {:induction false} UnparsableIsZero(v: seq<string>, i: nat, w: seq<string>)
    requires i < |v| && Atoi(v[i]).err == Some(Syntax)
    ensures ComparePieces(v, w) == ComparePieces(v[i := "0"], w)
  {
    ZeroPiece();
    SameComponents(v, v[i := "0"], w);
  }

  // ---------------------------------------------------------------------
  // downloadUrl and exec
  // ---------------------------------------------------------------------

  datatype Asset = Asset(name: string, downloadUrl: string)

  /** The release name of an operating system: Go's "darwin" is published
      as "macOS". */
  function ReleaseOs(goos: string): string {
    if goos == "darwin" then "macOS" else goos
  }

  /** `Upgrade.downloadUrl` from asset `i` on. */
  function DownloadUrlFrom(assets: seq<Asset>, platform: string, i: nat): (r: string)
    requires i <= |assets|
    ensures (forall j :: i <= j < |assets| ==> !Contains(assets[j].name, platform)) ==> r == ""
    ensures forall k :: (
      && i <= k < |assets| && Contains(assets[k].name, platform)
      && (forall j :: i <= j < k ==> !Contains(assets[j].name, platform))) ==> r == assets[k].downloadUrl
    decreases |assets| - i
  {
    if i == |assets| then ""
    else if Contains(assets[i].name, platform) then assets[i].downloadUrl
    else DownloadUrlFrom(assets, platform, i + 1)
  }

  /** `Upgrade.downloadUrl`: the address of the first asset whose name
      contains "<os>-<arch>", or "" when there is none. */
  function DownloadUrl(goos: string, goarch: string, assets: seq<Asset>): string {
    DownloadUrlFrom(assets, ReleaseOs(goos) + "-" + goarch, 0)
  }

  /** The latest release as the release service reports it. */
  datatype Release = Release(tagName: string, assets: seq<Asset>)

  /** The outside effects of an update: download a URL to a file (an
      error message or nothing), unzip it (the directory holding the
      files, or an error), run its installer (the output or an error). */
  datatype Effects = Effects(
    download: (string, string) -> Option<string>,
    unzip: string -> Result<string, string>,
    install: string -> Result<string, string>)

  datatype Outcome =
    | UpToDate
    | Unsupported
    | DownloadFailed(reason: string)
    | UnzipFailed(reason: string)
    | InstallFailed
    | Installed(output: string)

  /** `Upgrade.exec` once the latest release is known. */
  function Exec(current: string, latest: Release, goos: string, goarch: string, tempDir: string, fx: Effects)
    : (r: Outcome)
    ensures r == UpToDate <==> CompareVersion(latest.tagName, current) <= 0
    ensures r == Unsupported <==>
      CompareVersion(latest.tagName, current) > 0 && DownloadUrl(goos, goarch, latest.assets) == ""
    ensures r.Installed? ==> CompareVersion(latest.tagName, current) == 1 && DownloadUrl(goos, goarch, latest.assets) != ""
  {
    if CompareVersion(latest.tagName, current) <= 0 then UpToDate
    else
      var url := DownloadUrl(goos, goarch, latest.assets);
      if url == "" then Unsupported
      else
        var savePath := tempDir + GoPath.Base(url);
        match fx.download(url, savePath)
        case Some(err) => DownloadFailed(err)
        case None =>
          match fx.unzip(savePath)
          case Err(err) => UnzipFailed(err)
          case Ok(dir) =>
            match fx.install(dir + "/install")
            case Err(_) => InstallFailed
            case Ok(output) => Installed(output)
  }

  /** The running version never updates to itself, and of two versions at
      most one would update to the other. */
  lemma {:induction false} UpdateOnlyForward(a: string, b: string, goos: string, goarch: string, tempDir: string, fx: Effects,
                          assets: seq<Asset>)
    ensures Exec(a, Release(a, assets), goos, goarch, tempDir, fx) == UpToDate
    ensures Exec(a, Release(b, assets), goos, goarch, tempDir, fx) == UpToDate
         || Exec(b, Release(a, assets), goos, goarch, tempDir, fx) == UpToDate
  {
    CompareReflexive(a);
    CompareAntisymmetric(a, b);
  }
}

=== FILE: vfs.dfy ===
/** The file-system capability set the copy engine works through
    (src/app/io_client.go: `Stat`, `Mkdir`, `Create`, `Open`, `ReadDir`, and
    `Write` on a created file), as operations on an abstract volume. A volume
    maps every existing object, identified by its absolute element list, to a
    node; a path string is resolved lexically against the working directory.
    The same interface stands for the local disk and for an SFTP server. */
module Vfs {
  import opened Wrappers
  import GoPath
  import GoStrings

  type Key = seq<string>

  /** A file-system object. A directory lists its entries in the order a
      listing returns them; `listable` is false when reading the listing
      fails. A file's `data` is what its reads deliver; when `faulty` the
      read after them fails, so a file whose reads fail part-way is the file
      of the bytes read before the failure (the copy loop discards any
      bytes a failing read returns). `Locked` is a file that can be
      neither opened nor truncated. */
  datatype Node =
    | Dir(entries: seq<GoPath.Name>, listable: bool)
    | File(data: seq<GoStrings.byte>, faulty: bool)
    | Locked

  /** The error kinds the operations report (the `syscall` errno or its
      SFTP status equivalent). */
  datatype FsError = NotExist | NotDir | IsDir | Exist | Permission | NoSpace | ReadFailure

  /** A volume: working directory, objects, and free space in bytes. */
  datatype Volume = Volume(cwd: seq<GoPath.Name>, nodes: map<Key, Node>, free: nat)

  /** What an `Open` yields: a directory listing or a file's content. */
  datatype Opened = OpenedDir(entries: seq<GoPath.Name>, listable: bool) | OpenedFile(data: seq<GoStrings.byte>, faulty: bool)

  /** The absolute element list a path names; the empty path names
      nothing. */
  function Resolve(v: Volume, s: string): (r: Option<Key>)
    ensures s == "" <==> r.None?
    ensures r.Some? ==> GoPath.AllNames(r.value)
    ensures r.Some? && GoPath.IsRooted(s) ==> r.value == GoPath.LocOf(s).segs
  {
    if s == "" then None
    else
      var l := GoPath.LocOf(s);
      GoPath.LocOfReduced(s);
      if l.abs then Some(l.segs)
      else
        GoPath.StepsRootedNames(v.cwd, l.segs);
        Some(GoPath.Steps(v.cwd, l.segs, true))
  }

  /** Every proper prefix of `k` is an existing directory. */
  predicate Reachable(nodes: map<Key, Node>, k: Key) {
    forall i :: 0 <= i < |k| ==> k[..i] in nodes && nodes[k[..i]].Dir?
  }

  /** Looks a key up the way a path walk does: a missing component is
      `NotExist`, a component that is not a directory is `NotDir`. */
  function Lookup(nodes: map<Key, Node>, k: Key): (r: Result<Node, FsError>)
    ensures r.Ok? <==> Reachable(nodes, k) && k in nodes
    ensures r.Ok? ==> r.value == nodes[k]
    decreases |k|
  {
    if |k| == 0 then
      if k in nodes then Ok(nodes[k]) else Err(NotExist)
    else
      var parent := k[..|k| - 1];
      assert forall i :: 0 <= i < |parent| ==> parent[..i] == k[..i];
      match Lookup(nodes, parent)
      case Err(e) => Err(e)
      case Ok(Dir(_, _)) => if k in nodes then Ok(nodes[k]) else Err(NotExist)
      case Ok(_) => Err(NotDir)
  }

  /** `Stat`: whether the path names a directory. */
  function Stat(v: Volume, s: string): (r: Result<bool, FsError>)
    ensures r.Ok? <==> Resolve(v, s).Some? && Lookup(v.nodes, Resolve(v, s).value).Ok?
    ensures r.Ok? ==> (r.value <==> v.nodes[Resolve(v, s).value].Dir?)
    ensures s == "" ==> r == Err(NotExist)
  {
    match Resolve(v, s)
    case None => Err(NotExist)
    case Some(k) =>
      match Lookup(v.nodes, k)
      case Err(e) => Err(e)
      case Ok(n) => Ok(n.Dir?)
  }

  /** `Open` for reading. */
  function Open(v: Volume, s: string): (r: Result<(Key, Opened), FsError>)
    ensures r.Ok? ==> Resolve(v, s) == Some(r.value.0) && r.value.0 in v.nodes
    ensures r.Ok? ==> (v.nodes[r.value.0].Dir? <==> r.value.1.OpenedDir?)
    ensures r.Ok? && r.value.1.OpenedFile? ==> v.nodes[r.value.0] == File(r.value.1.data, r.value.1.faulty)
    ensures r.Ok? && r.value.1.OpenedDir? ==>
      v.nodes[r.value.0] == Dir(r.value.1.entries, r.value.1.listable)
    ensures Resolve(v, s).Some? && Lookup(v.nodes, Resolve(v, s).value) == Ok(Locked) ==> r == Err(Permission)
    ensures Stat(v, s).Err? ==> r == Err(Stat(v, s).error)
  {
    match Resolve(v, s)
    case None => Err(NotExist)
    case Some(k) =>
      match Lookup(v.nodes, k)
      case Err(e) => Err(e)
      case Ok(Locked) => Err(Permission)
      case Ok(Dir(entries, listable)) => Ok((k, OpenedDir(entries, listable)))
      case Ok(File(data, faulty)) => Ok((k, OpenedFile(data, faulty)))
  }

  /** Adds `name` to the listing of directory `parent`. */
  function AddEntry(nodes: map<Key, Node>, parent: Key, name: GoPath.Name): (r: map<Key, Node>)
    requires parent in nodes && nodes[parent].Dir?
    ensures r.Keys == nodes.Keys
    ensures r[parent] == Dir(nodes[parent].entries + [name], nodes[parent].listable)
    ensures forall p :: p in nodes && p != parent ==> r[p] == nodes[p]
  {
    nodes[parent := Dir(nodes[parent].entries + [name], nodes[parent].listable)]
  }

  /** Whether `k` can be added: it does not exist and its parent is an
      existing directory. */
  predicate Addable(nodes: map<Key, Node>, k: Key) {
    |k| > 0 && k !in nodes && Lookup(nodes, k[..|k| - 1]).Ok? && Lookup(nodes, k[..|k| - 1]).value.Dir?
  }

  /** Adds the object `k` and lists it in its parent. */
  function AddChild(v: Volume, k: Key, n: Node): (w: Volume)
    requires Addable(v.nodes, k) && GoPath.IsName(k[|k| - 1])
    ensures w.nodes.Keys == v.nodes.Keys + {k}
    ensures w.nodes[k] == n
    ensures w.cwd == v.cwd && w.free == v.free
    ensures Lookup(w.nodes, k) == Ok(n)
    ensures w.nodes == AddEntry(v.nodes, k[..|k| - 1], k[|k| - 1])[k := n]
  {
    var parent := k[..|k| - 1];
    var nodes := AddEntry(v.nodes, parent, k[|k| - 1])[k := n];
    assert Reachable(nodes, k) by {
      forall i | 0 <= i < |k| ensures k[..i] in nodes && nodes[k[..i]].Dir? {
        assert k[..i] == parent[..i] || i == |parent|;
      }
    }
    Volume(v.cwd, nodes, v.free)
  }

  /** `Mkdir` (not recursive): the parent must be an existing directory and
      the name must be free. */
  function Mkdir(v: Volume, s: string): (r: Result<Volume, FsError>)
    ensures r.Ok? <==> Resolve(v, s).Some? && Addable(v.nodes, Resolve(v, s).value)
    ensures r.Ok? ==> r == Ok(AddChild(v, Resolve(v, s).value, Dir([], true)))
    ensures r.Ok? ==> Stat(r.value, s) == Ok(true)
    ensures Stat(v, s).Ok? ==> r == Err(Exist)
    ensures Stat(v, s).Err? && r.Err? ==> r.error == Stat(v, s).error
  {
    match Resolve(v, s)
    case None => Err(NotExist)
    case Some(k) =>
      match Lookup(v.nodes, k)
      case Ok(_) => Err(Exist)
      case Err(e) =>
        if Addable(v.nodes, k) then Ok(AddChild(v, k, Dir([], true))) else Err(e)
  }

  /** `Create`: truncates an existing file or adds an empty one. */
  function Create(v: Volume, s: string): (r: Result<(Volume, Key), FsError>)
    ensures r.Ok? ==> Resolve(v, s) == Some(r.value.1)
    ensures r.Ok? ==> Lookup(r.value.0.nodes, r.value.1) == Ok(File([], false))
    ensures r.Ok? ==> r.value.0.cwd == v.cwd && r.value.0.free == v.free
    ensures r.Ok? && r.value.1 in v.nodes ==> v.nodes[r.value.1].File? && r.value.0.nodes == v.nodes[r.value.1 := File([], false)]
    ensures r.Ok? && r.value.1 !in v.nodes ==>
      Addable(v.nodes, r.value.1) && r.value.0 == AddChild(v, r.value.1, File([], false))
    ensures Stat(v, s) == Ok(true) ==> r == Err(IsDir)
    ensures Resolve(v, s).Some? && Lookup(v.nodes, Resolve(v, s).value) == Ok(Locked) ==> r == Err(Permission)
    ensures Stat(v, s).Err? && r.Err? ==> r.error == Stat(v, s).error
  {
    match Resolve(v, s)
    case None => Err(NotExist)
    case Some(k) =>
      match Lookup(v.nodes, k)
      case Ok(Dir(_, _)) => Err(IsDir)
      case Ok(Locked) => Err(Permission)
      case Ok(File(_, _)) => Ok((Volume(v.cwd, v.nodes[k := File([], false)], v.free), k))
      case Err(e) =>
        if Addable(v.nodes, k) then Ok((AddChild(v, k, File([], false)), k)) else Err(e)
  }

  /** Every existing object along `k` (the root included) is a
      directory. */
  predicate Unblocked(nodes: map<Key, Node>, k: Key) {
    forall i :: 0 <= i <= |k| && k[..i] in nodes ==> nodes[k[..i]].Dir?
  }

  /** `os.MkdirAll` on a key: creates every missing directory along the
      way; an existing directory is fine, anything else in the way is
      `NotDir`. */
  function MkdirAllKey(v: Volume, k: Key): (r: Result<Volume, FsError>)
    requires GoPath.AllNames(k)
    ensures r.Ok? ==> Lookup(r.value.nodes, k).Ok? && r.value.nodes[k].Dir?
    ensures r.Ok? ==> v.nodes.Keys <= r.value.nodes.Keys && r.value.cwd == v.cwd && r.value.free == v.free
    ensures r.Ok? ==> forall p :: p in r.value.nodes && p !in v.nodes ==> p <= k
    decreases |k|
  {
    match Lookup(v.nodes, k)
    case Ok(n) => if n.Dir? then Ok(v) else Err(NotDir)
    case Err(e) =>
      if |k| == 0 then Err(e)
      else
        var parent := k[..|k| - 1];
        assert GoPath.AllNames(parent);
        match MkdirAllKey(v, parent)
        case Err(e2) => Err(e2)
        case Ok(w) =>
          if k in w.nodes then Err(Exist)
          else
            assert Addable(w.nodes, k);
            var x := AddChild(w, k, Dir([], true));
            assert forall p :: p in x.nodes && p !in v.nodes ==> p <= k by {
              forall p | p in x.nodes && p !in v.nodes ensures p <= k {
                if p != k {
                  assert p in w.nodes && p <= parent;
                }
              }
            }
            Ok(x)
  }

  /** `os.MkdirAll` on a path. */
  function MkdirAll(v: Volume, s: string): (r: Result<Volume, FsError>)
    ensures r.Ok? ==> Stat(r.value, s) == Ok(true)
  {
    match Resolve(v, s)
    case None => Err(NotExist)
    case Some(k) => MkdirAllKey(v, k)
  }

  /** On a well-formed volume `MkdirAll` succeeds exactly when nothing but
      directories stands along the path. */
  lemma {:induction false} MkdirAllSucceeds(v: Volume, k: Key)
    requires WellFormed(v) && GoPath.AllNames(k)
    ensures MkdirAllKey(v, k).Ok? <==> Unblocked(v.nodes, k)
    decreases |k|
  {
    if k in v.nodes {
      WellFormedReachable(v, k);
      assert k[..|k|] == k;
      if v.nodes[k].Dir? {
        forall i | 0 <= i <= |k| && k[..i] in v.nodes ensures v.nodes[k[..i]].Dir? {
          if i < |k| {
            assert Reachable(v.nodes, k);
          }
        }
      }
    } else if |k| == 0 {
    } else {
      var parent := k[..|k| - 1];
      MkdirAllSucceeds(v, parent);
      assert forall i :: 0 <= i <= |parent| ==> parent[..i] == k[..i];
      if Unblocked(v.nodes, parent) {
        assert k[..|k|] == k;
        assert Unblocked(v.nodes, k) by {
          forall i | 0 <= i <= |k| && k[..i] in v.nodes ensures v.nodes[k[..i]].Dir? {
            assert i <= |parent|;
          }
        }
        var w := MkdirAllKey(v, parent).value;
        assert k !in w.nodes;
      }
    }
  }

  /** With only directories along the way, a missing object is reported
      as missing. */
  lemma {:induction false} LookupMissing(nodes: map<Key, Node>, k: Key)
    requires Unblocked(nodes, k)
    ensures Lookup(nodes, k).Ok? || Lookup(nodes, k) == Err(NotExist)
    ensures k !in nodes ==> Lookup(nodes, k) == Err(NotExist)
    decreases |k|
  {
    if |k| > 0 {
      var parent := k[..|k| - 1];
      assert forall i :: 0 <= i <= |parent| ==> parent[..i] == k[..i];
      LookupMissing(nodes, parent);
    }
  }

  /** `Write` on a created file: the chunk is appended when it fits in the
      free space, otherwise nothing is written. */
  function Append(v: Volume, k: Key, chunk: seq<GoStrings.byte>): (r: Result<Volume, FsError>)
    requires k in v.nodes && v.nodes[k].File?
    ensures r.Ok? <==> |chunk| <= v.free
    ensures r.Err? ==> r.error == NoSpace
    ensures r.Ok? ==> r.value.nodes.Keys == v.nodes.Keys && r.value.free + |chunk| == v.free
    ensures r.Ok? ==> r.value.nodes[k].File? && r.value.nodes[k].data == v.nodes[k].data + chunk
    ensures r.Ok? ==> forall p :: p in v.nodes && p != k ==> r.value.nodes[p] == v.nodes[p]
  {
    if |chunk| > v.free then Err(NoSpace)
    else Ok(Volume(v.cwd, v.nodes[k := File(v.nodes[k].data + chunk, v.nodes[k].faulty)], v.free - |chunk|))
  }

  // ---------------------------------------------------------------------
  // Well-formed volumes
  // ---------------------------------------------------------------------

  /** The shape of a real directory tree: a root directory, every object
      listed once by its parent directory, and every listed name present. */
  ghost predicate WellFormed(v: Volume) {
    && [] in v.nodes && v.nodes[[]].Dir?
    && Linked(v.nodes)
    && (forall k :: k in v.nodes && v.nodes[k].Dir? ==> Listed(v.nodes, k))
  }

  /** Every object below the root sits in a directory that lists it. */
  ghost predicate Linked(nodes: map<Key, Node>) {
    forall p: Key, e: string :: p + [e] in nodes ==> p in nodes && nodes[p].Dir? && e in nodes[p].entries
  }

  /** A directory's listing names exactly its present children, once each. */
  predicate Listed(nodes: map<Key, Node>, k: Key)
    requires k in nodes && nodes[k].Dir?
  {
    var es := nodes[k].entries;
    && (forall i :: 0 <= i < |es| ==> k + [es[i]] in nodes)
    && (forall i, j :: 0 <= i < j < |es| ==> es[i] != es[j])
  }

  /** In a well-formed volume every object can be looked up. */
  lemma {:induction false} WellFormedReachable(v: Volume, k: Key)
    requires WellFormed(v) && k in v.nodes
    ensures Lookup(v.nodes, k) == Ok(v.nodes[k])
    decreases |k|
  {
    if |k| > 0 {
      var parent := k[..|k| - 1];
      assert k == parent + [k[|k| - 1]];
      WellFormedReachable(v, parent);
      assert forall i :: 0 <= i < |k| ==> k[..i] == parent[..i] || i == |parent|;
    }
  }

  lemma {:induction false} ListedAfterAddEntry(nodes: map<Key, Node>, parent: Key, name: GoPath.Name, k: Key, n: Node)
    requires parent in nodes && nodes[parent].Dir? && Listed(nodes, parent)
    requires name !in nodes[parent].entries
    requires k == parent + [name]
    ensures var r := AddEntry(nodes, parent, name)[k := n]; Listed(r, parent)
  {
    var r := AddEntry(nodes, parent, name)[k := n];
    assert parent != k;
    var es := r[parent].entries;
    forall i | 0 <= i < |es| ensures parent + [es[i]] in r {
      if i < |es| - 1 {
        assert es[i] == nodes[parent].entries[i];
      }
    }
  }

  /** `Mkdir` keeps a volume well formed. */
  lemma {:induction false} MkdirKeepsWellFormed(v: Volume, s: string)
    requires WellFormed(v) && Mkdir(v, s).Ok?
    ensures WellFormed(Mkdir(v, s).value)
  {
    AddChildKeepsWellFormed(v, Resolve(v, s).value, Dir([], true));
  }

  lemma {:induction false} AddChildKeepsWellFormed(v: Volume, k: Key, n: Node)
    requires WellFormed(v) && Addable(v.nodes, k) && GoPath.IsName(k[|k| - 1])
    requires n.Dir? ==> n.entries == []
    ensures WellFormed(AddChild(v, k, n))
  {
    var parent := k[..|k| - 1];
    var name: GoPath.Name := k[|k| - 1];
    assert k == parent + [name];
    var w := AddChild(v, k, n);
    assert parent in v.nodes && v.nodes[parent].Dir?;
    assert w.nodes == AddEntry(v.nodes, parent, name)[parent + [name] := n];
    AddedChildKeepsWellFormed(v, parent, name, n, w);
  }

  /** Adding a fresh child to a directory, and listing it there, keeps a
      volume well formed. */
  lemma {:induction false} AddedChildKeepsWellFormed(v: Volume, parent: Key, name: GoPath.Name, n: Node, w: Volume)
    requires WellFormed(v) && parent in v.nodes && v.nodes[parent].Dir?
    requires parent + [name] !in v.nodes
    requires n.Dir? ==> n.entries == []
    requires w.nodes == AddEntry(v.nodes, parent, name)[parent + [name] := n]
    ensures WellFormed(w)
  {
    AddedChildLinked(v, parent, name, n, w);
    AddedChildListed(v, parent, name, n, w);
  }

  lemma {:induction false} AddedChildLinked(v: Volume, parent: Key, name: GoPath.Name, n: Node, w: Volume)
    requires WellFormed(v) && parent in v.nodes && v.nodes[parent].Dir?
    requires parent + [name] !in v.nodes
    requires w.nodes == AddEntry(v.nodes, parent, name)[parent + [name] := n]
    ensures Linked(w.nodes)
  {
    var k := parent + [name];
    forall p: Key, e: string | p + [e] in w.nodes
      ensures p in w.nodes && w.nodes[p].Dir? && e in w.nodes[p].entries
    {
      if p + [e] == k {
        assert (p + [e])[..|p|] == p && k[..|parent|] == parent;
        assert (p + [e])[|p|] == e;
      } else {
        assert p in v.nodes;
      }
    }
  }

  lemma {:induction false} AddedChildListed(v: Volume, parent: Key, name: GoPath.Name, n: Node, w: Volume)
    requires WellFormed(v) && parent in v.nodes && v.nodes[parent].Dir?
    requires parent + [name] !in v.nodes
    requires n.Dir? ==> n.entries == []
    requires w.nodes == AddEntry(v.nodes, parent, name)[parent + [name] := n]
    ensures forall p :: p in w.nodes && w.nodes[p].Dir? ==> Listed(w.nodes, p)
  {
    var k := parent + [name];
    ListedAfterAddEntry(v.nodes, parent, name, k, n);
    forall p | p in w.nodes && w.nodes[p].Dir? ensures Listed(w.nodes, p) {
      if p != k && p != parent {
        assert Listed(v.nodes, p);
      }
    }
  }

  /** `Create` keeps a volume well formed. */
  lemma {:induction false} CreateKeepsWellFormed(v: Volume, s: string)
    requires WellFormed(v) && Create(v, s).Ok?
    ensures WellFormed(Create(v, s).value.0)
  {
    var w := Create(v, s).value.0;
    var k := Create(v, s).value.1;
    if k in v.nodes {
      assert w.nodes == v.nodes[k := File([], false)];
      forall p | p in w.nodes && w.nodes[p].Dir? ensures Listed(w.nodes, p) {
        assert Listed(v.nodes, p);
      }
    } else {
      AddChildKeepsWellFormed(v, k, File([], false));
    }
  }

  /** Appending to a file keeps a volume well formed. */
  lemma {:induction false} AppendKeepsWellFormed(v: Volume, k: Key, chunk: seq<GoStrings.byte>)
    requires WellFormed(v) && k in v.nodes && v.nodes[k].File? && Append(v, k, chunk).Ok?
    ensures WellFormed(Append(v, k, chunk).value)
  {
    var w := Append(v, k, chunk).value;
    forall p | p in w.nodes && w.nodes[p].Dir? ensures Listed(w.nodes, p) {
      assert Listed(v.nodes, p);
    }
  }

  // ---------------------------------------------------------------------
  // Sub-trees
  // ---------------------------------------------------------------------

  /** The objects at or below `k`. */
  function Below(nodes: map<Key, Node>, k: Key): set<Key> {
    set p | p in nodes && k <= p
  }

  /** A child's sub-tree is strictly smaller than its parent's. */
  lemma {:induction false} BelowShrinks(nodes: map<Key, Node>, k: Key, n: string)
    requires k in nodes
    ensures |Below(nodes, k + [n])| < |Below(nodes, k)|
  {
    var small := Below(nodes, k + [n]);
    var big := Below(nodes, k);
    forall p | p in small ensures p in big - {k} {
      assert k <= k + [n];
    }
    assert small <= big - {k};
    assert k in big;
    SubsetCard(small, big - {k});
  }

  lemma {:induction false} SubsetCard<T>(a: set<T>, b: set<T>)
    requires a <= b
    ensures |a| <= |b|
  {
    assert b == a + (b - a);
  }

  /** Resolving a child path adds the child's name to the parent's key. */
  lemma {:induction false} ResolveJoin(v: Volume, s: string, n: GoPath.Name)
    requires s != ""
    ensures Resolve(v, GoPath.Join(s, n)) == Some(Resolve(v, s).value + [n])
  {
    GoPath.JoinName(s, n);
    var l := GoPath.LocOf(s);
    var j := GoPath.Join(s, n);
    assert GoPath.LocOf(j) == GoPath.Loc(l.abs, l.segs + [n]);
    assert j != "" by {
      if j == "" {
        GoPath.DotLoc();
      }
    }
    assert GoPath.AllNames([n]);
    if !l.abs {
      GoPath.StepsAppend(v.cwd, l.segs, [n], true);
      GoPath.StepsNames(GoPath.Steps(v.cwd, l.segs, true), [n], true);
    }
  }
}

=== FILE: width.dfy ===
/** Display-width and byte-length measures of strings. The display width
    (`ZhLen`, defined identically in src/utils/str.go and core/util.go)
    counts a Han character as two columns and every other character as one.
    Whether a character belongs to the Han script is a Unicode table lookup,
    so it is a parameter `isHan` here. */
module Width {

  /** Number of Han characters in `s`. */
  function HanCount(s: string, isHan: char -> bool): (n: nat)
    ensures n <= |s|
  {
    if |s| == 0 then 0
    else HanCount(s[..|s| - 1], isHan) + (if isHan(s[|s| - 1]) then 1 else 0)
  }

  /** Columns a single character occupies. */
  function CharWidth(c: char, isHan: char -> bool): nat {
    if isHan(c) then 2 else 1
  }

  /** `ZhLen`: the sum of the character widths, scanning left to right. */
  function ZhLen(s: string, isHan: char -> bool): (w: nat)
    ensures |s| <= w <= 2 * |s|
    ensures w == |s| + HanCount(s, isHan)
  {
    if |s| == 0 then 0
    else ZhLen(s[..|s| - 1], isHan) + CharWidth(s[|s| - 1], isHan)
  }

  /** Width is additive over concatenation. */
  lemma {:induction false} ZhLenAppend(a: string, b: string, isHan: char -> bool)
    ensures ZhLen(a + b, isHan) == ZhLen(a, isHan) + ZhLen(b, isHan)
    decreases |b|
  {
    if |b| == 0 {
      assert a + b == a;
    } else {
      var b' := b[..|b| - 1];
      assert (a + b)[..|a + b| - 1] == a + b';
      assert (a + b)[|a + b| - 1] == b[|b| - 1];
      ZhLenAppend(a, b', isHan);
    }
  }

  /** The width equals the character count exactly when no character is
      Han. */
  lemma {:induction false} ZhLenIsLength(s: string, isHan: char -> bool)
    ensures ZhLen(s, isHan) == |s| <==> forall i :: 0 <= i < |s| ==> !isHan(s[i])
    decreases |s|
  {
    if |s| > 0 {
      var p := s[..|s| - 1];
      ZhLenIsLength(p, isHan);
      if forall i :: 0 <= i < |s| ==> !isHan(s[i]) {
        assert forall i :: 0 <= i < |p| ==> !isHan(p[i]) by {
          forall i | 0 <= i < |p| ensures !isHan(p[i]) {
            assert p[i] == s[i];
          }
        }
      } else {
        var k :| 0 <= k < |s| && isHan(s[k]);
        if k < |s| - 1 {
          assert p[k] == s[k];
        }
      }
    }
  }

  /** Number of bytes of the UTF-8 encoding of one character (Go's
      `len` of a string counts these). */
  function Utf8Width(c: char): (n: nat)
    ensures 1 <= n <= 4
  {
    if c as int < 0x80 then 1
    else if c as int < 0x800 then 2
    else if c as int < 0x1_0000 then 3
    else 4
  }

  /** Go's `len(s)`: the UTF-8 byte length. */
  function ByteLen(s: string): (n: nat)
    ensures |s| <= n <= 4 * |s|
  {
    if |s| == 0 then 0 else ByteLen(s[..|s| - 1]) + Utf8Width(s[|s| - 1])
  }

  lemma {:induction false} ByteLenAppend(a: string, b: string)
    ensures ByteLen(a + b) == ByteLen(a) + ByteLen(b)
    decreases |b|
  {
    if |b| == 0 {
      assert a + b == a;
    } else {
      var b' := b[..|b| - 1];
      assert (a + b)[..|a + b| - 1] == a + b';
      assert (a + b)[|a + b| - 1] == b[|b| - 1];
      ByteLenAppend(a, b');
    }
  }

  /** A string of spaces: one byte and one column per character. */
  function Spaces(n: nat): (s: string)
    ensures |s| == n
    ensures forall i :: 0 <= i < n ==> s[i] == ' '
  {
    if n == 0 then "" else Spaces(n - 1) + " "
  }

  lemma {:induction false} SpacesMeasure(n: nat, isHan: char -> bool)
    requires !isHan(' ')
    ensures ByteLen(Spaces(n)) == n
    ensures ZhLen(Spaces(n), isHan) == n
    decreases n
  {
    if n > 0 {
      SpacesMeasure(n - 1, isHan);
      assert Spaces(n)[..n - 1] == Spaces(n - 1);
    }
  }
}

=== FILE: wrappers.dfy ===
/** Failure-carrying wrappers used throughout the model in place of Go's
    `(value, error)` pairs and nil pointers. */
module Wrappers {

  /** A value that may be absent (Go's nil pointer or nil map). */
  datatype Option<+T> = None | Some(value: T) {
    function GetOr(default: T): T {
      match this
      case Some(v) => v
      case None => default
    }
  }

  /** Either a value or an error, like Go's `(T, error)` return pair. */
  datatype Result<+T, +E> = Ok(value: T) | Err(error: E) {
    predicate IsFailure() {
      Err?
    }

    function PropagateFailure<U>(): Result<U, E>
      requires Err?
    {
      Err(error)
    }

    function Extract(): T
      requires Ok?
    {
      value
    }
  }
}
